=== FILE: README.md ===
# Bunda API core in Dafny

Bunda is a REST API for a Dutch real-estate site. It is an Express application on a
Sequelize ORM over SQLite. Sellers list properties (*woningen*) with images
(*afbeeldingen*) and features (*kenmerken*). Users keep favourites (*favorieten*) and
request viewings (*bezichtigingen*). Administrators (*beheerders*) approve, feature and
moderate everything. A Mapbox geocoding service with a cache turns addresses into
coordinates and back.

This project models the API's services, controllers, authorisation middleware,
validation rules and geocoding. It proves what each operation promises. The Dutch
names of the system are kept.

The database is modelled explicitly:

- Every table is a sequence of immutable rows.
- Every query is a where-clause (`Voorwaarden`) evaluated over those rows, then an
  ordering (`Sorteren`) and a LIMIT/OFFSET page (`Paginatie`).
- Every operation is a pure function from the tables and the request to a `Result`.
  A `Result` is either the new tables with the answer, or an HTTP status code.
- A column the ORM cannot resolve is a server error (500), as SQLite reports it.
- A sort column is resolved without regard to letter case, as SQLite resolves names. A sort direction is one of the ORM's eight forms, which may place NULL values first or last.
- Lengths are JavaScript's `length`: a count of UTF-16 code units. LIKE patterns keep their `%` and `_` wildcards.

Throughout, "Ok exactly when …" means the contract states both directions. Each
mutating operation is paired with a lemma stating the table invariant it keeps:

- unique ids;
- unique (user, property) and (property, feature) pairs;
- at most one primary image per property;
- every link pointing at an existing row.

The shared modules are:

- `Basis`: results, JavaScript values and truthiness, `parseInt`, string helpers.
- `Voorwaarden`, `Sorteren`, `Paginatie` and `Lijsten`: the query engine the services
  rely on.
- `Geo` and `Validatie`: coordinates, distances and the request validators.
- `Kalender`: the JavaScript `Date` arithmetic the statistics use.

Inputs the system reads from outside are parameters of the model rather than
computations inside it:

- the clock and the current time;
- floating-point parsing, trigonometry and distance;
- the Mapbox provider's answers;
- password hashing and token signing.

## Model

| member | source | states |
|---|---|---|
| Geo.FormatteerPostcodeGemeente | api/src/utils/geo.utils.js:353-367 | the result is empty exactly when the postcode or the municipality is falsy; otherwise "postcode municipality" when the postcode is 4 UTF-16 code units long and `parseInt` reads a number from it, else the municipality alone |
| Geo.VierCijfersVoorGemeente | api/src/utils/geo.utils.js:359-366 | a postcode of four digits is always written in front of a non-empty municipality |
| Geo.PostcodeMetLeidendGetal | api/src/utils/geo.utils.js:362 | the postcode test is weaker than "four digits": "12ab" is kept as a postcode because `parseInt` reads 12 from it, "ab12" is dropped |
| Geo.FormatteerAdres | api/src/utils/geo.utils.js:377-390 | without a street the result is the postcode-municipality part; otherwise it starts with the street, adds " huisnummer" only when a house number is given, and ", postcode-municipality" only when that part is not empty |
| Geo.VolledigAdresFormaat | api/src/utils/geo.utils.js:377-390 | a complete address with a four-digit postcode reads "straat huisnummer, PPPP gemeente" |
| Geo.Geldige | api/src/utils/geo.utils.js:71-84 | the entries that take part are the input filtered on "an object whose two fields are not `undefined`": the same entries, with the same multiplicity, in input order |
| Geo.BerekenMiddelpunt | api/src/utils/geo.utils.js:60-104 | no centre exactly when the array is absent or no entry takes part (an empty array included); otherwise the average over the entries that take part |
| Geo.NullVeldenTellenMee | api/src/utils/geo.utils.js:72 | an entry with `null` fields yields a centre, while an entry with an `undefined` field and a non-object yield none |
| Geo.BerekenClusterZwaartepunten | api/src/utils/geo.utils.js:444-452 | one result per cluster, in order, each with `aantalPunten` equal to its cluster's size and a centre exactly when some point of the cluster takes part |
| Geo.Scan | api/src/utils/geo.utils.js:412-430 | one forward pass: the cluster only grows at its end, the kept points keep their order, no point is lost or duplicated, each joiner was near a member already in the cluster, and each kept point was near no member of the starting cluster |
| Geo.Clusters | api/src/utils/geo.utils.js:407-434 | the clusters are non-empty, each is linked by the distance threshold, and together they are a permutation of the input; no input gives no clusters |
| Geo.ClusterPunten | api/src/utils/geo.utils.js:398-437 | an absent or empty array gives no clusters; otherwise the clusters are non-empty and together a permutation of the input, with threshold 1 when none is given |
| Geo.ClusterBegintBijEersteOvergeblevenPunt | api/src/utils/geo.utils.js:407-409 | cluster k starts with the first input point, in input order, not taken by clusters 0..k-1, and those remaining points are the input minus the earlier clusters |
| Geo.OverigIsRestVanInvoer | api/src/utils/geo.utils.js:404-434 | after k clusters, the remaining points plus the points clustered so far are exactly the input |
| Geo.OverigIsDeelrij | api/src/utils/geo.utils.js:404-434 | the remaining points keep their input order |
| Geo.NabijZaadNietLater | api/src/utils/geo.utils.js:412-430 | a point left behind by a cluster's scan lies farther than the threshold from that cluster's seed |
| Geo.GeenHerbeoordeling | api/src/utils/geo.utils.js:412-430 | points rejected earlier are not looked at again: on a line with points 0, 2, 1 and threshold 1, point 2 ends in its own cluster although it is within 1 of point 1 |
| Geo.SomAantallenIsLengteConcat | api/src/utils/geo.utils.js:444-452 | the cluster sizes reported add up to the number of clustered points |
| Geo.ZwaartepuntenTellenAllePunten | api/src/utils/geo.utils.js:398-452 | the cluster centres of a clustering account for every input point exactly once |
| Geo.BerekenBegrenzingsvak | api/src/utils/geo.utils.js:113-130 | the box is symmetric about the centre, spans twice the radius in km on each axis (111.32 km per degree of latitude, `abs(cos)` times that per degree of longitude), has min <= max exactly when the radius is not negative, and then contains its centre |
| Geo.InVakAlsBinnenStraalPerAs | api/src/utils/geo.utils.js:113-130 | a point is in the box exactly when it is within the radius of the centre along each axis, bounds included |
| Geo.MaakGeoJSONPunt | api/src/utils/geo.utils.js:226-235 | a Point feature at `[lengtegraad, breedtegraad]`; its properties are exactly the given ones, or `{}` when none are given |
| Geo.MaakGeoJSONFeatureCollection | api/src/utils/geo.utils.js:242-255 | one Point feature per input point, in input order, with the point's properties or `{}` |
| Geo.MaakGeoJSONPolygon | api/src/utils/geo.utils.js:263-286 | one closed ring of five positions: south-west, south-east, north-east, north-west and south-west again, each `[lengte, breedte]`; the properties are exactly the given ones, or `{}` |
| Geo.PolygoonHoekenInVak | api/src/utils/geo.utils.js:263-304 | every position of the ring of a non-empty box passes `isPuntInBegrenzingsvak` |
| Geo.PolygoonTegenDeKlok | api/src/utils/geo.utils.js:268-276 | the ring runs counter-clockwise: its shoelace sum is twice the box area, positive for a box with area |
| Geo.GenereerRoutePunten | api/src/utils/geo.utils.js:461-478 | n + 1 points from start to end for a positive count (10 when absent), none for a negative count, and `NaN` coordinates for a count of 0 |
| Geo.RoutePuntenGelijkeStappen | api/src/utils/geo.utils.js:464-474 | consecutive route points are equally spaced: the total difference divided by the count |
| Geo.EersteTreffer | api/src/utils/geo.utils.js:159-163 | the first table key, in table order, that the text contains, or the table length when none does |
| Geo.PlaceholderGeocode | api/src/utils/geo.utils.js:138-170 | when the lower-cased address contains a key of the fixed place table, the coordinates of the first such key in table order; when it contains none, Brussels |
| Geo.PostcodeSleutelsOverschaduwd | api/src/utils/geo.utils.js:143-163 | the postcode-prefixed keys never decide the result, since each contains a city key that comes earlier in the table |
| Geo.StadInPostcodeSleutel | api/src/utils/geo.utils.js:144-153 | each postcode key contains the city key five places before it |
| Geo.PlaceholderVoorbeelden | api/src/utils/geo.utils.js:157-169 | "GENT" geocodes to Ghent in any letter case, and an address with no known name falls back to Brussels |
| Geo.PlaceholderReverseGeocode | api/src/utils/geo.utils.js:178-217 | the unknown-address text exactly when no fixed point is nearer than `Number.MAX_VALUE`; otherwise the address of a nearest fixed point, the first one on a tie |
| Validatie.EmailKlopt | api/src/utils/validator.utils.js:13-19 | an email is accepted exactly when it reads L@D.T with L, D and T non-empty and free of whitespace and `@` |
| Validatie.EmailMatcherVolgtVorm | api/src/utils/validator.utils.js:17-18 | every email the pattern accepts splits into such parts |
| Validatie.EmailVormVolgtMatcher | api/src/utils/validator.utils.js:17-18 | every text that splits into such parts is accepted |
| Validatie.EmailVoorbeelden | api/src/utils/validator.utils.js:13-19 | "jan@bunda.be" is accepted; "jan@bunda", an empty and an absent email are refused |
| Validatie.PostcodeIsVierCijfers | api/src/utils/validator.utils.js:26-32 | a postcode is accepted exactly when it is present and exactly four ASCII digits |
| Validatie.Schoon | api/src/utils/validator.utils.js:43 | the cleaned number holds no whitespace, parenthesis or hyphen |
| Validatie.SchoonVerdeelt | api/src/utils/validator.utils.js:43 | cleaning works character by character: cleaning a concatenation concatenates the cleaned parts |
| Validatie.TelefoonVorm | api/src/utils/validator.utils.js:39-48 | a phone number is accepted exactly when it is non-empty and, once cleaned, is `+32` or `0` followed by 8 or 9 digits |
| Validatie.ScheidingstekenMaaktNietUit | api/src/utils/validator.utils.js:43-47 | inserting a whitespace, parenthesis or hyphen anywhere never changes the verdict |
| Validatie.MobielNummer | api/src/utils/validator.utils.js:39-48 | nine digits after `0` or `+32` are accepted, also with a space inside |
| Validatie.VerledenEnToekomstSluitenElkaarUit | api/src/utils/validator.utils.js:55-72 | with the current time as a parameter, a date is never both past and future, is neither when it equals now, and is one of the two otherwise |
| Validatie.VerzamelBevat | api/src/utils/validator.utils.js:86-107 | a check's message is in the list exactly when that check fails |
| Validatie.ValideerWachtwoordSterkte | api/src/utils/validator.utils.js:79-110 | an absent or empty password gives exactly the "required" message; `geldig` holds exactly when the list is empty; at most five messages |
| Validatie.WachtwoordFoutenZijnDeFalendeControles | api/src/utils/validator.utils.js:86-110 | for a non-empty password the messages are exactly those of the failing checks, in the fixed order: fewer than 8 UTF-16 code units, no upper case, no lower case, no digit, no special character |
| Validatie.WachtwoordVoorbeeld | api/src/utils/validator.utils.js:86-107 | "abc" fails the length, upper-case, digit and special-character checks, in that order |
| Validatie.IsGeldigePrijs | api/src/utils/validator.utils.js:119-130 | an accepted price is a number, and without a lower bound it is at least 0 |
| Validatie.PrijsBinnenGrenzen | api/src/utils/validator.utils.js:119-130 | a number is accepted exactly when min <= p <= max, with defaults 0 and `Number.MAX_SAFE_INTEGER`; NaN and `undefined` are refused; `null` counts as 0 |
| Validatie.HeeftAlleenToegestaneVelden | api/src/utils/validator.utils.js:138-152 | true exactly when the input is an object whose keys are all allowed; a non-object gives false |
| Validatie.HeeftVereisteVelden | api/src/utils/validator.utils.js:160-174 | true exactly when the input is an object in which every required key is present with a value that is not `null` or `undefined`; a non-object gives false |
| Validatie.ToegestaanEnVereistIsPrecies | api/src/utils/validator.utils.js:138-174 | an object that passes both checks against the same list has exactly the keys of that list |
| Woningen.StatusNaamTerug | api/src/models/woning.model.js:110-114 | the three ENUM texts and the status values correspond one to one: a text is read as a status exactly when it is one of them |
| Woningen.AlsRijLeestAls | api/src/models/woning.model.js:10-124 | the row the database sees holds each column of the record under its own name, nullable columns as NULL when absent |
| Woningen.VolledigAdresVolgtAdresOpmaak | api/src/models/woning.model.js:127-129 | for a complete address with a four-digit postcode, `getVolledigAdres` agrees with the address formatter of the geo utilities |
| Woningen.VolledigAdresZonderHuisnummer | api/src/models/woning.model.js:127-129 | with an empty house number `getVolledigAdres` keeps a stray space ("straat , postcode stad") where the formatter writes "straat, postcode stad" |
| Woningen.MaakRecord | api/src/models/woning.model.js:17-123 | creation succeeds exactly when every NOT NULL column without a default is given and every given value passes its validation (amounts at least 0, year 1800 to the current year, a known energy label, latitude in [-90, 90], longitude in [-180, 180], a known status), else 400; the row keeps the given fields, the given id, the body's creation time or now; rooms default to 0, status to beschikbaar, the featured flag to false, and the result satisfies every column rule |
| Woningen.PasToe | api/src/models/woning.model.js:17-123 | an update keeps every column rule or fails with 400; a given value overwrites its column and an absent one keeps it; the update time moves only to now |
| Woningen.BeschermdeUpdate | api/src/services/woning.service.js:288-307 | once id, owner and timestamps are removed from the body, an update never changes them; the other given fields overwrite and an unknown status is refused |
| Woningen.LegeUpdateVerandertNiets | api/src/services/woning.service.js:288-307 | an update with nothing to change returns the record unchanged, update time included |
| WoningService.WhereGetallenKlopt | api/src/services/woning.service.js:32-49 | a row satisfies the status and numeric conditions exactly when its status is the requested one (beschikbaar when none is given) and every truthy price and surface bound holds |
| WoningService.WhereLiggingKlopt | api/src/services/woning.service.js:51-57 | the city and postcode conditions hold exactly when, for each non-empty value, the corresponding column matches the LIKE pattern `%value%` without regard to letter case, `%` and `_` in the value acting as wildcards |
| WoningService.WhereKamersKlopt | api/src/services/woning.service.js:59-65 | the bedroom and bathroom conditions hold exactly when each truthy minimum is met |
| WoningService.VerkoperKlopt | api/src/services/woning.service.js:67-69 | a seller id compared with the integer column matches exactly when SQLite reads the text as a number equal to the seller's id (`5`, `5.0`, `5e0` and ` 5` all name seller 5) |
| WoningService.VerkoperMetNulFractie | api/src/controllers/woning.controller.js:34 | `?verkoperId=5.0` selects exactly the properties of seller 5, as `?verkoperId=5` does |
| WoningService.ZoektermKlopt | api/src/services/woning.service.js:71-78 | the search term matches exactly when the title, description, city or street matches the LIKE pattern `%term%` without regard to letter case, with `%` and `_` in the term acting as wildcards |
| WoningService.WhereVerkoperEnZoektermKlopt | api/src/services/woning.service.js:67-78 | the seller and search-term conditions together hold exactly when each supplied one holds |
| WoningService.WhereGetWoningenKlopt | api/src/services/woning.service.js:30-78 | the where clause the listing builds accepts a property exactly when it meets the filters' meaning stated on the record |
| WoningService.WhereGetWoningenBekend | api/src/services/woning.service.js:30-78 | every condition the listing builds names a column of the property table, so the query never fails on an unknown column |
| WoningService.NulIsGeenFilter | api/src/services/woning.service.js:39-41 | a minimum price of 0 is falsy and filters nothing: it accepts the same properties as no minimum |
| WoningService.Passend | api/src/services/woning.service.js:30-78 | the matching rows are table rows that meet the filters, and every table row meeting them is included |
| WoningService.SelectieIsPassend | api/src/services/woning.service.js:84-86 | evaluating the built where clause over the table selects exactly the matching rows |
| WoningService.GetWoningen | api/src/services/woning.service.js:19-127 | fails with 500 exactly when the sort column names no column of the property table even up to letter case, or the direction is not one of the accepted forms; otherwise the total is the number of matching properties, page and page size are echoed, the page count is the ceiling of total over page size, and the page holds at most page-size matching rows |
| WoningService.GetWoningenRijenPassen | api/src/services/woning.service.js:84-113 | every row on a listing page meets every filter |
| WoningService.GetWoningenGesorteerd | api/src/services/woning.service.js:84-90 | the rows of a listing page are ordered by the resolved sort column in the requested direction, NULL values placed as the direction says |
| WoningService.ExtraSleutels | api/src/services/woning.service.js:150 | the copied filter object adds keys besides status exactly when a numeric filter was supplied |
| WoningService.BeperkStraal | api/src/services/woning.service.js:142-144 | the radius used never exceeds 50 km nor the requested radius, and a radius within the maximum is kept |
| WoningService.StraalZoeken | api/src/services/woning.service.js:159-227 | every row returned has the requested status, a known location and a distance within the radius; each row carries its distance; the rows come nearest first (`order: afstand ASC`); radius and centre are echoed; the total counts all rows within the radius |
| WoningService.Afstanden | api/src/services/woning.service.js:159-175 | one distance per returned row, each the distance from the centre to that row's location |
| WoningService.ZoekWoningenInStraal | api/src/services/woning.service.js:138-228 | the radius search as written succeeds exactly when no numeric filter was supplied, fails with 500 otherwise, and returns only rows within the clamped radius, nearest first, each with its distance |
| WoningService.MinPrijsBrengtStraalZoekenTotFout | api/src/services/woning.service.js:150 | supplying a minimum price to the radius search always ends in a 500 |
| WoningService.ExtraSleutelsZijnGeenKolommen | api/src/services/woning.service.js:150 | the numeric filter names are never columns, so the copied where clause names a column only when it holds no such name |
| WoningService.ZoekWoningenInStraalMetGrenzen | api/src/services/woning.service.js:138-228 | the corrected radius search returns only rows within the clamped radius that also meet every numeric bound, nearest first with their distances, at most a page of them |
| WoningService.MetGrenzenZonderGetallenIsOrigineel | api/src/services/woning.service.js:138-228 | without numeric filters the corrected radius search and the code as written give the same page |
| WoningService.StraalZoekenOplopend | api/src/services/woning.service.js:182-186 | paging walks outward: every row on an earlier page is no farther from the centre than any row on a later page |
| WoningService.MaxId | api/src/services/woning.service.js:236-244 | the next id is chosen above every existing id |
| WoningService.Positie | api/src/services/woning.service.js:251-280 | a lookup by primary key finds the row with that id, or reports that none has it |
| WoningService.GetWoningById | api/src/services/woning.service.js:251-280 | succeeds exactly when a property with the id exists and returns it; otherwise 404 |
| WoningService.MaakWoning | api/src/services/woning.service.js:236-244 | creation succeeds exactly when the required fields are present and valid and any id in the body is not taken (else 400); the new property has the body's id or a fresh one, the caller as seller, the body's creation time or now, is appended, and ids stay unique |
| WoningService.UpdateWoning | api/src/services/woning.service.js:288-307 | 404 for an unknown id; otherwise only that row changes, and its id, seller and creation time are kept whatever the update body says |
| WoningService.VerwijderWoning | api/src/services/woning.service.js:314-326 | 404 exactly when no property has the id; otherwise one row is removed, the others keep their order, and with unique ids none left carries that id |
| WoningService.VerwijderdeIdIsWeg | api/src/services/woning.service.js:314-326 | with unique ids, removing a row leaves no row with its id |
| WoningService.GetUitgelichteWoningen | api/src/services/woning.service.js:333-356 | only featured, available properties from the table, newest first (`aangemaaktOp DESC`); no featured available property left out was created later than one returned; at most `aantal`, exactly `aantal` when that many exist, and all of them when the limit is negative or large enough |
| WoningController.GetalFilter | api/src/controllers/woning.controller.js:27-29 | an absent or empty numeric parameter gives no filter; a present one gives its parsed number, NaN being none |
| WoningController.GeheelFilter | api/src/controllers/woning.controller.js:32-33 | an absent or empty whole-number parameter gives no filter; a present one gives its parseInt result |
| WoningController.OfStandaard | api/src/controllers/woning.controller.js:39-42 | a falsy sort parameter takes its default; a truthy one is passed unchanged |
| WoningController.GeheelOfStandaard | api/src/controllers/woning.controller.js:45-48 | a falsy pagination parameter takes its default; a truthy one is parsed with parseInt |
| WoningController.GetWoningen | api/src/controllers/woning.controller.js:15-60 | an unparsable page or page size ends in 500; on success page and page size are the parsed values, the total is the number of properties matching the query's filters, and the rows come from those |
| WoningController.GetWoningenStandaard | api/src/controllers/woning.controller.js:39-48 | without sorting and pagination parameters the listing never fails and returns page 1 of at most 10 rows, each matching the filters |
| WoningController.StandaardenGekozen | api/src/controllers/woning.controller.js:39-48 | without sorting and pagination parameters the listing sorts on aangemaaktOp descending, page 1 of 10, and that column and direction are accepted |
| WoningController.NulFilterTeltNiet | api/src/controllers/woning.controller.js:27 | a minimum price of 0 or one that does not parse filters the same as no minimum |
| WoningController.StraalUitQuery | api/src/controllers/woning.controller.js:103 | without a radius parameter the search uses 10 km |
| WoningController.ZoekWoningen | api/src/controllers/woning.controller.js:66-115 | the search as written: 400 without a truthy latitude and longitude; with them, any supplied price, surface, bedroom or bathroom filter makes the service fail with 500; success exactly when the coordinates, radius and pagination parse and no such filter was supplied; on success the centre is echoed, the radius is clamped to 50 km, and the rows are table rows within it, nearest first, each with its distance |
| WoningController.ZoekWoningenBedoeld | api/src/controllers/woning.controller.js:66-115 | the search with the corrected radius service: 400 without a truthy latitude and longitude; success exactly when the coordinates, radius and pagination parse; every row is within the clamped radius and meets every numeric bound; rows come nearest first with their distances |
| WoningController.ZonderGetalFiltersZelfdeAntwoord | api/src/controllers/woning.controller.js:66-115 | without numeric filters the search as written and the corrected search give the same answer |
| WoningController.ZoekStandaardStraal | api/src/controllers/woning.controller.js:103 | a successful search without a radius parameter reports a radius of 10 km |
| WoningController.GetUitgelichteWoningen | api/src/controllers/woning.controller.js:202-215 | fails with 500 exactly when the count does not parse; otherwise every row is featured and available, newest first, and without a count at most 6 are returned |
| Geocoding.SleutelsZijnDisjunct | api/src/services/geocoding.serrvice.js:28-98 | a forward cache key never equals a reverse cache key, so the two kinds of lookup never see each other's entries |
| Geocoding.VooruitEnOmgekeerdBegin | api/src/services/geocoding.serrvice.js:28-98 | forward keys start with `geocode:` and reverse keys with `reverse:`, never the other way round |
| Geocoding.UitContext | api/src/services/geocoding.serrvice.js:51-53 | a context value is found exactly when some item's id starts with the kind, and it is the text of the first such item |
| Geocoding.RaadpleegVooruit | api/src/services/geocoding.serrvice.js:28-87 | a forward lookup is a hit exactly when the key is cached and then returns the cached value and stores nothing; a miss stores exactly when the provider returned at least one feature |
| Geocoding.Verwerk | api/src/services/geocoding.serrvice.js:31-67 | a hit adds one to the hit counter, a miss one to the miss counter, a stored result is the only change to the entries, and the key-size counter grows by the key's length in UTF-16 units exactly when a new key is stored |
| Geocoding.GeocodeAdres | api/src/services/geocoding.serrvice.js:28-87 | a cached address returns its entry and counts a hit; an uncached one counts a miss, stores a found location under its key, and on failure returns the Brussels fallback with reliability 0 and leaves the entries unchanged |
| Geocoding.TrefferVraagtNietsAanProvider | api/src/services/geocoding.serrvice.js:31-35 | a cached address gives the same answer whatever the provider would say |
| Geocoding.TweedeOpvraagIsTreffer | api/src/services/geocoding.serrvice.js:28-87 | after a successful lookup, asking again returns the same result as a cache hit |
| Geocoding.OpslaanGroeitSleutelGrootte | api/src/services/geocoding.serrvice.js:28-67 | a forward lookup that finds a location for an address not yet cached grows the key-size counter by the length of `geocode:` plus the address; any other lookup leaves it unchanged |
| Geocoding.TerugvalWordtNietBewaard | api/src/services/geocoding.serrvice.js:72-86 | a provider error or an empty answer gives the fallback location, and nothing is cached for the address |
| Geocoding.GevondenCoordinatenKomenUitEersteFeature | api/src/services/geocoding.serrvice.js:46-58 | a found location carries the first feature's latitude, longitude and relevance |
| Geocoding.RaadpleegOmgekeerd | api/src/services/geocoding.serrvice.js:95-160 | a reverse lookup is a hit exactly when the key is cached; a miss stores exactly when an address was found, and the answer echoes the requested coordinates |
| Geocoding.ReverseGeocode | api/src/services/geocoding.serrvice.js:95-160 | cached coordinates return their entry and count a hit; otherwise a miss is counted, the answer echoes the coordinates, and only a found address is stored |
| Geocoding.GeocodeHoudtCacheGoed | api/src/services/geocoding.serrvice.js:28-87 | forward lookups keep every cached entry a real answer of its own kind, so a hit never returns a fallback |
| Geocoding.ReverseHoudtCacheGoed | api/src/services/geocoding.serrvice.js:95-160 | reverse lookups keep the same cache invariant, so a reverse hit always returns an address |
| Geocoding.BatchGeocodeAdressen | api/src/services/geocoding.serrvice.js:167-179 | more than 50 addresses fails; otherwise there is one result per address, each what a single lookup would give, and every address counts as one hit or miss |
| Geocoding.VerwerkAlle | api/src/services/geocoding.serrvice.js:174-176 | each address of a batch adds exactly one to hits plus misses |
| Geocoding.BatchVanEenIsEnkeleOpvraag | api/src/services/geocoding.serrvice.js:167-179 | a batch of one address is the single lookup |
| Geocoding.TeGroteBatchVraagtNiets | api/src/services/geocoding.serrvice.js:169-171 | an oversized batch is refused before any provider call |
| Geocoding.AdresSuggesties | api/src/services/geocoding.serrvice.js:187-217 | absent text or text shorter than 3 UTF-16 code units gives no suggestions; a provider error gives none; otherwise one suggestion per feature with its place name and swapped coordinates |
| Geocoding.KorteTekstVraagtNiets | api/src/services/geocoding.serrvice.js:188-190 | text shorter than 3 UTF-16 code units never reaches the provider |
| Geocoding.VerrijkWoningMetGeocode | api/src/services/geocoding.serrvice.js:264-307 | always marks the coordinates valid; with truthy coordinates the data and cache are kept; otherwise coordinates come from the address lookup and the formatted address falls back to the composed one |
| Geocoding.VerrijkingMetTerugval | api/src/services/geocoding.serrvice.js:284-295 | a property without coordinates whose lookup fails is still marked valid, with the Brussels fallback and reliability 0 |
| Geocoding.LeegGeocodingCache | api/src/services/geocoding.serrvice.js:312-314 | emptying the cache removes every entry and resets the hit, miss and key-size counters |
| Geocoding.GetGeocodingCacheStats | api/src/services/geocoding.serrvice.js:320-328 | the statistics report the entry count, the key-size counter and the hit and miss counters, and the hit rate is hits over lookups, 0 before any lookup, always between 0 and 1 |
| Geocoding.LegeCacheHeeftNulStatistieken | api/src/services/geocoding.serrvice.js:312-328 | statistics of an emptied cache are all zero |
| WoningGeocoding.VolledigAdresLijktOpAdres | api/src/services/woning.service-geocoding.js:58-59 | a composed address with a numeric house number and a four-digit postcode is recognised as an address |
| WoningGeocoding.SamengesteldeNaamTeltNiet | api/src/services/woning.service-geocoding.js:59 | a street word glued to a preceding word character is not a separate word and does not count |
| WoningGeocoding.LosStraatwoordTelt | api/src/services/woning.service-geocoding.js:59 | a standalone street word, in any letter case, makes the term look like an address |
| WoningGeocoding.ZonderCijfersGeenHuisnummer | api/src/services/woning.service-geocoding.js:58 | a term without digits never matches the house-number-and-postcode pattern |
| WoningGeocoding.RegeleindeScheidt | api/src/services/woning.service-geocoding.js:58 | the number and the postcode must be on the same line: a line break between them breaks the match |
| WoningGeocoding.KiesRoute | api/src/services/woning.service-geocoding.js:56-95 | a term that does not look like an address is searched as text without a lookup; one that does is geocoded, and the radius search is chosen exactly when the confidence exceeds 0.7, reporting the term, the found address, its coordinates and the radius |
| WoningGeocoding.OnbekendAdresZoektOpTekst | api/src/services/woning.service-geocoding.js:61-94 | an address the provider cannot resolve falls back to the text search |
| WoningGeocoding.ZekerAdresZoektInStraal | api/src/services/woning.service-geocoding.js:64-85 | a confidently resolved address searches around the first feature's coordinates |
| WoningGeocoding.RuweVoorwaarden | api/src/services/woning.service-geocoding.js:125-133 | the copied filter keys become one equality each, except the two coordinate keys the box overrides |
| WoningGeocoding.VakVoorwaardenKloppen | api/src/services/woning.service-geocoding.js:127-132 | the between conditions accept a property exactly when both its coordinates lie in the box, bounds included |
| WoningGeocoding.RegioVoorwaardenKloppen | api/src/services/woning.service-geocoding.js:124-133 | the region query accepts a property exactly when it matches the copied filters and lies in the box |
| WoningGeocoding.RegioVoorwaardenBekend | api/src/services/woning.service-geocoding.js:124-133 | the region query names only known columns exactly when every copied filter key is a column |
| WoningGeocoding.ZoekWoningenInRegio | api/src/services/woning.service-geocoding.js:103-152 | a confidence below 0.5 or an unknown filter key gives the text search; otherwise the rows are exactly the table's properties matching the filters inside the 3 km box around the point, in table order, with the formatted region name or the given one |
| WoningGeocoding.RegioZoekenKlopt | api/src/services/woning.service-geocoding.js:124-146 | rows satisfying the built query are exactly the properties in the box matching the filters |
| WoningGeocoding.OnbekendeFilterSleutelGeeftTekstZoeken | api/src/services/woning.service-geocoding.js:124-151 | a filter key such as minPrijs that is no column makes the region query fail and the search fall back to text |
| WoningGeocoding.OntbrekendVoorwaardeKlopt | api/src/services/woning.service-geocoding.js:214-221 | the backfill's condition holds exactly when a coordinate is null or zero |
| WoningGeocoding.OntbrekendOpRij | api/src/services/woning.service-geocoding.js:214-221 | the same holds on the stored row of a property |
| WoningGeocoding.Kandidaten | api/src/services/woning.service-geocoding.js:213-223 | the backfill reads at most 100 properties, each missing a coordinate; when there are at most 100 such, it reads all of them |
| WoningGeocoding.KandidatenZijnDeSelectie | api/src/services/woning.service-geocoding.js:213-223 | evaluating the backfill's where clause over the table selects exactly the properties missing a coordinate |
| WoningGeocoding.Vervang | api/src/services/woning.service-geocoding.js:243-246 | an update by id replaces the row with that id and leaves every other row |
| WoningGeocoding.Verrijk | api/src/services/woning.service-geocoding.js:239-249 | one backfill step stores the enriched coordinates exactly when they pass validation, and otherwise leaves the table as it was |
| WoningGeocoding.VerrijktHeeftCoordinaten | api/src/services/woning.service-geocoding.js:239 | enrichment always yields both coordinates |
| WoningGeocoding.BijwerkenVanaf | api/src/services/woning.service-geocoding.js:236-258 | the loop counts at most one update per candidate, keeps every row's id, and leaves rows of no candidate untouched |
| WoningGeocoding.UpdateOntbrekendeCoordinaten | api/src/services/woning.service-geocoding.js:211-265 | always reports success; with nothing to do it changes nothing and reports 0 without a total; otherwise it reports the number of candidates read, at most 100, and rows with coordinates are unchanged |
| WoningGeocoding.BijwerkenTelt | api/src/services/woning.service-geocoding.js:236-258 | the loop's count is exactly the number of candidates whose enrichment led to a write, and it ends with the cache the enrichments leave |
| WoningGeocoding.BijwerkenSchrijftGeslaagden | api/src/services/woning.service-geocoding.js:239-249 | with distinct candidate ids, each candidate's row ends up enriched from the cache the loop had at that point exactly when its enrichment led to a write, and untouched otherwise |
| WoningGeocoding.BijwerkenTeltGeslaagden | api/src/services/woning.service-geocoding.js:211-265 | the reported update count is exactly the number of candidates whose enrichment led to a write, and the final cache is the one the last enrichment left |
| WoningGeocoding.KandidatenSchrijvenGeslaagden | api/src/services/woning.service-geocoding.js:211-265 | with unique ids, each candidate's row in the resulting table is its enriched form exactly when its enrichment succeeded, and unchanged otherwise |
| WoningGeocoding.MaakWoningMetGeocode | api/src/services/woning.service-geocoding.js:17-46 | succeeds exactly when plain creation would, else 400; with truthy coordinates in the body nothing is looked up and the result is the plain creation; otherwise the cache is the one the address lookup leaves, and when enrichment succeeds the stored row is replaced by the enriched one, else the plain creation stands |
| WoningGeocoding.MetCoordinatenGeenOpvraag | api/src/services/woning.service-geocoding.js:25 | a body with both coordinates never reaches the provider |
| SuggestieController.Formatteer | api/src/controllers/suggestie.controller.js:35-41 | a formatted suggestion keeps the text, type and coordinates of the service's suggestion |
| SuggestieController.GetAdresSuggesties | api/src/controllers/suggestie.controller.js:14-54 | the reply echoes the term and counts its entries; a missing term or one shorter than 2 UTF-16 code units gives none; otherwise one entry per service suggestion, in order, whose id is its latitude and longitude joined by a comma |
| SuggestieController.TweeTekensGeenSuggesties | api/src/controllers/suggestie.controller.js:18-32 | a term of two UTF-16 code units passes the controller's length check but is refused by the service's own minimum of 3, so it never reaches the provider and yields nothing |
| SuggestieController.LimietAlsGeschreven | api/src/controllers/suggestie.controller.js:16-31 | a numeric limit is passed through as written, and an absent one is 5 |
| SuggestieController.LimietZonderCijferIsNaN | api/src/controllers/suggestie.controller.js:31 | a limit that starts with a letter parses to NaN and reaches the provider as the text NaN |
| SuggestieController.GeocodeAdres | api/src/controllers/suggestie.controller.js:60-80 | 400 exactly when the address is missing or empty; otherwise the service's lookup result and cache |
| SuggestieController.ReverseGeocode | api/src/controllers/suggestie.controller.js:86-110 | 400 exactly when either coordinate is missing or empty; otherwise the service's reverse lookup of the parsed coordinates |
| SuggestieController.NulAlsTekstIsAanwezig | api/src/controllers/suggestie.controller.js:90 | coordinates given as the text 0 are truthy strings and are accepted |
| SuggestieController.Gevraagd | api/src/controllers/suggestie.controller.js:155-160 | the kept entries are exactly the fixed entries whose name was asked for, in their fixed order |
| SuggestieController.GetReistijden | api/src/controllers/suggestie.controller.js:116-170 | 400 exactly when a coordinate is falsy; without a non-empty list every travel time is returned; with one, exactly the asked-for entries in fixed order |
| SuggestieController.OnbekendeVoorzieningGeeftNiets | api/src/controllers/suggestie.controller.js:155-160 | asking only for an unknown facility returns an empty result |
| SuggestieController.GetCacheStats | api/src/controllers/suggestie.controller.js:176-193 | 403 exactly when the caller is not an administrator; otherwise the cache's entry count, key-size counter, hits and misses |
| Gebruikers.AlsRij | api/src/models/gebruiker.model.js:12-71 | the stored row of a user has exactly the table's columns |
| Gebruikers.AlsRijLeestAls | api/src/models/gebruiker.model.js:12-71 | every column of the stored row reads back as the user's field |
| Gebruikers.PubliekVerbergtAlleenGeheimen | api/src/models/gebruiker.model.js:99-105 | two users look the same in a response exactly when they differ at most in password, reset token and its expiry |
| Gebruikers.PubliekePagina | api/src/models/gebruiker.model.js:99-105 | a page of users in a response keeps its metadata and order and shows each user without secrets |
| Gebruikers.PasToe | api/src/models/gebruiker.model.js:18-83 | an update fails with 400 only on validation; a changed role is one of 1, 2 and 3 and came from the body, a changed email is valid and came from the body, a changed password is the hash of the body's one; a role outside 1 to 3 is refused |
| Gebruikers.ZonderBeschermd | api/src/services/gebruiker.service.js:95-97 | the update body loses exactly its id and its two timestamps |
| Gebruikers.GetGebruikerById | api/src/services/gebruiker.service.js:67-77 | succeeds exactly when a user with the id exists and returns that user; otherwise 404 |
| Gebruikers.UpdateGebruiker | api/src/services/gebruiker.service.js:85-101 | 404 for an unknown id; otherwise only that row changes, its id and creation time are kept, and ids and emails stay unique |
| Gebruikers.UpdateZonderRolHoudtRol | api/src/services/gebruiker.service.js:85-101 | an update that names no role, email or password keeps all three |
| Gebruikers.VerwijderGebruiker | api/src/services/gebruiker.service.js:110-121 | 404 exactly when no user has the id; otherwise one row is removed, the others keep their order, and with unique ids none left carries it |
| Gebruikers.ZoektermKlopt | api/src/services/gebruiker.service.js:29-35 | the search term matches exactly when first name, last name or email matches the LIKE pattern `%term%` without regard to letter case, with `%` and `_` in the term acting as wildcards |
| Gebruikers.WhereGebruikersKlopt | api/src/services/gebruiker.service.js:21-35 | the built where clause accepts a user exactly when a truthy role is equal and a truthy term matches |
| Gebruikers.WhereGebruikersBekend | api/src/services/gebruiker.service.js:21-35 | the user listing's conditions name only columns of the user table |
| Gebruikers.SelectieGebruikersKlopt | api/src/services/gebruiker.service.js:41-46 | evaluating the where clause over the table selects exactly the users meeting the filter |
| Gebruikers.GetGebruikers | api/src/services/gebruiker.service.js:17-59 | fails with 500 exactly when page or page size is NaN; page and page size are echoed, the total counts the matching users, at most a page of rows is shown, and every row shown is a matching user without secrets; the order is stated by Gebruikers.GetGebruikersNieuwsteEerst |
| Gebruikers.GetGebruikersNieuwsteEerst | api/src/services/gebruiker.service.js:41-46 | the users on a page are the public forms of a page of users ordered newest first |
| Gebruikers.VerkoperVoorwaardeKlopt | api/src/services/gebruiker.service.js:146-147 | the seller condition names a known column and selects exactly the user's properties |
| Gebruikers.GetGebruikerWoningen | api/src/services/gebruiker.service.js:130-168 | 404 for an unknown user; otherwise it fails exactly when pagination is NaN, echoes page and page size, shows at most a page, counts all the user's properties and shows only properties the user sells; the order is stated by Gebruikers.GetGebruikerWoningenNieuwsteEerst |
| Gebruikers.GetGebruikerWoningenNieuwsteEerst | api/src/services/gebruiker.service.js:146-150 | the seller's properties on a page come newest first |
| Toegang.TotSpatie | api/src/middleware/auth.middleware.js:27 | the cut text is a prefix without spaces, ending where the first space is |
| Toegang.TokenIsTweedeWoord | api/src/middleware/auth.middleware.js:19-27 | a header made of Bearer, a space-free token and nothing or a space-led rest passes the prefix check and yields exactly that token |
| Toegang.TotSpatieVanWoord | api/src/middleware/auth.middleware.js:27 | splitting on spaces returns a space-free word followed by a space or the end unchanged |
| Toegang.Authenticeer | api/src/middleware/auth.middleware.js:15-60 | every failure is 401; a missing header or one not starting with Bearer fails; success exactly when the token verifies to an id that some user has, and the request then carries that user |
| Toegang.IsGebruiker | api/src/middleware/auth.middleware.js:66-76 | passes exactly when a user is attached, and otherwise answers 401 |
| Toegang.IsVerkoper | api/src/middleware/auth.middleware.js:81-97 | passes exactly for an attached user with role 2 or higher; 401 without a user, 403 for a lower role |
| Toegang.IsBeheerder | api/src/middleware/auth.middleware.js:102-118 | passes exactly for an attached user with role 3 or higher; 401 without a user, 403 for a lower role |
| Toegang.RollenZijnGenest | api/src/middleware/auth.middleware.js:66-118 | an administrator passes the seller check, a seller passes the user check, and without a user all three answer 401 |
| Toegang.IsWoningEigenaar | api/src/middleware/auth.middleware.js:123-162 | 401 without a user; an administrator passes without a lookup; 400 without a property id in the path or body; 500 exactly when the id is a value `findByPk` refuses (a boolean); a pass for anyone else means the property exists, is the row the id names under SQLite's numeric reading, and is sold by the caller |
| Toegang.EigenaarMagAltijd | api/src/middleware/auth.middleware.js:137-158 | the seller of an existing property always passes the ownership check for it, whether the id came as a number or as numeric text |
| Toegang.SleutelUitKlopt | api/src/middleware/auth.middleware.js:145 | the key looked up is exactly the id the SQL comparison accepts: a number equal to it, or a text SQLite reads as it; only a boolean makes the lookup fail |
| Toegang.SleutelMetNulFractie | api/src/middleware/auth.middleware.js:145 | `5.0` in the path or the body names property 5, as `5` does |
| Toegang.BooleanIdGeeftServerFout | api/src/middleware/auth.middleware.js:145-163 | a body `woningId` of `true` makes `findByPk` throw, answered with 500, for every caller who is not an administrator |
| Toegang.GetGebruikerById | api/src/controllers/gebruiker.controller.js:47-66 | 403 exactly when the caller is neither that user nor an administrator; otherwise the user without secrets, or 404 |
| Toegang.ZonderEigenRol | api/src/controllers/gebruiker.controller.js:87-90 | a non-administrator's truthy role in an update of their own account is dropped; every other body is passed unchanged |
| Toegang.UpdateGebruiker | api/src/controllers/gebruiker.controller.js:74-100 | 403 exactly when the caller is neither that user nor an administrator; on success only that row changes, and a non-administrator can only have updated their own account, whose role stays as it was |
| Toegang.VerwijderGebruiker | api/src/controllers/gebruiker.controller.js:108-128 | 403 exactly when the caller is neither that user nor an administrator; otherwise the service's removal |
| Toegang.GetGebruikers | api/src/controllers/gebruiker.controller.js:14-40 | fails exactly when page or page size is NaN; every row is a user matching the role and term filters, without secrets; without pagination parameters page 1 of at most 10 |
| Kalender.DagenInMaand | api/src/services/beheerder.service.js:110-111 | a month has 28 to 31 days; it has 29 exactly for February of a leap year and 31 exactly for the seven long months |
| Kalender.MaandenVormenJaar | api/src/services/beheerder.service.js:110-111 | the twelve months together last the days of the year |
| Kalender.JaarSluitAan | api/src/services/beheerder.service.js:110-111 | each year begins where the previous one ended |
| Kalender.Normaliseer | api/src/services/beheerder.service.js:110 | a month number outside 0 to 11 rolls over into the neighbouring years, keeping its position in the sequence of all months |
| Kalender.NormaliseerGeldig | api/src/services/beheerder.service.js:110 | a month already in range is left as it is |
| Kalender.IndexBepaaltMaand | api/src/services/beheerder.service.js:110 | two valid months at the same position are the same month |
| Kalender.MaandSluitAan | api/src/services/beheerder.service.js:110-111 | the next month begins the length of this month later |
| Kalender.MaandBeginGesloten | api/src/services/beheerder.service.js:110 | the first of a month, counted from the epoch month by whole months, is its day number times the length of a day |
| Kalender.MaandBeginStijgt | api/src/services/beheerder.service.js:110-111 | a later month begins at least 28 days later |
| Kalender.MaandBeginMonotoon | api/src/services/beheerder.service.js:110-111 | months begin in order |
| Kalender.PeriodeVan | api/src/services/beheerder.service.js:107-136 | an instant inside a run of consecutive periods lies in exactly one of them |
| Kalender.DagNulIsLaatsteDag | api/src/services/beheerder.service.js:111 | day 0 of the next month is the last day of this month, at 00:00 |
| Kalender.Epoch | api/src/services/beheerder.service.js:110 | 1 January 1970 at 00:00 is instant 0 |
| Kalender.JaarBeginMiddernacht | api/src/services/beheerder.service.js:110 | the first of January of a year is the year's first day number in milliseconds |
| Kalender.Jaar2000 | api/src/services/beheerder.service.js:110 | 1 January 2000 is day 10957 and instant 946684800000 |
| Beheerder.MaandenTerugVanNu | api/src/services/beheerder.service.js:109-111 | the six months reported are the five before the current one and the current one, oldest first |
| Beheerder.ZesMaanden | api/src/services/beheerder.service.js:104-146 | the statistics always hold six entries |
| Beheerder.GetMaandStatistieken | api/src/services/beheerder.service.js:104-146 | the statistics as written hold six entries, one per month |
| Beheerder.VensterIsEersteTotLaatsteDag | api/src/services/beheerder.service.js:110-111 | the window of a month runs from 00:00 on its first day up to and including exactly 00:00 on its last day |
| Beheerder.LaatsteDagTeltNiet | api/src/services/beheerder.service.js:111-133 | an instant just after 00:00 on the last day of a reported month lies in none of the six windows |
| Beheerder.GebruikerOpLaatsteDagOntbreekt | api/src/services/beheerder.service.js:111-119 | a user who registers on the last day of a reported month, after midnight, lies in the six months but is counted nowhere |
| Beheerder.GetMaandStatistiekenHeleMaand | api/src/services/beheerder.service.js:104-146 | the corrected statistics also hold six entries, one per month |
| Beheerder.MaandLabels | api/src/services/beheerder.service.js:139-144 | in both versions the last entry is labelled with the current month, every entry with its own month, and no count exceeds the number of records |
| Beheerder.MaandenDisjunct | api/src/services/beheerder.service.js:109-136 | no instant lies in two of the six whole months |
| Beheerder.MaandNummerIs | api/src/services/beheerder.service.js:109-136 | an instant is assigned month k exactly when it lies in month k |
| Beheerder.MaandNummerBinnen | api/src/services/beheerder.service.js:109-136 | an instant is assigned one of the six months exactly when it lies within them |
| Beheerder.EntryTelt | api/src/services/beheerder.service.js:114-120 | the corrected count for a month is the number of users created in it |
| Beheerder.SomIsPerKlasse | api/src/services/beheerder.service.js:109-136 | summing the corrected counts month by month sums the users per month |
| Beheerder.HeleMaandTeltIedereen | api/src/services/beheerder.service.js:104-146 | with whole months, the six counts add up to every user created in the six months |
| Beheerder.LabelsVerschillen | api/src/services/beheerder.service.js:139 | different months get different labels |
| Beheerder.Pad2Injectief | api/src/services/beheerder.service.js:139 | padding a month number to two digits keeps numbers apart |
| Beheerder.DatumGrens | api/src/services/beheerder.service.js:182-194 | a date bound exists exactly when the filter text is non-empty, and is that date |
| Beheerder.PrijsGrens | api/src/services/beheerder.service.js:272-286 | a price bound exists exactly when the filter is truthy, and is that price |
| Beheerder.BereikBinnen | api/src/services/beheerder.service.js:182-194 | the between, from-only and to-only conditions hold exactly when the value lies within the given bounds |
| Beheerder.PrijsBinnen | api/src/services/beheerder.service.js:272-286 | a price lies within the range exactly when each truthy bound holds |
| Beheerder.LijstVolgens | api/src/services/beheerder.service.js:200-222 | a successful admin listing counts exactly the records meeting the filter and shows only such records |
| Beheerder.WhereGebruikersKlopt | api/src/services/beheerder.service.js:170-194 | the user filter accepts a user exactly when a truthy role is equal, the term matches a name or email, and the creation time lies within the date bounds |
| Beheerder.WhereGebruikersBekend | api/src/services/beheerder.service.js:170-194 | the user filter names only user columns |
| Beheerder.LijstGebruikersVolgens | api/src/services/beheerder.service.js:200-222 | the admin user listing counts and shows exactly the users the filter accepts |
| Beheerder.GetGebruikers | api/src/services/beheerder.service.js:155-222 | fails with 500 exactly when the options cannot run (a sort column that names no user column even up to letter case, a direction that is not one of the accepted forms, or a NaN page or size); otherwise total, page, page size and page count describe the accepted users, and every row is an accepted user without secrets |
| Beheerder.GetGebruikersGesorteerd | api/src/services/beheerder.service.js:200-205 | the users shown are ordered by the resolved sort column in the requested direction, NULL values placed as the direction says |
| Beheerder.StatusGenegeerd | api/src/services/beheerder.service.js:156-158 | the status filter of the user listing changes nothing |
| Beheerder.UpdateGebruikerRol | api/src/services/beheerder.service.js:228-241 | 404 for an unknown user; 400 exactly for a known user and a role outside 1 to 3; otherwise only the role changes, the time stamp changes only when the role does, and only that row is replaced |
| Beheerder.RolZettenIdempotent | api/src/services/beheerder.service.js:228-241 | setting the same role twice gives the same user and table as setting it once |
| Beheerder.WhereWoningenKernKlopt | api/src/services/beheerder.service.js:266-286 | the status, seller and price conditions hold exactly when each supplied one holds; the seller id text matches under SQLite's numeric reading |
| Beheerder.WhereWoningenRestKlopt | api/src/services/beheerder.service.js:292-313 | the date and search conditions hold exactly when the creation time is within the bounds and the term matches |
| Beheerder.WhereWoningenKlopt | api/src/services/beheerder.service.js:264-313 | without an approval flag, the property filter accepts exactly the properties meeting every supplied condition |
| Beheerder.WhereWoningenBekend | api/src/services/beheerder.service.js:288-290 | the property filter names only columns exactly when no approval flag is given, since there is no such column |
| Beheerder.GetWoningen | api/src/services/beheerder.service.js:250-354 | fails with 500 exactly when an approval flag is given or the options cannot run; otherwise it counts and shows exactly the accepted properties |
| Beheerder.GetWoningenGesorteerd | api/src/services/beheerder.service.js:319-324 | the properties shown are ordered by the resolved sort column in the requested direction, NULL values placed as the direction says |
| Beheerder.ToggleWoningUitgelicht | api/src/services/beheerder.service.js:363-376 | 404 exactly for an unknown property; otherwise only the featured flag changes, the time stamp changes only when the flag does, and only that row is replaced |
| Beheerder.UpdateWoningStatus | api/src/services/beheerder.service.js:385-398 | 404 for an unknown property; 400 exactly for a status that is none of the model's values; otherwise only the status changes, and the time stamp only when it does |
| Beheerder.UitgelichtIdempotent | api/src/services/beheerder.service.js:363-376 | setting the featured flag twice gives the same as once |
| Beheerder.StatusIdempotent | api/src/services/beheerder.service.js:385-398 | setting the same status twice gives the same as once |
| Beheerder.WhereBezichtigingenKlopt | api/src/services/beheerder.service.js:422-446 | the viewing filter accepts a viewing exactly when status, property, user and date bounds hold; property and user id texts match under SQLite's numeric reading |
| Beheerder.WhereBezichtigingenBekend | api/src/services/beheerder.service.js:422-446 | the viewing filter names only viewing columns |
| Beheerder.GetBezichtigingen | api/src/services/beheerder.service.js:407-484 | fails with 500 exactly when the options cannot run; otherwise it echoes page and size, shows at most a page, and counts and shows exactly the accepted viewings; the order is stated by Beheerder.GetBezichtigingenGesorteerd |
| Beheerder.GetBezichtigingenGesorteerd | api/src/services/beheerder.service.js:452-457 | the viewings shown are ordered by the resolved sort column in the requested direction |
| Beheerder.GetActiviteitenLog | api/src/services/beheerder.service.js:491-504 | the activity log is always empty with total 0 |
| Beheerder.ActiviteitenLogIsEerstePagina | api/src/services/beheerder.service.js:491-504 | the log always reports page 1 of 20 rows whatever page is asked for |
| Beheerder.GoedgekeurdBekend | api/src/services/beheerder.service.js:288-290 | the approval condition names a column of the property table exactly when no approval flag is given |
| BeheerderController.OptiesUit | api/src/controllers/beheerder.controller.js:50-56 | falsy page, page size, sort column and direction take 1, 10, aangemaaktOp and DESC |
| BeheerderController.StandaardOptiesUitvoerbaar | api/src/controllers/beheerder.controller.js:50-56 | the default options always run on a table with a creation time |
| BeheerderController.GetGebruikers | api/src/controllers/beheerder.controller.js:33-65 | the admin user listing is the service's listing of the filters and options read from the query |
| BeheerderController.GetGebruikersOpRol | api/src/controllers/beheerder.controller.js:33-65 | without sort and pagination parameters the listing succeeds with page 1 of at most 10 users, and a non-zero numeric role shows only users with that role |
| BeheerderController.GoedgekeurdUit | api/src/controllers/beheerder.controller.js:125 | the approval flag is true or false exactly for the texts true and false |
| BeheerderController.GetWoningen | api/src/controllers/beheerder.controller.js:110-150 | the admin property listing is the service's listing of the filters and options read from the query |
| BeheerderController.GoedgekeurdFaalt | api/src/controllers/beheerder.controller.js:125 | the query text true or false for the approval flag always ends in 500; any other value is ignored |
| BeheerderController.PrijsBereik | api/src/controllers/beheerder.controller.js:123-124 | with both price bounds given, every property shown costs between them, bounds included |
| BeheerderController.GetBezichtigingen | api/src/controllers/beheerder.controller.js:211-247 | the admin viewing listing is the service's listing of the filters and options read from the query |
| BeheerderController.GetActiviteitenLog | api/src/controllers/beheerder.controller.js:252-281 | the activity log is the service's fixed empty page whatever pagination is asked |
| BeheerderController.WoordenZijnGeenGetal | api/src/controllers/beheerder.controller.js:79 | the words true, false, null, undefined and NaN do not parse as whole numbers |
| BeheerderController.RolUit | api/src/controllers/beheerder.controller.js:79 | a role is accepted exactly when it is truthy and parses to 1, 2 or 3, and then it is that number |
| BeheerderController.UpdateGebruikerRol | api/src/controllers/beheerder.controller.js:74-104 | 400 when the role is not 1, 2 or 3; on success the user carries the new role without secrets and the table is the service's update |
| BeheerderController.GeenEigenDegradatie | api/src/controllers/beheerder.controller.js:86-92 | an administrator can never lower their own role: a lower role is refused with 400, and a success keeps role 3 |
| BeheerderController.AnderenKrijgenRol | api/src/controllers/beheerder.controller.js:74-104 | for another user the change succeeds exactly when the role is valid and the user exists |
| BeheerderController.RolAlsTekstOfGetal | api/src/controllers/beheerder.controller.js:79 | a role given as the text or the number n is accepted exactly when n is 1, 2 or 3 |
| BeheerderController.ToggleWoningUitgelicht | api/src/controllers/beheerder.controller.js:155-178 | 400 exactly when the flag is absent; the property becomes featured exactly when the body holds the boolean true, a truthy text included as false |
| BeheerderController.UpdateWoningStatus | api/src/controllers/beheerder.controller.js:183-206 | 400 exactly when the status is not one of the three texts; on success the property has that status |
| Bezichtigingen.StatusUitNaam | api/src/services/bezichtiging.service.js:231 | a status text is recognised exactly when it is the name of a status, and names that status |
| Bezichtigingen.AlsRij | api/src/services/bezichtiging.service.js:228-234 | the stored row of a viewing has exactly the table's columns |
| Bezichtigingen.AlsRijLeestAls | api/src/services/bezichtiging.service.js:228-234 | every column of the stored row reads back as the viewing's field |
| Bezichtigingen.WhereFiltersKlopt | api/src/services/bezichtiging.service.js:22-31 | the listing's where clause accepts a viewing exactly when a truthy status is equal and a truthy property id is a text SQLite reads as that viewing's property id |
| Bezichtigingen.WhereFiltersBekend | api/src/services/bezichtiging.service.js:22-31 | the where clause names only viewing columns |
| Bezichtigingen.SelectieKlopt | api/src/services/bezichtiging.service.js:37-42 | evaluating the where clause selects exactly the viewings meeting the filters |
| Bezichtigingen.GefilterdePagina | api/src/services/bezichtiging.service.js:33-52 | fails with 500 exactly when pagination is NaN; otherwise counts all viewings meeting the filters and shows only such viewings; the order is stated by Bezichtigingen.GefilterdePaginaNieuwsteEerst |
| Bezichtigingen.GefilterdePaginaNieuwsteEerst | api/src/services/bezichtiging.service.js:37-41 | the viewings on a filtered page come newest first |
| Bezichtigingen.GetAlleBezichtigingen | api/src/services/bezichtiging.service.js:18-76 | succeeds exactly when pagination parses; counts every viewing meeting the filters and shows only such viewings; the order is stated by Bezichtigingen.OverzichtenNieuwsteEerst |
| Bezichtigingen.GetGebruikerBezichtigingen | api/src/services/bezichtiging.service.js:137-191 | succeeds exactly when pagination parses; counts the user's viewings meeting the filters and shows only the user's own; the order is stated by Bezichtigingen.OverzichtenNieuwsteEerst |
| Bezichtigingen.GetVerkoperBezichtigingen | api/src/services/bezichtiging.service.js:84-129 | succeeds exactly when pagination parses; counts the viewings of the seller's properties meeting the filters and shows only those; the order of all three listings is stated by Bezichtigingen.OverzichtenNieuwsteEerst |
| Bezichtigingen.OverzichtenNieuwsteEerst | api/src/services/bezichtiging.service.js:41-160 | all, a user's and a seller's viewing listings show their page newest first |
| Bezichtigingen.VraagBezichtigingAan | api/src/services/bezichtiging.service.js:199-237 | 404 for an unknown property; success exactly when it is available and the date lies after now; the new viewing is requested, carries the fresh token, has a fresh id and is appended |
| Bezichtigingen.GetBezichtigingById | api/src/services/bezichtiging.service.js:243-273 | succeeds exactly when a viewing with the id exists and returns it; otherwise 404 |
| Bezichtigingen.UpdateBezichtigingStatus | api/src/services/bezichtiging.service.js:282-300 | 404 for an unknown viewing; success exactly for a known status; the status is set, seller notes are overwritten only when given, and nothing else but the time stamp changes |
| Bezichtigingen.AnnuleerBezichtiging | api/src/services/bezichtiging.service.js:307-331 | 404 for an unknown viewing; it is removed exactly when its date is not past and it is requested or approved; the others keep their order |
| Bezichtigingen.BevestigBezichtiging | api/src/services/bezichtiging.service.js:341-362 | 404 for an unknown viewing; success exactly when the token equals the stored one; the viewing becomes completed, its token is cleared, and nothing else changes |
| Bezichtigingen.TweedeBevestigingFaalt | api/src/services/bezichtiging.service.js:350-358 | a confirmation token works once: confirming again with any token fails with 400 |
| Bezichtigingen.GefilterdeRijenPassen | api/src/services/bezichtiging.service.js:33-52 | every viewing on the listed page is a stored viewing that meets the status and property filters |
| BezichtigingController.ScopeIsZichtbaar | api/src/controllers/bezichtiging.controller.js:30-42 | the list by role is the filtered page of exactly the viewings the caller may see: all for an administrator, those on their properties for a seller, their own for a user |
| BezichtigingController.GetBezichtigingen | api/src/controllers/bezichtiging.controller.js:16-51 | fails with 500 exactly when pagination is NaN; counts the visible viewings meeting the status and property filters and shows only such viewings; the order is stated by BezichtigingController.GetBezichtigingenNieuwsteEerst |
| BezichtigingController.GetBezichtigingenNieuwsteEerst | api/src/controllers/bezichtiging.controller.js:16-51 | whatever the caller's role, the viewings shown come newest first |
| BezichtigingController.VraagBezichtigingAan | api/src/controllers/bezichtiging.controller.js:58-96 | 404 for an unknown property; success exactly when it is available, not the caller's own, and the date lies after now; the new viewing is the caller's, requested, carrying the token, and appended |
| BezichtigingController.NooitVoorEigenWoning | api/src/controllers/bezichtiging.controller.js:73-79 | a viewing the controller accepts is never on a property the caller sells |
| BezichtigingController.WoningVan | api/src/controllers/bezichtiging.controller.js:109 | the viewing's property is the one with its property id, or none exists |
| BezichtigingController.Laad | api/src/controllers/bezichtiging.controller.js:102-108 | 404 for an unknown viewing; a viewing whose property is gone fails with 500 when its seller is read; otherwise the viewing with its property |
| BezichtigingController.GetBezichtigingById | api/src/controllers/bezichtiging.controller.js:102-127 | succeeds exactly when the viewing loads and the caller is its requester, the property's seller or an administrator, else 403; the result is the viewing with that id |
| BezichtigingController.StatusUitWaarde | api/src/controllers/bezichtiging.controller.js:153 | a status is accepted exactly when it is one of the four status texts |
| BezichtigingController.UpdateBezichtigingStatus | api/src/controllers/bezichtiging.controller.js:133-174 | load errors pass through; 403 unless the caller is the seller or an administrator; success exactly for those callers and a valid status, which the viewing then carries |
| BezichtigingController.AnnuleerBezichtiging | api/src/controllers/bezichtiging.controller.js:180-216 | load errors pass through; 403 unless the caller is requester, seller or administrator; removal exactly when the viewing is requested or approved and not past |
| BezichtigingController.BevestigBezichtiging | api/src/controllers/bezichtiging.controller.js:222-244 | 400 for a falsy token, 404 for an unknown viewing, success exactly when the token is the stored text; the viewing is then completed |
| Afbeeldingen.AfbeeldingenVan | api/src/services/afbeelding.service.js:33-35 | every listed image belongs to the property, and the list is empty exactly when no image in the table does |
| Afbeeldingen.OpslaanAfbeeldingen | api/src/services/afbeelding.service.js:20-53 | fails exactly when the property is unknown; an empty upload changes nothing; otherwise one new row per file, appended, carrying the file name and its upload path, numbered on from the existing count, with fresh ids, primary only for the first file of a property without images when no primary was announced; keeps ids unique and at most one primary per property |
| Afbeeldingen.OpslaanKlopt | api/src/services/afbeelding.service.js:41-50 | appending rows numbered from the next free id, with a primary only as the first image of a property that had none, keeps ids unique and at most one primary per property |
| Afbeeldingen.ResetPrimair | api/src/services/afbeelding.service.js:147-150 | every image of the property loses its primary flag and every other row is unchanged |
| Afbeeldingen.EigenAfbeelding | api/src/services/afbeelding.service.js:63-80 | succeeds exactly when the image exists and the caller sells its property, giving the image's position |
| Afbeeldingen.SetPrimaireAfbeelding | api/src/services/afbeelding.service.js:125-157 | as written: succeeds exactly for the owner; the returned image says primary, but in the table the chosen image is primary only when it was not primary before, and all other images of the property are cleared; other properties and other fields are untouched |
| Afbeeldingen.NogmaalsPrimairWistPrimair | api/src/services/afbeelding.service.js:146-154 | choosing the image that already is primary answers with a primary image while leaving its property with none |
| Afbeeldingen.SetPrimaireAfbeeldingBedoeld | api/src/services/afbeelding.service.js:125-157 | the intended update: the chosen image is the property's only primary image, is returned as stored, and nothing else changes |
| Afbeeldingen.SetPrimairBedoeldHoudtInvariant | api/src/services/afbeelding.service.js:146-154 | the intended update keeps ids unique and at most one primary image per property |
| Afbeeldingen.VerwijderAfbeelding | api/src/services/afbeelding.service.js:61-117 | as written: succeeds exactly for the owner of a non-primary image, removes one row and keeps the rest in order; the id is gone afterwards |
| Afbeeldingen.EersteOpVolgorde | api/src/services/afbeelding.service.js:99-105 | finds an image of the property with the smallest order number, the first such in the table, or reports that the property has none |
| Afbeeldingen.VerwijderAfbeeldingBedoeld | api/src/services/afbeelding.service.js:61-117 | the intended removal: succeeds exactly for the owner, removes the row, and changes at most the primary flag of one remaining image of the same property, only when the removed image was primary |
| Afbeeldingen.VerwijderBedoeldHoudtPrimair | api/src/services/afbeelding.service.js:97-111 | the intended removal keeps ids unique and at most one primary per property, and after removing a primary image the remaining image with the lowest order number of that property becomes primary |
| Afbeeldingen.PrimaireAfbeeldingBlijftStaan | api/src/services/afbeelding.service.js:98-102 | as written, removing a primary image fails, because the operator object it uses is never imported, while the intended removal succeeds |
| Afbeeldingen.EenVolgorde | api/src/services/afbeelding.service.js:180-183 | one order entry changes the order number of the image with that id only when it belongs to the property, and nothing else |
| Afbeeldingen.AlleVolgordesLaatsteWint | api/src/services/afbeelding.service.js:179-186 | applying all entries gives each image the order number of the last entry with its id when it belongs to the property, and leaves it unchanged otherwise |
| Afbeeldingen.UpdateAfbeeldingVolgorde | api/src/services/afbeelding.service.js:166-195 | succeeds exactly for the seller of an existing property; each image gets its last matching order number, other properties are untouched, and the answer is exactly the property's images sorted ascending by order number |
| Afbeeldingen.VolgordeHoudtInvariant | api/src/services/afbeelding.service.js:179-186 | reordering keeps ids unique and at most one primary image per property |
| Afbeeldingen.AlleenEigenaar | api/src/services/afbeelding.service.js:78-80 | a caller who does not sell the property can neither set a primary image, remove an image nor reorder images |
| AfbeeldingController.UploadAfbeeldingen | api/src/controllers/afbeelding.controller.js:16-44 | 400 for an empty upload, otherwise the service's result with the primary flag set only by the form text true; a successful upload returns one image per file, the first primary exactly when the property had no images and no primary was announced |
| AfbeeldingController.Toegestaan | api/src/controllers/afbeelding.controller.js:55-78 | 404 exactly when the image is unknown; passes exactly when its property exists and the caller sells it or is an administrator; 403 or 500 otherwise |
| AfbeeldingController.VerwijderAfbeelding | api/src/controllers/afbeelding.controller.js:50-89 | the controller's refusal passes through; otherwise the service decides, and a removal only ever happens for the property's seller |
| AfbeeldingController.SetPrimaireAfbeelding | api/src/controllers/afbeelding.controller.js:95-135 | the controller's refusal passes through; otherwise the service decides, and a change only ever happens for the property's seller |
| AfbeeldingController.BeheerderZonderEigendomFaalt | api/src/controllers/afbeelding.controller.js:73-80 | an administrator who does not sell the property passes the controller's check and then fails with 500 in the service |
| AfbeeldingController.UpdateAfbeeldingVolgorde | api/src/controllers/afbeelding.controller.js:141-184 | 400 exactly without a truthy property id or an array; 404 exactly for an unknown property; 403 exactly for a caller neither seller nor administrator; success exactly for the seller, with the service's result |
| Kenmerken.CategorieUitNaam | api/src/models/kenmerk.model.js:22-26 | a text is one of the seven declared ENUM values exactly when the lookup finds the category it names, and then it finds that category |
| Kenmerken.IdsVan | api/src/services/kenmerk.service.js:101-104 | the ids of a feature table are exactly the ids of its rows |
| Kenmerken.GetKenmerken | api/src/services/kenmerk.service.js:16-32 | with a truthy category the result is a permutation of the features in that category, otherwise of all features; ordered by category name and, within a category, by name |
| Kenmerken.OpCategorieEnNaam | api/src/services/kenmerk.service.js:25-28 | a list sorted on the composite key is ordered by category and then by name |
| Kenmerken.ZonderDubbelen | api/src/services/kenmerk.service.js:132-134 | grouping keeps each value once and keeps every value |
| Kenmerken.CategorieNamen | api/src/services/kenmerk.service.js:132-138 | the category names are exactly the categories in use |
| Kenmerken.GetKenmerkCategorieen | api/src/services/kenmerk.service.js:131-139 | exactly the categories in use, each once, in ascending order |
| Kenmerken.MaakKenmerk | api/src/services/kenmerk.service.js:39-57 | 400 exactly when the name is taken or the body names an id already in use; otherwise the new feature has the given name and icon, the given category text or overig, the body's id or a fresh one, the body's creation time or now, and is appended; unique names and ids are kept |
| Kenmerken.CategorieBuitenEnumOpgeslagen | api/src/models/kenmerk.model.js:22-26 | a category text outside the seven ENUM values does not stop a creation: SQLite keeps the ENUM as text, so the feature is stored with exactly that text, which names no category |
| Kenmerken.UpdateKenmerk | api/src/services/kenmerk.service.js:65-94 | 404 exactly for an unknown id; 400 exactly when a new, different name is used by another feature; otherwise only the given fields change, in place, any category text being stored as given, and the id and creation time are kept |
| Kenmerken.UpdateHoudtNamenUniek | api/src/services/kenmerk.service.js:74-91 | a successful update keeps names and ids unique and the set of ids unchanged |
| Kenmerken.VerwijderKenmerk | api/src/services/kenmerk.service.js:101-125 | 404 exactly for an unknown id; 400 exactly when a property still uses the feature; otherwise one row is removed, the id is gone, and every link still points at a feature |
| Kenmerken.AantalGevonden | api/src/services/kenmerk.service.js:195-199 | with unique ids, the features found for a list of ids number as many as the distinct ids that exist |
| Kenmerken.ElementenTellen | api/src/services/kenmerk.service.js:194-201 | a list has at most as many distinct ids as entries, equally many exactly when it has no repeats |
| Kenmerken.AlleKenmerkenBestaan | api/src/services/kenmerk.service.js:193-205 | the count check passes exactly when the ids have no repeats and all exist |
| Kenmerken.EigenWoning | api/src/services/kenmerk.service.js:179-191 | 404 exactly for an unknown property, 403 exactly when the caller does not sell it, otherwise its position |
| Kenmerken.VoegWoningKenmerkenToe | api/src/services/kenmerk.service.js:177-225 | ownership errors pass through; success exactly when the ids have no repeats and all exist; the old links for those ids are replaced by one new link per entry, with a falsy value stored as null; the pair index stays unique and every link points at a feature |
| Kenmerken.FilterHoudtParenUniek | api/src/models/woningKenmerk.model.js:42-47 | removing links keeps each property and feature pair unique |
| Kenmerken.KoppelenHoudtInvariant | api/src/services/kenmerk.service.js:207-222 | replacing the links for distinct, existing ids keeps the pair index unique and every link pointing at a feature |
| Kenmerken.PaarPositie | api/src/services/kenmerk.service.js:251-256 | finds the link for the pair or reports that none exists |
| Kenmerken.VerwijderWoningKenmerk | api/src/services/kenmerk.service.js:234-268 | ownership errors pass through; success exactly when the pair is linked, removing that one link; afterwards the pair is gone and the pair index stays unique |
| Kenmerken.VerwijderWoningKenmerkReferentieel | api/src/services/kenmerk.service.js:264-265 | removing a link keeps every link pointing at a feature |
| Kenmerken.GetWoningKenmerken | api/src/services/kenmerk.service.js:146-168 | as written: 404 for an unknown property and otherwise always 500, because the include names an alias the feature model never declares |
| Kenmerken.WaardenVan | api/src/services/kenmerk.service.js:159-162 | the values linked for the pair: none when unlinked, and with a unique pair index exactly the one stored value |
| Kenmerken.GetWoningKenmerkenBedoeld | api/src/services/kenmerk.service.js:146-168 | the intended query: 404 exactly for an unknown property; otherwise exactly the features linked to the property, each with its stored value |
| Kenmerken.WoningKenmerkenAlleenBedoeld | api/src/services/kenmerk.service.js:156-165 | for every existing property the query as written fails while the intended one succeeds |
| Favorieten.EerstePositie | api/src/services/favoriet.service.js:85-90 | finds a row that matches the condition, or reports that no row does |
| Favorieten.PaarAanwezig | api/src/services/favoriet.service.js:143-148 | the pair is among the table's user and property pairs exactly when a row for it can be found |
| Favorieten.IsWoningInFavorieten | api/src/services/favoriet.service.js:167-176 | true exactly when the user has the property among their favourites |
| Favorieten.NotitieWijzigen | api/src/services/favoriet.service.js:94-97 | changing a note keeps every row's pair and id, the set of pairs, and the table's validity |
| Favorieten.ParenToevoegen | api/src/services/favoriet.service.js:102-106 | appending a row adds exactly its pair, and a row with the next id and a new pair keeps the table valid |
| Favorieten.VoegFavorietToe | api/src/services/favoriet.service.js:75-109 | 404 exactly when the property is missing; the answered favourite is in the table with the caller, the property and the note, and the pairs gain exactly that pair; an existing pair keeps its row and only its note may change; a new pair is appended with a fresh id and the current time; validity is kept |
| Favorieten.VoegFavorietToeIdempotent | api/src/services/favoriet.service.js:84-99 | adding the same favourite with the same note a second time answers the same and changes nothing |
| Favorieten.ZonderRijParen | api/src/models/favoriet.model.js:43-48 | with a unique pair index, removing a row removes exactly its pair |
| Favorieten.ZonderRijGeldig | api/src/services/favoriet.service.js:131 | removing a row from a valid table keeps it valid and removes exactly that row's id and pair |
| Favorieten.EigenRijVerwijderen | api/src/services/favoriet.service.js:117-134 | removing the caller's row with the given id keeps the table valid, removes only that favourite, and leaves other users' favourites alone |
| Favorieten.VerwijderFavoriet | api/src/services/favoriet.service.js:117-134 | 404 exactly when no favourite with that id belongs to the caller; otherwise that favourite alone is removed, other users' favourites stay, and one of the caller's pairs is gone |
| Favorieten.VerwijderWoningUitFavorieten | api/src/services/favoriet.service.js:142-159 | 404 exactly when the property is not among the caller's favourites; otherwise exactly that pair's row is removed |
| Favorieten.ToevoegenEnVerwijderenBepalenLidmaatschap | api/src/services/favoriet.service.js:75-176 | after adding, the property is a favourite and can be removed; after removing, it no longer is |
| Favorieten.ToevoegenDanVerwijderen | api/src/services/favoriet.service.js:75-159 | adding a new favourite and then removing it, by property or by its id, restores the table exactly |
| Favorieten.GetFavorieten | api/src/services/favoriet.service.js:17-66 | as written the list always fails with 500, because the include uses an alias the favourite model never declares |
| Favorieten.FavorietenVan | api/src/services/favoriet.service.js:24-28 | the caller's favourites, all of them, newest first |
| Favorieten.GetFavorietenBedoeld | api/src/services/favoriet.service.js:17-66 | the intended list: only the caller's favourites, newest first, at most one page of them; the total counts all of them and the page count is its ceiling quotient |
| Favorieten.AllePaginasZijnAlleFavorieten | api/src/services/favoriet.service.js:21-55 | with a positive page size, the pages one to the page count together hold exactly the caller's favourites |
| Favorieten.FavorietenLijstAlleenBedoeld | api/src/services/favoriet.service.js:29-52 | for every table the list as written fails while the intended one succeeds |
| Favorieten.FavorietenPagina | api/src/services/favoriet.service.js:17-66 | a page of the caller's sorted favourites holds only favourites the caller stored, still newest first |
| Basis.Klein | api/src/services/woning.service.js:52 | lower-casing keeps the length and maps each capital letter to a small one and leaves other characters alone, the case folding a case-insensitive LIKE applies |
| Basis.JsLengteInBmp | api/src/utils/validator.utils.js:86 | for text inside the Basic Multilingual Plane, JavaScript's `length` is the number of characters |
| Basis.EmojiTeltDubbel | api/src/utils/validator.utils.js:86 | one character outside the Basic Multilingual Plane has `length` 2 |
| Basis.JsLengteSamen | api/src/services/geocoding.serrvice.js:30 | `length` adds up over concatenation, so a cache key's length is its prefix's plus the address's |
| Basis.PrefixPatroon | api/src/services/woning.service.js:52 | without wildcards, the LIKE pattern `q%` matches exactly the texts that start with `q` |
| Basis.OmslotenPatroon | api/src/services/woning.service.js:52 | without wildcards, the LIKE pattern `%q%` matches exactly the texts that contain `q` |
| Basis.LijktOpZonderJokers | api/src/services/woning.service.js:52 | for a value without `%` or `_`, the case-insensitive LIKE `%value%` is exactly a case-insensitive substring test |
| Basis.JokerInZoekterm | api/src/services/woning.service.js:72-75 | a `_` in the search text matches any one character: G_nt finds Gent, which does not contain that text |
| Basis.BevatOpPositie | api/src/services/woning.service.js:52 | a text contains a part exactly when the part occurs at some position |
| Basis.ZonderVoorloopWit | api/src/controllers/woning.controller.js:32 | parseInt first drops leading white space: the rest is a suffix starting with a non-space |
| Basis.CijferPrefix | api/src/controllers/woning.controller.js:32 | parseInt reads the longest run of digits valid in the radix, stopping at the first character that is not one |
| Basis.ParseInt | api/src/controllers/woning.controller.js:32-33 | parseInt gives NaN exactly when no digit follows the optional sign and radix prefix |
| Basis.ParseIntNaNatNaarTekst | api/src/controllers/woning.controller.js:46-47 | parseInt of the decimal text of a natural number gives back that number |
| Basis.ParseIntVanWoord | api/src/controllers/woning.controller.js:46-47 | parseInt of a text starting with a letter is NaN |
| Basis.ParseIntVanCijfers | api/src/controllers/woning.controller.js:46-47 | parseInt of a text of digits is a natural number |
| Basis.SqlGetalVanCijfers | api/src/services/woning.service.js:67-69 | a seller id made only of digits is compared with the integer column as the number those digits spell |
| Basis.SqlGetalNaNatNaarTekst | api/src/services/woning.service.js:67-69 | the decimal text of any natural number is compared as that number |
| Basis.SqlGetalNulFractie | api/src/services/woning.service.js:67-69 | a text id with a zero fraction or a zero exponent (`5.0`, `5e0`) is compared as the whole number |
| Basis.SqlGetalMetWitEnTeken | api/src/services/woning.service.js:67-69 | white space around a text id and a leading sign do not stop it being compared as a number; a minus negates it |
| Basis.SqlGetalGeenGetal | api/src/services/woning.service.js:67-69 | hexadecimal, an exponent without digits, a word, a lone point and the empty text stay text and match no integer id |
| Basis.Filter | api/src/services/woning.service.js:83-90 | filtering keeps the rows that pass, all of them, in table order, and nothing else |
| Lijsten.RichtingVanAanvaardt | api/src/services/woning.service.js:88 | an order direction, once lower-cased, is accepted exactly when it is one of the ORM's eight forms (asc, desc, each with or without nulls first or nulls last, and a bare nulls first or nulls last); anything else is refused |
| Lijsten.RichtingVanAflopend | api/src/services/woning.service.js:88 | an accepted direction sorts descending exactly when its text starts with desc, so a bare nulls first or nulls last sorts ascending |
| Lijsten.RichtingVanNullenEerst | api/src/services/woning.service.js:88 | an accepted direction puts NULL values first exactly when it ends in the word first |
| Lijsten.RichtingVanNullenLaatst | api/src/services/woning.service.js:88 | an accepted direction puts NULL values last exactly when it ends in the word last |
| Lijsten.ZoekKolom | api/src/services/woning.service.js:88 | a sort column is resolved exactly when some column has the same name up to letter case; the column found is such a column, and a name that is itself a column resolves to that column |
| Lijsten.EigenNaamBekend | api/src/services/woning.service.js:26 | a column's own name is known and resolves to itself, so the default sort column always resolves |
| Lijsten.NullenOpHunPlaats | api/src/services/woning.service.js:88 | in rows sorted with a NULLS FIRST placement no non-NULL value precedes a NULL one, and with NULLS LAST no NULL precedes a non-NULL one |
| Lijsten.WaardenOpVolgorde | api/src/services/woning.service.js:88 | in sorted rows, two values that are both NULL or both not NULL (any two, when the direction names no NULL placement) come in the column's order in the requested direction |
| Lijsten.Lijst | api/src/services/woning.service.js:78-127 | a filtered, sorted, paged list succeeds exactly when every where column is known, the sort column names a column up to letter case, the direction is one of the accepted forms and paging parsed; otherwise 500; the total counts the whole selection, the page repeats the request, the page count is the ceiling quotient, and the rows are at most a page drawn from the selection |
| Lijsten.LijstRijenVoldoen | api/src/services/woning.service.js:83-88 | every listed row is in the table and satisfies every condition |
| Lijsten.LijstGesorteerd | api/src/services/woning.service.js:88 | the listed rows are ordered on the resolved column in the requested direction, NULL values placed first or last when the direction says so |
| Lijsten.LijstNieuwsteEerst | api/src/services/gebruiker.service.js:45 | a listing ordered by `aangemaaktOp` descending shows its page newest first |
| Lijsten.DeelVanGesorteerd | api/src/services/woning.service.js:86-88 | a page cut from a sorted list is sorted |
| Lijsten.BereikIsGrenzen | api/src/services/woning.service.js:38-45 | the range condition on a column holds exactly when the column meets each bound that is given |
| Lijsten.PositieVan | api/src/services/gebruiker.service.js:68 | a primary-key lookup finds a row with the key or reports that none has it |
| Lijsten.PositieIsEnige | api/src/services/gebruiker.service.js:68 | with unique keys, the lookup finds exactly the row that has the key |
| Lijsten.ZonderRijKlopt | api/src/services/gebruiker.service.js:119 | destroying a row keeps the other rows in order, keeps keys unique and removes the key |
| Lijsten.ToevoegenHoudtUniek | api/src/services/bezichtiging.service.js:226-235 | inserting a row under the next auto-increment id keeps keys unique |
| Voorwaarden.Selecteer | api/src/services/woning.service.js:83-85 | a where-clause fails with 500 exactly when it names an unknown column; otherwise it keeps exactly the rows satisfying every condition, in table order |
| Voorwaarden.SelecteerIsFilter | api/src/services/woning.service.js:83-85 | a selection equals the filter by any predicate that agrees with the conditions row by row |
| Voorwaarden.NullVoldoetAanGeenVergelijking | api/src/services/woning.service.js:38-75 | a NULL column satisfies no equality, bound, range, not-null or LIKE condition on it |
| Voorwaarden.TussenIsTweeGrenzen | api/src/services/beheerder.service.js:117 | BETWEEN holds exactly when both inclusive bounds hold |
| Paginatie.Venster | api/src/services/woning.service.js:86-87 | LIMIT and OFFSET give the rows from the offset on, at most the limit of them, and nothing past the end |
| Paginatie.Pagineer | api/src/services/woning.service.js:78-127 | a page reports the full count and the requested page and size, and holds at most a page of the rows |
| Paginatie.TotaalPaginasIsKleinsteAantal | api/src/services/woning.service.js:116 | for a positive page size the page count is the least number of pages that holds every row |
| Paginatie.AllePaginasSamenZijnAlleRijen | api/src/services/woning.service.js:81-116 | walking pages one to the page count returns every row exactly once, in order |
| Paginatie.VijftienRijenTweedePagina | api/src/services/woning.service.js:81 | fifteen rows with ten per page: page two starts at offset ten, holds the last five rows, and there are two pages |
| Sorteren.Sorteer | api/src/services/woning.service.js:88 | sorting keeps exactly the same rows |
| Sorteren.SorteerKlopt | api/src/services/woning.service.js:88 | the sorted rows are ordered on the key in the direction and are a permutation of the input |

## Left out

- I/O is not modelled: HTTP framing, JSON bodies, file uploads on disk and `fs.unlink`. The model receives the uploaded file names and never deletes files.
- The clock is a parameter `nu` wherever the source reads the current time. The server's time zone is taken to be UTC.
- Floating-point parsing (`parseFloat`), trigonometry, the Haversine distance and rounding are parameters or oracle functions. Only their documented properties are used.
- The Mapbox provider is a parameter that answers a request with a list of features or a failure. Network errors and the provider's own behaviour are not modelled.
- The cache's 7-day expiry (NodeCache TTL) is not modelled: cached entries never expire.
- Password hashing and token signing and verification are parameters. The model only tracks which token belongs to which user.
- The error middleware's mapping of thrown errors to responses is not modelled. Services return their own status code; the middleware honours that code only when the error carries a message field, so in the running system many of these answers would be 500.
- `zoekAdressenInPolygoon` in the geocoding service is not modelled. It passes a polygon straight to the provider.
- `zoekWoningenInPolygoon` is not modelled. It relies on PostGIS functions that SQLite does not have.
- `getDashboardStats` is not modelled. It aggregates counts with raw SQL literals.
- `lambert72NaarWGS84` is not modelled. It is a floating-point projection.
- `toRadialen` and `berekenAfstand` are parameters.
- The favourites and features controllers are not modelled. They only pass their request fields to the services, which are modelled.
- Some wiring defects are outside the model:
  - the misspelt file name of the geocoding service;
  - the suggestion routes, which are never mounted;
  - the favourites routes, which pass `validatieMiddleware.valideerFavoriet` to `router.post` although the validation middleware never exports it (`api/src/routes/favoriet.routes.js:33`, `api/src/middleware/validatie.middleware.js:202-209`). Express throws on the undefined handler when `app.js` loads the routes, so as written the API does not start;
  - the geocoding property service, which exports nothing and calls `getWoningen` and `zoekWoningenInStraal` without defining them. The model takes these to be the property service's functions.
- Counts assume one row per record. The ORM's `findAndCountAll` over joined includes without `distinct` may count a property once per joined row.
- Where-clause keys whose value is `undefined` are dropped, as older ORM versions do. Recent versions reject them instead, which would make the controller's radius search fail.
- A HAVING clause without GROUP BY is treated as a plain filter on the computed distance.
- Rows that tie in an ordering come out in one fixed order chosen by the model. SQLite leaves that order unspecified.
- SQLite's reading of numeric text (`Basis.SqlGetal`) uses exact values. Rounding to a double and texts beyond the 64-bit integer range are not modelled.
- Identifiers taken from URL parameters are passed to the services as strings in the source; the model takes them as integers.
- The controllers' paging parameters are `Option<int>` arguments. `None` stands for a `parseInt` that gave NaN.
- Promise.all is modelled as applying its updates in list order. The updates of one reorder request touch distinct rows except for repeated ids, where the model lets the last entry win.
- Request body fields that no operation reads are not modelled, and neither are the contents of included associations (seller, images, features) beyond what a contract states.
- Kenmerken.MaakKenmerk: a request without a name is not modelled; the name is always present.
- Afbeeldingen.UpdateAfbeeldingVolgorde: reorder entries are always integer pairs; malformed entries are not modelled.
- Kenmerken.VoegWoningKenmerkenToe: requires unique ids in the feature table, which its primary key guarantees.
- Lijsten.Lijst: states that the page is drawn from the selection and bounded in size; it does not state which rows the offset selects. Paginatie.Venster states that separately.
- Geocoding.GetGeocodingCacheStats: the hit rate is an exact ratio, not a JavaScript double, and the key-size counter does not shrink on expiry since expiry is not modelled.
- Lijsten.RichtingUit: letter case folds ASCII letters only; the ORM compares directions after `toUpperCase`, which also folds other scripts.
- Geo.PlaceholderGeocode: lower-cases ASCII letters only before matching the place names; `toLowerCase` folds every script, so an address whose only match is spelled with a non-ASCII capital ("LUI" followed by the Kelvin sign U+212A, which `toLowerCase` turns into k, say) falls back to Brussels in the model where the source finds the place.
- Lijsten.ZoekKolom: when several columns match a sort name up to letter case, the model picks the least such name; the tables modelled have no two such columns.
- Where-clause keys are matched to columns exactly. SQLite would also accept them in another letter case, but the code only builds them from fixed names, except the keys the radius search and the region search copy from their filters.
- Bezichtigingen.UpdateBezichtigingStatus: answers 400 for a status outside the model's enumeration. The service itself checks nothing and SQLite would store the text, but the controller refuses such a status first, so through the route the answer is the same.
- Beheerder.UpdateWoningStatus: answers 400 for a status outside the enumeration for the same reason; the admin controller refuses such a status first.
- Woningen.MaakRecord: refuses a status outside the enumeration with 400, which the route's validator (validatie.middleware.js:127-130) does before the model is reached; a body id is a natural number and a body creation time an integer.
- Kenmerken.MaakKenmerk: a category given as null is not modelled; an absent category becomes overig.
- Kenmerken.UpdateKenmerk: body fields other than name, category and icon are not modelled, so the id and creation time are always kept. An empty new name is checked for uniqueness like any other; the source skips its own check for a falsy name and leaves a clash to the unique index.

## Findings

| source | as written | input that shows it | evidently intended | confidence | as-written member | corrected member |
|---|---|---|---|---|---|---|
| api/src/services/woning.service.js:150 | the radius search copies the raw filters into the where-clause, so `minPrijs`, `maxPrijs`, `minOppervlakte`, `minSlaapkamers` and `minBadkamers` become column names | a radius search with `minPrijs=100000` | translate the numeric filters into bounds on `prijs`, `oppervlakte`, `slaapkamers` and `badkamers`, as the plain listing does | high, not executed | WoningService.MinPrijsBrengtStraalZoekenTotFout | WoningService.MetGrenzenZonderGetallenIsOrigineel |
| api/src/services/beheerder.service.js:110-117 | each month's window ends at midnight at the start of the month's last day | a user created at 10:00 on 31 March is not counted in March nor in April | the window covers the whole last day | high, not executed | Beheerder.GebruikerOpLaatsteDagOntbreekt | Beheerder.HeleMaandTeltIedereen |
| api/src/services/afbeelding.service.js:90-102 | deleting a primary image first unlinks the file, then uses `Op`, which the file never imports, so the request throws: the database row stays, pointing at a file that is gone | deleting the only primary image of a property, by its seller | delete it and make the property's next image by order primary | high, not executed | Afbeeldingen.PrimaireAfbeeldingBlijftStaan | Afbeeldingen.VerwijderBedoeldHoudtPrimair |
| api/src/services/afbeelding.service.js:146-154 | all images are reset in the database and then the loaded instance is saved with `isPrimair = true`; that instance already said true, so nothing is written | setting the image that already is primary as primary again | the chosen image stays the property's only primary image | high, not executed | Afbeeldingen.NogmaalsPrimairWistPrimair | Afbeeldingen.SetPrimairBedoeldHoudtInvariant |
| api/src/services/kenmerk.service.js:156-165 | the query includes property links under the alias `woningKenmerken`, which the feature model never declares | listing the features of any existing property | the features linked to the property with their values | medium (depends on the ORM's association rules), not executed | Kenmerken.WoningKenmerkenAlleenBedoeld | Kenmerken.GetWoningKenmerkenBedoeld |
| api/src/services/favoriet.service.js:29-52 | the query includes the property under the alias `woning`, which no association of the favourite model declares | listing any user's favourites | a page of the user's favourites, newest first | medium (depends on the ORM's association rules), not executed | Favorieten.FavorietenLijstAlleenBedoeld | Favorieten.AllePaginasZijnAlleFavorieten |

=== FILE: afbeelding.dfy ===
/**
  * The `woningAfbeelding` record (an image of a property) and the image
  * service: storing an upload, deleting, choosing the primary image and
  * reordering. The service throws plain errors, which reach the client as
  * a 500. Files on disk are not modelled; an upload is the list of the
  * stored file names. Keys of the property table are looked up with
  * `WoningService.Positie`.
  *
  * The central invariant is that no property has two primary images.
  */
module Afbeeldingen {
  import opened Basis
  import opened Sorteren
  import opened Lijsten
  import Woningen
  import WoningService

  datatype Afbeelding = Afbeelding(
    id: int,
    woningId: int,
    afbeeldingUrl: string,
    isPrimair: bool,
    bestandsnaam: string,
    volgorde: int,
    aangemaaktOp: int)

  type Tabel = seq<Afbeelding>

  function Id(a: Afbeelding): int { a.id }

  /** The public path under which an uploaded file is served. */
  const UploadPad: string := "/uploads/afbeeldingen/"

  function VanWoning(woningId: int): Afbeelding -> bool
  {
    (a: Afbeelding) => a.woningId == woningId
  }

  /** The images of one property, in table order. */
  function AfbeeldingenVan(tabel: Tabel, woningId: int): (r: seq<Afbeelding>)
    ensures forall i :: 0 <= i < |r| ==> r[i].woningId == woningId
    ensures |r| == 0 <==> forall i :: 0 <= i < |tabel| ==> tabel[i].woningId != woningId
  {
    var r := Filter(tabel, VanWoning(woningId));
    assert |r| > 0 ==> exists i :: 0 <= i < |tabel| && tabel[i].woningId == woningId by {
      if |r| > 0 {
        assert r[0] in tabel;
      }
    }
    r
  }

  /** The single-primary invariant: no property has two primary images. */
  predicate HoogstensEenPrimair(tabel: Tabel)
  {
    forall i, j :: 0 <= i < j < |tabel| && tabel[i].isPrimair && tabel[j].isPrimair ==>
      tabel[i].woningId != tabel[j].woningId
  }

  /** The property owns the image: its seller is the caller. */
  predicate Eigenaar(woningen: seq<Woningen.Woning>, woningId: int, verkoperId: int)
  {
    var q := WoningService.Positie(woningen, woningId);
    q.Some? && woningen[q.value].verkoperId == verkoperId
  }

  // ---------------------------------------------------------------------
  // opslaanAfbeeldingen
  // ---------------------------------------------------------------------

  /**
    * opslaanAfbeeldingen: a missing property is an error; an empty upload
    * stores nothing. Otherwise the files are numbered on from the images
    * the property already has, and the first file becomes primary only
    * when the property had none and the client did not say that the upload
    * holds a primary image itself.
    */
  function OpslaanAfbeeldingen(tabel: Tabel, woningen: seq<Woningen.Woning>, woningId: int,
                               bestanden: seq<string>, bevatPrimair: bool, nu: int): (r: Result<(seq<Afbeelding>, Tabel)>)
    ensures r.Err? <==> WoningService.Positie(woningen, woningId).None?
    ensures r.Err? ==> r.code == ServerError
    ensures r.Ok? && bestanden == [] ==> r.value == ([], tabel)
    ensures r.Ok? ==> var (nieuw, t) := r.value; var bestaand := |AfbeeldingenVan(tabel, woningId)|;
      && t == tabel + nieuw
      && |nieuw| == |bestanden|
      && (forall i :: 0 <= i < |nieuw| ==>
            && nieuw[i].woningId == woningId
            && nieuw[i].bestandsnaam == bestanden[i]
            && nieuw[i].afbeeldingUrl == UploadPad + bestanden[i]
            && nieuw[i].volgorde == bestaand + i
            && (nieuw[i].isPrimair <==> i == 0 && bestaand == 0 && !bevatPrimair)
            && nieuw[i].aangemaaktOp == nu
            && forall j :: 0 <= j < |tabel| ==> tabel[j].id != nieuw[i].id)
    ensures r.Ok? && UniekOp(tabel, Id) ==> UniekOp(r.value.1, Id)
    ensures r.Ok? && HoogstensEenPrimair(tabel) ==> HoogstensEenPrimair(r.value.1)
  {
    if WoningService.Positie(woningen, woningId).None? then Err(ServerError)
    else if bestanden == [] then Ok(([], tabel))
    else
      var bestaand := |AfbeeldingenVan(tabel, woningId)|;
      var eersteId := VolgendId(tabel, Id);
      var nieuw := seq(|bestanden|, i requires 0 <= i < |bestanden| =>
        Afbeelding(eersteId + i, woningId, UploadPad + bestanden[i],
                   bestaand == 0 && i == 0 && !bevatPrimair, bestanden[i], bestaand + i, nu));
      OpslaanKlopt(tabel, woningId, nieuw, eersteId, bestaand);
      Ok((nieuw, tabel + nieuw))
  }

  /** Appending the numbered upload keeps ids unique and keeps at most one primary image per property. */
  lemma OpslaanKlopt(tabel: Tabel, woningId: int, nieuw: seq<Afbeelding>, eersteId: int, bestaand: nat)
    requires eersteId == VolgendId(tabel, Id)
    requires bestaand == |AfbeeldingenVan(tabel, woningId)|
    requires forall i :: 0 <= i < |nieuw| ==> nieuw[i].id == eersteId + i && nieuw[i].woningId == woningId
    requires forall i :: 0 <= i < |nieuw| && nieuw[i].isPrimair ==> i == 0 && bestaand == 0
    ensures UniekOp(tabel, Id) ==> UniekOp(tabel + nieuw, Id)
    ensures HoogstensEenPrimair(tabel) ==> HoogstensEenPrimair(tabel + nieuw)
    ensures forall i, j :: 0 <= i < |nieuw| && 0 <= j < |tabel| ==> tabel[j].id != nieuw[i].id
  {
    var t := tabel + nieuw;
    forall i, j | 0 <= i < |nieuw| && 0 <= j < |tabel| ensures tabel[j].id != nieuw[i].id {
      assert Id(tabel[j]) < eersteId;
    }
    if UniekOp(tabel, Id) {
      forall i, j | 0 <= i < j < |t| ensures Id(t[i]) != Id(t[j]) {
        if j >= |tabel| {
          if i >= |tabel| {
            assert t[i] == nieuw[i - |tabel|] && t[j] == nieuw[j - |tabel|];
          } else {
            assert t[i] == tabel[i] && t[j] == nieuw[j - |tabel|];
          }
        } else {
          assert t[i] == tabel[i] && t[j] == tabel[j];
        }
      }
    }
    if HoogstensEenPrimair(tabel) {
      forall i, j | 0 <= i < j < |t| && t[i].isPrimair && t[j].isPrimair ensures t[i].woningId != t[j].woningId {
        if j >= |tabel| {
          assert t[j] == nieuw[j - |tabel|];
          assert j - |tabel| == 0 && bestaand == 0;
          assert i < |tabel| && t[i] == tabel[i];
        } else {
          assert t[i] == tabel[i] && t[j] == tabel[j];
        }
      }
    }
  }

  // ---------------------------------------------------------------------
  // setPrimaireAfbeelding
  // ---------------------------------------------------------------------

  /** `update({ isPrimair: false }, { where: { woningId } })`: every image of the property stops being primary. */
  function ResetPrimair(tabel: Tabel, woningId: int): (r: Tabel)
    ensures |r| == |tabel|
    ensures forall i :: 0 <= i < |r| ==> r[i] == (if tabel[i].woningId == woningId then tabel[i].(isPrimair := false) else tabel[i])
  {
    seq(|tabel|, i requires 0 <= i < |tabel| =>
      if tabel[i].woningId == woningId then tabel[i].(isPrimair := false) else tabel[i])
  }

  /**
    * The image at `p`, found by id and owned by the caller, is made the
    * primary one of its property: the reset, then the image marked primary.
    */
  function PrimairMaken(tabel: Tabel, p: nat): (r: Tabel)
    requires p < |tabel|
    ensures |r| == |tabel|
    ensures forall i :: 0 <= i < |r| && r[i].woningId == tabel[p].woningId ==> (r[i].isPrimair <==> i == p)
    ensures forall i :: 0 <= i < |r| && tabel[i].woningId != tabel[p].woningId ==> r[i] == tabel[i]
    ensures forall i :: 0 <= i < |r| ==> r[i].(isPrimair := tabel[i].isPrimair) == tabel[i]
  {
    var gereset := ResetPrimair(tabel, tabel[p].woningId);
    gereset[p := gereset[p].(isPrimair := true)]
  }

  /** The caller's image at position `p`, or the error the service throws. */
  function EigenAfbeelding(tabel: Tabel, woningen: seq<Woningen.Woning>, afbeeldingId: int, verkoperId: int): (r: Result<nat>)
    ensures r.Ok? <==> PositieVan(tabel, Id, afbeeldingId).Some? && Eigenaar(woningen, tabel[PositieVan(tabel, Id, afbeeldingId).value].woningId, verkoperId)
    ensures r.Ok? ==> r.value < |tabel| && r == Ok(PositieVan(tabel, Id, afbeeldingId).value)
    ensures r.Err? ==> r.code == ServerError
  {
    match PositieVan(tabel, Id, afbeeldingId)
    case None => Err(ServerError)
    case Some(p) =>
      // a missing property leaves `afbeelding.woning` null, and reading its seller throws
      if !Eigenaar(woningen, tabel[p].woningId, verkoperId) then Err(ServerError)
      else Ok(p)
  }

  /**
    * setPrimaireAfbeelding as written: all the property's images are reset,
    * then the loaded image is set to primary and saved. `save()` writes only
    * the columns whose value differs from the loaded one, and the loaded
    * image of an already primary image still reads `isPrimair = true`: then
    * nothing is written, and the property is left with no primary image
    * while the returned record says it is primary.
    */
  function SetPrimaireAfbeelding(tabel: Tabel, woningen: seq<Woningen.Woning>, afbeeldingId: int, verkoperId: int): (r: Result<(Afbeelding, Tabel)>)
    ensures r.Ok? <==> EigenAfbeelding(tabel, woningen, afbeeldingId, verkoperId).Ok?
    ensures r.Err? ==> r.code == ServerError
    ensures r.Ok? ==> var (a, t) := r.value; var p := PositieVan(tabel, Id, afbeeldingId).value; var w := tabel[p].woningId;
      && a == tabel[p].(isPrimair := true)
      && |t| == |tabel|
      && (forall i :: 0 <= i < |t| && t[i].woningId == w ==> (t[i].isPrimair <==> i == p && !tabel[p].isPrimair))
      && (forall i :: 0 <= i < |t| && tabel[i].woningId != w ==> t[i] == tabel[i])
      && (forall i :: 0 <= i < |t| ==> t[i].(isPrimair := tabel[i].isPrimair) == tabel[i])
  {
    match EigenAfbeelding(tabel, woningen, afbeeldingId, verkoperId)
    case Err(c) => Err(c)
    case Ok(p) =>
      var t := if tabel[p].isPrimair then ResetPrimair(tabel, tabel[p].woningId) else PrimairMaken(tabel, p);
      Ok((tabel[p].(isPrimair := true), t))
  }

  /** Choosing the current primary image again leaves its property with no primary image at all. */
  lemma NogmaalsPrimairWistPrimair(tabel: Tabel, woningen: seq<Woningen.Woning>, afbeeldingId: int, verkoperId: int)
    requires SetPrimaireAfbeelding(tabel, woningen, afbeeldingId, verkoperId).Ok?
    requires tabel[PositieVan(tabel, Id, afbeeldingId).value].isPrimair
    ensures var (a, t) := SetPrimaireAfbeelding(tabel, woningen, afbeeldingId, verkoperId).value;
      && a.isPrimair
      && forall i :: 0 <= i < |t| && t[i].woningId == a.woningId ==> !t[i].isPrimair
  {
  }

  /** setPrimaireAfbeelding as intended: the chosen image always ends up the only primary one of its property. */
  function SetPrimaireAfbeeldingBedoeld(tabel: Tabel, woningen: seq<Woningen.Woning>, afbeeldingId: int, verkoperId: int): (r: Result<(Afbeelding, Tabel)>)
    ensures r.Ok? <==> EigenAfbeelding(tabel, woningen, afbeeldingId, verkoperId).Ok?
    ensures r.Err? ==> r.code == ServerError
    ensures r.Ok? ==> var (a, t) := r.value; var p := PositieVan(tabel, Id, afbeeldingId).value; var w := tabel[p].woningId;
      && |t| == |tabel|
      && a == t[p] && a.isPrimair && a.id == afbeeldingId
      && (forall i :: 0 <= i < |t| && t[i].woningId == w ==> (t[i].isPrimair <==> i == p))
      && (forall i :: 0 <= i < |t| && tabel[i].woningId != w ==> t[i] == tabel[i])
      && (forall i :: 0 <= i < |t| ==> t[i].(isPrimair := tabel[i].isPrimair) == tabel[i])
  {
    match EigenAfbeelding(tabel, woningen, afbeeldingId, verkoperId)
    case Err(c) => Err(c)
    case Ok(p) =>
      var t := PrimairMaken(tabel, p);
      Ok((t[p], t))
  }

  /** The intended operation keeps ids unique and keeps at most one primary image per property. */
  lemma SetPrimairBedoeldHoudtInvariant(tabel: Tabel, woningen: seq<Woningen.Woning>, afbeeldingId: int, verkoperId: int)
    requires HoogstensEenPrimair(tabel) && UniekOp(tabel, Id)
    requires SetPrimaireAfbeeldingBedoeld(tabel, woningen, afbeeldingId, verkoperId).Ok?
    ensures var t := SetPrimaireAfbeeldingBedoeld(tabel, woningen, afbeeldingId, verkoperId).value.1;
      HoogstensEenPrimair(t) && UniekOp(t, Id)
  {
    var t := SetPrimaireAfbeeldingBedoeld(tabel, woningen, afbeeldingId, verkoperId).value.1;
    var p := PositieVan(tabel, Id, afbeeldingId).value;
    forall i, j | 0 <= i < j < |t| ensures Id(t[i]) != Id(t[j]) {
      assert t[i].id == tabel[i].id && t[j].id == tabel[j].id;
    }
    forall i, j | 0 <= i < j < |t| && t[i].isPrimair && t[j].isPrimair ensures t[i].woningId != t[j].woningId {
      assert t[i].woningId == tabel[i].woningId && t[j].woningId == tabel[j].woningId;
      if tabel[i].woningId != tabel[p].woningId && tabel[j].woningId != tabel[p].woningId {
        assert t[i] == tabel[i] && t[j] == tabel[j];
      }
    }
  }

  // ---------------------------------------------------------------------
  // verwijderAfbeelding
  // ---------------------------------------------------------------------

  /**
    * verwijderAfbeelding as written: the image is looked up and its owner
    * checked; a non-primary image is removed. For a primary image the
    * lookup of a successor builds its condition with `Op.ne`, but `Op` is
    * never imported into the service, so evaluating it throws and the
    * image stays (its file has already been unlinked).
    */
  function VerwijderAfbeelding(tabel: Tabel, woningen: seq<Woningen.Woning>, afbeeldingId: int, verkoperId: int): (r: Result<Tabel>)
    ensures r.Ok? <==> EigenAfbeelding(tabel, woningen, afbeeldingId, verkoperId).Ok? && !tabel[PositieVan(tabel, Id, afbeeldingId).value].isPrimair
    ensures r.Err? ==> r.code == ServerError
    ensures r.Ok? ==> |r.value| == |tabel| - 1 && Deelrij(r.value, tabel)
    ensures r.Ok? && UniekOp(tabel, Id) ==> UniekOp(r.value, Id) && forall i :: 0 <= i < |r.value| ==> r.value[i].id != afbeeldingId
  {
    match EigenAfbeelding(tabel, woningen, afbeeldingId, verkoperId)
    case Err(c) => Err(c)
    case Ok(p) =>
      if tabel[p].isPrimair then Err(ServerError)
      else
        ZonderRijKlopt(tabel, Id, p);
        Ok(ZonderRij(tabel, p))
  }

  /**
    * `findOne({ where: { woningId }, order: [['volgorde', 'ASC']] })`: the
    * position of an image of the property with the lowest `volgorde`, the
    * first in table order among equals.
    */
  function EersteOpVolgorde(tabel: Tabel, woningId: int): (r: Option<nat>)
    ensures r.None? <==> forall i :: 0 <= i < |tabel| ==> tabel[i].woningId != woningId
    ensures r.Some? ==> r.value < |tabel| && tabel[r.value].woningId == woningId
    ensures r.Some? ==> forall i :: 0 <= i < |tabel| && tabel[i].woningId == woningId ==> tabel[r.value].volgorde <= tabel[i].volgorde
    ensures r.Some? ==> forall i :: 0 <= i < r.value && tabel[i].woningId == woningId ==> tabel[r.value].volgorde < tabel[i].volgorde
  {
    if tabel == [] then None
    else match EersteOpVolgorde(tabel[1..], woningId)
      case None => if tabel[0].woningId == woningId then Some(0) else None
      case Some(q) =>
        if tabel[0].woningId == woningId && tabel[0].volgorde <= tabel[q + 1].volgorde then Some(0)
        else Some(q + 1)
  }

  /**
    * verwijderAfbeelding as intended: when the removed image was primary,
    * the remaining image of the same property with the lowest `volgorde`
    * becomes primary; then the image is removed.
    */
  function VerwijderAfbeeldingBedoeld(tabel: Tabel, woningen: seq<Woningen.Woning>, afbeeldingId: int, verkoperId: int): (r: Result<Tabel>)
    ensures r.Ok? <==> EigenAfbeelding(tabel, woningen, afbeeldingId, verkoperId).Ok?
    ensures r.Err? ==> r.code == ServerError
    ensures r.Ok? ==> var p := PositieVan(tabel, Id, afbeeldingId).value; var rest := ZonderRij(tabel, p);
      && |r.value| == |tabel| - 1
      && (forall i :: 0 <= i < |rest| ==> r.value[i].(isPrimair := rest[i].isPrimair) == rest[i])
      && (forall i :: 0 <= i < |rest| && r.value[i].isPrimair != rest[i].isPrimair ==>
            tabel[p].isPrimair && r.value[i].isPrimair && rest[i].woningId == tabel[p].woningId)
  {
    match EigenAfbeelding(tabel, woningen, afbeeldingId, verkoperId)
    case Err(c) => Err(c)
    case Ok(p) =>
      var rest := ZonderRij(tabel, p);
      if !tabel[p].isPrimair then Ok(rest)
      else match EersteOpVolgorde(rest, tabel[p].woningId)
        case None => Ok(rest)
        case Some(q) => Ok(rest[q := rest[q].(isPrimair := true)])
  }

  /** Rows with the same ids in the same places have unique ids when the originals do. */
  lemma ZelfdeIdsUniek(a: Tabel, b: Tabel)
    requires |a| == |b| && UniekOp(a, Id)
    requires forall i :: 0 <= i < |a| ==> a[i].id == b[i].id
    ensures UniekOp(b, Id)
  {
    forall i, j | 0 <= i < j < |b| ensures Id(b[i]) != Id(b[j]) {
      assert Id(a[i]) != Id(a[j]);
    }
  }

  /** Removing a row keeps at most one primary image per property. */
  lemma ZonderRijHoudtPrimair(tabel: Tabel, p: nat)
    requires p < |tabel| && HoogstensEenPrimair(tabel)
    ensures HoogstensEenPrimair(ZonderRij(tabel, p))
  {
    var rest := ZonderRij(tabel, p);
    forall i, j | 0 <= i < j < |rest| && rest[i].isPrimair && rest[j].isPrimair ensures rest[i].woningId != rest[j].woningId {
      var i' := if i < p then i else i + 1;
      var j' := if j < p then j else j + 1;
      assert rest[i] == tabel[i'] && rest[j] == tabel[j'];
    }
  }

  /** Removing the primary image of its property leaves the property with no primary image. */
  lemma ZonderPrimair(tabel: Tabel, p: nat)
    requires p < |tabel| && HoogstensEenPrimair(tabel) && tabel[p].isPrimair
    ensures HoogstensEenPrimair(ZonderRij(tabel, p))
    ensures forall i :: 0 <= i < |tabel| - 1 && ZonderRij(tabel, p)[i].woningId == tabel[p].woningId ==> !ZonderRij(tabel, p)[i].isPrimair
  {
    var rest := ZonderRij(tabel, p);
    ZonderRijHoudtPrimair(tabel, p);
    forall i | 0 <= i < |rest| && rest[i].woningId == tabel[p].woningId ensures !rest[i].isPrimair {
      var i' := if i < p then i else i + 1;
      assert rest[i] == tabel[i'];
    }
  }

  /** Promoting an image of a property without a primary image keeps at most one primary per property. */
  lemma PromoverenHoudtInvariant(rest: Tabel, q: nat)
    requires q < |rest| && HoogstensEenPrimair(rest)
    requires forall i :: 0 <= i < |rest| && rest[i].woningId == rest[q].woningId ==> !rest[i].isPrimair
    ensures HoogstensEenPrimair(rest[q := rest[q].(isPrimair := true)])
  {
    var t := rest[q := rest[q].(isPrimair := true)];
    forall i, j | 0 <= i < j < |t| && t[i].isPrimair && t[j].isPrimair ensures t[i].woningId != t[j].woningId {
      if i != q && j != q {
        assert t[i] == rest[i] && t[j] == rest[j];
      } else if i == q {
        assert t[j] == rest[j];
      } else {
        assert t[i] == rest[i];
      }
    }
  }

  /**
    * Removing an image with the intended operation keeps the invariant, and
    * a removed primary image passes the primary role on: when the property
    * keeps any image, one of them is primary, one with the lowest `volgorde`.
    */
  lemma VerwijderBedoeldHoudtPrimair(tabel: Tabel, woningen: seq<Woningen.Woning>, afbeeldingId: int, verkoperId: int)
    requires HoogstensEenPrimair(tabel) && UniekOp(tabel, Id)
    requires VerwijderAfbeeldingBedoeld(tabel, woningen, afbeeldingId, verkoperId).Ok?
    ensures var t := VerwijderAfbeeldingBedoeld(tabel, woningen, afbeeldingId, verkoperId).value;
      HoogstensEenPrimair(t) && UniekOp(t, Id)
    ensures var t := VerwijderAfbeeldingBedoeld(tabel, woningen, afbeeldingId, verkoperId).value;
      var w := tabel[PositieVan(tabel, Id, afbeeldingId).value].woningId;
      tabel[PositieVan(tabel, Id, afbeeldingId).value].isPrimair && (exists i :: 0 <= i < |t| && t[i].woningId == w) ==>
        exists i :: (0 <= i < |t| && t[i].woningId == w && t[i].isPrimair
                     && forall j :: 0 <= j < |t| && t[j].woningId == w ==> t[i].volgorde <= t[j].volgorde)
  {
    var t := VerwijderAfbeeldingBedoeld(tabel, woningen, afbeeldingId, verkoperId).value;
    var p := PositieVan(tabel, Id, afbeeldingId).value;
    var w := tabel[p].woningId;
    var rest := ZonderRij(tabel, p);
    ZonderRijKlopt(tabel, Id, p);
    ZelfdeIdsUniek(rest, t);
    if tabel[p].isPrimair {
      ZonderPrimair(tabel, p);
      match EersteOpVolgorde(rest, w)
      case None =>
      case Some(q) =>
        assert t == rest[q := rest[q].(isPrimair := true)];
        PromoverenHoudtInvariant(rest, q);
        EerstePromoveren(rest, w, q);
    } else {
      assert t == rest;
      ZonderRijHoudtPrimair(tabel, p);
    }
  }

  /** The promoted image is primary and has the lowest `volgorde` of its property. */
  lemma EerstePromoveren(rest: Tabel, w: int, q: nat)
    requires EersteOpVolgorde(rest, w) == Some(q)
    ensures var t := rest[q := rest[q].(isPrimair := true)];
      exists i :: (0 <= i < |t| && t[i].woningId == w && t[i].isPrimair
                   && forall j :: 0 <= j < |t| && t[j].woningId == w ==> t[i].volgorde <= t[j].volgorde)
  {
    var t := rest[q := rest[q].(isPrimair := true)];
    assert t[q].woningId == w && t[q].isPrimair;
    assert forall j :: 0 <= j < |t| && t[j].woningId == w ==> t[q].volgorde <= t[j].volgorde;
  }

  /** A primary image that the intended operation removes is one the source cannot remove at all. */
  lemma PrimaireAfbeeldingBlijftStaan(tabel: Tabel, woningen: seq<Woningen.Woning>, afbeeldingId: int, verkoperId: int)
    requires EigenAfbeelding(tabel, woningen, afbeeldingId, verkoperId).Ok?
    requires tabel[PositieVan(tabel, Id, afbeeldingId).value].isPrimair
    ensures VerwijderAfbeelding(tabel, woningen, afbeeldingId, verkoperId) == Err(ServerError)
    ensures VerwijderAfbeeldingBedoeld(tabel, woningen, afbeeldingId, verkoperId).Ok?
  {
  }

  // ---------------------------------------------------------------------
  // updateAfbeeldingVolgorde
  // ---------------------------------------------------------------------

  /** One entry of the reorder request: an image id and its new position. */
  datatype VolgordeItem = VolgordeItem(id: int, volgorde: int)

  /** `update({ volgorde }, { where: { id, woningId } })` for one entry. */
  function EenVolgorde(tabel: Tabel, woningId: int, item: VolgordeItem): (r: Tabel)
    ensures |r| == |tabel|
    ensures forall i :: 0 <= i < |r| ==>
      r[i] == (if tabel[i].id == item.id && tabel[i].woningId == woningId then tabel[i].(volgorde := item.volgorde) else tabel[i])
  {
    seq(|tabel|, i requires 0 <= i < |tabel| =>
      if tabel[i].id == item.id && tabel[i].woningId == woningId then tabel[i].(volgorde := item.volgorde) else tabel[i])
  }

  /** The updates of all entries, applied in request order. */
  function AlleVolgordes(tabel: Tabel, woningId: int, data: seq<VolgordeItem>): (r: Tabel)
    ensures |r| == |tabel|
    decreases |data|
  {
    if data == [] then tabel
    else AlleVolgordes(EenVolgorde(tabel, woningId, data[0]), woningId, data[1..])
  }

  /** The position the last entry for `id` asks for, if any entry names it. */
  function LaatsteVolgorde(data: seq<VolgordeItem>, id: int): (r: Option<int>)
    ensures r.None? <==> forall k :: 0 <= k < |data| ==> data[k].id != id
    ensures r.Some? ==> exists k :: (0 <= k < |data| && data[k] == VolgordeItem(id, r.value)
                                     && forall k' :: k < k' < |data| ==> data[k'].id != id)
  {
    if data == [] then None
    else
      var rest := LaatsteVolgorde(data[1..], id);
      if rest.Some? then
        ghost var k :| 0 <= k < |data[1..]| && data[1..][k] == VolgordeItem(id, rest.value)
                       && forall k' :: k < k' < |data[1..]| ==> data[1..][k'].id != id;
        assert data[k + 1] == VolgordeItem(id, rest.value);
        assert forall k' :: k + 1 < k' < |data| ==> data[k'].id != id by {
          forall k' | k + 1 < k' < |data| ensures data[k'].id != id {
            assert data[k'] == data[1..][k' - 1];
          }
        }
        rest
      else if data[0].id == id then
        assert forall k' :: 0 < k' < |data| ==> data[k'].id != id by {
          forall k' | 0 < k' < |data| ensures data[k'].id != id {
            assert data[k'] == data[1..][k' - 1];
          }
        }
        Some(data[0].volgorde)
      else
        assert forall k :: 0 <= k < |data| ==> data[k].id != id by {
          forall k | 0 <= k < |data| ensures data[k].id != id {
            if k > 0 { assert data[k] == data[1..][k - 1]; }
          }
        }
        None
  }

  /** The reorder's effect on one row: the last entry naming it wins, and only rows of the property change. */
  function NaVolgorde(a: Afbeelding, woningId: int, data: seq<VolgordeItem>): Afbeelding
  {
    var v := LaatsteVolgorde(data, a.id);
    if a.woningId == woningId && v.Some? then a.(volgorde := v.value) else a
  }

  /** Applying the entries one after the other is the same as letting the last entry for each id win. */
  lemma {:induction false} AlleVolgordesLaatsteWint(tabel: Tabel, woningId: int, data: seq<VolgordeItem>)
    ensures forall i :: 0 <= i < |tabel| ==> AlleVolgordes(tabel, woningId, data)[i] == NaVolgorde(tabel[i], woningId, data)
    decreases |data|
  {
    if data != [] {
      var t1 := EenVolgorde(tabel, woningId, data[0]);
      AlleVolgordesLaatsteWint(t1, woningId, data[1..]);
      forall i | 0 <= i < |tabel| ensures AlleVolgordes(tabel, woningId, data)[i] == NaVolgorde(tabel[i], woningId, data) {
        assert LaatsteVolgorde(data, tabel[i].id) ==
          (if LaatsteVolgorde(data[1..], tabel[i].id).Some? then LaatsteVolgorde(data[1..], tabel[i].id)
           else if data[0].id == tabel[i].id then Some(data[0].volgorde) else None);
        assert t1[i].id == tabel[i].id && t1[i].woningId == tabel[i].woningId;
      }
    }
  }

  function VolgordeSleutel(a: Afbeelding): seq<Sleutel>
  {
    [Num(a.volgorde as real)]
  }

  /**
    * updateAfbeeldingVolgorde: a missing property and a caller who is not
    * its seller are errors. Each entry updates the image with that id only
    * if it belongs to the property; the property's images are returned
    * ordered by `volgorde`, ascending.
    */
  function UpdateAfbeeldingVolgorde(tabel: Tabel, woningen: seq<Woningen.Woning>, woningId: int,
                                    data: seq<VolgordeItem>, verkoperId: int): (r: Result<(seq<Afbeelding>, Tabel)>)
    ensures r.Ok? <==> Eigenaar(woningen, woningId, verkoperId)
    ensures r.Err? ==> r.code == ServerError
    ensures r.Ok? ==> var (lijst, t) := r.value;
      && |t| == |tabel|
      && (forall i :: 0 <= i < |t| ==> t[i] == NaVolgorde(tabel[i], woningId, data))
      && (forall i :: 0 <= i < |t| && tabel[i].woningId != woningId ==> t[i] == tabel[i])
      && multiset(lijst) == multiset(AfbeeldingenVan(t, woningId))
      && (forall i, j :: 0 <= i < j < |lijst| ==> lijst[i].volgorde <= lijst[j].volgorde)
  {
    if !Eigenaar(woningen, woningId, verkoperId) then Err(ServerError)
    else
      var t := AlleVolgordes(tabel, woningId, data);
      AlleVolgordesLaatsteWint(tabel, woningId, data);
      var lijst := Sorteer(AfbeeldingenVan(t, woningId), VolgordeSleutel, Oplopend);
      SorteerKlopt(AfbeeldingenVan(t, woningId), VolgordeSleutel, Oplopend);
      OplopendOpVolgorde(lijst);
      Ok((lijst, t))
  }

  lemma OplopendOpVolgorde(s: seq<Afbeelding>)
    requires Gesorteerd(s, VolgordeSleutel, Oplopend)
    ensures forall i, j :: 0 <= i < j < |s| ==> s[i].volgorde <= s[j].volgorde
  {
    forall i, j | 0 <= i < j < |s| ensures s[i].volgorde <= s[j].volgorde {
      assert Voor(Oplopend, VolgordeSleutel(s[i]), VolgordeSleutel(s[j]));
    }
  }

  /** Reordering changes positions only: ids, primaries and everything else stay, so the invariants stay. */
  lemma VolgordeHoudtInvariant(tabel: Tabel, woningen: seq<Woningen.Woning>, woningId: int, data: seq<VolgordeItem>, verkoperId: int)
    requires HoogstensEenPrimair(tabel) && UniekOp(tabel, Id)
    requires UpdateAfbeeldingVolgorde(tabel, woningen, woningId, data, verkoperId).Ok?
    ensures var t := UpdateAfbeeldingVolgorde(tabel, woningen, woningId, data, verkoperId).value.1;
      HoogstensEenPrimair(t) && UniekOp(t, Id)
  {
    var t := UpdateAfbeeldingVolgorde(tabel, woningen, woningId, data, verkoperId).value.1;
    assert forall i :: 0 <= i < |t| ==> t[i].id == tabel[i].id && t[i].woningId == tabel[i].woningId && t[i].isPrimair == tabel[i].isPrimair;
    forall i, j | 0 <= i < j < |t| ensures Id(t[i]) != Id(t[j]) {
      assert Id(tabel[i]) != Id(tabel[j]);
    }
  }

  /** Only the seller of the property may change its images: any other caller gets an error from every operation. */
  lemma AlleenEigenaar(tabel: Tabel, woningen: seq<Woningen.Woning>, afbeeldingId: int, woningId: int, data: seq<VolgordeItem>, verkoperId: int)
    requires PositieVan(tabel, Id, afbeeldingId).Some?
    requires !Eigenaar(woningen, tabel[PositieVan(tabel, Id, afbeeldingId).value].woningId, verkoperId)
    requires !Eigenaar(woningen, woningId, verkoperId)
    ensures SetPrimaireAfbeelding(tabel, woningen, afbeeldingId, verkoperId).Err?
    ensures VerwijderAfbeelding(tabel, woningen, afbeeldingId, verkoperId).Err?
    ensures UpdateAfbeeldingVolgorde(tabel, woningen, woningId, data, verkoperId).Err?
  {
  }
}

=== FILE: afbeelding_controller.dfy ===
/**
  * The image controller: it refuses an empty upload, answers 404 and 403
  * itself before calling the service, and lets an administrator past its
  * own ownership check. The caller is the user the authentication
  * middleware attached to the request.
  */
module AfbeeldingController {
  import opened Basis
  import opened Lijsten
  import Woningen
  import WoningService
  import Gebruikers
  import Afbeeldingen

  type Tabel = Afbeeldingen.Tabel

  /** POST /api/afbeeldingen/woning/:woningId: 400 for an empty upload; the primary flag is the form text `'true'`. */
  function UploadAfbeeldingen(tabel: Tabel, woningen: seq<Woningen.Woning>, woningId: int,
                              bestanden: seq<string>, bevatPrimair: Waarde, nu: int): (r: Result<(seq<Afbeeldingen.Afbeelding>, Tabel)>)
    ensures bestanden == [] ==> r == Err(BadRequest)
    ensures bestanden != [] ==> r == Afbeeldingen.OpslaanAfbeeldingen(tabel, woningen, woningId, bestanden, bevatPrimair == Tekst("true"), nu)
    ensures r.Ok? ==> |r.value.0| == |bestanden| > 0
    ensures r.Ok? ==> (r.value.0[0].isPrimair <==> Afbeeldingen.AfbeeldingenVan(tabel, woningId) == [] && bevatPrimair != Tekst("true"))
  {
    if bestanden == [] then Err(BadRequest)
    else Afbeeldingen.OpslaanAfbeeldingen(tabel, woningen, woningId, bestanden, bevatPrimair == Tekst("true"), nu)
  }

  /** The controller's own check: the image exists (404) and the caller owns its property or is an administrator (403). */
  function Toegestaan(tabel: Tabel, woningen: seq<Woningen.Woning>, id: int, beller: Gebruikers.Gebruiker): (r: Result<nat>)
    ensures PositieVan(tabel, Afbeeldingen.Id, id).None? <==> r == Err(NotFound)
    ensures r.Err? ==> r.code in {NotFound, Forbidden, ServerError}
    ensures r.Ok? ==> r == Ok(PositieVan(tabel, Afbeeldingen.Id, id).value)
    ensures r.Ok? <==> (PositieVan(tabel, Afbeeldingen.Id, id).Some?
      && WoningService.Positie(woningen, tabel[PositieVan(tabel, Afbeeldingen.Id, id).value].woningId).Some?
      && (Afbeeldingen.Eigenaar(woningen, tabel[PositieVan(tabel, Afbeeldingen.Id, id).value].woningId, beller.id)
          || beller.rol == Gebruikers.RolBeheerder))
  {
    match PositieVan(tabel, Afbeeldingen.Id, id)
    case None => Err(NotFound)
    case Some(p) =>
      match WoningService.Positie(woningen, tabel[p].woningId)
      // `afbeelding.woning` is null: reading its seller throws
      case None => Err(ServerError)
      case Some(q) =>
        if woningen[q].verkoperId != beller.id && beller.rol != Gebruikers.RolBeheerder then Err(Forbidden)
        else Ok(p)
  }

  /** DELETE /api/afbeeldingen/:id */
  function VerwijderAfbeelding(tabel: Tabel, woningen: seq<Woningen.Woning>, id: int, beller: Gebruikers.Gebruiker): (r: Result<Tabel>)
    ensures Toegestaan(tabel, woningen, id, beller).Err? ==> r == Err(Toegestaan(tabel, woningen, id, beller).code)
    ensures Toegestaan(tabel, woningen, id, beller).Ok? ==> r == Afbeeldingen.VerwijderAfbeelding(tabel, woningen, id, beller.id)
    ensures r.Ok? ==> Afbeeldingen.Eigenaar(woningen, tabel[PositieVan(tabel, Afbeeldingen.Id, id).value].woningId, beller.id)
  {
    match Toegestaan(tabel, woningen, id, beller)
    case Err(c) => Err(c)
    case Ok(_) => Afbeeldingen.VerwijderAfbeelding(tabel, woningen, id, beller.id)
  }

  /** PUT /api/afbeeldingen/:id/primair */
  function SetPrimaireAfbeelding(tabel: Tabel, woningen: seq<Woningen.Woning>, id: int, beller: Gebruikers.Gebruiker): (r: Result<(Afbeeldingen.Afbeelding, Tabel)>)
    ensures Toegestaan(tabel, woningen, id, beller).Err? ==> r == Err(Toegestaan(tabel, woningen, id, beller).code)
    ensures Toegestaan(tabel, woningen, id, beller).Ok? ==> r == Afbeeldingen.SetPrimaireAfbeelding(tabel, woningen, id, beller.id)
    ensures r.Ok? ==> Afbeeldingen.Eigenaar(woningen, tabel[PositieVan(tabel, Afbeeldingen.Id, id).value].woningId, beller.id)
  {
    match Toegestaan(tabel, woningen, id, beller)
    case Err(c) => Err(c)
    case Ok(_) => Afbeeldingen.SetPrimaireAfbeelding(tabel, woningen, id, beller.id)
  }

  /**
    * An administrator who does not own the property passes the controller's
    * check, but the service still refuses: the request ends in a 500, not a
    * 403 and not a change.
    */
  lemma BeheerderZonderEigendomFaalt(tabel: Tabel, woningen: seq<Woningen.Woning>, id: int, beller: Gebruikers.Gebruiker)
    requires beller.rol == Gebruikers.RolBeheerder
    requires PositieVan(tabel, Afbeeldingen.Id, id).Some?
    requires var w := tabel[PositieVan(tabel, Afbeeldingen.Id, id).value].woningId;
      WoningService.Positie(woningen, w).Some? && !Afbeeldingen.Eigenaar(woningen, w, beller.id)
    ensures Toegestaan(tabel, woningen, id, beller).Ok?
    ensures VerwijderAfbeelding(tabel, woningen, id, beller) == Err(ServerError)
    ensures SetPrimaireAfbeelding(tabel, woningen, id, beller) == Err(ServerError)
  {
  }

  /**
    * PUT /api/afbeeldingen/volgorde: 400 without a property id (absent or the
    * falsy 0) or without an array of entries, 404 for an unknown property,
    * 403 for a caller who neither owns it nor is an administrator.
    */
  function UpdateAfbeeldingVolgorde(tabel: Tabel, woningen: seq<Woningen.Woning>, woningId: Option<int>,
                                    volgorde: Option<seq<Afbeeldingen.VolgordeItem>>, beller: Gebruikers.Gebruiker): (r: Result<(seq<Afbeeldingen.Afbeelding>, Tabel)>)
    ensures r == Err(BadRequest) <==> woningId.None? || woningId.value == 0 || volgorde.None?
    ensures r == Err(NotFound) <==> woningId.Some? && woningId.value != 0 && volgorde.Some? && WoningService.Positie(woningen, woningId.value).None?
    ensures r == Err(Forbidden) <==> (woningId.Some? && woningId.value != 0 && volgorde.Some?
      && WoningService.Positie(woningen, woningId.value).Some?
      && !Afbeeldingen.Eigenaar(woningen, woningId.value, beller.id) && beller.rol != Gebruikers.RolBeheerder)
    ensures r.Ok? <==> woningId.Some? && woningId.value != 0 && volgorde.Some? && Afbeeldingen.Eigenaar(woningen, woningId.value, beller.id)
    ensures r.Ok? ==> r == Afbeeldingen.UpdateAfbeeldingVolgorde(tabel, woningen, woningId.value, volgorde.value, beller.id)
  {
    if woningId.None? || woningId.value == 0 || volgorde.None? then Err(BadRequest)
    else match WoningService.Positie(woningen, woningId.value)
      case None => Err(NotFound)
      case Some(q) =>
        if woningen[q].verkoperId != beller.id && beller.rol != Gebruikers.RolBeheerder then Err(Forbidden)
        else Afbeeldingen.UpdateAfbeeldingVolgorde(tabel, woningen, woningId.value, volgorde.value, beller.id)
  }
}

=== FILE: basis.dfy ===
/**
  * Shared vocabulary of the model: optional values, results that carry an
  * HTTP-like status code, JavaScript values with their truthiness, and the
  * string helpers (`includes`, `startsWith`, ASCII `toLowerCase`, `parseInt`)
  * that the services and controllers rely on.
  */
module Basis {

  datatype Option<+T> = None | Some(value: T)

  /** The outcome of a service call: a value, or an error with the status code the code assigns. */
  datatype Result<+T> = Ok(value: T) | Err(code: int)

  const BadRequest: int := 400
  const Unauthorized: int := 401
  const Forbidden: int := 403
  const NotFound: int := 404
  /** A thrown error without a status code, or an error raised by the database or the runtime. */
  const ServerError: int := 500

  /** A JavaScript value as it arrives in a request body, a query string or an object field. */
  datatype Waarde = Undefined | Null | Getal(getal: real) | NaN | Tekst(tekst: string) | Bool(waar: bool)

  /** JavaScript truthiness: `undefined`, `null`, `0`, `NaN`, `""` and `false` are falsy. */
  predicate Truthy(v: Waarde)
  {
    match v
    case Getal(x) => x != 0.0
    case Tekst(s) => |s| > 0
    case Bool(b) => b
    case _ => false
  }

  /** Truthiness of an optional string (an absent value or `""` is falsy). */
  predicate Gevuld(s: Option<string>)
  {
    s.Some? && |s.value| > 0
  }

  /** Truthiness of a parsed number: absent (or NaN, which the parse yields as `None`) and 0 are falsy. */
  predicate Actief(x: Option<real>)
  {
    x.Some? && x.value != 0.0
  }

  predicate ActiefGeheel(x: Option<int>)
  {
    x.Some? && x.value != 0
  }

  /** Property access on a plain object: a missing key reads as `undefined`. */
  function Lees(o: map<string, Waarde>, k: string): Waarde
  {
    if k in o then o[k] else Undefined
  }

  predicate IsCijfer(c: char)
  {
    '0' <= c <= '9'
  }

  predicate AlleCijfers(s: string)
  {
    forall i :: 0 <= i < |s| ==> IsCijfer(s[i])
  }

  // ---------------------------------------------------------------------
  // JavaScript string length
  // ---------------------------------------------------------------------

  /** A character outside the Basic Multilingual Plane, which UTF-16 stores as a surrogate pair. */
  predicate BuitenBmp(c: char)
  {
    c as int > 0xFFFF
  }

  /** `s.length` in JavaScript: the number of UTF-16 code units of `s`. */
  function JsLengte(s: string): (n: nat)
    ensures |s| <= n <= 2 * |s|
  {
    if s == [] then 0 else (if BuitenBmp(s[0]) then 2 else 1) + JsLengte(s[1..])
  }

  /** For text inside the Basic Multilingual Plane, `length` is the number of characters. */
  lemma {:induction false} JsLengteInBmp(s: string)
    requires forall i :: 0 <= i < |s| ==> !BuitenBmp(s[i])
    ensures JsLengte(s) == |s|
    decreases |s|
  {
    if s != [] {
      assert forall i :: 0 <= i < |s[1..]| ==> s[1..][i] == s[i + 1];
      JsLengteInBmp(s[1..]);
    }
  }

  /** `length` adds up over concatenation. */
  lemma {:induction false} JsLengteSamen(a: string, b: string)
    ensures JsLengte(a + b) == JsLengte(a) + JsLengte(b)
    decreases |a|
  {
    if a != [] {
      assert (a + b)[0] == a[0] && (a + b)[1..] == a[1..] + b;
      JsLengteSamen(a[1..], b);
    } else {
      assert a + b == b;
    }
  }

  /** Digits are single code units. */
  lemma CijfersJsLengte(s: string)
    requires AlleCijfers(s)
    ensures JsLengte(s) == |s|
  {
    JsLengteInBmp(s);
  }

  /** One character outside the Basic Multilingual Plane already has `length` 2. */
  lemma EmojiTeltDubbel()
    ensures |"\U{1F600}"| == 1 && JsLengte("\U{1F600}") == 2
  {
    assert "\U{1F600}"[1..] == [];
  }

  predicate IsHoofdletter(c: char)
  {
    'A' <= c <= 'Z'
  }

  predicate IsKleineLetter(c: char)
  {
    'a' <= c <= 'z'
  }

  /** The characters a JavaScript regular expression matches with `\s`. */
  predicate IsWitruimte(c: char)
  {
    var n := c as int;
    n == 0x09 || n == 0x0A || n == 0x0B || n == 0x0C || n == 0x0D || n == 0x20
    || n == 0xA0 || n == 0x1680 || (0x2000 <= n <= 0x200A) || n == 0x2028 || n == 0x2029
    || n == 0x202F || n == 0x205F || n == 0x3000 || n == 0xFEFF
  }

  /** `toLowerCase` on one character, for the ASCII letters. */
  function KleineLetter(c: char): (r: char)
    ensures IsHoofdletter(c) ==> IsKleineLetter(r)
    ensures !IsHoofdletter(c) ==> r == c
  {
    if IsHoofdletter(c) then (c as int + 32) as char else c
  }

  /** `toLowerCase` for a whole string (ASCII letters only). */
  function Klein(s: string): (r: string)
    ensures |r| == |s|
    ensures forall i :: 0 <= i < |s| ==> r[i] == KleineLetter(s[i])
  {
    if s == [] then [] else [KleineLetter(s[0])] + Klein(s[1..])
  }

  predicate BegintMet(s: string, p: string)
  {
    |p| <= |s| && s[..|p|] == p
  }

  /** Concatenation regroups freely. */
  lemma Samenvoegen<T>(a: seq<T>, b: seq<T>, c: seq<T>)
    ensures a + (b + c) == a + b + c
  {
  }

  /** `s.includes(deel)`: `deel` occurs somewhere in `s`. */
  predicate Bevat(s: string, deel: string)
    decreases |s|
  {
    BegintMet(s, deel) || (|s| > 0 && Bevat(s[1..], deel))
  }

  lemma {:induction false} TeKortBevatNiet(s: string, deel: string)
    requires |deel| > |s|
    ensures !Bevat(s, deel)
    decreases |s|
  {
    if |s| > 0 {
      TeKortBevatNiet(s[1..], deel);
    }
  }

  /** `deel` occurs in `s` starting at position `i`. */
  predicate KomtVoorOp(s: string, deel: string, i: int)
  {
    0 <= i <= |s| - |deel| && s[i..i + |deel|] == deel
  }

  /** `Bevat` agrees with the positional reading of a substring occurrence. */
  lemma {:induction false} BevatOpPositie(s: string, deel: string)
    ensures Bevat(s, deel) <==> exists i :: KomtVoorOp(s, deel, i)
    decreases |s|
  {
    if Bevat(s, deel) {
      if BegintMet(s, deel) {
        assert KomtVoorOp(s, deel, 0);
      } else {
        BevatOpPositie(s[1..], deel);
        var i :| KomtVoorOp(s[1..], deel, i);
        assert s[1..][i..i + |deel|] == s[i + 1..i + 1 + |deel|];
        assert KomtVoorOp(s, deel, i + 1);
      }
    }
    if exists i :: KomtVoorOp(s, deel, i) {
      var i :| KomtVoorOp(s, deel, i);
      if i == 0 {
        assert BegintMet(s, deel);
      } else {
        assert s[1..][i - 1..i - 1 + |deel|] == s[i..i + |deel|];
        assert KomtVoorOp(s[1..], deel, i - 1);
        BevatOpPositie(s[1..], deel);
      }
    }
  }

  /** Case-insensitive (ASCII) substring test: `deel` occurs in `s` when letters are folded. */
  predicate BevatZonderHoofdletters(s: string, deel: string)
  {
    Bevat(Klein(s), Klein(deel))
  }

  /**
    * SQLite's LIKE on already folded text: `%` matches any run of
    * characters, `_` exactly one character, and every other character
    * itself. No escape character is set.
    */
  predicate PastOpPatroon(s: string, p: string)
    decreases |s| + |p|
  {
    if p == [] then s == []
    else if p[0] == '%' then PastOpPatroon(s, p[1..]) || (|s| > 0 && PastOpPatroon(s[1..], p))
    else |s| > 0 && (p[0] == '_' || s[0] == p[0]) && PastOpPatroon(s[1..], p[1..])
  }

  /**
    * `kolom LIKE '%deel%'` as SQLite evaluates it: ASCII letters fold, and a
    * `%` or `_` inside `deel` acts as a wildcard.
    */
  predicate LijktOp(s: string, deel: string)
  {
    PastOpPatroon(Klein(s), "%" + Klein(deel) + "%")
  }

  /** A text with neither of LIKE's wildcard characters. */
  predicate ZonderJokers(t: string)
  {
    forall i :: 0 <= i < |t| ==> t[i] != '%' && t[i] != '_'
  }

  /** A lone `%` matches every text. */
  lemma {:induction false} ProcentPastAltijd(s: string)
    ensures PastOpPatroon(s, "%")
    decreases |s|
  {
    assert "%"[1..] == [];
    if s != [] {
      ProcentPastAltijd(s[1..]);
    }
  }

  /** Without wildcards, `q%` matches exactly the texts that start with `q`. */
  lemma {:induction false} PrefixPatroon(s: string, q: string)
    requires ZonderJokers(q)
    ensures PastOpPatroon(s, q + "%") <==> BegintMet(s, q)
    decreases |q|
  {
    if q == [] {
      assert q + "%" == "%";
      ProcentPastAltijd(s);
    } else {
      assert (q + "%")[1..] == q[1..] + "%";
      assert ZonderJokers(q[1..]) by {
        forall i | 0 <= i < |q[1..]| ensures q[1..][i] != '%' && q[1..][i] != '_' {
          assert q[1..][i] == q[i + 1];
        }
      }
      if |s| > 0 {
        PrefixPatroon(s[1..], q[1..]);
        if s[0] == q[0] {
          assert BegintMet(s, q) <==> BegintMet(s[1..], q[1..]) by {
            if |q| <= |s| {
              assert s[..|q|] == [s[0]] + s[1..][..|q| - 1];
              assert q == [q[0]] + q[1..];
            }
          }
        } else {
          assert !BegintMet(s, q) by {
            if |q| <= |s| { assert s[..|q|][0] != q[0]; }
          }
        }
      }
    }
  }

  /** Without wildcards, `%q%` matches exactly the texts that contain `q`. */
  lemma {:induction false} OmslotenPatroon(s: string, q: string)
    requires ZonderJokers(q)
    ensures PastOpPatroon(s, "%" + q + "%") <==> Bevat(s, q)
    decreases |s|
  {
    var p := "%" + q + "%";
    assert p[0] == '%' && p[1..] == q + "%";
    PrefixPatroon(s, q);
    if |s| > 0 {
      OmslotenPatroon(s[1..], q);
    }
  }

  /** Folding letters neither creates nor removes a wildcard character. */
  lemma KleinZonderJokers(t: string)
    requires ZonderJokers(t)
    ensures ZonderJokers(Klein(t))
  {
  }

  /**
    * For a search text without `%` or `_`, SQLite's `LIKE '%deel%'` is the
    * case-insensitive substring test.
    */
  lemma LijktOpZonderJokers(s: string, deel: string)
    requires ZonderJokers(deel)
    ensures LijktOp(s, deel) <==> BevatZonderHoofdletters(s, deel)
  {
    KleinZonderJokers(deel);
    OmslotenPatroon(Klein(s), Klein(deel));
  }

  /** A `_` in the search text matches any one character: "G_nt" finds "Gent", which does not contain it. */
  lemma JokerInZoekterm()
    ensures LijktOp("Gent", "G_nt")
    ensures !BevatZonderHoofdletters("Gent", "G_nt")
  {
    var s := Klein("Gent");
    assert s == "gent";
    var d := Klein("G_nt");
    assert d == "g_nt";
    var p := "%" + d + "%";
    assert p == "%g_nt%";
    assert PastOpPatroon("", "");
    assert PastOpPatroon("", "%");
    assert PastOpPatroon("t", "t%");
    assert PastOpPatroon("nt", "nt%");
    assert PastOpPatroon("ent", "_nt%");
    assert PastOpPatroon("gent", "g_nt%");
    assert PastOpPatroon("gent", "%g_nt%");
    assert !Bevat("gent", "g_nt") by {
      assert !BegintMet("gent", "g_nt") by { assert "gent"[..4] == "gent"; }
      TeKortBevatNiet("gent"[1..], "g_nt");
    }
  }

  // ---------------------------------------------------------------------
  // parseInt
  // ---------------------------------------------------------------------

  /** Drops the leading whitespace that `parseInt` skips. */
  function ZonderVoorloopWit(s: string): (r: string)
    ensures |r| <= |s| && r == s[|s| - |r|..]
    ensures r == [] || !IsWitruimte(r[0])
    decreases |s|
  {
    if |s| > 0 && IsWitruimte(s[0]) then ZonderVoorloopWit(s[1..]) else s
  }

  /** The value of `c` as a digit in base `radix` (10 or 16), if it is one. */
  function CijferWaarde(c: char, radix: int): Option<nat>
  {
    if '0' <= c <= '9' then Some(c as int - '0' as int)
    else if radix == 16 && 'a' <= c <= 'f' then Some(c as int - 'a' as int + 10)
    else if radix == 16 && 'A' <= c <= 'F' then Some(c as int - 'A' as int + 10)
    else None
  }

  /** The longest prefix of `s` made of base-`radix` digits. */
  function CijferPrefix(s: string, radix: int): (r: string)
    ensures |r| <= |s| && r == s[..|r|]
    ensures forall i :: 0 <= i < |r| ==> CijferWaarde(r[i], radix).Some?
    ensures |r| < |s| ==> CijferWaarde(s[|r|], radix).None?
    decreases |s|
  {
    if |s| > 0 && CijferWaarde(s[0], radix).Some? then [s[0]] + CijferPrefix(s[1..], radix) else []
  }

  /** The number a string of base-`radix` digits denotes (most significant digit first). */
  function CijfersWaarde(d: string, radix: nat): nat
    requires forall i :: 0 <= i < |d| ==> CijferWaarde(d[i], radix).Some?
    decreases |d|
  {
    if d == [] then 0
    else CijfersWaarde(d[..|d| - 1], radix) * radix + CijferWaarde(d[|d| - 1], radix).value
  }

  /**
    * JavaScript `parseInt(s)` with no radix: skip leading whitespace, read one
    * optional sign, switch to base 16 after `0x`/`0X`, then read the longest
    * digit prefix. `None` stands for `NaN` (no digit was read).
    */
  function ParseInt(s: string): (r: Option<int>)
    ensures r.None? <==> CijferPrefix(ParseIntRest(s), ParseIntRadix(s)) == []
  {
    var rest := ParseIntRest(s);
    var radix := ParseIntRadix(s);
    var d := CijferPrefix(rest, radix);
    if d == [] then None
    else
      var v: int := CijfersWaarde(d, radix);
      if ParseIntNegatief(s) then Some(-v) else Some(v)
  }

  function ParseIntZonderTeken(s: string): string
  {
    var t := ZonderVoorloopWit(s);
    if |t| > 0 && (t[0] == '-' || t[0] == '+') then t[1..] else t
  }

  predicate ParseIntNegatief(s: string)
  {
    var t := ZonderVoorloopWit(s);
    |t| > 0 && t[0] == '-'
  }

  predicate HeeftHexPrefix(u: string)
  {
    |u| >= 2 && u[0] == '0' && (u[1] == 'x' || u[1] == 'X')
  }

  function ParseIntRadix(s: string): int
  {
    if HeeftHexPrefix(ParseIntZonderTeken(s)) then 16 else 10
  }

  function ParseIntRest(s: string): string
  {
    var u := ParseIntZonderTeken(s);
    if HeeftHexPrefix(u) then u[2..] else u
  }

  // ---------------------------------------------------------------------
  // Number formatting
  // ---------------------------------------------------------------------

  function Cijfer(n: nat): char
    requires n < 10
  {
    ('0' as int + n) as char
  }

  /** Decimal notation of a natural number, as `String(n)` prints it. */
  function NatNaarTekst(n: nat): (r: string)
    ensures |r| > 0 && AlleCijfers(r)
    ensures n < 10 <==> |r| == 1
    decreases n
  {
    if n < 10 then [Cijfer(n)] else NatNaarTekst(n / 10) + [Cijfer(n % 10)]
  }

  /** Decimal notation of an integer, with a leading `-` when negative. */
  function IntNaarTekst(i: int): (r: string)
    ensures |r| > 0
    ensures i >= 0 <==> AlleCijfers(r)
  {
    if i >= 0 then NatNaarTekst(i)
    else
      var r := "-" + NatNaarTekst(-i);
      assert !IsCijfer(r[0]);
      r
  }

  lemma {:induction false} CijfersWaardeVanNatNaarTekst(n: nat)
    ensures forall i :: 0 <= i < |NatNaarTekst(n)| ==> CijferWaarde(NatNaarTekst(n)[i], 10).Some?
    ensures CijfersWaarde(NatNaarTekst(n), 10) == n
    decreases n
  {
    var r := NatNaarTekst(n);
    if n >= 10 {
      CijfersWaardeVanNatNaarTekst(n / 10);
      assert r[..|r| - 1] == NatNaarTekst(n / 10);
    }
  }

  lemma {:induction false} CijferPrefixVanCijfers(s: string)
    requires AlleCijfers(s)
    ensures CijferPrefix(s, 10) == s
    decreases |s|
  {
    if |s| > 0 {
      assert IsCijfer(s[0]);
      CijferPrefixVanCijfers(s[1..]);
    }
  }

  lemma ZonderVoorloopWitVanCijfers(s: string)
    requires |s| > 0 && IsCijfer(s[0])
    ensures ZonderVoorloopWit(s) == s
  {
    assert !IsWitruimte(s[0]);
  }

  /** A string of decimal digits has no leading whitespace, sign or hex prefix. */
  lemma CijfersZijnHunEigenPrefix(s: string)
    requires |s| > 0 && AlleCijfers(s)
    ensures ParseIntZonderTeken(s) == s && !ParseIntNegatief(s)
    ensures ParseIntRadix(s) == 10 && ParseIntRest(s) == s
    ensures CijferPrefix(s, 10) == s
  {
    assert IsCijfer(s[0]);
    ZonderVoorloopWitVanCijfers(s);
    assert ParseIntZonderTeken(s) == s;
    assert !HeeftHexPrefix(s) by {
      if |s| >= 2 { assert IsCijfer(s[1]); }
    }
    CijferPrefixVanCijfers(s);
  }

  /** `parseInt` reads back what `String(n)` writes. */
  lemma ParseIntNaNatNaarTekst(n: nat)
    ensures ParseInt(NatNaarTekst(n)) == Some(n)
  {
    CijfersZijnHunEigenPrefix(NatNaarTekst(n));
    CijfersWaardeVanNatNaarTekst(n);
  }

  /** A string that starts with a letter holds no number for `parseInt`: the result is `NaN`. */
  lemma ParseIntVanWoord(s: string)
    requires |s| > 0 && ('a' <= s[0] <= 'z' || 'A' <= s[0] <= 'Z')
    ensures ParseInt(s).None?
  {
    assert !IsWitruimte(s[0]);
    assert ZonderVoorloopWit(s) == s;
    assert ParseIntZonderTeken(s) == s && !HeeftHexPrefix(s);
    assert CijferWaarde(s[0], 10).None?;
  }

  /** `parseInt` of a non-empty string of decimal digits is its decimal value (so never `NaN`). */
  lemma ParseIntVanCijfers(s: string)
    requires |s| > 0 && AlleCijfers(s)
    ensures ParseInt(s).Some? && ParseInt(s).value >= 0
  {
    CijfersZijnHunEigenPrefix(s);
  }

  /** The value a digit string takes as an integer key, as SQLite reads `'5'` for an integer column. */
  function AlsGeheelGetal(s: string): (r: Option<nat>)
    ensures r.Some? <==> |s| > 0 && AlleCijfers(s)
  {
    if |s| > 0 && AlleCijfers(s) then
      CijfersZijnHunEigenPrefix(s);
      Some(CijfersWaarde(s, 10))
    else None
  }

  lemma AlsGeheelGetalNaNatNaarTekst(n: nat)
    ensures AlsGeheelGetal(NatNaarTekst(n)) == Some(n)
  {
    CijfersWaardeVanNatNaarTekst(n);
  }

  // ---------------------------------------------------------------------
  // SQLite numeric affinity
  // ---------------------------------------------------------------------

  /** The white space SQLite skips around a number in text: space, tab, line feed, vertical tab, form feed and carriage return. */
  predicate IsSqlWit(c: char)
  {
    c == ' ' || 9 <= c as int <= 13
  }

  /** `s` without SQLite white space at either end. */
  function ZonderSqlWit(s: string): (r: string)
    ensures |r| <= |s|
    ensures r == [] || (!IsSqlWit(r[0]) && !IsSqlWit(r[|r| - 1]))
    decreases |s|
  {
    if |s| > 0 && IsSqlWit(s[0]) then ZonderSqlWit(s[1..])
    else if |s| > 0 && IsSqlWit(s[|s| - 1]) then ZonderSqlWit(s[..|s| - 1])
    else s
  }

  /** One optional sign in front of `u`: whether it is a minus, and what follows it. */
  function TekenEnRest(u: string): (bool, string)
  {
    if |u| > 0 && (u[0] == '-' || u[0] == '+') then (u[0] == '-', u[1..]) else (false, u)
  }

  function Tienmacht(n: nat): (r: nat)
    ensures r >= 1
  {
    if n == 0 then 1 else 10 * Tienmacht(n - 1)
  }

  /** Ten to the power `e`, for any integer `e`. */
  function Macht10(e: int): (r: real)
    ensures r > 0.0
  {
    if e >= 0 then Tienmacht(e) as real else 1.0 / Tienmacht(-e) as real
  }

  /** The exponent that ends a number: nothing (zero), or `e`/`E`, an optional sign and one or more digits up to the end. */
  function Exponent(rest: string): Option<int>
  {
    if rest == [] then Some(0)
    else if rest[0] != 'e' && rest[0] != 'E' then None
    else
      var (negatief, v) := TekenEnRest(rest[1..]);
      var d := CijferPrefix(v, 10);
      if d == [] || |d| < |v| then None
      else
        var e: int := CijfersWaarde(d, 10);
        Some(if negatief then -e else e)
  }

  lemma CijfersSamen(a: string, b: string)
    requires forall i :: 0 <= i < |a| ==> CijferWaarde(a[i], 10).Some?
    requires forall i :: 0 <= i < |b| ==> CijferWaarde(b[i], 10).Some?
    ensures forall i :: 0 <= i < |a + b| ==> CijferWaarde((a + b)[i], 10).Some?
  {
    forall i | 0 <= i < |a + b| ensures CijferWaarde((a + b)[i], 10).Some? {
      if i >= |a| {
        assert (a + b)[i] == b[i - |a|];
      }
    }
  }

  /**
    * The number SQLite's NUMERIC affinity finds in a text compared with an
    * integer column: white space around it is skipped, then an optional
    * sign, digits with an optional `.` fraction (at least one digit in all)
    * and an optional exponent, and nothing else. `'5'`, `'5.0'`, `'5e0'`,
    * `' 5'` and `'+5'` all read as 5; `'0x5'`, `'5e'` and `'abc'` stay text
    * (`None`). The value is exact: rounding to a double is not modelled.
    */
  function SqlGetal(s: string): Option<real>
    decreases |s|
  {
    if |s| > 0 && IsSqlWit(s[0]) then SqlGetal(s[1..])
    else
    var (negatief, u) := TekenEnRest(ZonderSqlWit(s));
    match Mantisse(u)
    case None => None
    case Some(m) => Some(if negatief then -m else m)
  }

  /** The unsigned number `u` spells: digits, an optional fraction and an optional exponent. */
  function Mantisse(u: string): Option<real>
  {
    var d1 := CijferPrefix(u, 10);
    var na := u[|d1|..];
    if |na| > 0 && na[0] == '.' then
      var d2 := CijferPrefix(na[1..], 10);
      UitDelen(d1, d2, na[1 + |d2|..])
    else UitDelen(d1, [], na)
  }

  /** The number with integer digits `d1`, fraction digits `d2` and what follows them, which must be an exponent or nothing. */
  function UitDelen(d1: string, d2: string, rest: string): Option<real>
    requires forall i :: 0 <= i < |d1| ==> CijferWaarde(d1[i], 10).Some?
    requires forall i :: 0 <= i < |d2| ==> CijferWaarde(d2[i], 10).Some?
  {
    match Exponent(rest)
    case None => None
    case Some(e) =>
      if |d1| + |d2| == 0 then None
      else
        CijfersSamen(d1, d2);
        Some(CijfersWaarde(d1 + d2, 10) as real * Macht10(e - |d2|))
  }

  /** Digits only: no white space, no sign, no fraction and no exponent. */
  lemma SqlKernVanCijfers(s: string)
    requires |s| > 0 && AlleCijfers(s)
    ensures ZonderSqlWit(s) == s && TekenEnRest(s) == (false, s) && CijferPrefix(s, 10) == s
  {
    assert IsCijfer(s[0]) && IsCijfer(s[|s| - 1]);
    CijferPrefixVanCijfers(s);
  }

  lemma MantisseVanCijfers(d: string)
    requires |d| > 0 && AlleCijfers(d)
    ensures CijferPrefix(d, 10) == d
    ensures Mantisse(d) == Some(AlsGeheelGetal(d).value as real)
  {
    CijferPrefixVanCijfers(d);
    assert d[|d|..] == [];
    assert d + [] == d;
  }

  /** On a string of decimal digits SQLite reads the same integer as the digit-only reading. */
  lemma SqlGetalVanCijfers(s: string)
    requires |s| > 0 && AlleCijfers(s)
    ensures SqlGetal(s) == Some(AlsGeheelGetal(s).value as real)
  {
    SqlKernVanCijfers(s);
    MantisseVanCijfers(s);
  }

  /** SQLite reads back the decimal notation of every natural number. */
  lemma SqlGetalNaNatNaarTekst(n: nat)
    ensures SqlGetal(NatNaarTekst(n)) == Some(n as real)
  {
    SqlGetalVanCijfers(NatNaarTekst(n));
    AlsGeheelGetalNaNatNaarTekst(n);
  }

  /** The digit prefix of digits followed by a non-digit is those digits. */
  lemma {:induction false} CijferPrefixVoorNietCijfer(d: string, x: string)
    requires AlleCijfers(d) && |x| > 0 && CijferWaarde(x[0], 10).None?
    ensures CijferPrefix(d + x, 10) == d
    decreases |d|
  {
    if |d| == 0 {
      assert d + x == x;
    } else {
      assert IsCijfer(d[0]);
      assert (d + x)[1..] == d[1..] + x;
      CijferPrefixVoorNietCijfer(d[1..], x);
    }
  }

  lemma MantisseNulFractie(d: string)
    requires |d| > 0 && AlleCijfers(d)
    ensures Mantisse(d + ".0") == Mantisse(d)
  {
    MantisseVanCijfers(d);
    CijfersSamen(d, []);
    assert UitDelen(d, [], []) == Mantisse(d) by {
      assert d[|d|..] == [];
    }
    var u := d + ".0";
    CijferPrefixVoorNietCijfer(d, ".0");
    assert u[|d|..] == ".0";
    assert ".0"[1..] == "0" && CijferPrefix("0", 10) == "0";
    assert ".0"[1 + 1..] == [];
    assert Mantisse(u) == UitDelen(d, "0", []) by {
      hide UitDelen;
    }
    NulFractieWaarde(d);
  }

  lemma NulFractieWaarde(d: string)
    requires |d| > 0 && AlleCijfers(d)
    requires forall i :: 0 <= i < |d| ==> CijferWaarde(d[i], 10).Some?
    ensures UitDelen(d, "0", []) == UitDelen(d, [], [])
  {
    CijfersMetNul(d);
    assert d + [] == d;
    assert Macht10(0 - 1) == 1.0 / 10.0 && Macht10(0 - 0) == 1.0;
    assert Exponent([]) == Some(0);
    var n := CijfersWaarde(d, 10) as real;
    assert (10 * CijfersWaarde(d, 10)) as real == 10.0 * n;
    assert (10.0 * n) * (1.0 / 10.0) == n * 1.0;
  }

  /** Appending the digit 0 multiplies the value by ten. */
  lemma CijfersMetNul(d: string)
    requires AlleCijfers(d)
    ensures forall i :: 0 <= i < |d + "0"| ==> CijferWaarde((d + "0")[i], 10).Some?
    ensures CijfersWaarde(d + "0", 10) == 10 * CijfersWaarde(d, 10)
  {
    CijfersSamen(d, "0");
    assert (d + "0")[..|d + "0"| - 1] == d;
  }

  lemma MantisseNulExponent(d: string)
    requires |d| > 0 && AlleCijfers(d)
    ensures Mantisse(d + "e0") == Mantisse(d)
  {
    MantisseVanCijfers(d);
    assert UitDelen(d, [], []) == Mantisse(d) by {
      assert d[|d|..] == [];
    }
    var u := d + "e0";
    CijferPrefixVoorNietCijfer(d, "e0");
    assert u[|d|..] == "e0";
    assert Mantisse(u) == UitDelen(d, [], "e0") by {
      hide UitDelen;
    }
    ExponentNul();
    ZelfdeExponent(d, [], "e0", []);
  }

  /** Only the exponent's value matters, not how it is written. */
  lemma ZelfdeExponent(d1: string, d2: string, a: string, b: string)
    requires forall i :: 0 <= i < |d1| ==> CijferWaarde(d1[i], 10).Some?
    requires forall i :: 0 <= i < |d2| ==> CijferWaarde(d2[i], 10).Some?
    requires Exponent(a) == Exponent(b)
    ensures UitDelen(d1, d2, a) == UitDelen(d1, d2, b)
  {
    hide Exponent;
  }

  lemma ExponentNul()
    ensures Exponent("e0") == Some(0) == Exponent([])
  {
    assert "e0"[1..] == "0" && CijferPrefix("0", 10) == "0";
  }

  /** Digits followed by a non-white tail keep their outer form: nothing to strip, no sign. */
  lemma SqlKernMetStaart(d: string, x: string)
    requires |d| > 0 && AlleCijfers(d) && |x| > 0 && x[|x| - 1] == '0'
    ensures ZonderSqlWit(d + x) == d + x && TekenEnRest(d + x) == (false, d + x)
  {
    assert IsCijfer((d + x)[0]);
    assert (d + x)[|d + x| - 1] == '0';
  }

  /** A zero fraction or a zero exponent does not change the number: `'5.0'` and `'5e0'` read as 5. */
  lemma SqlGetalNulFractie(n: nat)
    ensures SqlGetal(NatNaarTekst(n) + ".0") == Some(n as real)
    ensures SqlGetal(NatNaarTekst(n) + "e0") == Some(n as real)
  {
    var d := NatNaarTekst(n);
    SqlGetalNaNatNaarTekst(n);
    SqlKernVanCijfers(d);
    SqlKernMetStaart(d, ".0");
    SqlKernMetStaart(d, "e0");
    MantisseNulFractie(d);
    MantisseNulExponent(d);
  }

  /** White space around the number and a sign are allowed: `' 5 '` and `'+5'` read as 5, `'-5'` as minus 5. */
  lemma SqlGetalMetWitEnTeken(n: nat)
    ensures SqlGetal(" " + NatNaarTekst(n) + " ") == Some(n as real)
    ensures SqlGetal("+" + NatNaarTekst(n)) == Some(n as real)
    ensures SqlGetal("-" + NatNaarTekst(n)) == Some(-(n as real))
  {
    hide *;
    var d := NatNaarTekst(n);
    SqlGetalNaNatNaarTekst(n);
    WitRondom(d);
    TekenVoor(d, '+');
    TekenVoor(d, '-');
    assert "+" + d == ['+'] + d && "-" + d == ['-'] + d;
  }

  lemma WitRondom(d: string)
    requires |d| > 0 && AlleCijfers(d)
    ensures SqlGetal(" " + d + " ") == SqlGetal(d)
  {
    var s := " " + d + " ";
    assert s[1..] == d + " ";
    assert SqlGetal(s) == SqlGetal(d + " ");
    WitAchterWeg(d);
    SqlKernVanCijfers(d);
  }

  lemma WitAchterWeg(d: string)
    requires |d| > 0 && AlleCijfers(d)
    ensures ZonderSqlWit(d + " ") == d
  {
    assert IsCijfer(d[0]) && IsCijfer(d[|d| - 1]);
    assert (d + " ")[..|d|] == d;
    assert ZonderSqlWit(d) == d;
  }

  lemma TekenVoor(d: string, c: char)
    requires |d| > 0 && AlleCijfers(d) && (c == '+' || c == '-')
    ensures SqlGetal([c] + d) == if c == '-' then Some(-SqlGetal(d).value) else SqlGetal(d)
  {
    hide *;
    MantisseVanCijfers(d);
    SqlGetalIsMantisse(d);
    TekenVoorStap(d, c);
  }

  lemma SqlGetalIsMantisse(d: string)
    requires |d| > 0 && AlleCijfers(d)
    ensures SqlGetal(d) == Mantisse(d)
  {
    SqlKernVanCijfers(d);
    assert IsCijfer(d[0]);
  }

  lemma TekenVoorStap(d: string, c: char)
    requires |d| > 0 && AlleCijfers(d) && (c == '+' || c == '-')
    ensures SqlGetal([c] + d) == match Mantisse(d) case None => None case Some(m) => Some(if c == '-' then -m else m)
  {
    TekenVoorWeg(d, c);
    assert !IsSqlWit(([c] + d)[0]);
    hide *;
    ZonderWitEnTeken([c] + d, d, c == '-');
  }

  /** A text with no white space at either end, read after its sign. */
  lemma ZonderWitEnTeken(s: string, d: string, negatief: bool)
    requires |s| > 0 && !IsSqlWit(s[0])
    requires ZonderSqlWit(s) == s && TekenEnRest(s) == (negatief, d)
    ensures SqlGetal(s) == match Mantisse(d) case None => None case Some(m) => Some(if negatief then -m else m)
  {
    hide Mantisse, ZonderSqlWit, TekenEnRest;
  }

  lemma TekenVoorWeg(d: string, c: char)
    requires |d| > 0 && AlleCijfers(d) && (c == '+' || c == '-')
    ensures ZonderSqlWit([c] + d) == [c] + d && TekenEnRest([c] + d) == (c == '-', d)
  {
    assert IsCijfer(d[|d| - 1]);
    assert ([c] + d)[1..] == d;
  }

  /** Hexadecimal, an exponent without digits, a word, a lone point and the empty text are not numbers to SQLite. */
  lemma SqlGetalGeenGetal()
    ensures SqlGetal("0x5") == None && SqlGetal("5e") == None && SqlGetal("abc") == None
    ensures SqlGetal(".") == None && SqlGetal("") == None
  {
    GeenGetalHex();
    GeenGetalHalfExponent();
    GeenGetalWoord();
    GeenGetalLeeg();
  }

  lemma GeenGetalHex()
    ensures SqlGetal("0x5") == None
  {
    assert "0x5" == "0" + "x5";
    assert "x5"[0] == 'x';
    GeenGetal("0x5", "0", "x5");
  }

  lemma GeenGetalHalfExponent()
    ensures SqlGetal("5e") == None
  {
    assert "5e" == "5" + "e";
    assert "e"[1..] == [];
    GeenGetal("5e", "5", "e");
  }

  lemma GeenGetalWoord()
    ensures SqlGetal("abc") == None
  {
    assert "abc" == "" + "abc";
    GeenGetal("abc", "", "abc");
  }

  lemma GeenGetalLeeg()
    ensures SqlGetal(".") == None && SqlGetal("") == None
  {
    assert ZonderSqlWit(".") == "." && TekenEnRest(".") == (false, ".");
    assert CijferPrefix(".", 10) == [] && CijferPrefix("", 10) == [];
    assert "."[1..] == [];
  }

  lemma GeenGetal(s: string, d: string, x: string)
    requires s == d + x && AlleCijfers(d) && |x| > 0 && x[0] != '.' && CijferWaarde(x[0], 10).None?
    requires !IsSqlWit(s[0]) && !IsSqlWit(s[|s| - 1]) && s[0] != '+' && s[0] != '-'
    requires Exponent(x).None?
    ensures SqlGetal(s) == None
  {
    CijferPrefixVoorNietCijfer(d, x);
    assert s[|d|..] == x;
  }

  /** Two-digit zero-padded month or day, as `String(m).padStart(2, '0')`. */
  function Pad2(n: nat): (r: string)
    ensures |r| >= 2
    ensures n < 100 ==> |r| == 2 && AlleCijfers(r)
  {
    if n < 10 then "0" + NatNaarTekst(n) else NatNaarTekst(n)
  }

  // ---------------------------------------------------------------------
  // Subsequences
  // ---------------------------------------------------------------------

  /** `a` is `b` with some elements left out, the rest in their original order. */
  predicate Deelrij<T(==)>(a: seq<T>, b: seq<T>)
    decreases |b|
  {
    if b == [] then a == []
    else (a != [] && a[0] == b[0] && Deelrij(a[1..], b[1..])) || Deelrij(a, b[1..])
  }

  lemma {:induction false} DeelrijReflexief<T>(a: seq<T>)
    ensures Deelrij(a, a)
    decreases |a|
  {
    if a != [] {
      DeelrijReflexief(a[1..]);
    }
  }

  lemma {:induction false} DeelrijTransitief<T>(a: seq<T>, b: seq<T>, c: seq<T>)
    requires Deelrij(a, b) && Deelrij(b, c)
    ensures Deelrij(a, c)
    decreases |c|
  {
    if c == [] {
    } else if b != [] && b[0] == c[0] && Deelrij(b[1..], c[1..]) {
      if a != [] && a[0] == b[0] && Deelrij(a[1..], b[1..]) {
        DeelrijTransitief(a[1..], b[1..], c[1..]);
      } else {
        DeelrijTransitief(a, b[1..], c[1..]);
      }
    } else {
      DeelrijTransitief(a, b, c[1..]);
    }
  }

  /** The elements of `s` that satisfy `p`, in their original order. */
  function Filter<T>(s: seq<T>, p: T -> bool): (r: seq<T>)
    ensures forall i :: 0 <= i < |r| ==> p(r[i])
    ensures forall i :: 0 <= i < |s| && p(s[i]) ==> s[i] in r
    ensures forall x :: x in r ==> x in s
    ensures Deelrij(r, s)
    ensures |r| <= |s|
  {
    if s == [] then []
    else if p(s[0]) then [s[0]] + Filter(s[1..], p)
    else Filter(s[1..], p)
  }

  /** Filtering depends only on the verdicts of the predicate on the elements. */
  lemma {:induction false} FilterZelfdeKeuze<T>(s: seq<T>, p: T -> bool, q: T -> bool)
    requires forall i :: 0 <= i < |s| ==> p(s[i]) == q(s[i])
    ensures Filter(s, p) == Filter(s, q)
    decreases |s|
  {
    if s != [] {
      FilterZelfdeKeuze(s[1..], p, q);
    }
  }

  /** A predicate every element satisfies filters nothing out. */
  lemma {:induction false} FilterAlles<T>(s: seq<T>, p: T -> bool)
    requires forall i :: 0 <= i < |s| ==> p(s[i])
    ensures Filter(s, p) == s
    decreases |s|
  {
    if s != [] {
      FilterAlles(s[1..], p);
      assert s == [s[0]] + s[1..];
    }
  }
  /** The elements that pass `p` and also pass `q` (`ook`) or fail it (`!ook`). */
  function EnOok<T>(p: T -> bool, q: T -> bool, ook: bool): T -> bool
  {
    x => p(x) && q(x) == ook
  }

  /** Whatever `p` keeps, `q` divides into what it also picks and what it does not. */
  lemma {:induction false} FilterSplitst<T>(s: seq<T>, p: T -> bool, q: T -> bool)
    ensures |Filter(s, p)| == |Filter(s, EnOok(p, q, true))| + |Filter(s, EnOok(p, q, false))|
    decreases |s|
  {
    if s != [] {
      FilterSplitst(s[1..], p, q);
    }
  }

  /** The elements of class `k`. */
  function KlasseIs<T>(klasse: T -> int, k: int): T -> bool
  {
    x => klasse(x) == k
  }

  /** The elements whose class is one of `0 .. n - 1`. */
  function KlasseOnder<T>(klasse: T -> int, n: int): T -> bool
  {
    x => 0 <= klasse(x) < n
  }

  /** The number of elements in classes `0 .. n - 1`, class by class. */
  function PerKlasse<T>(s: seq<T>, klasse: T -> int, n: nat): nat
  {
    if n == 0 then 0 else PerKlasse(s, klasse, n - 1) + |Filter(s, KlasseIs(klasse, n - 1))|
  }

  /** Counting class by class counts every element whose class is in range exactly once. */
  lemma {:induction false} KlassenTellen<T>(s: seq<T>, klasse: T -> int, n: nat)
    ensures PerKlasse(s, klasse, n) == |Filter(s, KlasseOnder(klasse, n))|
    decreases n
  {
    hide Filter;
    if n == 0 {
      GeenKlasseOnderNul(s, klasse);
    } else {
      KlassenTellen(s, klasse, n - 1);
      KlasseErbij(s, klasse, n);
    }
  }

  lemma GeenKlasseOnderNul<T>(s: seq<T>, klasse: T -> int)
    ensures Filter(s, KlasseOnder(klasse, 0)) == []
  {
  }

  /** Raising the bound by one adds the elements of the class just below it. */
  lemma KlasseErbij<T>(s: seq<T>, klasse: T -> int, n: nat)
    requires n > 0
    ensures |Filter(s, KlasseOnder(klasse, n))| == |Filter(s, KlasseOnder(klasse, n - 1))| + |Filter(s, KlasseIs(klasse, n - 1))|
  {
    var binnen := KlasseOnder(klasse, n);
    var laatste := KlasseIs(klasse, n - 1);
    hide Filter;
    FilterSplitst(s, binnen, laatste);
    forall i | 0 <= i < |s| ensures EnOok(binnen, laatste, true)(s[i]) == laatste(s[i]) { }
    FilterZelfdeKeuze(s, EnOok(binnen, laatste, true), laatste);
    forall i | 0 <= i < |s| ensures EnOok(binnen, laatste, false)(s[i]) == KlasseOnder(klasse, n - 1)(s[i]) { }
    FilterZelfdeKeuze(s, EnOok(binnen, laatste, false), KlasseOnder(klasse, n - 1));
  }
}

=== FILE: beheerder.dfy ===
/**
  * The admin service: the monthly statistics of the dashboard, the three
  * admin listings with their range filters and caller-chosen sort column,
  * and the single-field updates of a user's role and a property's featured
  * flag and status. A date in a query is turned into the value the column
  * is compared with by `datum`, standing for `new Date(text)`; a price by
  * the controller's `parseFloat`.
  */
module Beheerder {
  import opened Basis
  import opened Sorteren
  import opened Voorwaarden
  import opened Paginatie
  import opened Lijsten
  import opened Kalender
  import Gebruikers
  import Woningen
  import WoningService
  import Bezichtigingen

  // ---------------------------------------------------------------------
  // Monthly statistics
  // ---------------------------------------------------------------------

  datatype MaandStatistiek = MaandStatistiek(maand: string, nieuweGebruikers: nat, nieuweWoningen: nat, verkochteWoningen: nat)

  /** `${jaar}-${String(maand + 1).padStart(2, '0')}`. */
  function Label(m: Maand): string
    requires Geldig(m)
  {
    IntNaarTekst(m.jaar) + "-" + Pad2(m.maand + 1)
  }

  /** Month `n` of the six (0 = the oldest, 5 = `nu`): `new Date(jaar, maand - (5 - n), 1)`. */
  function MaandNr(nu: Maand, n: int): Maand
  {
    Normaliseer(nu.jaar, nu.maand - 5 + n)
  }

  /** Entry `n` is the month `5 - n` months before `nu`. */
  lemma MaandenTerugVanNu(nu: Maand)
    requires Geldig(nu)
    ensures MaandNr(nu, 5) == nu
    ensures forall n :: 0 <= n < 6 ==> MaandNr(nu, n) == MaandMetIndex(Index(nu) - 5 + n)
  {
    NormaliseerGeldig(nu);
    forall n | 0 <= n < 6 ensures MaandNr(nu, n) == MaandMetIndex(Index(nu) - 5 + n) {
      IndexBepaaltMaand(MaandNr(nu, n), MaandMetIndex(Index(nu) - 5 + n));
    }
  }

  /**
    * The window the dashboard counts for month `maand` of `jaar` (rolled
    * over as `Date` rolls it): BETWEEN `new Date(jaar, maand, 1)` and
    * `new Date(jaar, maand + 1, 0)`, both ends included.
    */
  predicate InVenster(t: int, jaar: int, maand: int)
  {
    Middernacht(jaar, maand, 1) <= t <= Middernacht(jaar, maand + 1, 0)
  }

  function InVensterVan(jaar: int, maand: int): int -> bool
  {
    t => InVenster(t, jaar, maand)
  }

  /** The window of entry `n` as written. */
  predicate InVensterN(t: int, nu: Maand, n: int)
  {
    InVenster(t, nu.jaar, nu.maand - 5 + n)
  }

  /** The users created within a window. */
  function GebruikerBinnen(binnen: int -> bool): Gebruikers.Gebruiker -> bool
  {
    (g: Gebruikers.Gebruiker) => binnen(g.aangemaaktOp)
  }

  /** The properties created within a window. */
  function WoningBinnen(binnen: int -> bool): Woningen.Woning -> bool
  {
    (w: Woningen.Woning) => binnen(w.aangemaaktOp)
  }

  /** The sold properties last updated within a window. */
  function VerkochtBinnen(binnen: int -> bool): Woningen.Woning -> bool
  {
    (w: Woningen.Woning) => w.status == Woningen.Verkocht && binnen(w.bijgewerktOp)
  }

  /** One month's figures, counted through a window test on the instants. */
  function Tellingen(gebruikers: seq<Gebruikers.Gebruiker>, woningen: seq<Woningen.Woning>, m: Maand,
                     binnen: int -> bool): MaandStatistiek
    requires Geldig(m)
  {
    MaandStatistiek(
      Label(m),
      |Filter(gebruikers, GebruikerBinnen(binnen))|,
      |Filter(woningen, WoningBinnen(binnen))|,
      |Filter(woningen, VerkochtBinnen(binnen))|)
  }

  /** The loop `for (let i = 5; i >= 0; i--)`, pushing month `maand - i`: entry `n` counts month `maand - 5 + n`. */
  function ZesMaanden(gebruikers: seq<Gebruikers.Gebruiker>, woningen: seq<Woningen.Woning>, nu: Maand,
                      venster: (int, int) -> (int -> bool)): (r: seq<MaandStatistiek>)
    ensures |r| == 6
  {
    seq(6, n => Tellingen(gebruikers, woningen, MaandNr(nu, n), venster(nu.jaar, nu.maand - 5 + n)))
  }

  /**
    * getMaandStatistieken: six entries, the oldest first and the current
    * month (`nu`) last, each counting the users and properties created and
    * the properties sold within its window.
    */
  function GetMaandStatistieken(gebruikers: seq<Gebruikers.Gebruiker>, woningen: seq<Woningen.Woning>, nu: Maand): (r: seq<MaandStatistiek>)
    requires Geldig(nu)
    ensures |r| == 6
  {
    ZesMaanden(gebruikers, woningen, nu, InVensterVan)
  }

  /** The window as written runs from 00:00 on the first day to 00:00 on the last day of the month. */
  lemma VensterIsEersteTotLaatsteDag(t: int, jaar: int, maand: int)
    ensures var m := Normaliseer(jaar, maand);
      InVenster(t, jaar, maand) <==> Middernacht(jaar, maand, 1) <= t <= Middernacht(jaar, maand, DagenInMaand(m.jaar, m.maand))
  {
    DagNulIsLaatsteDag(jaar, maand);
  }

  /**
    * As written, the windows miss all but the first instant of each month's
    * last day: one millisecond after 00:00 on the last day of any of the six
    * months lies in none of the six windows.
    */
  lemma LaatsteDagTeltNiet(nu: Maand, n: int, t: int)
    requires 0 <= n < 6 && t == Middernacht(nu.jaar, nu.maand - 5 + n + 1, 0) + 1
    ensures forall k :: 0 <= k < 6 ==> !InVensterN(t, nu, k)
  {
    hide MaandBegin;
    var b := nu.jaar * 12 + nu.maand - 5;
    assert t == MaandBegin(b + n + 1) - MsPerDag + 1;
    forall k | 0 <= k < 6 ensures !InVensterN(t, nu, k) {
      assert InVensterN(t, nu, k) <==> MaandBegin(b + k) <= t <= MaandBegin(b + k + 1) - MsPerDag;
      if k < n {
        MaandBeginMonotoon(b + k + 1, b + n + 1);
      } else if n < k {
        MaandBeginMonotoon(b + n + 1, b + k);
      }
    }
  }

  /** The span of the six whole months: from the first of the oldest up to the first of the month after `nu`. */
  predicate InZesMaanden(t: int, nu: Maand)
  {
    Middernacht(nu.jaar, nu.maand - 5, 1) <= t < Middernacht(nu.jaar, nu.maand + 1, 1)
  }

  /** The sum of the new-user counts of the first `n` entries. */
  function SomNieuweGebruikers(r: seq<MaandStatistiek>, n: nat): nat
    requires n <= |r|
  {
    if n == 0 then 0 else SomNieuweGebruikers(r, n - 1) + r[n - 1].nieuweGebruikers
  }

  /**
    * A user created one millisecond after 00:00 on the last day of one of
    * the six months is created within them, yet the statistics as written
    * count no new user at all.
    */
  lemma GebruikerOpLaatsteDagOntbreekt(nu: Maand, g: Gebruikers.Gebruiker, n: int)
    requires Geldig(nu) && 0 <= n < 6
    requires g.aangemaaktOp == Middernacht(nu.jaar, nu.maand - 5 + n + 1, 0) + 1
    ensures InZesMaanden(g.aangemaaktOp, nu)
    ensures SomNieuweGebruikers(GetMaandStatistieken([g], [], nu), 6) == 0
  {
    LaatsteDagBinnenZesMaanden(nu, g.aangemaaktOp, n);
    LaatsteDagTeltNiet(nu, n, g.aangemaaktOp);
    var r := GetMaandStatistieken([g], [], nu);
    forall k | 0 <= k < 6 ensures r[k].nieuweGebruikers == 0 {
      GebruikerBuitenVenster(nu, g, k);
    }
    SomVanNullen(r, 6);
  }

  lemma LaatsteDagBinnenZesMaanden(nu: Maand, t: int, n: int)
    requires Geldig(nu) && 0 <= n < 6
    requires t == Middernacht(nu.jaar, nu.maand - 5 + n + 1, 0) + 1
    ensures InZesMaanden(t, nu)
  {
    hide MaandBegin, Label;
    var b := nu.jaar * 12 + nu.maand - 5;
    assert t == MaandBegin(b + n + 1) - MsPerDag + 1;
    MaandBeginStijgt(b + n, b + n + 1);
    MaandBeginMonotoon(b, b + n);
    MaandBeginMonotoon(b + n + 1, b + 6);
  }

  /** A user created outside window `k` is not counted in entry `k`. */
  lemma GebruikerBuitenVenster(nu: Maand, g: Gebruikers.Gebruiker, k: int)
    requires Geldig(nu) && 0 <= k < 6 && !InVensterN(g.aangemaaktOp, nu, k)
    ensures GetMaandStatistieken([g], [], nu)[k].nieuweGebruikers == 0
  {
    hide MaandBegin, Label;
    var binnen := InVensterVan(nu.jaar, nu.maand - 5 + k);
    assert !GebruikerBinnen(binnen)(g);
    assert Filter([g], GebruikerBinnen(binnen)) == [];
  }

  lemma {:induction false} SomVanNullen(r: seq<MaandStatistiek>, n: nat)
    requires n <= |r| && forall k :: 0 <= k < n ==> r[k].nieuweGebruikers == 0
    ensures SomNieuweGebruikers(r, n) == 0
  {
    if n > 0 {
      SomVanNullen(r, n - 1);
    }
  }

  /** The evidently intended window: from 00:00 on the first of the month up to, not including, 00:00 on the first of the next. */
  predicate InMaand(t: int, jaar: int, maand: int)
  {
    Middernacht(jaar, maand, 1) <= t < Middernacht(jaar, maand + 1, 1)
  }

  function InMaandVan(jaar: int, maand: int): int -> bool
  {
    t => InMaand(t, jaar, maand)
  }

  /** The whole-month window of entry `n`. */
  predicate InMaandN(t: int, nu: Maand, n: int)
  {
    InMaand(t, nu.jaar, nu.maand - 5 + n)
  }

  /** The statistics with whole-month windows. */
  function GetMaandStatistiekenHeleMaand(gebruikers: seq<Gebruikers.Gebruiker>, woningen: seq<Woningen.Woning>, nu: Maand): (r: seq<MaandStatistiek>)
    requires Geldig(nu)
    ensures |r| == 6
  {
    ZesMaanden(gebruikers, woningen, nu, InMaandVan)
  }

  /**
    * Both variants list the six months oldest first, each labelled with
    * its own year and month, the last being `nu`; no count exceeds the
    * number of rows it is taken from.
    */
  lemma MaandLabels(gebruikers: seq<Gebruikers.Gebruiker>, woningen: seq<Woningen.Woning>, nu: Maand)
    requires Geldig(nu)
    ensures var r := GetMaandStatistieken(gebruikers, woningen, nu);
      r[5].maand == Label(nu) &&
      forall n :: 0 <= n < 6 ==>
        (r[n].maand == Label(MaandMetIndex(Index(nu) - 5 + n))
         && r[n].nieuweGebruikers <= |gebruikers| && r[n].verkochteWoningen <= |woningen|)
    ensures var r := GetMaandStatistiekenHeleMaand(gebruikers, woningen, nu);
      r[5].maand == Label(nu) &&
      forall n :: 0 <= n < 6 ==>
        (r[n].maand == Label(MaandMetIndex(Index(nu) - 5 + n))
         && r[n].nieuweGebruikers <= |gebruikers| && r[n].verkochteWoningen <= |woningen|)
  {
    ZesMaandenLabels(gebruikers, woningen, nu, InVensterVan);
    ZesMaandenLabels(gebruikers, woningen, nu, InMaandVan);
  }

  /** The labels and bounds of `MaandLabels`, for any choice of window. */
  lemma ZesMaandenLabels(gebruikers: seq<Gebruikers.Gebruiker>, woningen: seq<Woningen.Woning>, nu: Maand,
                         venster: (int, int) -> (int -> bool))
    requires Geldig(nu)
    ensures var r := ZesMaanden(gebruikers, woningen, nu, venster);
      r[5].maand == Label(nu) &&
      forall n :: 0 <= n < 6 ==>
        (r[n].maand == Label(MaandMetIndex(Index(nu) - 5 + n))
         && r[n].nieuweGebruikers <= |gebruikers| && r[n].verkochteWoningen <= |woningen|)
  {
    hide MaandBegin, Label;
    MaandenTerugVanNu(nu);
    var r := ZesMaanden(gebruikers, woningen, nu, venster);
    forall n | 0 <= n < 6
      ensures r[n].maand == Label(MaandMetIndex(Index(nu) - 5 + n))
      ensures r[n].nieuweGebruikers <= |gebruikers| && r[n].verkochteWoningen <= |woningen|
    {
      var binnen := venster(nu.jaar, nu.maand - 5 + n);
      assert r[n] == Tellingen(gebruikers, woningen, MaandNr(nu, n), binnen);
      assert |Filter(gebruikers, GebruikerBinnen(binnen))| <= |gebruikers|;
      assert |Filter(woningen, VerkochtBinnen(binnen))| <= |woningen|;
    }
  }

  /** No instant lies in two of the whole months. */
  lemma MaandenDisjunct(nu: Maand, t: int, n: int, k: int)
    requires InMaandN(t, nu, n) && InMaandN(t, nu, k)
    ensures n == k
  {
    hide MaandBegin;
    var b := nu.jaar * 12 + nu.maand - 5;
    assert MaandBegin(b + n) <= t < MaandBegin(b + n + 1);
    assert MaandBegin(b + k) <= t < MaandBegin(b + k + 1);
    if n < k {
      MaandBeginMonotoon(b + n + 1, b + k);
    } else if k < n {
      MaandBeginMonotoon(b + k + 1, b + n);
    }
  }

  /** The entry, from `n` on, whose whole month holds `t`; -1 if none does. */
  function ZoekMaand(nu: Maand, t: int, n: nat): int
    decreases 6 - n
  {
    if n >= 6 then -1 else if InMaandN(t, nu, n) then n else ZoekMaand(nu, t, n + 1)
  }

  lemma {:induction false} ZoekMaandGevonden(nu: Maand, t: int, n: nat)
    ensures var r := ZoekMaand(nu, t, n);
      r == -1 || (n <= r < 6 && InMaandN(t, nu, r))
    decreases 6 - n
  {
    hide MaandBegin;
    if n < 6 && !InMaandN(t, nu, n) {
      ZoekMaandGevonden(nu, t, n + 1);
    }
  }

  lemma {:induction false} ZoekMaandMist(nu: Maand, t: int, n: nat, k: int)
    requires n <= k < 6 && InMaandN(t, nu, k)
    ensures ZoekMaand(nu, t, n) != -1
    decreases 6 - n
  {
    hide MaandBegin;
    if !InMaandN(t, nu, n) {
      ZoekMaandMist(nu, t, n + 1, k);
    }
  }

  /** The entry an instant is counted in: the one whose whole month holds it. */
  lemma MaandNummerIs(nu: Maand, t: int, k: int)
    requires 0 <= k < 6
    ensures ZoekMaand(nu, t, 0) == k <==> InMaandN(t, nu, k)
  {
    hide MaandBegin;
    ZoekMaandGevonden(nu, t, 0);
    if InMaandN(t, nu, k) {
      ZoekMaandMist(nu, t, 0, k);
      MaandenDisjunct(nu, t, ZoekMaand(nu, t, 0), k);
    }
  }

  /** An instant is counted in some entry exactly when it lies in the span of the six months. */
  lemma MaandNummerBinnen(nu: Maand, t: int)
    ensures 0 <= ZoekMaand(nu, t, 0) < 6 <==> InZesMaanden(t, nu)
  {
    hide MaandBegin;
    var b := nu.jaar * 12 + nu.maand - 5;
    assert InZesMaanden(t, nu) <==> MaandBegin(b) <= t < MaandBegin(b + 6);
    ZoekMaandGevonden(nu, t, 0);
    var r := ZoekMaand(nu, t, 0);
    if r != -1 {
      assert MaandBegin(b + r) <= t < MaandBegin(b + r + 1);
      MaandBeginMonotoon(b, b + r);
      MaandBeginMonotoon(b + r + 1, b + 6);
    }
    if InZesMaanden(t, nu) {
      var n := PeriodeVan(MaandBegin, b, 6, t);
      assert InMaandN(t, nu, n);
      ZoekMaandMist(nu, t, 0, n);
    }
  }

  /** The entry a user is counted in by the whole-month statistics. */
  function MaandVan(nu: Maand): Gebruikers.Gebruiker -> int
  {
    (g: Gebruikers.Gebruiker) => ZoekMaand(nu, g.aangemaaktOp, 0)
  }

  /** Whole-month entry `k` counts the users whose creation falls in month `k`. */
  lemma EntryTelt(gebruikers: seq<Gebruikers.Gebruiker>, woningen: seq<Woningen.Woning>, nu: Maand, k: int)
    requires Geldig(nu) && 0 <= k < 6
    ensures GetMaandStatistiekenHeleMaand(gebruikers, woningen, nu)[k].nieuweGebruikers
         == |Filter(gebruikers, KlasseIs(MaandVan(nu), k))|
  {
    hide MaandBegin, Label, GetMaandStatistiekenHeleMaand, InMaand;
    var binnen := InMaandVan(nu.jaar, nu.maand - 5 + k);
    HeleMaandEntry(gebruikers, woningen, nu, k);
    forall i | 0 <= i < |gebruikers|
      ensures GebruikerBinnen(binnen)(gebruikers[i]) == KlasseIs(MaandVan(nu), k)(gebruikers[i])
    {
      GebruikerInMaand(nu, gebruikers[i], k);
    }
    FilterZelfdeKeuze(gebruikers, GebruikerBinnen(binnen), KlasseIs(MaandVan(nu), k));
  }

  /** A user lies in the whole-month window of entry `k` exactly when `k` is its month class. */
  lemma GebruikerInMaand(nu: Maand, g: Gebruikers.Gebruiker, k: int)
    requires 0 <= k < 6
    ensures GebruikerBinnen(InMaandVan(nu.jaar, nu.maand - 5 + k))(g) == KlasseIs(MaandVan(nu), k)(g)
  {
    MaandNummerIs(nu, g.aangemaaktOp, k);
  }

  /** Whole-month entry `k` counts the users created within the window of month `k`. */
  lemma HeleMaandEntry(gebruikers: seq<Gebruikers.Gebruiker>, woningen: seq<Woningen.Woning>, nu: Maand, k: int)
    requires Geldig(nu) && 0 <= k < 6
    ensures GetMaandStatistiekenHeleMaand(gebruikers, woningen, nu)[k].nieuweGebruikers
         == |Filter(gebruikers, GebruikerBinnen(InMaandVan(nu.jaar, nu.maand - 5 + k)))|
  {
    hide MaandBegin, Label, InMaand;
  }

  /** The first `n` whole-month entries together count the users whose entry is below `n`. */
  lemma {:induction false} SomIsPerKlasse(gebruikers: seq<Gebruikers.Gebruiker>, woningen: seq<Woningen.Woning>, nu: Maand, n: nat)
    requires Geldig(nu) && n <= 6
    ensures SomNieuweGebruikers(GetMaandStatistiekenHeleMaand(gebruikers, woningen, nu), n)
         == PerKlasse(gebruikers, MaandVan(nu), n)
  {
    hide MaandBegin, Label, GetMaandStatistiekenHeleMaand;
    if n > 0 {
      SomIsPerKlasse(gebruikers, woningen, nu, n - 1);
      EntryTelt(gebruikers, woningen, nu, n - 1);
    }
  }

  /**
    * With whole-month windows the six new-user counts add up to the number
    * of users created within the six months: each is counted exactly once.
    */
  lemma HeleMaandTeltIedereen(gebruikers: seq<Gebruikers.Gebruiker>, woningen: seq<Woningen.Woning>, nu: Maand)
    requires Geldig(nu)
    ensures SomNieuweGebruikers(GetMaandStatistiekenHeleMaand(gebruikers, woningen, nu), 6)
         == |Filter(gebruikers, (g: Gebruikers.Gebruiker) => InZesMaanden(g.aangemaaktOp, nu))|
  {
    hide MaandBegin, Label, GetMaandStatistiekenHeleMaand;
    SomIsPerKlasse(gebruikers, woningen, nu, 6);
    KlassenTellen(gebruikers, MaandVan(nu), 6);
    forall i | 0 <= i < |gebruikers|
      ensures KlasseOnder(MaandVan(nu), 6)(gebruikers[i]) == InZesMaanden(gebruikers[i].aangemaaktOp, nu)
    {
      MaandNummerBinnen(nu, gebruikers[i].aangemaaktOp);
    }
    FilterZelfdeKeuze(gebruikers, KlasseOnder(MaandVan(nu), 6),
                      (g: Gebruikers.Gebruiker) => InZesMaanden(g.aangemaaktOp, nu));
  }

  // ---------------------------------------------------------------------
  // Labels
  // ---------------------------------------------------------------------

  lemma {:induction false} NatNaarTekstInjectief(a: nat, b: nat)
    requires NatNaarTekst(a) == NatNaarTekst(b)
    ensures a == b
  {
    CijfersWaardeVanNatNaarTekst(a);
    CijfersWaardeVanNatNaarTekst(b);
  }

  lemma IntNaarTekstInjectief(a: int, b: int)
    requires IntNaarTekst(a) == IntNaarTekst(b)
    ensures a == b
  {
    if a >= 0 && b >= 0 {
      NatNaarTekstInjectief(a, b);
    } else if a < 0 && b < 0 {
      assert NatNaarTekst(-a) == IntNaarTekst(a)[1..];
      NatNaarTekstInjectief(-a, -b);
    }
  }

  /** A two-digit padding starts with `0` exactly for the one-digit numbers. */
  lemma Pad2BeginNul(n: nat)
    requires n < 100
    ensures Pad2(n)[0] == '0' <==> n < 10
  {
    if n >= 10 {
      assert NatNaarTekst(n) == [Cijfer(n / 10)] + [Cijfer(n % 10)];
    }
  }

  lemma Pad2Injectief(a: nat, b: nat)
    requires a < 100 && b < 100 && Pad2(a) == Pad2(b)
    ensures a == b
  {
    Pad2BeginNul(a);
    Pad2BeginNul(b);
    if a < 10 {
      assert Pad2(a)[1] == Cijfer(a) && Pad2(b)[1] == Cijfer(b);
    } else {
      NatNaarTekstInjectief(a, b);
    }
  }

  /** Different months get different labels, so the six labels are six distinct months. */
  lemma LabelsVerschillen(a: Maand, b: Maand)
    requires Geldig(a) && Geldig(b) && Label(a) == Label(b)
    ensures a == b
  {
    assert |Pad2(a.maand + 1)| == 2 && |Pad2(b.maand + 1)| == 2;
    StreepjeSplitst(IntNaarTekst(a.jaar), IntNaarTekst(b.jaar), Pad2(a.maand + 1), Pad2(b.maand + 1));
    IntNaarTekstInjectief(a.jaar, b.jaar);
    Pad2Injectief(a.maand + 1, b.maand + 1);
  }

  /** Two texts `x-p` and `y-q` with tails of equal length are equal part by part. */
  lemma StreepjeSplitst(x: string, y: string, p: string, q: string)
    requires x + "-" + p == y + "-" + q && |p| == |q|
    ensures x == y && p == q
  {
    var l := x + "-" + p;
    assert |x| == |y|;
    assert l[..|x|] == x && (y + "-" + q)[..|y|] == y;
    assert l[|x| + 1..] == p && (y + "-" + q)[|y| + 1..] == q;
  }

  // ---------------------------------------------------------------------
  // Range filters of the admin listings
  // ---------------------------------------------------------------------

  /** A date bound from the query: a truthy text through `new Date(…)`, else no bound. */
  function DatumGrens(x: Option<string>, datum: string -> Sleutel): (r: Option<Sleutel>)
    ensures r.Some? <==> Gevuld(x)
    ensures r.Some? ==> r.value == datum(x.value)
  {
    if Gevuld(x) then Some(datum(x.value)) else None
  }

  /** A price bound: only a truthy number bounds, so 0, NaN and an absent price do not. */
  function PrijsGrens(x: Option<real>): (r: Option<Sleutel>)
    ensures r.Some? <==> Actief(x)
    ensures r.Some? ==> r.value == Num(x.value)
  {
    if Actief(x) then Some(Num(x.value)) else None
  }

  /** A column value lies within the bounds that are given; a NULL value or bound satisfies none. */
  predicate Binnen(x: Sleutel, van: Option<Sleutel>, tot: Option<Sleutel>)
  {
    && (van.Some? ==> x != Leeg && van.value != Leeg && SleutelLe(van.value, x))
    && (tot.Some? ==> x != Leeg && tot.value != Leeg && SleutelLe(x, tot.value))
  }

  /** Whichever of its three forms the range filter takes, it keeps exactly the rows whose value lies within the bounds. */
  lemma BereikBinnen(kolom: string, van: Option<Sleutel>, tot: Option<Sleutel>, rij: Rij)
    ensures GeldtAlle(Bereik(kolom, van, tot), rij) <==> Binnen(Voorwaarden.Waarde(rij, kolom), van, tot)
  {
    BereikIsGrenzen(kolom, van, tot, rij);
  }

  /** On a price the range filter is the numeric comparison with each truthy bound. */
  lemma PrijsBinnen(prijs: real, van: Option<real>, tot: Option<real>)
    ensures Binnen(Num(prijs), PrijsGrens(van), PrijsGrens(tot)) <==>
      (Actief(van) ==> van.value <= prijs) && (Actief(tot) ==> prijs <= tot.value)
  {
  }

  lemma BereikBekend(kolom: string, van: Option<Sleutel>, tot: Option<Sleutel>, kolommen: set<string>)
    requires kolom in kolommen
    ensures AllesBekend(Bereik(kolom, van, tot), kolommen)
  {
  }

  lemma AllesBekendSamen(a: seq<Voorwaarde>, b: seq<Voorwaarde>, kolommen: set<string>)
    ensures AllesBekend(a + b, kolommen) <==> AllesBekend(a, kolommen) && AllesBekend(b, kolommen)
  {
    if AllesBekend(a, kolommen) && AllesBekend(b, kolommen) {
      forall i | 0 <= i < |a + b| ensures Bekend((a + b)[i], kolommen) {
        if i >= |a| {
          assert (a + b)[i] == b[i - |a|];
        }
      }
    }
    if AllesBekend(a + b, kolommen) {
      forall i | 0 <= i < |b| ensures Bekend(b[i], kolommen) {
        assert (a + b)[|a| + i] == b[i];
      }
      forall i | 0 <= i < |a| ensures Bekend(a[i], kolommen) {
        assert (a + b)[i] == a[i];
      }
    }
  }

  /**
    * A listing whose where clause agrees with `p` on every row of the table
    * counts exactly the rows satisfying `p`, and lists only such rows.
    */
  lemma LijstVolgens<T>(tabel: seq<T>, alsRij: T -> Rij, kolommen: set<string>, vs: seq<Voorwaarde>,
                        veld: string, richting: string, pagina: Option<int>, aantal: Option<int>, p: T -> bool)
    requires forall i :: 0 <= i < |tabel| ==> p(tabel[i]) == GeldtAlle(vs, alsRij(tabel[i]))
    ensures var r := Lijst(tabel, alsRij, kolommen, vs, veld, richting, pagina, aantal);
      r.Ok? ==>
        && r.value.metadata.totaal == |Filter(tabel, p)|
        && forall i :: 0 <= i < |r.value.rijen| ==> r.value.rijen[i] in tabel && p(r.value.rijen[i])
  {
    var r := Lijst(tabel, alsRij, kolommen, vs, veld, richting, pagina, aantal);
    FilterZelfdeKeuze(tabel, Voldoet(vs, alsRij), p);
    LijstRijenVoldoen(tabel, alsRij, kolommen, vs, veld, richting, pagina, aantal);
    if r.Ok? {
      forall i | 0 <= i < |r.value.rijen| ensures p(r.value.rijen[i]) {
        var x := r.value.rijen[i];
        var j :| 0 <= j < |tabel| && tabel[j] == x;
      }
    }
  }

  /** The paging and sort options the controller fills in; `None` is a page number or size that parsed to NaN. */
  datatype Opties = Opties(pagina: Option<int>, aantalPerPagina: Option<int>, sorteerOp: string, sorteerRichting: string)

  /** The options a listing can run with: a known sort column and direction and numeric paging. */
  predicate Uitvoerbaar(o: Opties, kolommen: set<string>)
  {
    KolomBekend(o.sorteerOp, kolommen) && RichtingUit(o.sorteerRichting).Some? && o.pagina.Some? && o.aantalPerPagina.Some?
  }

  // ---------------------------------------------------------------------
  // Admin user listing
  // ---------------------------------------------------------------------

  /** The filters of the admin user listing; `status` is read from the query and never used. */
  datatype GebruikersFilters = GebruikersFilters(
    rol: Option<int>, zoekterm: Option<string>, status: Option<string>, datumVan: Option<string>, datumTot: Option<string>)

  /** Role and search term as the user service builds them, and the creation date range. */
  function WhereGebruikers(f: GebruikersFilters, datum: string -> Sleutel): seq<Voorwaarde>
  {
    Gebruikers.WhereGebruikers(f.rol, f.zoekterm) + Bereik("aangemaaktOp", DatumGrens(f.datumVan, datum), DatumGrens(f.datumTot, datum))
  }

  /** The filters' meaning on the record. */
  predicate PastBijGebruiker(f: GebruikersFilters, datum: string -> Sleutel, g: Gebruikers.Gebruiker)
  {
    && Gebruikers.PastBijGebruikersfilter(f.rol, f.zoekterm, g)
    && Binnen(Num(g.aangemaaktOp as real), DatumGrens(f.datumVan, datum), DatumGrens(f.datumTot, datum))
  }

  function PastBijGebruikerVan(f: GebruikersFilters, datum: string -> Sleutel): Gebruikers.Gebruiker -> bool
  {
    (g: Gebruikers.Gebruiker) => PastBijGebruiker(f, datum, g)
  }

  lemma WhereGebruikersKlopt(f: GebruikersFilters, datum: string -> Sleutel, g: Gebruikers.Gebruiker)
    ensures GeldtAlle(WhereGebruikers(f, datum), Gebruikers.AlsRij(g)) <==> PastBijGebruiker(f, datum, g)
  {
    var rij := Gebruikers.AlsRij(g);
    var van := DatumGrens(f.datumVan, datum);
    var tot := DatumGrens(f.datumTot, datum);
    Gebruikers.AlsRijLeestAls(g);
    GeldtAlleSamen(Gebruikers.WhereGebruikers(f.rol, f.zoekterm), Bereik("aangemaaktOp", van, tot), rij);
    Gebruikers.WhereGebruikersKlopt(rij, g, f.rol, f.zoekterm);
    BereikBinnen("aangemaaktOp", van, tot, rij);
  }

  lemma WhereGebruikersBekend(f: GebruikersFilters, datum: string -> Sleutel)
    ensures AllesBekend(WhereGebruikers(f, datum), Gebruikers.Kolommen)
  {
    Gebruikers.WhereGebruikersBekend(f.rol, f.zoekterm);
    BereikBekend("aangemaaktOp", DatumGrens(f.datumVan, datum), DatumGrens(f.datumTot, datum), Gebruikers.Kolommen);
    AllesBekendSamen(Gebruikers.WhereGebruikers(f.rol, f.zoekterm),
      Bereik("aangemaaktOp", DatumGrens(f.datumVan, datum), DatumGrens(f.datumTot, datum)), Gebruikers.Kolommen);
  }

  /** The underlying listing counts and lists exactly the users the filters describe. */
  lemma LijstGebruikersVolgens(tabel: Gebruikers.Tabel, f: GebruikersFilters, o: Opties, datum: string -> Sleutel)
    ensures var l := Lijst(tabel, Gebruikers.AlsRij, Gebruikers.Kolommen, WhereGebruikers(f, datum), o.sorteerOp, o.sorteerRichting, o.pagina, o.aantalPerPagina);
      l.Ok? ==>
        && l.value.metadata.totaal == |Filter(tabel, PastBijGebruikerVan(f, datum))|
        && forall i :: 0 <= i < |l.value.rijen| ==> l.value.rijen[i] in tabel && PastBijGebruiker(f, datum, l.value.rijen[i])
  {
    var vs := WhereGebruikers(f, datum);
    var p := PastBijGebruikerVan(f, datum);
    forall i | 0 <= i < |tabel| ensures p(tabel[i]) == GeldtAlle(vs, Gebruikers.AlsRij(tabel[i])) {
      WhereGebruikersKlopt(f, datum, tabel[i]);
    }
    LijstVolgens(tabel, Gebruikers.AlsRij, Gebruikers.Kolommen, vs, o.sorteerOp, o.sorteerRichting, o.pagina, o.aantalPerPagina, p);
  }

  /**
    * The admin getGebruikers: the filtered users on one page, sorted on the
    * chosen column, each in its JSON form without the password and reset
    * token. A sort column that names no column even up to letter case, an
    * unknown direction, or a NaN page number or size makes the query fail.
    */
  function GetGebruikers(tabel: Gebruikers.Tabel, f: GebruikersFilters, o: Opties, datum: string -> Sleutel): (r: Result<Pagina<Gebruikers.PubliekeGebruiker>>)
    ensures r.Ok? <==> Uitvoerbaar(o, Gebruikers.Kolommen)
    ensures r.Err? ==> r.code == ServerError
    ensures r.Ok? ==> var m := r.value.metadata;
      && m.totaal == |Filter(tabel, PastBijGebruikerVan(f, datum))|
      && m.pagina == o.pagina.value && m.aantalPerPagina == o.aantalPerPagina.value
      && m.totaalPaginas == TotaalPaginas(m.totaal, o.aantalPerPagina.value)
      && (o.aantalPerPagina.value >= 0 ==> |r.value.rijen| <= o.aantalPerPagina.value)
    ensures r.Ok? ==> forall i :: 0 <= i < |r.value.rijen| ==> PubliekVanGevonden(tabel, f, datum, r.value.rijen[i])
  {
    WhereGebruikersBekend(f, datum);
    LijstGebruikersVolgens(tabel, f, o, datum);
    var l := Lijst(tabel, Gebruikers.AlsRij, Gebruikers.Kolommen, WhereGebruikers(f, datum), o.sorteerOp, o.sorteerRichting, o.pagina, o.aantalPerPagina);
    if l.Err? then Err(l.code)
    else
      var r := Gebruikers.PubliekePagina(l.value);
      PubliekUitSelectie(tabel, f, datum, l.value, r);
      Ok(r)
  }

  /** `x` is the public form of a user of the table the filters accept. */
  ghost predicate PubliekVanGevonden(tabel: Gebruikers.Tabel, f: GebruikersFilters, datum: string -> Sleutel, x: Gebruikers.PubliekeGebruiker)
  {
    exists g :: g in tabel && PastBijGebruiker(f, datum, g) && x == Gebruikers.Publiek(g)
  }

  lemma PubliekUitSelectie(tabel: Gebruikers.Tabel, f: GebruikersFilters, datum: string -> Sleutel,
                           p: Pagina<Gebruikers.Gebruiker>, r: Pagina<Gebruikers.PubliekeGebruiker>)
    requires forall i :: 0 <= i < |p.rijen| ==> p.rijen[i] in tabel && PastBijGebruiker(f, datum, p.rijen[i])
    requires r == Gebruikers.PubliekePagina(p)
    ensures forall i :: 0 <= i < |r.rijen| ==> PubliekVanGevonden(tabel, f, datum, r.rijen[i])
  {
    forall i | 0 <= i < |r.rijen| ensures PubliekVanGevonden(tabel, f, datum, r.rijen[i]) {
      var g := p.rijen[i];
      assert g in tabel && PastBijGebruiker(f, datum, g) && r.rijen[i] == Gebruikers.Publiek(g);
    }
  }

  /** The users on a page are in the order of the chosen column and direction. */
  lemma GetGebruikersGesorteerd(tabel: Gebruikers.Tabel, f: GebruikersFilters, o: Opties, datum: string -> Sleutel)
    ensures var r := GetGebruikers(tabel, f, o, datum);
      r.Ok? ==> exists p :: (r.value == Gebruikers.PubliekePagina(p)
        && Gesorteerd(p.rijen, OrdeSleutel(Gebruikers.AlsRij, ZoekKolom(o.sorteerOp, Gebruikers.Kolommen).value, RichtingUit(o.sorteerRichting).value),
                      RichtingUit(o.sorteerRichting).value.richting))
  {
    var vs := WhereGebruikers(f, datum);
    var l := Lijst(tabel, Gebruikers.AlsRij, Gebruikers.Kolommen, vs, o.sorteerOp, o.sorteerRichting, o.pagina, o.aantalPerPagina);
    LijstGesorteerd(tabel, Gebruikers.AlsRij, Gebruikers.Kolommen, vs, o.sorteerOp, o.sorteerRichting, o.pagina, o.aantalPerPagina);
    if l.Ok? {
      assert GetGebruikers(tabel, f, o, datum).value == Gebruikers.PubliekePagina(l.value);
    }
  }

  /** The `status` filter changes nothing. */
  lemma StatusGenegeerd(tabel: Gebruikers.Tabel, f: GebruikersFilters, o: Opties, datum: string -> Sleutel, status: Option<string>)
    ensures GetGebruikers(tabel, f.(status := status), o, datum) == GetGebruikers(tabel, f, o, datum)
  {
  }

  // ---------------------------------------------------------------------
  // Changing a user's role
  // ---------------------------------------------------------------------

  /**
    * updateGebruikerRol: 404 for an unknown id; otherwise the role is set
    * and saved. The column admits only 1, 2 and 3, so another role fails
    * validation (400). The update time moves to `nu` only when the role
    * changed, and no other column is touched.
    */
  function UpdateGebruikerRol(tabel: Gebruikers.Tabel, id: int, rol: int, nu: int): (r: Result<(Gebruikers.Gebruiker, Gebruikers.Tabel)>)
    ensures PositieVan(tabel, Gebruikers.Id, id).None? <==> r == Err(NotFound)
    ensures r == Err(BadRequest) <==> PositieVan(tabel, Gebruikers.Id, id).Some? && !Gebruikers.GeldigeRol(rol)
    ensures r.Ok? ==> var (g, t) := r.value; var oud := tabel[PositieVan(tabel, Gebruikers.Id, id).value];
      && g.rol == rol && g.id == id
      && g.(rol := oud.rol, bijgewerktOp := oud.bijgewerktOp) == oud
      && (oud.rol == rol ==> g == oud)
      && (oud.rol != rol ==> g.bijgewerktOp == nu)
      && t == tabel[PositieVan(tabel, Gebruikers.Id, id).value := g]
  {
    match PositieVan(tabel, Gebruikers.Id, id)
    case None => Err(NotFound)
    case Some(p) =>
      if !Gebruikers.GeldigeRol(rol) then Err(BadRequest)
      else
        var g := if tabel[p].rol == rol then tabel[p] else tabel[p].(rol := rol, bijgewerktOp := nu);
        Ok((g, tabel[p := g]))
  }

  /** Replacing a row by one with the same key keeps keys unique, and the key is then found at that row. */
  lemma VervangenHoudtUniek<T>(tabel: seq<T>, sleutel: T -> int, p: nat, x: T)
    requires UniekOp(tabel, sleutel) && p < |tabel| && sleutel(x) == sleutel(tabel[p])
    ensures UniekOp(tabel[p := x], sleutel)
    ensures PositieVan(tabel[p := x], sleutel, sleutel(x)) == Some(p)
  {
    var t := tabel[p := x];
    forall i, j | 0 <= i < j < |t| ensures sleutel(t[i]) != sleutel(t[j]) {
      assert sleutel(t[i]) == sleutel(tabel[i]) && sleutel(t[j]) == sleutel(tabel[j]);
    }
    PositieIsEnige(t, sleutel, sleutel(x), p);
  }

  /** Setting the same role a second time changes nothing more. */
  lemma RolZettenIdempotent(tabel: Gebruikers.Tabel, id: int, rol: int, nu: int, later: int)
    requires UniekOp(tabel, Gebruikers.Id)
    requires UpdateGebruikerRol(tabel, id, rol, nu).Ok?
    ensures var (g, t) := UpdateGebruikerRol(tabel, id, rol, nu).value;
      UniekOp(t, Gebruikers.Id) && UpdateGebruikerRol(t, id, rol, later) == Ok((g, t))
  {
    var (g, t) := UpdateGebruikerRol(tabel, id, rol, nu).value;
    var p := PositieVan(tabel, Gebruikers.Id, id).value;
    assert Gebruikers.Id(g) == id;
    VervangenHoudtUniek(tabel, Gebruikers.Id, p, g);
    assert PositieVan(t, Gebruikers.Id, id) == Some(p);
    assert t[p] == g && g.rol == rol;
    assert t[p := g] == t;
  }

  // ---------------------------------------------------------------------
  // Admin property listing
  // ---------------------------------------------------------------------

  /**
    * The filters of the admin property listing. Prices are the controller's
    * `parseFloat` results (`None` for absent or NaN); `goedgekeurd` is the
    * parsed approval flag; the other values are raw query text.
    */
  datatype WoningFilters = WoningFilters(
    status: Option<string>, verkoperId: Option<string>, prijsVan: Option<real>, prijsTot: Option<real>,
    goedgekeurd: Option<bool>, datumVan: Option<string>, datumTot: Option<string>, zoekterm: Option<string>)

  function Tekst(x: Option<string>): string
  {
    if x.Some? then x.value else ""
  }

  /** Status, seller and price range. */
  function WhereWoningenKern(f: WoningFilters): seq<Voorwaarde>
  {
    WoningService.Als(Gevuld(f.status), Gelijk("status", Txt(Tekst(f.status))))
    + WoningService.Als(Gevuld(f.verkoperId), Gelijk("verkoperId", WoningService.MetNumeriekeAffiniteit(Tekst(f.verkoperId))))
    + Bereik("prijs", PrijsGrens(f.prijsVan), PrijsGrens(f.prijsTot))
  }

  /** The approval flag, whenever it is not undefined, false included. */
  function WhereGoedgekeurd(f: WoningFilters): seq<Voorwaarde>
  {
    WoningService.Als(f.goedgekeurd.Some?, Gelijk("goedgekeurd", Num(if f.goedgekeurd == Some(true) then 1.0 else 0.0)))
  }

  /** Creation date range and search term. */
  function WhereWoningenRest(f: WoningFilters, datum: string -> Sleutel): seq<Voorwaarde>
  {
    Bereik("aangemaaktOp", DatumGrens(f.datumVan, datum), DatumGrens(f.datumTot, datum))
    + WoningService.Als(Gevuld(f.zoekterm), WoningService.ZoektermVoorwaarde(Tekst(f.zoekterm)))
  }

  function WhereWoningen(f: WoningFilters, datum: string -> Sleutel): seq<Voorwaarde>
  {
    WhereWoningenKern(f) + WhereGoedgekeurd(f) + WhereWoningenRest(f, datum)
  }

  /** The filters' meaning on the record, stated with numbers for the price. */
  predicate PastBijWoning(f: WoningFilters, datum: string -> Sleutel, w: Woningen.Woning)
  {
    && (Gevuld(f.status) ==> Woningen.StatusNaam(w.status) == f.status.value)
    && (Gevuld(f.verkoperId) ==> SqlGetal(f.verkoperId.value) == Some(w.verkoperId as real))
    && (Actief(f.prijsVan) ==> f.prijsVan.value <= w.prijs)
    && (Actief(f.prijsTot) ==> w.prijs <= f.prijsTot.value)
    && Binnen(Num(w.aangemaaktOp as real), DatumGrens(f.datumVan, datum), DatumGrens(f.datumTot, datum))
    && (Gevuld(f.zoekterm) ==> WoningService.ZoektermPast(f.zoekterm.value, w))
  }

  function PastBijWoningVan(f: WoningFilters, datum: string -> Sleutel): Woningen.Woning -> bool
  {
    (w: Woningen.Woning) => PastBijWoning(f, datum, w)
  }

  lemma WhereWoningenKernKlopt(f: WoningFilters, w: Woningen.Woning)
    ensures var rij := Woningen.AlsRij(w);
      GeldtAlle(WhereWoningenKern(f), rij) <==>
        && (Gevuld(f.status) ==> Woningen.StatusNaam(w.status) == f.status.value)
        && (Gevuld(f.verkoperId) ==> SqlGetal(f.verkoperId.value) == Some(w.verkoperId as real))
        && (Actief(f.prijsVan) ==> f.prijsVan.value <= w.prijs)
        && (Actief(f.prijsTot) ==> w.prijs <= f.prijsTot.value)
  {
    hide Basis.SqlGetal;
    var rij := Woningen.AlsRij(w);
    Woningen.AlsRijLeestAls(w);
    hide Woningen.AlsRij;
    var a := WoningService.Als(Gevuld(f.status), Gelijk("status", Txt(Tekst(f.status))));
    var b := WoningService.Als(Gevuld(f.verkoperId), Gelijk("verkoperId", WoningService.MetNumeriekeAffiniteit(Tekst(f.verkoperId))));
    var c := Bereik("prijs", PrijsGrens(f.prijsVan), PrijsGrens(f.prijsTot));
    GeldtAlleSamen(a, b, rij);
    GeldtAlleSamen(a + b, c, rij);
    WoningService.AlsGeldt(Gevuld(f.status), Gelijk("status", Txt(Tekst(f.status))), rij);
    WoningService.AlsGeldt(Gevuld(f.verkoperId), Gelijk("verkoperId", WoningService.MetNumeriekeAffiniteit(Tekst(f.verkoperId))), rij);
    WoningService.VerkoperKlopt(Tekst(f.verkoperId), w, rij);
    BereikBinnen("prijs", PrijsGrens(f.prijsVan), PrijsGrens(f.prijsTot), rij);
    PrijsBinnen(w.prijs, f.prijsVan, f.prijsTot);
  }

  lemma WhereWoningenRestKlopt(f: WoningFilters, datum: string -> Sleutel, w: Woningen.Woning)
    ensures var rij := Woningen.AlsRij(w);
      GeldtAlle(WhereWoningenRest(f, datum), rij) <==>
        && Binnen(Num(w.aangemaaktOp as real), DatumGrens(f.datumVan, datum), DatumGrens(f.datumTot, datum))
        && (Gevuld(f.zoekterm) ==> WoningService.ZoektermPast(f.zoekterm.value, w))
  {
    var rij := Woningen.AlsRij(w);
    Woningen.AlsRijLeestAls(w);
    var a := Bereik("aangemaaktOp", DatumGrens(f.datumVan, datum), DatumGrens(f.datumTot, datum));
    var z := WoningService.ZoektermVoorwaarde(Tekst(f.zoekterm));
    GeldtAlleSamen(a, WoningService.Als(Gevuld(f.zoekterm), z), rij);
    BereikBinnen("aangemaaktOp", DatumGrens(f.datumVan, datum), DatumGrens(f.datumTot, datum), rij);
    WoningService.AlsGeldt(Gevuld(f.zoekterm), z, rij);
    WoningService.ZoektermKlopt(Tekst(f.zoekterm), w, rij);
  }

  /** Without an approval flag the where clause keeps exactly the properties the filters describe. */
  lemma WhereWoningenKlopt(f: WoningFilters, datum: string -> Sleutel, w: Woningen.Woning)
    requires f.goedgekeurd.None?
    ensures GeldtAlle(WhereWoningen(f, datum), Woningen.AlsRij(w)) <==> PastBijWoning(f, datum, w)
  {
    hide Basis.SqlGetal;
    var rij := Woningen.AlsRij(w);
    assert WhereGoedgekeurd(f) == [];
    assert WhereWoningen(f, datum) == WhereWoningenKern(f) + WhereWoningenRest(f, datum);
    WhereWoningenKernKlopt(f, w);
    WhereWoningenRestKlopt(f, datum, w);
    hide WhereWoningenKern, WhereWoningenRest;
    GeldtAlleSamen(WhereWoningenKern(f), WhereWoningenRest(f, datum), rij);
  }

  /** The where clause names only columns of the table, except that the table has no approval column. */
  lemma WhereWoningenBekend(f: WoningFilters, datum: string -> Sleutel)
    ensures AllesBekend(WhereWoningen(f, datum), Woningen.Kolommen) <==> f.goedgekeurd.None?
  {
    var k := Woningen.Kolommen;
    KernBekend(f);
    RestBekend(f, datum);
    GoedgekeurdBekend(f);
    hide WhereWoningenKern, WhereGoedgekeurd, WhereWoningenRest, AllesBekend;
    AllesBekendSamen(WhereWoningenKern(f), WhereGoedgekeurd(f), k);
    AllesBekendSamen(WhereWoningenKern(f) + WhereGoedgekeurd(f), WhereWoningenRest(f, datum), k);
  }

  lemma KernBekend(f: WoningFilters)
    ensures AllesBekend(WhereWoningenKern(f), Woningen.Kolommen)
  {
    hide Basis.SqlGetal;
    var k := Woningen.Kolommen;
    Woningen.GebruikteKolommen();
    var a := WoningService.Als(Gevuld(f.status), Gelijk("status", Txt(Tekst(f.status))));
    var b := WoningService.Als(Gevuld(f.verkoperId), Gelijk("verkoperId", WoningService.MetNumeriekeAffiniteit(Tekst(f.verkoperId))));
    var c := Bereik("prijs", PrijsGrens(f.prijsVan), PrijsGrens(f.prijsTot));
    BereikBekend("prijs", PrijsGrens(f.prijsVan), PrijsGrens(f.prijsTot), k);
    AllesBekendSamen(a, b, k);
    AllesBekendSamen(a + b, c, k);
  }

  lemma RestBekend(f: WoningFilters, datum: string -> Sleutel)
    ensures AllesBekend(WhereWoningenRest(f, datum), Woningen.Kolommen)
  {
    var k := Woningen.Kolommen;
    Woningen.GebruikteKolommen();
    var d := Bereik("aangemaaktOp", DatumGrens(f.datumVan, datum), DatumGrens(f.datumTot, datum));
    var z := WoningService.Als(Gevuld(f.zoekterm), WoningService.ZoektermVoorwaarde(Tekst(f.zoekterm)));
    BereikBekend("aangemaaktOp", DatumGrens(f.datumVan, datum), DatumGrens(f.datumTot, datum), k);
    WoningService.ZoektermBekend(Tekst(f.zoekterm));
    AllesBekendSamen(d, z, k);
  }

  /** The table has no `goedgekeurd` column: the approval condition is known only when it is absent. */
  lemma GoedgekeurdBekend(f: WoningFilters)
    ensures AllesBekend(WhereGoedgekeurd(f), Woningen.Kolommen) <==> f.goedgekeurd.None?
  {
    assert "goedgekeurd" !in Woningen.Kolommen;
    if f.goedgekeurd.Some? {
      assert !Bekend(WhereGoedgekeurd(f)[0], Woningen.Kolommen);
    }
  }

  /**
    * The admin getWoningen: the filtered properties on one page, sorted on
    * the chosen column. Because the property table has no `goedgekeurd`
    * column, any approval flag makes the query fail.
    */
  function GetWoningen(tabel: WoningService.Tabel, f: WoningFilters, o: Opties, datum: string -> Sleutel): (r: Result<Pagina<Woningen.Woning>>)
    ensures r.Ok? <==> f.goedgekeurd.None? && Uitvoerbaar(o, Woningen.Kolommen)
    ensures r.Err? ==> r.code == ServerError
    ensures r.Ok? ==> var m := r.value.metadata;
      && m.totaal == |Filter(tabel, PastBijWoningVan(f, datum))|
      && m.pagina == o.pagina.value && m.aantalPerPagina == o.aantalPerPagina.value
      && m.totaalPaginas == TotaalPaginas(m.totaal, o.aantalPerPagina.value)
      && (o.aantalPerPagina.value >= 0 ==> |r.value.rijen| <= o.aantalPerPagina.value)
    ensures r.Ok? ==> forall i :: 0 <= i < |r.value.rijen| ==> r.value.rijen[i] in tabel && PastBijWoning(f, datum, r.value.rijen[i])
  {
    var vs := WhereWoningen(f, datum);
    WhereWoningenBekend(f, datum);
    var l := Lijst(tabel, Woningen.AlsRij, Woningen.Kolommen, vs, o.sorteerOp, o.sorteerRichting, o.pagina, o.aantalPerPagina);
    if l.Err? then l
    else
      assert forall i :: 0 <= i < |tabel| ==> PastBijWoningVan(f, datum)(tabel[i]) == GeldtAlle(vs, Woningen.AlsRij(tabel[i])) by {
        forall i | 0 <= i < |tabel| ensures PastBijWoningVan(f, datum)(tabel[i]) == GeldtAlle(vs, Woningen.AlsRij(tabel[i])) {
          WhereWoningenKlopt(f, datum, tabel[i]);
        }
      }
      LijstVolgens(tabel, Woningen.AlsRij, Woningen.Kolommen, vs, o.sorteerOp, o.sorteerRichting, o.pagina, o.aantalPerPagina, PastBijWoningVan(f, datum));
      l
  }

  /** The properties on a page are in the order of the chosen column and direction. */
  lemma GetWoningenGesorteerd(tabel: WoningService.Tabel, f: WoningFilters, o: Opties, datum: string -> Sleutel)
    ensures var r := GetWoningen(tabel, f, o, datum);
      r.Ok? ==> Gesorteerd(r.value.rijen, OrdeSleutel(Woningen.AlsRij, ZoekKolom(o.sorteerOp, Woningen.Kolommen).value, RichtingUit(o.sorteerRichting).value),
                           RichtingUit(o.sorteerRichting).value.richting)
  {
    LijstGesorteerd(tabel, Woningen.AlsRij, Woningen.Kolommen, WhereWoningen(f, datum), o.sorteerOp, o.sorteerRichting, o.pagina, o.aantalPerPagina);
  }

  // ---------------------------------------------------------------------
  // Featured flag and status of a property
  // ---------------------------------------------------------------------

  /**
    * toggleWoningUitgelicht: 404 for an unknown id; otherwise the featured
    * flag is set and saved, and only the flag and, when it changed, the
    * update time differ.
    */
  function ToggleWoningUitgelicht(tabel: WoningService.Tabel, id: int, isUitgelicht: bool, nu: int): (r: Result<(Woningen.Woning, WoningService.Tabel)>)
    ensures WoningService.Positie(tabel, id).None? <==> r.Err?
    ensures r.Err? ==> r.code == NotFound
    ensures r.Ok? ==> var (w, t) := r.value; var p := WoningService.Positie(tabel, id).value;
      && w.isUitgelicht == isUitgelicht && w.id == id
      && w.(isUitgelicht := tabel[p].isUitgelicht, bijgewerktOp := tabel[p].bijgewerktOp) == tabel[p]
      && (tabel[p].isUitgelicht == isUitgelicht ==> w == tabel[p])
      && (tabel[p].isUitgelicht != isUitgelicht ==> w.bijgewerktOp == nu)
      && t == tabel[p := w]
  {
    match WoningService.Positie(tabel, id)
    case None => Err(NotFound)
    case Some(p) =>
      var w := if tabel[p].isUitgelicht == isUitgelicht then tabel[p] else tabel[p].(isUitgelicht := isUitgelicht, bijgewerktOp := nu);
      Ok((w, tabel[p := w]))
  }

  /**
    * updateWoningStatus: 404 for an unknown id; a text that is none of the
    * three ENUM values fails validation (400); otherwise only the status and,
    * when it changed, the update time differ.
    */
  function UpdateWoningStatus(tabel: WoningService.Tabel, id: int, status: string, nu: int): (r: Result<(Woningen.Woning, WoningService.Tabel)>)
    ensures WoningService.Positie(tabel, id).None? <==> r == Err(NotFound)
    ensures r == Err(BadRequest) <==> WoningService.Positie(tabel, id).Some? && Woningen.StatusUitNaam(status).None?
    ensures r.Ok? ==> var (w, t) := r.value; var p := WoningService.Positie(tabel, id).value;
      && Woningen.StatusNaam(w.status) == status && w.id == id
      && w.(status := tabel[p].status, bijgewerktOp := tabel[p].bijgewerktOp) == tabel[p]
      && (tabel[p].status == w.status ==> w == tabel[p])
      && (tabel[p].status != w.status ==> w.bijgewerktOp == nu)
      && t == tabel[p := w]
  {
    match WoningService.Positie(tabel, id)
    case None => Err(NotFound)
    case Some(p) =>
      match Woningen.StatusUitNaam(status)
      case None => Err(BadRequest)
      case Some(s) =>
        var w := if tabel[p].status == s then tabel[p] else tabel[p].(status := s, bijgewerktOp := nu);
        Ok((w, tabel[p := w]))
  }

  function WoningSleutel(w: Woningen.Woning): int { w.id }

  lemma PositieIsPositieVan(tabel: WoningService.Tabel, id: int)
    ensures WoningService.Positie(tabel, id) == PositieVan(tabel, WoningSleutel, id)
  {
    if tabel != [] {
      PositieIsPositieVan(tabel[1..], id);
    }
  }

  /** Setting the same featured flag a second time changes nothing more. */
  lemma UitgelichtIdempotent(tabel: WoningService.Tabel, id: int, isUitgelicht: bool, nu: int, later: int)
    requires WoningService.UniekeIds(tabel)
    requires ToggleWoningUitgelicht(tabel, id, isUitgelicht, nu).Ok?
    ensures var (w, t) := ToggleWoningUitgelicht(tabel, id, isUitgelicht, nu).value;
      WoningService.UniekeIds(t) && ToggleWoningUitgelicht(t, id, isUitgelicht, later) == Ok((w, t))
  {
    var (w, t) := ToggleWoningUitgelicht(tabel, id, isUitgelicht, nu).value;
    var p := WoningService.Positie(tabel, id).value;
    assert UniekOp(tabel, WoningSleutel);
    assert WoningSleutel(w) == WoningSleutel(tabel[p]);
    VervangenHoudtUniek(tabel, WoningSleutel, p, w);
    PositieIsPositieVan(t, id);
    assert WoningService.Positie(t, id) == Some(p);
    assert t[p] == w && t[p := w] == t;
  }

  /** Setting the same status a second time changes nothing more. */
  lemma StatusIdempotent(tabel: WoningService.Tabel, id: int, status: string, nu: int, later: int)
    requires WoningService.UniekeIds(tabel)
    requires UpdateWoningStatus(tabel, id, status, nu).Ok?
    ensures var (w, t) := UpdateWoningStatus(tabel, id, status, nu).value;
      WoningService.UniekeIds(t) && UpdateWoningStatus(t, id, status, later) == Ok((w, t))
  {
    var (w, t) := UpdateWoningStatus(tabel, id, status, nu).value;
    var p := WoningService.Positie(tabel, id).value;
    assert UniekOp(tabel, WoningSleutel);
    assert WoningSleutel(w) == WoningSleutel(tabel[p]);
    VervangenHoudtUniek(tabel, WoningSleutel, p, w);
    PositieIsPositieVan(t, id);
    assert WoningService.Positie(t, id) == Some(p);
    Woningen.StatusNaamTerug(w.status, status);
    assert Woningen.StatusUitNaam(status) == Some(w.status);
    assert t[p] == w && t[p := w] == t;
  }

  // ---------------------------------------------------------------------
  // Admin viewing listing
  // ---------------------------------------------------------------------

  /** The filters of the admin viewing listing, all raw query text. */
  datatype BezichtigingFilters = BezichtigingFilters(
    status: Option<string>, woningId: Option<string>, gebruikerId: Option<string>, datumVan: Option<string>, datumTot: Option<string>)

  /** Status and property as every viewing listing filters them, the requester, and the range on the viewing date. */
  function WhereBezichtigingen(f: BezichtigingFilters, datum: string -> Sleutel): seq<Voorwaarde>
  {
    Bezichtigingen.WhereFilters(f.status, f.woningId)
    + WoningService.Als(Gevuld(f.gebruikerId), Gelijk("gebruikerId", WoningService.MetNumeriekeAffiniteit(Tekst(f.gebruikerId))))
    + Bereik("bezichtigingDatum", DatumGrens(f.datumVan, datum), DatumGrens(f.datumTot, datum))
  }

  predicate PastBijBezichtiging(f: BezichtigingFilters, datum: string -> Sleutel, b: Bezichtigingen.Bezichtiging)
  {
    && Bezichtigingen.PastBijFilters(f.status, f.woningId, b)
    && (Gevuld(f.gebruikerId) ==> SqlGetal(f.gebruikerId.value) == Some(b.gebruikerId as real))
    && Binnen(Num(b.bezichtigingDatum as real), DatumGrens(f.datumVan, datum), DatumGrens(f.datumTot, datum))
  }

  function PastBijBezichtigingVan(f: BezichtigingFilters, datum: string -> Sleutel): Bezichtigingen.Bezichtiging -> bool
  {
    (b: Bezichtigingen.Bezichtiging) => PastBijBezichtiging(f, datum, b)
  }

  lemma WhereBezichtigingenKlopt(f: BezichtigingFilters, datum: string -> Sleutel, b: Bezichtigingen.Bezichtiging)
    ensures GeldtAlle(WhereBezichtigingen(f, datum), Bezichtigingen.AlsRij(b)) <==> PastBijBezichtiging(f, datum, b)
  {
    hide Basis.SqlGetal;
    var rij := Bezichtigingen.AlsRij(b);
    Bezichtigingen.AlsRijLeestAls(b);
    var a := Bezichtigingen.WhereFilters(f.status, f.woningId);
    var g := Gelijk("gebruikerId", WoningService.MetNumeriekeAffiniteit(Tekst(f.gebruikerId)));
    var d := Bereik("bezichtigingDatum", DatumGrens(f.datumVan, datum), DatumGrens(f.datumTot, datum));
    GeldtAlleSamen(a, WoningService.Als(Gevuld(f.gebruikerId), g), rij);
    GeldtAlleSamen(a + WoningService.Als(Gevuld(f.gebruikerId), g), d, rij);
    Bezichtigingen.WhereFiltersKlopt(f.status, f.woningId, b, rij);
    WoningService.AlsGeldt(Gevuld(f.gebruikerId), g, rij);
    BereikBinnen("bezichtigingDatum", DatumGrens(f.datumVan, datum), DatumGrens(f.datumTot, datum), rij);
  }

  lemma WhereBezichtigingenBekend(f: BezichtigingFilters, datum: string -> Sleutel)
    ensures AllesBekend(WhereBezichtigingen(f, datum), Bezichtigingen.Kolommen)
  {
    hide Basis.SqlGetal;
    var k := Bezichtigingen.Kolommen;
    Bezichtigingen.GebruikteKolommen();
    var a := Bezichtigingen.WhereFilters(f.status, f.woningId);
    var g := WoningService.Als(Gevuld(f.gebruikerId), Gelijk("gebruikerId", WoningService.MetNumeriekeAffiniteit(Tekst(f.gebruikerId))));
    var d := Bereik("bezichtigingDatum", DatumGrens(f.datumVan, datum), DatumGrens(f.datumTot, datum));
    Bezichtigingen.WhereFiltersBekend(f.status, f.woningId);
    BereikBekend("bezichtigingDatum", DatumGrens(f.datumVan, datum), DatumGrens(f.datumTot, datum), k);
    AllesBekendSamen(a, g, k);
    AllesBekendSamen(a + g, d, k);
  }

  /** The admin getBezichtigingen: the filtered viewings on one page, sorted on the chosen column. */
  function GetBezichtigingen(tabel: Bezichtigingen.Tabel, f: BezichtigingFilters, o: Opties, datum: string -> Sleutel): (r: Result<Pagina<Bezichtigingen.Bezichtiging>>)
    ensures r.Ok? <==> Uitvoerbaar(o, Bezichtigingen.Kolommen)
    ensures r.Err? ==> r.code == ServerError
    ensures r.Ok? ==> var m := r.value.metadata;
      && m.totaal == |Filter(tabel, PastBijBezichtigingVan(f, datum))|
      && m.pagina == o.pagina.value && m.aantalPerPagina == o.aantalPerPagina.value
      && m.totaalPaginas == TotaalPaginas(m.totaal, o.aantalPerPagina.value)
      && (o.aantalPerPagina.value >= 0 ==> |r.value.rijen| <= o.aantalPerPagina.value)
    ensures r.Ok? ==> forall i :: 0 <= i < |r.value.rijen| ==> r.value.rijen[i] in tabel && PastBijBezichtiging(f, datum, r.value.rijen[i])
  {
    var vs := WhereBezichtigingen(f, datum);
    WhereBezichtigingenBekend(f, datum);
    var l := Lijst(tabel, Bezichtigingen.AlsRij, Bezichtigingen.Kolommen, vs, o.sorteerOp, o.sorteerRichting, o.pagina, o.aantalPerPagina);
    if l.Err? then l
    else
      assert forall i :: 0 <= i < |tabel| ==> PastBijBezichtigingVan(f, datum)(tabel[i]) == GeldtAlle(vs, Bezichtigingen.AlsRij(tabel[i])) by {
        forall i | 0 <= i < |tabel| ensures PastBijBezichtigingVan(f, datum)(tabel[i]) == GeldtAlle(vs, Bezichtigingen.AlsRij(tabel[i])) {
          WhereBezichtigingenKlopt(f, datum, tabel[i]);
        }
      }
      LijstVolgens(tabel, Bezichtigingen.AlsRij, Bezichtigingen.Kolommen, vs, o.sorteerOp, o.sorteerRichting, o.pagina, o.aantalPerPagina, PastBijBezichtigingVan(f, datum));
      l
  }

  /** The viewings on a page are in the order of the chosen column and direction. */
  lemma GetBezichtigingenGesorteerd(tabel: Bezichtigingen.Tabel, f: BezichtigingFilters, o: Opties, datum: string -> Sleutel)
    ensures var r := GetBezichtigingen(tabel, f, o, datum);
      r.Ok? ==> Gesorteerd(r.value.rijen,
                           OrdeSleutel(Bezichtigingen.AlsRij, ZoekKolom(o.sorteerOp, Bezichtigingen.Kolommen).value, RichtingUit(o.sorteerRichting).value),
                           RichtingUit(o.sorteerRichting).value.richting)
  {
    LijstGesorteerd(tabel, Bezichtigingen.AlsRij, Bezichtigingen.Kolommen, WhereBezichtigingen(f, datum),
                    o.sorteerOp, o.sorteerRichting, o.pagina, o.aantalPerPagina);
  }

  // ---------------------------------------------------------------------
  // Activity log
  // ---------------------------------------------------------------------

  const ActiviteitenPerPagina: int := 20

  /** The activity log has no table behind it: always the empty first page of 20, whatever page was asked for. */
  function GetActiviteitenLog<T>(pagina: Option<int>, aantalPerPagina: Option<int>): (r: Pagina<T>)
    ensures r.rijen == [] && r.metadata.totaal == 0
  {
    Pagina([], Metadata(0, 1, ActiviteitenPerPagina, Some(0)))
  }

  /**
    * The log is the first page of an empty listing of 20 per page; unlike
    * the other listings it does not echo the requested page or size.
    */
  lemma ActiviteitenLogIsEerstePagina<T>(pagina: Option<int>, aantalPerPagina: Option<int>)
    ensures GetActiviteitenLog<T>(pagina, aantalPerPagina) == Pagineer<T>([], 1, ActiviteitenPerPagina)
    ensures pagina.Some? && pagina.value != 1 ==>
      GetActiviteitenLog<T>(pagina, aantalPerPagina).metadata != Pagineer<T>([], pagina.value, ActiviteitenPerPagina).metadata
  {
    assert Plafond(0.0 / 20.0) == 0;
  }
}

=== FILE: beheerder_controller.dfy ===
/**
  * The admin controller: how the query string becomes the filter and
  * option objects of the three admin listings, and the checks made on the
  * body before a role, a featured flag or a status is written. Every route
  * sits behind authentication and the administrator check, so the caller
  * is a known administrator. `parseFloat`, `new Date(…)` and the text
  * JavaScript writes for a number (`String(x)`) are parameters.
  */
module BeheerderController {
  import opened Basis
  import opened Sorteren
  import opened Paginatie
  import opened Lijsten
  import Gebruikers
  import Woningen
  import WoningService
  import Bezichtigingen
  import Beheerder
  import WoningController

  type Query = WoningController.Query

  /** The paging and sort options every admin listing builds: page 1 of 10, newest first, unless the query says otherwise. */
  function OptiesUit(q: Query): (o: Beheerder.Opties)
    ensures !Gevuld(WoningController.Param(q, "pagina")) ==> o.pagina == Some(StandaardPagina)
    ensures !Gevuld(WoningController.Param(q, "aantalPerPagina")) ==> o.aantalPerPagina == Some(StandaardAantalPerPagina)
    ensures !Gevuld(WoningController.Param(q, "sorteerOp")) ==> o.sorteerOp == WoningController.StandaardSorteerVeld
    ensures !Gevuld(WoningController.Param(q, "sorteerRichting")) ==> o.sorteerRichting == WoningController.StandaardSorteerRichting
  {
    Beheerder.Opties(
      WoningController.GeheelOfStandaard(q, "pagina", StandaardPagina),
      WoningController.GeheelOfStandaard(q, "aantalPerPagina", StandaardAantalPerPagina),
      WoningController.OfStandaard(q, "sorteerOp", WoningController.StandaardSorteerVeld),
      WoningController.OfStandaard(q, "sorteerRichting", WoningController.StandaardSorteerRichting))
  }

  /** A query that leaves paging and sorting alone, on a table that has a creation-time column, runs. */
  lemma StandaardOptiesUitvoerbaar(q: Query, kolommen: set<string>)
    requires "aangemaaktOp" in kolommen
    requires !Gevuld(WoningController.Param(q, "sorteerOp")) && !Gevuld(WoningController.Param(q, "sorteerRichting"))
    requires !Gevuld(WoningController.Param(q, "pagina")) && !Gevuld(WoningController.Param(q, "aantalPerPagina"))
    ensures Beheerder.Uitvoerbaar(OptiesUit(q), kolommen)
    ensures OptiesUit(q) == Beheerder.Opties(Some(1), Some(10), "aangemaaktOp", "DESC")
  {
    Lijsten.EigenNaamBekend("aangemaaktOp", kolommen);
    Lijsten.DescIsAflopend();
  }

  // ---------------------------------------------------------------------
  // Listings
  // ---------------------------------------------------------------------

  /** GET /api/beheerder/gebruikers: `rol` through parseInt when truthy, the other filters as given. */
  function GebruikersFiltersUit(q: Query): Beheerder.GebruikersFilters
  {
    Beheerder.GebruikersFilters(
      WoningController.GeheelFilter(q, "rol"), WoningController.Param(q, "zoekterm"), WoningController.Param(q, "status"),
      WoningController.Param(q, "datumVan"), WoningController.Param(q, "datumTot"))
  }

  function GetGebruikers(tabel: Gebruikers.Tabel, q: Query, datum: string -> Sleutel): (r: Result<Pagina<Gebruikers.PubliekeGebruiker>>)
    ensures r == Beheerder.GetGebruikers(tabel, GebruikersFiltersUit(q), OptiesUit(q), datum)
  {
    Beheerder.GetGebruikers(tabel, GebruikersFiltersUit(q), OptiesUit(q), datum)
  }

  /**
    * A `rol` in the query lists only users with that role, and a query
    * without paging or sorting parameters gets at most ten users.
    */
  lemma GetGebruikersOpRol(tabel: Gebruikers.Tabel, q: Query, datum: string -> Sleutel)
    requires !Gevuld(WoningController.Param(q, "sorteerOp")) && !Gevuld(WoningController.Param(q, "sorteerRichting"))
    requires !Gevuld(WoningController.Param(q, "pagina")) && !Gevuld(WoningController.Param(q, "aantalPerPagina"))
    ensures var r := GetGebruikers(tabel, q, datum);
      && r.Ok? && r.value.metadata.pagina == 1 && |r.value.rijen| <= 10
      && (Gevuld(WoningController.Param(q, "rol")) && ParseInt(q["rol"]).Some? && ParseInt(q["rol"]).value != 0 ==>
            forall i :: 0 <= i < |r.value.rijen| ==> r.value.rijen[i].rol == ParseInt(q["rol"]).value)
  {
    assert "aangemaaktOp" in Gebruikers.Kolommen;
    StandaardOptiesUitvoerbaar(q, Gebruikers.Kolommen);
    hide Beheerder.GetGebruikers;
    var r := GetGebruikers(tabel, q, datum);
    var f := GebruikersFiltersUit(q);
    forall i | 0 <= i < |r.value.rijen| && ActiefGeheel(f.rol) ensures r.value.rijen[i].rol == f.rol.value {
      assert Beheerder.PubliekVanGevonden(tabel, f, datum, r.value.rijen[i]);
      var g :| g in tabel && Beheerder.PastBijGebruiker(f, datum, g) && r.value.rijen[i] == Gebruikers.Publiek(g);
    }
  }

  /** `'true'` and `'false'` become the flag; any other text or none leaves it undefined. */
  function GoedgekeurdUit(q: Query): (r: Option<bool>)
    ensures r == Some(true) <==> WoningController.Param(q, "goedgekeurd") == Some("true")
    ensures r == Some(false) <==> WoningController.Param(q, "goedgekeurd") == Some("false")
  {
    match WoningController.Param(q, "goedgekeurd")
    case Some(t) => if t == "true" then Some(true) else if t == "false" then Some(false) else None
    case None => None
  }

  /** GET /api/beheerder/woningen: prices through parseFloat when truthy, the approval flag parsed, the rest as given. */
  function WoningFiltersUit(q: Query, parseFloat: string -> Option<real>): Beheerder.WoningFilters
  {
    Beheerder.WoningFilters(
      WoningController.Param(q, "status"), WoningController.Param(q, "verkoperId"),
      WoningController.GetalFilter(q, "prijsVan", parseFloat), WoningController.GetalFilter(q, "prijsTot", parseFloat),
      GoedgekeurdUit(q), WoningController.Param(q, "datumVan"), WoningController.Param(q, "datumTot"),
      WoningController.Param(q, "zoekterm"))
  }

  function GetWoningen(tabel: WoningService.Tabel, q: Query, parseFloat: string -> Option<real>, datum: string -> Sleutel): (r: Result<Pagina<Woningen.Woning>>)
    ensures r == Beheerder.GetWoningen(tabel, WoningFiltersUit(q, parseFloat), OptiesUit(q), datum)
  {
    Beheerder.GetWoningen(tabel, WoningFiltersUit(q, parseFloat), OptiesUit(q), datum)
  }

  /**
    * Asking for approved or for unapproved properties always ends in a
    * server error, since the property table has no approval column; any
    * other value of the parameter is ignored.
    */
  lemma GoedgekeurdFaalt(tabel: WoningService.Tabel, q: Query, parseFloat: string -> Option<real>, datum: string -> Sleutel)
    ensures WoningController.Param(q, "goedgekeurd") in {Some("true"), Some("false")} ==>
      GetWoningen(tabel, q, parseFloat, datum) == Err(ServerError)
    ensures WoningController.Param(q, "goedgekeurd") !in {Some("true"), Some("false")} ==>
      GetWoningen(tabel, q, parseFloat, datum) == GetWoningen(tabel, q - {"goedgekeurd"}, parseFloat, datum)
  {
    hide Beheerder.GetWoningen;
    if WoningController.Param(q, "goedgekeurd") !in {Some("true"), Some("false")} {
      var q' := q - {"goedgekeurd"};
      assert WoningController.Param(q', "goedgekeurd").None?;
      ZonderGoedgekeurd(q, parseFloat);
    }
  }

  /** Dropping the approval parameter leaves the options, and the filters apart from the flag, as they were. */
  lemma ZonderGoedgekeurd(q: Query, parseFloat: string -> Option<real>)
    ensures OptiesUit(q - {"goedgekeurd"}) == OptiesUit(q)
    ensures WoningFiltersUit(q - {"goedgekeurd"}, parseFloat).(goedgekeurd := None) == WoningFiltersUit(q, parseFloat).(goedgekeurd := None)
  {
    var w := "goedgekeurd";
    ZonderSleutel(q, w, "pagina");
    ZonderSleutel(q, w, "aantalPerPagina");
    ZonderSleutel(q, w, "sorteerOp");
    ZonderSleutel(q, w, "sorteerRichting");
    ZonderSleutel(q, w, "status");
    ZonderSleutel(q, w, "verkoperId");
    ZonderSleutel(q, w, "prijsVan");
    ZonderSleutel(q, w, "prijsTot");
    ZonderSleutel(q, w, "datumVan");
    ZonderSleutel(q, w, "datumTot");
    ZonderSleutel(q, w, "zoekterm");
  }

  lemma ZonderSleutel(q: Query, weg: string, k: string)
    requires k != weg
    ensures WoningController.Param(q - {weg}, k) == WoningController.Param(q, k)
    ensures k in q ==> (q - {weg})[k] == q[k]
  {
  }

  /** A price range in the query keeps the properties whose price lies within its truthy bounds. */
  lemma PrijsBereik(tabel: WoningService.Tabel, q: Query, parseFloat: string -> Option<real>, datum: string -> Sleutel, van: real, tot: real)
    requires Gevuld(WoningController.Param(q, "prijsVan")) && parseFloat(q["prijsVan"]) == Some(van) && van != 0.0
    requires Gevuld(WoningController.Param(q, "prijsTot")) && parseFloat(q["prijsTot"]) == Some(tot) && tot != 0.0
    ensures var r := GetWoningen(tabel, q, parseFloat, datum);
      r.Ok? ==> forall i :: 0 <= i < |r.value.rijen| ==> van <= r.value.rijen[i].prijs <= tot
  {
  }

  /** GET /api/beheerder/bezichtigingen: every filter as given. */
  function BezichtigingFiltersUit(q: Query): Beheerder.BezichtigingFilters
  {
    Beheerder.BezichtigingFilters(
      WoningController.Param(q, "status"), WoningController.Param(q, "woningId"), WoningController.Param(q, "gebruikerId"),
      WoningController.Param(q, "datumVan"), WoningController.Param(q, "datumTot"))
  }

  function GetBezichtigingen(tabel: Bezichtigingen.Tabel, q: Query, datum: string -> Sleutel): (r: Result<Pagina<Bezichtigingen.Bezichtiging>>)
    ensures r == Beheerder.GetBezichtigingen(tabel, BezichtigingFiltersUit(q), OptiesUit(q), datum)
  {
    Beheerder.GetBezichtigingen(tabel, BezichtigingFiltersUit(q), OptiesUit(q), datum)
  }

  /** GET /api/beheerder/activiteiten: the page options are parsed (size 20 by default) and then not used. */
  function GetActiviteitenLog<T>(q: Query): (r: Pagina<T>)
    ensures r == Beheerder.GetActiviteitenLog(
      WoningController.GeheelOfStandaard(q, "pagina", StandaardPagina),
      WoningController.GeheelOfStandaard(q, "aantalPerPagina", Beheerder.ActiviteitenPerPagina))
  {
    Beheerder.GetActiviteitenLog(
      WoningController.GeheelOfStandaard(q, "pagina", StandaardPagina),
      WoningController.GeheelOfStandaard(q, "aantalPerPagina", Beheerder.ActiviteitenPerPagina))
  }

  // ---------------------------------------------------------------------
  // Role, featured flag and status
  // ---------------------------------------------------------------------

  /**
    * `parseInt(x)` of a body value, which reads the text of the value: a
    * number's text is `getalTekst(x)`; `true`, `false`, `null` and the rest
    * give NaN.
    */
  function ParseIntWaarde(v: Waarde, getalTekst: real -> string): Option<int>
  {
    match v
    case Tekst(t) => ParseInt(t)
    case Getal(x) => ParseInt(getalTekst(x))
    case _ => None
  }

  /** The texts of the other values start with a letter, so `parseInt` reads no digit from them. */
  lemma WoordenZijnGeenGetal()
    ensures ParseInt("true").None? && ParseInt("false").None? && ParseInt("null").None?
    ensures ParseInt("undefined").None? && ParseInt("NaN").None?
  {
    hide ParseInt;
    ParseIntVanWoord("true");
    ParseIntVanWoord("false");
    ParseIntVanWoord("null");
    ParseIntVanWoord("undefined");
    ParseIntVanWoord("NaN");
  }

  /** The role in the body, if it is truthy and parses to 1, 2 or 3. */
  function RolUit(v: Waarde, getalTekst: real -> string): (r: Option<int>)
    ensures r.Some? <==> Truthy(v) && ParseIntWaarde(v, getalTekst).Some? && Gebruikers.GeldigeRol(ParseIntWaarde(v, getalTekst).value)
    ensures r.Some? ==> r.value == ParseIntWaarde(v, getalTekst).value
  {
    var n := ParseIntWaarde(v, getalTekst);
    if Truthy(v) && n.Some? && Gebruikers.GeldigeRol(n.value) then n else None
  }

  /**
    * PUT /api/beheerder/gebruikers/:id/rol: 400 unless the body's role is
    * 1, 2 or 3; 400 when an administrator would lower their own role;
    * otherwise the service's update, answered with the user's JSON form.
    */
  function UpdateGebruikerRol(beller: Gebruikers.Gebruiker, tabel: Gebruikers.Tabel, id: int, rol: Waarde, nu: int,
                              getalTekst: real -> string): (r: Result<(Gebruikers.PubliekeGebruiker, Gebruikers.Tabel)>)
    ensures RolUit(rol, getalTekst).None? ==> r == Err(BadRequest)
    ensures r.Err? ==> r.code in {BadRequest, NotFound}
    ensures r.Ok? ==> var n := RolUit(rol, getalTekst);
      && n.Some? && r.value.0.rol == n.value && r.value.0.id == id
      && Beheerder.UpdateGebruikerRol(tabel, id, n.value, nu).Ok?
      && r.value == (Gebruikers.Publiek(Beheerder.UpdateGebruikerRol(tabel, id, n.value, nu).value.0),
                     Beheerder.UpdateGebruikerRol(tabel, id, n.value, nu).value.1)
  {
    match RolUit(rol, getalTekst)
    case None => Err(BadRequest)
    case Some(n) =>
      if beller.id == id && beller.rol == Gebruikers.RolBeheerder && n < Gebruikers.RolBeheerder then Err(BadRequest)
      else
        match Beheerder.UpdateGebruikerRol(tabel, id, n, nu)
        case Err(c) => Err(c)
        case Ok((g, t)) => Ok((Gebruikers.Publiek(g), t))
  }

  /** An administrator never lowers their own role: the request is refused, or they stay an administrator. */
  lemma GeenEigenDegradatie(beller: Gebruikers.Gebruiker, tabel: Gebruikers.Tabel, rol: Waarde, nu: int, getalTekst: real -> string)
    requires beller.rol == Gebruikers.RolBeheerder
    ensures var r := UpdateGebruikerRol(beller, tabel, beller.id, rol, nu, getalTekst);
      && (r.Ok? ==> r.value.0.rol == Gebruikers.RolBeheerder)
      && (RolUit(rol, getalTekst).Some? && RolUit(rol, getalTekst).value < Gebruikers.RolBeheerder ==> r == Err(BadRequest))
  {
  }

  /** For anyone else, a valid role is written to an existing user and nothing else is refused. */
  lemma AnderenKrijgenRol(beller: Gebruikers.Gebruiker, tabel: Gebruikers.Tabel, id: int, rol: Waarde, nu: int, getalTekst: real -> string)
    requires beller.id != id
    ensures var r := UpdateGebruikerRol(beller, tabel, id, rol, nu, getalTekst);
      r.Ok? <==> RolUit(rol, getalTekst).Some? && PositieVan(tabel, Gebruikers.Id, id).Some?
  {
  }

  /** A whole number is accepted as a role, as text or as a number, exactly when it is 1, 2 or 3. */
  lemma RolAlsTekstOfGetal(n: nat, getalTekst: real -> string)
    requires getalTekst(n as real) == NatNaarTekst(n)
    ensures RolUit(Tekst(NatNaarTekst(n)), getalTekst) == (if Gebruikers.GeldigeRol(n) then Some(n) else None)
    ensures RolUit(Getal(n as real), getalTekst) == (if Gebruikers.GeldigeRol(n) then Some(n) else None)
  {
    ParseIntNaNatNaarTekst(n);
    var t := NatNaarTekst(n);
    assert ParseIntWaarde(Tekst(t), getalTekst) == Some(n);
    assert Truthy(Tekst(t));
    assert ParseIntWaarde(Getal(n as real), getalTekst) == Some(n);
    assert Truthy(Getal(n as real)) <==> n != 0;
  }

  /**
    * PUT /api/beheerder/woningen/:id/uitgelicht: 400 when the body has no
    * `isUitgelicht`; otherwise the flag written is whether the body value
    * is the boolean `true`, so the text `"true"` un-features the property.
    */
  function ToggleWoningUitgelicht(tabel: WoningService.Tabel, id: int, isUitgelicht: Waarde, nu: int): (r: Result<(Woningen.Woning, WoningService.Tabel)>)
    ensures isUitgelicht == Undefined <==> r == Err(BadRequest)
    ensures r.Err? ==> r.code in {BadRequest, NotFound}
    ensures r.Ok? ==> (r.value.0.isUitgelicht <==> isUitgelicht == Bool(true))
    ensures isUitgelicht != Undefined ==> r == Beheerder.ToggleWoningUitgelicht(tabel, id, isUitgelicht == Bool(true), nu)
  {
    if isUitgelicht == Undefined then Err(BadRequest)
    else Beheerder.ToggleWoningUitgelicht(tabel, id, isUitgelicht == Bool(true), nu)
  }

  /**
    * PUT /api/beheerder/woningen/:id/status: 400 unless the body's status is
    * one of the three names; otherwise the service's update.
    */
  function UpdateWoningStatus(tabel: WoningService.Tabel, id: int, status: Waarde, nu: int): (r: Result<(Woningen.Woning, WoningService.Tabel)>)
    ensures r == Err(BadRequest) <==> !(status.Tekst? && Woningen.StatusUitNaam(status.tekst).Some?)
    ensures r.Err? ==> r.code in {BadRequest, NotFound}
    ensures r.Ok? ==> status.Tekst? && Woningen.StatusNaam(r.value.0.status) == status.tekst
  {
    if !Truthy(status) || !(status.Tekst? && status.tekst in ["beschikbaar", "verkocht", "in behandeling"]) then Err(BadRequest)
    else Beheerder.UpdateWoningStatus(tabel, id, status.tekst, nu)
  }
}

=== FILE: bezichtiging.dfy ===
/**
  * The `bezichtiging` record (a viewing request) and the viewing service:
  * the three scoped listings, the request, lookup, status update,
  * cancellation and confirmation by token. Instants are milliseconds since
  * the epoch; `nu` is the current time, and the fresh confirmation token a
  * parameter. A date that does not parse is `None`.
  */
module Bezichtigingen {
  import opened Basis
  import opened Sorteren
  import opened Voorwaarden
  import opened Paginatie
  import opened Lijsten
  import Woningen
  import WoningService

  datatype Status = Aangevraagd | Goedgekeurd | Afgewezen | Voltooid

  /** The ENUM value stored for a status. */
  function StatusNaam(s: Status): string
  {
    match s
    case Aangevraagd => "aangevraagd"
    case Goedgekeurd => "goedgekeurd"
    case Afgewezen => "afgewezen"
    case Voltooid => "voltooid"
  }

  /** The status a string names, if it is one of the four ENUM values. */
  function StatusUitNaam(t: string): (r: Option<Status>)
    ensures r.Some? ==> StatusNaam(r.value) == t
    ensures forall s :: StatusNaam(s) == t ==> r == Some(s)
  {
    if t == "aangevraagd" then Some(Aangevraagd)
    else if t == "goedgekeurd" then Some(Goedgekeurd)
    else if t == "afgewezen" then Some(Afgewezen)
    else if t == "voltooid" then Some(Voltooid)
    else
      assert forall s :: StatusNaam(s) != t;
      None
  }

  /** Only a requested or approved viewing can still be cancelled. */
  predicate Annuleerbaar(s: Status)
  {
    s == Aangevraagd || s == Goedgekeurd
  }

  datatype Bezichtiging = Bezichtiging(
    id: int,
    woningId: int,
    gebruikerId: int,
    bezichtigingDatum: int,
    status: Status,
    notities: Option<string>,
    verkoperNotities: Option<string>,
    bevestigingsToken: Option<string>,
    aangemaaktOp: int,
    bijgewerktOp: int)

  type Tabel = seq<Bezichtiging>

  function Id(b: Bezichtiging): int { b.id }

  const Kolommen: set<string> := {
    "id", "woningId", "gebruikerId", "bezichtigingDatum", "status", "notities",
    "verkoperNotities", "bevestigingsToken", "aangemaaktOp", "bijgewerktOp"}

  function AlsRij(b: Bezichtiging): (r: Rij)
    ensures r.Keys == Kolommen
  {
    map[
      "id" := Num(b.id as real),
      "woningId" := Num(b.woningId as real),
      "gebruikerId" := Num(b.gebruikerId as real),
      "bezichtigingDatum" := Num(b.bezichtigingDatum as real),
      "status" := Txt(StatusNaam(b.status)),
      "notities" := Woningen.OptTekst(b.notities),
      "verkoperNotities" := Woningen.OptTekst(b.verkoperNotities),
      "bevestigingsToken" := Woningen.OptTekst(b.bevestigingsToken),
      "aangemaaktOp" := Num(b.aangemaaktOp as real),
      "bijgewerktOp" := Num(b.bijgewerktOp as real)]
  }

  /** The columns the listings filter on, as a row holds them. */
  predicate LeestAls(rij: Rij, b: Bezichtiging)
  {
    && Voorwaarden.Waarde(rij, "woningId") == Num(b.woningId as real)
    && Voorwaarden.Waarde(rij, "gebruikerId") == Num(b.gebruikerId as real)
    && Voorwaarden.Waarde(rij, "bezichtigingDatum") == Num(b.bezichtigingDatum as real)
    && Voorwaarden.Waarde(rij, "status") == Txt(StatusNaam(b.status))
  }

  lemma AlsRijLeestAls(b: Bezichtiging)
    ensures LeestAls(AlsRij(b), b)
  {
  }

  lemma GebruikteKolommen()
    ensures "woningId" in Kolommen && "gebruikerId" in Kolommen && "status" in Kolommen
    ensures "bezichtigingDatum" in Kolommen && "aangemaaktOp" in Kolommen
  {
  }

  // ---------------------------------------------------------------------
  // Listings
  // ---------------------------------------------------------------------

  /** The optional filters every viewing listing accepts: a truthy status and a truthy property id. */
  function WhereFilters(status: Option<string>, woningId: Option<string>): seq<Voorwaarde>
  {
    WoningService.Als(Gevuld(status), Gelijk("status", Txt(if status.Some? then status.value else "")))
    + WoningService.Als(Gevuld(woningId), Gelijk("woningId", WoningService.MetNumeriekeAffiniteit(if woningId.Some? then woningId.value else "")))
  }

  predicate PastBijFilters(status: Option<string>, woningId: Option<string>, b: Bezichtiging)
  {
    && (Gevuld(status) ==> StatusNaam(b.status) == status.value)
    && (Gevuld(woningId) ==> SqlGetal(woningId.value) == Some(b.woningId as real))
  }

  lemma WhereFiltersKlopt(status: Option<string>, woningId: Option<string>, b: Bezichtiging, rij: Rij)
    requires LeestAls(rij, b)
    ensures GeldtAlle(WhereFilters(status, woningId), rij) <==> PastBijFilters(status, woningId, b)
  {
    hide Basis.SqlGetal;
    var vs := Gelijk("status", Txt(if status.Some? then status.value else ""));
    var vw := Gelijk("woningId", WoningService.MetNumeriekeAffiniteit(if woningId.Some? then woningId.value else ""));
    GeldtAlleSamen(WoningService.Als(Gevuld(status), vs), WoningService.Als(Gevuld(woningId), vw), rij);
    WoningService.AlsGeldt(Gevuld(status), vs, rij);
    WoningService.AlsGeldt(Gevuld(woningId), vw, rij);
  }

  lemma WhereFiltersBekend(status: Option<string>, woningId: Option<string>)
    ensures AllesBekend(WhereFilters(status, woningId), Kolommen)
  {
    hide Basis.SqlGetal;
    var a := WoningService.Als(Gevuld(status), Gelijk("status", Txt(if status.Some? then status.value else "")));
    var b := WoningService.Als(Gevuld(woningId), Gelijk("woningId", WoningService.MetNumeriekeAffiniteit(if woningId.Some? then woningId.value else "")));
    forall i | 0 <= i < |a + b| ensures Bekend((a + b)[i], Kolommen) {
      if i >= |a| {
        assert (a + b)[i] == b[i - |a|];
      }
    }
  }

  function PastBij(status: Option<string>, woningId: Option<string>): Bezichtiging -> bool
  {
    (b: Bezichtiging) => PastBijFilters(status, woningId, b)
  }

  /** The listing's selection is the table filtered by the filters' meaning. */
  lemma SelectieKlopt(tabel: Tabel, status: Option<string>, woningId: Option<string>)
    ensures Selectie(tabel, AlsRij, WhereFilters(status, woningId)) == Filter(tabel, PastBij(status, woningId))
  {
    forall i | 0 <= i < |tabel|
      ensures PastBij(status, woningId)(tabel[i]) == GeldtAlle(WhereFilters(status, woningId), AlsRij(tabel[i]))
    {
      AlsRijLeestAls(tabel[i]);
      WhereFiltersKlopt(status, woningId, tabel[i], AlsRij(tabel[i]));
    }
    WhereFiltersBekend(status, woningId);
    SelecteerIsFilter(tabel, AlsRij, Kolommen, WhereFilters(status, woningId), PastBij(status, woningId));
  }

  /** One page of the given rows with the filters, newest first. */
  function GefilterdePagina(tabel: Tabel, status: Option<string>, woningId: Option<string>, pagina: Option<int>, aantal: Option<int>): (r: Result<Pagina<Bezichtiging>>)
    ensures r.Ok? <==> pagina.Some? && aantal.Some?
    ensures r.Err? ==> r.code == ServerError
    ensures r.Ok? ==> r.value.metadata.totaal == |Filter(tabel, PastBij(status, woningId))|
    ensures r.Ok? ==> forall i :: 0 <= i < |r.value.rijen| ==> r.value.rijen[i] in tabel && PastBijFilters(status, woningId, r.value.rijen[i])
  {
    var vs := WhereFilters(status, woningId);
    WhereFiltersBekend(status, woningId);
    SelectieKlopt(tabel, status, woningId);
    GebruikteKolommen();
    DescIsAflopend();
    EigenNaamBekend("aangemaaktOp", Kolommen);
    GefilterdeRijenPassen(tabel, status, woningId, pagina, aantal);
    Lijst(tabel, AlsRij, Kolommen, vs, "aangemaaktOp", "DESC", pagina, aantal)
  }

  /** The filtered page is newest first. */
  lemma GefilterdePaginaNieuwsteEerst(tabel: Tabel, status: Option<string>, woningId: Option<string>, pagina: Option<int>, aantal: Option<int>)
    ensures var r := GefilterdePagina(tabel, status, woningId, pagina, aantal);
      r.Ok? ==> NieuwsteEerst(r.value.rijen, AlsRij)
  {
    GebruikteKolommen();
    LijstNieuwsteEerst(tabel, AlsRij, Kolommen, WhereFilters(status, woningId), pagina, aantal);
  }

  /** Every viewing on the listed page is a stored viewing that matches the filters. */
  lemma GefilterdeRijenPassen(tabel: Tabel, status: Option<string>, woningId: Option<string>, pagina: Option<int>, aantal: Option<int>)
    ensures var l := Lijst(tabel, AlsRij, Kolommen, WhereFilters(status, woningId), "aangemaaktOp", "DESC", pagina, aantal);
      l.Ok? ==> forall i :: 0 <= i < |l.value.rijen| ==> l.value.rijen[i] in tabel && PastBijFilters(status, woningId, l.value.rijen[i])
  {
    var vs := WhereFilters(status, woningId);
    LijstRijenVoldoen(tabel, AlsRij, Kolommen, vs, "aangemaaktOp", "DESC", pagina, aantal);
    var l := Lijst(tabel, AlsRij, Kolommen, vs, "aangemaaktOp", "DESC", pagina, aantal);
    hide Lijst;
    if l.Ok? {
      forall i | 0 <= i < |l.value.rijen| ensures PastBijFilters(status, woningId, l.value.rijen[i]) {
        AlsRijLeestAls(l.value.rijen[i]);
        WhereFiltersKlopt(status, woningId, l.value.rijen[i], AlsRij(l.value.rijen[i]));
      }
    }
  }

  /** getAlleBezichtigingen: every viewing that matches the filters. */
  function GetAlleBezichtigingen(tabel: Tabel, status: Option<string>, woningId: Option<string>, pagina: Option<int>, aantal: Option<int>): (r: Result<Pagina<Bezichtiging>>)
    ensures r.Ok? <==> pagina.Some? && aantal.Some?
    ensures r.Ok? ==> r.value.metadata.totaal == |Filter(tabel, PastBij(status, woningId))|
    ensures r.Ok? ==> forall i :: 0 <= i < |r.value.rijen| ==> r.value.rijen[i] in tabel && PastBijFilters(status, woningId, r.value.rijen[i])
  {
    GefilterdePagina(tabel, status, woningId, pagina, aantal)
  }

  function VanGebruiker(gebruikerId: int): Bezichtiging -> bool
  {
    (b: Bezichtiging) => b.gebruikerId == gebruikerId
  }

  /** getGebruikerBezichtigingen: only the caller's own requests, `gebruikerId = ?` joined to the filters. */
  function GetGebruikerBezichtigingen(tabel: Tabel, gebruikerId: int, status: Option<string>, woningId: Option<string>,
                                      pagina: Option<int>, aantal: Option<int>): (r: Result<Pagina<Bezichtiging>>)
    ensures r.Ok? <==> pagina.Some? && aantal.Some?
    ensures r.Ok? ==> r.value.metadata.totaal == |Filter(Filter(tabel, VanGebruiker(gebruikerId)), PastBij(status, woningId))|
    ensures r.Ok? ==> forall i :: 0 <= i < |r.value.rijen| ==>
      r.value.rijen[i] in tabel && r.value.rijen[i].gebruikerId == gebruikerId && PastBijFilters(status, woningId, r.value.rijen[i])
  {
    var eigen := Filter(tabel, VanGebruiker(gebruikerId));
    GefilterdePagina(eigen, status, woningId, pagina, aantal)
  }

  /** The viewing is on a property of this seller: the inner join on `woning.verkoperId`. */
  predicate OpWoningVan(woningen: seq<Woningen.Woning>, verkoperId: int, b: Bezichtiging)
  {
    exists w :: w in woningen && w.id == b.woningId && w.verkoperId == verkoperId
  }

  function OpWoningenVan(woningen: seq<Woningen.Woning>, verkoperId: int): Bezichtiging -> bool
  {
    (b: Bezichtiging) => OpWoningVan(woningen, verkoperId, b)
  }

  /** getVerkoperBezichtigingen: only viewings on the seller's own properties. */
  function GetVerkoperBezichtigingen(tabel: Tabel, woningen: seq<Woningen.Woning>, verkoperId: int,
                                     status: Option<string>, woningId: Option<string>,
                                     pagina: Option<int>, aantal: Option<int>): (r: Result<Pagina<Bezichtiging>>)
    ensures r.Ok? <==> pagina.Some? && aantal.Some?
    ensures r.Ok? ==> r.value.metadata.totaal == |Filter(Filter(tabel, OpWoningenVan(woningen, verkoperId)), PastBij(status, woningId))|
    ensures r.Ok? ==> forall i :: 0 <= i < |r.value.rijen| ==>
      r.value.rijen[i] in tabel && OpWoningVan(woningen, verkoperId, r.value.rijen[i]) && PastBijFilters(status, woningId, r.value.rijen[i])
  {
    var eigen := Filter(tabel, OpWoningenVan(woningen, verkoperId));
    GefilterdePagina(eigen, status, woningId, pagina, aantal)
  }

  /** All three service listings show their page newest first. */
  lemma OverzichtenNieuwsteEerst(tabel: Tabel, woningen: seq<Woningen.Woning>, gebruikerId: int, verkoperId: int,
                                 status: Option<string>, woningId: Option<string>, pagina: Option<int>, aantal: Option<int>)
    ensures var r := GetAlleBezichtigingen(tabel, status, woningId, pagina, aantal);
      r.Ok? ==> NieuwsteEerst(r.value.rijen, AlsRij)
    ensures var r := GetGebruikerBezichtigingen(tabel, gebruikerId, status, woningId, pagina, aantal);
      r.Ok? ==> NieuwsteEerst(r.value.rijen, AlsRij)
    ensures var r := GetVerkoperBezichtigingen(tabel, woningen, verkoperId, status, woningId, pagina, aantal);
      r.Ok? ==> NieuwsteEerst(r.value.rijen, AlsRij)
  {
    GefilterdePaginaNieuwsteEerst(tabel, status, woningId, pagina, aantal);
    GefilterdePaginaNieuwsteEerst(Filter(tabel, VanGebruiker(gebruikerId)), status, woningId, pagina, aantal);
    GefilterdePaginaNieuwsteEerst(Filter(tabel, OpWoningenVan(woningen, verkoperId)), status, woningId, pagina, aantal);
  }

  // ---------------------------------------------------------------------
  // Single viewings
  // ---------------------------------------------------------------------

  /**
    * vraagBezichtigingAan: 404 for an unknown property, 400 when it is not
    * available, 400 when the date is not after `nu` (a date that does not
    * parse fails the model's date validation, also a 400). The new viewing
    * is requested and carries the fresh confirmation token.
    */
  function VraagBezichtigingAan(tabel: Tabel, woningen: seq<Woningen.Woning>, gebruikerId: int, woningId: int,
                                datum: Option<int>, notities: Option<string>, token: string, nu: int): (r: Result<(Bezichtiging, Tabel)>)
    ensures WoningService.Positie(woningen, woningId).None? ==> r == Err(NotFound)
    ensures WoningService.Positie(woningen, woningId).Some? ==>
      (r.Ok? <==> woningen[WoningService.Positie(woningen, woningId).value].status == Woningen.Beschikbaar && datum.Some? && datum.value > nu)
    ensures r.Err? ==> r.code in {NotFound, BadRequest}
    ensures r.Ok? ==> var (b, t) := r.value;
      && b.status == Aangevraagd && b.bevestigingsToken == Some(token)
      && b.gebruikerId == gebruikerId && b.woningId == woningId && b.bezichtigingDatum == datum.value
      && b.aangemaaktOp == nu && b.bijgewerktOp == nu
      && (forall i :: 0 <= i < |tabel| ==> tabel[i].id != b.id)
      && t == tabel + [b]
      && (UniekOp(tabel, Id) ==> UniekOp(t, Id))
  {
    match WoningService.Positie(woningen, woningId)
    case None => Err(NotFound)
    case Some(p) =>
      if woningen[p].status != Woningen.Beschikbaar then Err(BadRequest)
      else if datum.None? || datum.value <= nu then Err(BadRequest)
      else
        var b := Bezichtiging(VolgendId(tabel, Id), woningId, gebruikerId, datum.value, Aangevraagd,
                              notities, None, Some(token), nu, nu);
        assert UniekOp(tabel, Id) ==> UniekOp(tabel + [b], Id) by {
          if UniekOp(tabel, Id) { ToevoegenHoudtUniek(tabel, Id, b); }
        }
        Ok((b, tabel + [b]))
  }

  /** getBezichtigingById: the viewing, or 404. */
  function GetBezichtigingById(tabel: Tabel, id: int): (r: Result<Bezichtiging>)
    ensures r.Ok? <==> exists i :: 0 <= i < |tabel| && tabel[i].id == id
    ensures r.Ok? ==> r.value in tabel && r.value.id == id
    ensures r.Err? ==> r.code == NotFound
  {
    match PositieVan(tabel, Id, id)
    case None => Err(NotFound)
    case Some(p) => Ok(tabel[p])
  }

  /**
    * updateBezichtigingStatus: 404 for an unknown id; otherwise the status
    * is set and the seller's note is overwritten only when a truthy one is
    * given. A status outside the ENUM is answered with 400: the service
    * checks nothing and SQLite would store the text, but the controller
    * refuses such a status before it gets here.
    */
  function UpdateBezichtigingStatus(tabel: Tabel, id: int, status: string, verkoperNotities: Option<string>, nu: int): (r: Result<(Bezichtiging, Tabel)>)
    ensures PositieVan(tabel, Id, id).None? ==> r == Err(NotFound)
    ensures PositieVan(tabel, Id, id).Some? ==> (r.Ok? <==> StatusUitNaam(status).Some?)
    ensures r.Err? ==> r.code in {NotFound, BadRequest}
    ensures r.Ok? ==> var (b, t) := r.value; var p := PositieVan(tabel, Id, id).value; var oud := tabel[p];
      && StatusNaam(b.status) == status
      && b.verkoperNotities == (if Gevuld(verkoperNotities) then verkoperNotities else oud.verkoperNotities)
      && b.(status := oud.status, verkoperNotities := oud.verkoperNotities, bijgewerktOp := oud.bijgewerktOp) == oud
      && b.bijgewerktOp in {oud.bijgewerktOp, nu}
      && t == tabel[p := b]
  {
    match PositieVan(tabel, Id, id)
    case None => Err(NotFound)
    case Some(p) =>
      match StatusUitNaam(status)
      case None => Err(BadRequest)
      case Some(s) =>
        var oud := tabel[p];
        var b := oud.(status := s, verkoperNotities := if Gevuld(verkoperNotities) then verkoperNotities else oud.verkoperNotities);
        var b' := if b != oud then b.(bijgewerktOp := nu) else b;
        Ok((b', tabel[p := b']))
  }

  /**
    * annuleerBezichtiging: 404 for an unknown id, 400 for a viewing whose
    * date lies before `nu`, 400 unless it is requested or approved;
    * otherwise the viewing is removed.
    */
  function AnnuleerBezichtiging(tabel: Tabel, id: int, nu: int): (r: Result<Tabel>)
    ensures PositieVan(tabel, Id, id).None? ==> r == Err(NotFound)
    ensures PositieVan(tabel, Id, id).Some? ==> var b := tabel[PositieVan(tabel, Id, id).value];
      (r.Ok? <==> b.bezichtigingDatum >= nu && Annuleerbaar(b.status))
    ensures r.Err? ==> r.code in {NotFound, BadRequest}
    ensures r.Ok? ==> |r.value| == |tabel| - 1 && Deelrij(r.value, tabel)
    ensures r.Ok? && UniekOp(tabel, Id) ==> forall i :: 0 <= i < |r.value| ==> r.value[i].id != id
  {
    match PositieVan(tabel, Id, id)
    case None => Err(NotFound)
    case Some(p) =>
      if tabel[p].bezichtigingDatum < nu then Err(BadRequest)
      else if !Annuleerbaar(tabel[p].status) then Err(BadRequest)
      else
        ZonderRijKlopt(tabel, Id, p);
        Ok(ZonderRij(tabel, p))
  }

  /**
    * bevestigBezichtiging: 404 for an unknown id, 400 unless the token is
    * the stored one; then the viewing is completed and its token cleared.
    */
  function BevestigBezichtiging(tabel: Tabel, id: int, token: string, nu: int): (r: Result<(Bezichtiging, Tabel)>)
    ensures PositieVan(tabel, Id, id).None? ==> r == Err(NotFound)
    ensures PositieVan(tabel, Id, id).Some? ==> (r.Ok? <==> tabel[PositieVan(tabel, Id, id).value].bevestigingsToken == Some(token))
    ensures r.Err? ==> r.code in {NotFound, BadRequest}
    ensures r.Ok? ==> var (b, t) := r.value; var p := PositieVan(tabel, Id, id).value;
      && b.status == Voltooid && b.bevestigingsToken.None? && b.bijgewerktOp == nu
      && b.(status := tabel[p].status, bevestigingsToken := tabel[p].bevestigingsToken, bijgewerktOp := tabel[p].bijgewerktOp) == tabel[p]
      && t == tabel[p := b]
  {
    match PositieVan(tabel, Id, id)
    case None => Err(NotFound)
    case Some(p) =>
      if tabel[p].bevestigingsToken != Some(token) then Err(BadRequest)
      else
        var b := tabel[p].(status := Voltooid, bevestigingsToken := None, bijgewerktOp := nu);
        Ok((b, tabel[p := b]))
  }

  /** A token confirms at most once: confirming again with any token is refused. */
  lemma TweedeBevestigingFaalt(tabel: Tabel, id: int, token: string, token2: string, nu: int, nu2: int)
    requires BevestigBezichtiging(tabel, id, token, nu).Ok?
    ensures BevestigBezichtiging(BevestigBezichtiging(tabel, id, token, nu).value.1, id, token2, nu2) == Err(BadRequest)
  {
    var (b, t) := BevestigBezichtiging(tabel, id, token, nu).value;
    PositieVanGelijkeSleutels(tabel, t, id);
  }

  /** Replacing rows by rows with the same key does not move where `findByPk` stops. */
  lemma {:induction false} PositieVanGelijkeSleutels(a: Tabel, b: Tabel, id: int)
    requires |a| == |b|
    requires forall i :: 0 <= i < |a| ==> a[i].id == b[i].id
    ensures PositieVan(a, Id, id) == PositieVan(b, Id, id)
    decreases |a|
  {
    if a != [] {
      PositieVanGelijkeSleutels(a[1..], b[1..], id);
    }
  }
}

=== FILE: bezichtiging_controller.dfy ===
/**
  * The viewing controller: which viewings a caller may list, request, see,
  * update, cancel or confirm. Every route but confirmation sits behind
  * authentication, so the caller is a known user; confirmation needs only
  * the token. A viewing's property is the row its `woningId` points to; a
  * viewing whose property is gone makes the ownership test read a field of
  * `null`, which ends in a server error.
  */
module BezichtigingController {
  import opened Basis
  import opened Paginatie
  import opened Lijsten
  import opened Bezichtigingen
  import Gebruikers
  import Woningen
  import WoningService
  import WoningController

  // ---------------------------------------------------------------------
  // Listing scope
  // ---------------------------------------------------------------------

  /** An admin sees every viewing, a seller those on their properties, anyone else their own requests. */
  predicate Zichtbaar(beller: Gebruikers.Gebruiker, woningen: seq<Woningen.Woning>, b: Bezichtiging)
  {
    if beller.rol == Gebruikers.RolBeheerder then true
    else if beller.rol == Gebruikers.RolVerkoper then OpWoningVan(woningen, beller.id, b)
    else b.gebruikerId == beller.id
  }

  function ZichtbaarVoor(beller: Gebruikers.Gebruiker, woningen: seq<Woningen.Woning>): Bezichtiging -> bool
  {
    (b: Bezichtiging) => Zichtbaar(beller, woningen, b)
  }

  /** The service listing the caller's role selects. */
  function ScopeLijst(beller: Gebruikers.Gebruiker, tabel: Tabel, woningen: seq<Woningen.Woning>,
                      status: Option<string>, woningId: Option<string>,
                      pagina: Option<int>, aantal: Option<int>): Result<Pagina<Bezichtiging>>
  {
    if beller.rol == Gebruikers.RolBeheerder then GetAlleBezichtigingen(tabel, status, woningId, pagina, aantal)
    else if beller.rol == Gebruikers.RolVerkoper then GetVerkoperBezichtigingen(tabel, woningen, beller.id, status, woningId, pagina, aantal)
    else GetGebruikerBezichtigingen(tabel, beller.id, status, woningId, pagina, aantal)
  }

  /** The role-scoped listing is the filtered listing of exactly the viewings the caller may see. */
  lemma ScopeIsZichtbaar(beller: Gebruikers.Gebruiker, tabel: Tabel, woningen: seq<Woningen.Woning>,
                         status: Option<string>, woningId: Option<string>,
                         pagina: Option<int>, aantal: Option<int>)
    ensures ScopeLijst(beller, tabel, woningen, status, woningId, pagina, aantal)
         == GefilterdePagina(Filter(tabel, ZichtbaarVoor(beller, woningen)), status, woningId, pagina, aantal)
  {
    var z := ZichtbaarVoor(beller, woningen);
    if beller.rol == Gebruikers.RolBeheerder {
      FilterAlles(tabel, z);
    } else if beller.rol == Gebruikers.RolVerkoper {
      FilterZelfdeKeuze(tabel, OpWoningenVan(woningen, beller.id), z);
    } else {
      FilterZelfdeKeuze(tabel, VanGebruiker(beller.id), z);
    }
  }

  /**
    * GET /api/bezichtigingen: the optional `status` and `woningId` filters,
    * page `pagina` (default 1) of `aantalPerPagina` (default 10) rows,
    * restricted to what the caller may see.
    */
  function GetBezichtigingen(beller: Gebruikers.Gebruiker, tabel: Tabel, woningen: seq<Woningen.Woning>,
                             q: WoningController.Query): (r: Result<Pagina<Bezichtiging>>)
    ensures r.Ok? <==>
      WoningController.GeheelOfStandaard(q, "pagina", StandaardPagina).Some?
      && WoningController.GeheelOfStandaard(q, "aantalPerPagina", StandaardAantalPerPagina).Some?
    ensures r.Err? ==> r.code == ServerError
    ensures r.Ok? ==>
      r.value.metadata.totaal == |Filter(Filter(tabel, ZichtbaarVoor(beller, woningen)), PastBij(WoningController.Param(q, "status"), WoningController.Param(q, "woningId")))|
    ensures r.Ok? ==> forall i :: 0 <= i < |r.value.rijen| ==>
      && r.value.rijen[i] in tabel
      && Zichtbaar(beller, woningen, r.value.rijen[i])
      && PastBijFilters(WoningController.Param(q, "status"), WoningController.Param(q, "woningId"), r.value.rijen[i])
  {
    var status := WoningController.Param(q, "status");
    var woningId := WoningController.Param(q, "woningId");
    var pagina := WoningController.GeheelOfStandaard(q, "pagina", StandaardPagina);
    var aantal := WoningController.GeheelOfStandaard(q, "aantalPerPagina", StandaardAantalPerPagina);
    ScopeIsZichtbaar(beller, tabel, woningen, status, woningId, pagina, aantal);
    ScopeLijst(beller, tabel, woningen, status, woningId, pagina, aantal)
  }

  /** Whatever the caller's role, the viewings come newest first. */
  lemma GetBezichtigingenNieuwsteEerst(beller: Gebruikers.Gebruiker, tabel: Tabel, woningen: seq<Woningen.Woning>, q: WoningController.Query)
    ensures var r := GetBezichtigingen(beller, tabel, woningen, q);
      r.Ok? ==> NieuwsteEerst(r.value.rijen, AlsRij)
  {
    var status := WoningController.Param(q, "status");
    var woningId := WoningController.Param(q, "woningId");
    var pagina := WoningController.GeheelOfStandaard(q, "pagina", StandaardPagina);
    var aantal := WoningController.GeheelOfStandaard(q, "aantalPerPagina", StandaardAantalPerPagina);
    ScopeIsZichtbaar(beller, tabel, woningen, status, woningId, pagina, aantal);
    GefilterdePaginaNieuwsteEerst(Filter(tabel, ZichtbaarVoor(beller, woningen)), status, woningId, pagina, aantal);
  }

  // ---------------------------------------------------------------------
  // Requests
  // ---------------------------------------------------------------------

  /**
    * POST /api/bezichtigingen: the property must exist (404) and be
    * available (400), and a seller cannot request a viewing of their own
    * property (400); the service then checks the date.
    */
  function VraagBezichtigingAan(beller: Gebruikers.Gebruiker, tabel: Tabel, woningen: seq<Woningen.Woning>, woningId: int,
                                datum: Option<int>, notities: Option<string>, token: string, nu: int): (r: Result<(Bezichtiging, Tabel)>)
    ensures WoningService.Positie(woningen, woningId).None? ==> r == Err(NotFound)
    ensures WoningService.Positie(woningen, woningId).Some? ==> var w := woningen[WoningService.Positie(woningen, woningId).value];
      (r.Ok? <==> w.status == Woningen.Beschikbaar && w.verkoperId != beller.id && datum.Some? && datum.value > nu)
    ensures r.Err? ==> r.code in {NotFound, BadRequest}
    ensures r.Ok? ==> var (b, t) := r.value;
      && b.gebruikerId == beller.id && b.woningId == woningId && b.status == Aangevraagd
      && b.bevestigingsToken == Some(token) && t == tabel + [b]
  {
    match WoningService.Positie(woningen, woningId)
    case None => Err(NotFound)
    case Some(p) =>
      if woningen[p].status != Woningen.Beschikbaar then Err(BadRequest)
      else if woningen[p].verkoperId == beller.id then Err(BadRequest)
      else Bezichtigingen.VraagBezichtigingAan(tabel, woningen, beller.id, woningId, datum, notities, token, nu)
  }

  /** Under unique property ids, no accepted request is for a property the caller sells. */
  lemma NooitVoorEigenWoning(beller: Gebruikers.Gebruiker, tabel: Tabel, woningen: seq<Woningen.Woning>, woningId: int,
                             datum: Option<int>, notities: Option<string>, token: string, nu: int)
    requires WoningService.UniekeIds(woningen)
    requires VraagBezichtigingAan(beller, tabel, woningen, woningId, datum, notities, token, nu).Ok?
    ensures !OpWoningVan(woningen, beller.id, VraagBezichtigingAan(beller, tabel, woningen, woningId, datum, notities, token, nu).value.0)
  {
    var b := VraagBezichtigingAan(beller, tabel, woningen, woningId, datum, notities, token, nu).value.0;
    var p := WoningService.Positie(woningen, woningId).value;
    forall j | 0 <= j < |woningen| && woningen[j].id == b.woningId ensures woningen[j].verkoperId != beller.id {
      assert woningen[j].id == woningen[p].id;
    }
  }

  // ---------------------------------------------------------------------
  // Access to one viewing
  // ---------------------------------------------------------------------

  /** The viewing's property, as the `woning` association loads it. */
  function WoningVan(woningen: seq<Woningen.Woning>, b: Bezichtiging): (r: Option<Woningen.Woning>)
    ensures r.Some? ==> r.value in woningen && r.value.id == b.woningId
    ensures r.None? <==> forall i :: 0 <= i < |woningen| ==> woningen[i].id != b.woningId
  {
    match WoningService.Positie(woningen, b.woningId)
    case None => None
    case Some(p) => Some(woningen[p])
  }

  /** The caller sells the viewed property. */
  predicate IsEigenaar(beller: Gebruikers.Gebruiker, woning: Woningen.Woning)
  {
    woning.verkoperId == beller.id
  }

  predicate IsBeheerder(beller: Gebruikers.Gebruiker)
  {
    beller.rol == Gebruikers.RolBeheerder
  }

  /** The seller of the property, the requester or an admin. */
  predicate MagInzien(beller: Gebruikers.Gebruiker, woning: Woningen.Woning, b: Bezichtiging)
  {
    IsEigenaar(beller, woning) || b.gebruikerId == beller.id || IsBeheerder(beller)
  }

  /** The viewing with this id and its property, or the 404/500 of loading them. */
  function Laad(tabel: Tabel, woningen: seq<Woningen.Woning>, id: int): (r: Result<(Bezichtiging, Woningen.Woning)>)
    ensures PositieVan(tabel, Id, id).None? ==> r == Err(NotFound)
    ensures PositieVan(tabel, Id, id).Some? ==> var b := tabel[PositieVan(tabel, Id, id).value];
      && (WoningVan(woningen, b).None? ==> r == Err(ServerError))
      && (WoningVan(woningen, b).Some? ==> r == Ok((b, WoningVan(woningen, b).value)))
  {
    match Bezichtigingen.GetBezichtigingById(tabel, id)
    case Err(c) => Err(c)
    case Ok(b) =>
      match WoningVan(woningen, b)
      case None => Err(ServerError)
      case Some(w) => Ok((b, w))
  }

  /** GET /api/bezichtigingen/:id: only the seller, the requester or an admin may see it (403). */
  function GetBezichtigingById(beller: Gebruikers.Gebruiker, tabel: Tabel, woningen: seq<Woningen.Woning>, id: int): (r: Result<Bezichtiging>)
    ensures r.Ok? <==> Laad(tabel, woningen, id).Ok? && MagInzien(beller, Laad(tabel, woningen, id).value.1, Laad(tabel, woningen, id).value.0)
    ensures Laad(tabel, woningen, id).Ok? && r.Err? ==> r.code == Forbidden
    ensures r.Ok? ==> r.value in tabel && r.value.id == id
  {
    match Laad(tabel, woningen, id)
    case Err(c) => Err(c)
    case Ok((b, w)) => if !MagInzien(beller, w, b) then Err(Forbidden) else Ok(b)
  }

  /** The status a request body names: one of the four ENUM strings, compared strictly. */
  function StatusUitWaarde(v: Waarde): (r: Option<Status>)
    ensures r.Some? <==> v.Tekst? && StatusUitNaam(v.tekst).Some?
    ensures r.Some? ==> v == Tekst(StatusNaam(r.value))
  {
    if v.Tekst? then StatusUitNaam(v.tekst) else None
  }

  /**
    * PUT /api/bezichtigingen/:id: the seller or an admin only (403, checked
    * before the value), and the status must be one of the four values (400).
    * A requester who does not sell the property cannot change the status.
    */
  function UpdateBezichtigingStatus(beller: Gebruikers.Gebruiker, tabel: Tabel, woningen: seq<Woningen.Woning>, id: int,
                                    status: Waarde, verkoperNotities: Option<string>, nu: int): (r: Result<(Bezichtiging, Tabel)>)
    ensures Laad(tabel, woningen, id).Err? ==> r == Err(Laad(tabel, woningen, id).code)
    ensures Laad(tabel, woningen, id).Ok? ==> var (b, w) := Laad(tabel, woningen, id).value;
      && (!IsEigenaar(beller, w) && !IsBeheerder(beller) ==> r == Err(Forbidden))
      && (r.Ok? <==> (IsEigenaar(beller, w) || IsBeheerder(beller)) && StatusUitWaarde(status).Some?)
    ensures r.Ok? ==> var (b, t) := r.value;
      && Tekst(StatusNaam(b.status)) == status && b.id == id
      && |t| == |tabel|
  {
    match Laad(tabel, woningen, id)
    case Err(c) => Err(c)
    case Ok((b, w)) =>
      if !IsEigenaar(beller, w) && !IsBeheerder(beller) then Err(Forbidden)
      else match StatusUitWaarde(status)
        case None => Err(BadRequest)
        case Some(s) => Bezichtigingen.UpdateBezichtigingStatus(tabel, id, StatusNaam(s), verkoperNotities, nu)
  }

  /**
    * DELETE /api/bezichtigingen/:id: the seller, the requester or an admin
    * (403); only a requested or approved viewing (400), and the service
    * also refuses one whose date has passed (400).
    */
  function AnnuleerBezichtiging(beller: Gebruikers.Gebruiker, tabel: Tabel, woningen: seq<Woningen.Woning>, id: int, nu: int): (r: Result<Tabel>)
    ensures Laad(tabel, woningen, id).Err? ==> r == Err(Laad(tabel, woningen, id).code)
    ensures Laad(tabel, woningen, id).Ok? ==> var (b, w) := Laad(tabel, woningen, id).value;
      && (!MagInzien(beller, w, b) ==> r == Err(Forbidden))
      && (r.Ok? <==> MagInzien(beller, w, b) && Annuleerbaar(b.status) && b.bezichtigingDatum >= nu)
    ensures r.Ok? ==> |r.value| == |tabel| - 1 && Deelrij(r.value, tabel)
  {
    match Laad(tabel, woningen, id)
    case Err(c) => Err(c)
    case Ok((b, w)) =>
      if !MagInzien(beller, w, b) then Err(Forbidden)
      else if !Annuleerbaar(b.status) then Err(BadRequest)
      else Bezichtigingen.AnnuleerBezichtiging(tabel, id, nu)
  }

  /**
    * POST /api/bezichtigingen/:id/bevestig: a falsy token is refused (400)
    * before the lookup; a token that is not text never equals the stored
    * one (400).
    */
  function BevestigBezichtiging(tabel: Tabel, id: int, token: Waarde, nu: int): (r: Result<(Bezichtiging, Tabel)>)
    ensures !Truthy(token) ==> r == Err(BadRequest)
    ensures Truthy(token) && PositieVan(tabel, Id, id).None? ==> r == Err(NotFound)
    ensures r.Ok? <==>
      Truthy(token) && PositieVan(tabel, Id, id).Some? && token.Tekst?
      && tabel[PositieVan(tabel, Id, id).value].bevestigingsToken == Some(token.tekst)
    ensures r.Ok? ==> r.value.0.status == Voltooid && r.value.0.id == id
  {
    if !Truthy(token) then Err(BadRequest)
    else match PositieVan(tabel, Id, id)
      case None => Err(NotFound)
      case Some(_) =>
        if !token.Tekst? then Err(BadRequest)
        else Bezichtigingen.BevestigBezichtiging(tabel, id, token.tekst, nu)
  }
}

=== FILE: favoriet.dfy ===
/**
  * Favourites: the properties a user has marked, as (user, property) pairs
  * with an optional note. The unique index on `(gebruikerId, woningId)` makes
  * them a set of pairs; every operation is scoped to the calling user.
  */
module Favorieten {
  import opened Basis
  import opened Sorteren
  import opened Lijsten
  import opened Paginatie
  import Woningen
  import WoningService

  /** A favourite; `aangemaaktOp` is set on creation and the model keeps no update time. */
  datatype Favoriet = Favoriet(id: int, gebruikerId: int, woningId: int, notitie: Option<string>, aangemaaktOp: int)

  type Tabel = seq<Favoriet>

  function Id(f: Favoriet): int
  {
    f.id
  }

  /** The (user, property) pair a favourite stands for. */
  function Paar(f: Favoriet): (int, int)
  {
    (f.gebruikerId, f.woningId)
  }

  /** The unique index on `(gebruikerId, woningId)`. */
  predicate UniekeParen(tabel: Tabel)
  {
    forall i, j :: 0 <= i < j < |tabel| ==> Paar(tabel[i]) != Paar(tabel[j])
  }

  /** The table as the database keeps it: unique ids and unique pairs. */
  predicate Geldig(tabel: Tabel)
  {
    UniekOp(tabel, Id) && UniekeParen(tabel)
  }

  /** The favourites as a set of (user, property) pairs. */
  function Paren(tabel: Tabel): set<(int, int)>
  {
    set i | 0 <= i < |tabel| :: Paar(tabel[i])
  }

  function HeeftPaar(gebruikerId: int, woningId: int): Favoriet -> bool
  {
    (f: Favoriet) => Paar(f) == (gebruikerId, woningId)
  }

  function MetIdVan(favorietId: int, gebruikerId: int): Favoriet -> bool
  {
    (f: Favoriet) => f.id == favorietId && f.gebruikerId == gebruikerId
  }

  function VanGebruiker(gebruikerId: int): Favoriet -> bool
  {
    (f: Favoriet) => f.gebruikerId == gebruikerId
  }

  /** `findOne({ where })`: the position of the first row that matches. */
  function EerstePositie(tabel: Tabel, p: Favoriet -> bool): (r: Option<nat>)
    ensures r.Some? ==> r.value < |tabel| && p(tabel[r.value])
    ensures r.None? <==> forall i :: 0 <= i < |tabel| ==> !p(tabel[i])
  {
    if tabel == [] then None
    else if p(tabel[0]) then Some(0)
    else match EerstePositie(tabel[1..], p)
      case None => None
      case Some(k) => Some(k + 1)
  }

  /** The row found depends only on which rows match. */
  lemma {:induction false} EerstePositieZelfdeKeuze(a: Tabel, b: Tabel, p: Favoriet -> bool)
    requires |a| == |b|
    requires forall i :: 0 <= i < |a| ==> p(a[i]) == p(b[i])
    ensures EerstePositie(a, p) == EerstePositie(b, p)
    decreases |a|
  {
    if a != [] {
      EerstePositieZelfdeKeuze(a[1..], b[1..], p);
    }
  }

  /** A pair is in the table exactly when some row stands for it. */
  lemma PaarAanwezig(tabel: Tabel, gebruikerId: int, woningId: int)
    ensures (gebruikerId, woningId) in Paren(tabel) <==> EerstePositie(tabel, HeeftPaar(gebruikerId, woningId)).Some?
  {
    if (gebruikerId, woningId) in Paren(tabel) {
      var i :| 0 <= i < |tabel| && Paar(tabel[i]) == (gebruikerId, woningId);
      assert HeeftPaar(gebruikerId, woningId)(tabel[i]);
    }
  }

  // ---------------------------------------------------------------------
  // Membership
  // ---------------------------------------------------------------------

  /** `isWoningInFavorieten`: `!!favoriet`. */
  function IsWoningInFavorieten(tabel: Tabel, woningId: int, gebruikerId: int): (r: bool)
    ensures r <==> (gebruikerId, woningId) in Paren(tabel)
  {
    PaarAanwezig(tabel, gebruikerId, woningId);
    EerstePositie(tabel, HeeftPaar(gebruikerId, woningId)).Some?
  }

  // ---------------------------------------------------------------------
  // Adding
  // ---------------------------------------------------------------------

  /** Changing a row's note leaves its id and pair, and so the table's pairs, as they were. */
  lemma NotitieWijzigen(tabel: Tabel, p: nat, notitie: Option<string>)
    requires p < |tabel|
    ensures var t := tabel[p := tabel[p].(notitie := notitie)];
      && Paren(t) == Paren(tabel)
      && (Geldig(tabel) ==> Geldig(t))
      && (forall i :: 0 <= i < |t| ==> Paar(t[i]) == Paar(tabel[i]) && Id(t[i]) == Id(tabel[i]))
  {
    var t := tabel[p := tabel[p].(notitie := notitie)];
    assert forall i :: 0 <= i < |t| ==> Paar(t[i]) == Paar(tabel[i]) && Id(t[i]) == Id(tabel[i]);
    assert Paren(t) == Paren(tabel) by {
      forall x | x in Paren(tabel) ensures x in Paren(t) {
        var i :| 0 <= i < |tabel| && Paar(tabel[i]) == x;
        assert Paar(t[i]) == x;
      }
    }
  }

  /** Appending a row adds its pair; with a fresh id and a new pair the table stays valid. */
  lemma ParenToevoegen(tabel: Tabel, x: Favoriet)
    ensures Paren(tabel + [x]) == Paren(tabel) + {Paar(x)}
    ensures Geldig(tabel) && x.id == VolgendId(tabel, Id) && Paar(x) !in Paren(tabel) ==> Geldig(tabel + [x])
  {
    var t := tabel + [x];
    assert Paar(t[|tabel|]) == Paar(x);
    forall y | y in Paren(tabel) ensures y in Paren(t) {
      var i :| 0 <= i < |tabel| && Paar(tabel[i]) == y;
      assert t[i] == tabel[i];
    }
    if Geldig(tabel) && x.id == VolgendId(tabel, Id) && Paar(x) !in Paren(tabel) {
      ToevoegenHoudtUniek(tabel, Id, x);
      forall i, j | 0 <= i < j < |t| ensures Paar(t[i]) != Paar(t[j]) {
        assert t[i] == tabel[i];
        if j < |tabel| {
          assert t[j] == tabel[j];
        }
      }
    }
  }

  /**
    * `voegFavorietToe`: 404 for an unknown property (an absent `woningId`
    * finds none); a pair already present keeps its row and only takes the
    * new note when it differs; otherwise a new row. The favourite is
    * returned with the table after the call.
    */
  function VoegFavorietToe(tabel: Tabel, woningen: seq<Woningen.Woning>, gebruikerId: int, woningId: Option<int>,
                           notitie: Option<string>, nu: int): (r: Result<(Favoriet, Tabel)>)
    ensures r.Err? <==> woningId.None? || WoningService.Positie(woningen, woningId.value).None?
    ensures r.Err? ==> r.code == NotFound
    ensures r.Ok? ==> (
      var (f, t) := r.value;
      && f in t
      && f.gebruikerId == gebruikerId && f.woningId == woningId.value && f.notitie == notitie
      && Paren(t) == Paren(tabel) + {(gebruikerId, woningId.value)}
      && (Geldig(tabel) ==> Geldig(t)))
    ensures r.Ok? && (gebruikerId, woningId.value) in Paren(tabel) ==> (
      var (f, t) := r.value;
      && |t| == |tabel|
      && (forall i :: 0 <= i < |t| && Paar(t[i]) != (gebruikerId, woningId.value) ==> t[i] == tabel[i])
      && (forall i :: 0 <= i < |t| && Paar(t[i]) == (gebruikerId, woningId.value) && tabel[i].notitie == notitie ==> t[i] == tabel[i]))
    ensures r.Ok? && (gebruikerId, woningId.value) !in Paren(tabel) ==> (
      var (f, t) := r.value;
      && t == tabel + [f]
      && f.aangemaaktOp == nu
      && (forall i :: 0 <= i < |tabel| ==> tabel[i].id != f.id))
  {
    if woningId.None? || WoningService.Positie(woningen, woningId.value).None? then Err(NotFound)
    else
      var w := woningId.value;
      PaarAanwezig(tabel, gebruikerId, w);
      match EerstePositie(tabel, HeeftPaar(gebruikerId, w))
      case Some(p) =>
        var t := if notitie != tabel[p].notitie then tabel[p := tabel[p].(notitie := notitie)] else tabel;
        NotitieWijzigen(tabel, p, notitie);
        Ok((t[p], t))
      case None =>
        var f := Favoriet(VolgendId(tabel, Id), gebruikerId, w, notitie, nu);
        ParenToevoegen(tabel, f);
        Ok((f, tabel + [f]))
  }

  /** Adding the same favourite twice does what adding it once does. */
  lemma VoegFavorietToeIdempotent(tabel: Tabel, woningen: seq<Woningen.Woning>, gebruikerId: int, woningId: Option<int>,
                                  notitie: Option<string>, nu: int, later: int)
    ensures var r := VoegFavorietToe(tabel, woningen, gebruikerId, woningId, notitie, nu);
      r.Ok? ==> VoegFavorietToe(r.value.1, woningen, gebruikerId, woningId, notitie, later) == r
  {
    var r := VoegFavorietToe(tabel, woningen, gebruikerId, woningId, notitie, nu);
    if r.Ok? {
      var w := woningId.value;
      var t := r.value.1;
      var zoek := HeeftPaar(gebruikerId, w);
      match EerstePositie(tabel, zoek)
      case Some(p) =>
        NotitieWijzigen(tabel, p, notitie);
        EerstePositieZelfdeKeuze(tabel, t, zoek);
      case None =>
        assert EerstePositie(t, zoek) == Some(|tabel|);
    }
  }

  // ---------------------------------------------------------------------
  // Removing
  // ---------------------------------------------------------------------

  /** Removing a row keeps the pairs of the others unique. */
  lemma ZonderRijParenUniek(tabel: Tabel, q: nat)
    requires q < |tabel| && UniekeParen(tabel)
    ensures UniekeParen(ZonderRij(tabel, q))
  {
    var t := ZonderRij(tabel, q);
    forall i, j | 0 <= i < j < |t| ensures Paar(t[i]) != Paar(t[j]) {
      var i' := if i < q then i else i + 1;
      var j' := if j < q then j else j + 1;
      assert t[i] == tabel[i'] && t[j] == tabel[j'];
    }
  }

  /** The rows left are the others: those with another id, and those with another pair. */
  lemma ZonderRijLeden(tabel: Tabel, q: nat)
    requires q < |tabel| && Geldig(tabel)
    ensures forall f :: f in ZonderRij(tabel, q) <==> f in tabel && f.id != tabel[q].id
    ensures forall f :: f in ZonderRij(tabel, q) <==> f in tabel && Paar(f) != Paar(tabel[q])
  {
    var t := ZonderRij(tabel, q);
    ZonderRijKlopt(tabel, Id, q);
    forall f | f in t ensures f in tabel && f.id != tabel[q].id && Paar(f) != Paar(tabel[q]) {
      var i :| 0 <= i < |t| && t[i] == f;
      var i' := if i < q then i else i + 1;
      assert t[i] == tabel[i'];
    }
    forall f | f in tabel && (f.id != tabel[q].id || Paar(f) != Paar(tabel[q])) ensures f in t {
      var i :| 0 <= i < |tabel| && tabel[i] == f;
      assert i != q;
      assert t[if i < q then i else i - 1] == f;
    }
  }

  /** Removing a row of a table with unique pairs removes exactly its pair. */
  lemma ZonderRijParen(tabel: Tabel, q: nat)
    requires q < |tabel| && UniekeParen(tabel)
    ensures Paren(ZonderRij(tabel, q)) == Paren(tabel) - {Paar(tabel[q])}
  {
    var t := ZonderRij(tabel, q);
    forall x | x in Paren(t) ensures x in Paren(tabel) && x != Paar(tabel[q]) {
      var i :| 0 <= i < |t| && Paar(t[i]) == x;
      var i' := if i < q then i else i + 1;
      assert t[i] == tabel[i'];
    }
    forall x | x in Paren(tabel) && x != Paar(tabel[q]) ensures x in Paren(t) {
      var i :| 0 <= i < |tabel| && Paar(tabel[i]) == x;
      var k := if i < q then i else i - 1;
      assert t[k] == tabel[i];
    }
  }

  /** Removing one row of a valid table keeps it valid and removes exactly that row's id and pair. */
  lemma ZonderRijGeldig(tabel: Tabel, q: nat)
    requires q < |tabel|
    ensures var t := ZonderRij(tabel, q);
      Geldig(tabel) ==> (
        && Geldig(t)
        && Paren(t) == Paren(tabel) - {Paar(tabel[q])}
        && (forall f :: f in t <==> f in tabel && f.id != tabel[q].id)
        && (forall f :: f in t <==> f in tabel && Paar(f) != Paar(tabel[q])))
  {
    if Geldig(tabel) {
      ZonderRijKlopt(tabel, Id, q);
      ZonderRijParenUniek(tabel, q);
      ZonderRijLeden(tabel, q);
      ZonderRijParen(tabel, q);
    }
  }

  /** Removing the caller's row with this id leaves every other user's rows where they were. */
  lemma EigenRijVerwijderen(tabel: Tabel, q: nat, favorietId: int, gebruikerId: int)
    requires q < |tabel| && MetIdVan(favorietId, gebruikerId)(tabel[q])
    ensures var t := ZonderRij(tabel, q);
      Geldig(tabel) ==> (
        && Geldig(t)
        && (forall f :: f in t <==> f in tabel && f.id != favorietId)
        && (forall f: Favoriet :: f.gebruikerId != gebruikerId ==> (f in t <==> f in tabel))
        && Paren(t) == Paren(tabel) - {(gebruikerId, tabel[q].woningId)})
  {
    ZonderRijGeldig(tabel, q);
    if Geldig(tabel) {
      var t := ZonderRij(tabel, q);
      assert forall f: Favoriet :: f.gebruikerId != gebruikerId ==> (f in t <==> f in tabel);
    }
  }

  /**
    * `verwijderFavoriet`: removes the favourite with this id only when it
    * belongs to the caller; another user's favourite is answered with 404,
    * like a missing one.
    */
  function VerwijderFavoriet(tabel: Tabel, favorietId: int, gebruikerId: int): (r: Result<Tabel>)
    ensures r.Err? <==> forall f :: f in tabel ==> !(f.id == favorietId && f.gebruikerId == gebruikerId)
    ensures r.Err? ==> r.code == NotFound
    ensures r.Ok? && Geldig(tabel) ==> (
      && Geldig(r.value)
      && (forall f :: f in r.value <==> f in tabel && f.id != favorietId)
      && (forall f: Favoriet :: f.gebruikerId != gebruikerId ==> (f in r.value <==> f in tabel))
      && (exists w :: Paren(r.value) == Paren(tabel) - {(gebruikerId, w)}))
  {
    match EerstePositie(tabel, MetIdVan(favorietId, gebruikerId))
    case None =>
      assert forall f :: f in tabel ==> !(f.id == favorietId && f.gebruikerId == gebruikerId) by {
        forall f | f in tabel ensures !(f.id == favorietId && f.gebruikerId == gebruikerId) {
          var i :| 0 <= i < |tabel| && tabel[i] == f;
          assert !MetIdVan(favorietId, gebruikerId)(tabel[i]);
        }
      }
      Err(NotFound)
    case Some(q) =>
      EigenRijVerwijderen(tabel, q, favorietId, gebruikerId);
      Ok(ZonderRij(tabel, q))
  }

  /**
    * `verwijderWoningUitFavorieten`: removes the caller's favourite for this
    * property, or answers 404 when the pair is not there.
    */
  function VerwijderWoningUitFavorieten(tabel: Tabel, woningId: int, gebruikerId: int): (r: Result<Tabel>)
    ensures r.Err? <==> (gebruikerId, woningId) !in Paren(tabel)
    ensures r.Err? ==> r.code == NotFound
    ensures r.Ok? && Geldig(tabel) ==> (
      && Geldig(r.value)
      && Paren(r.value) == Paren(tabel) - {(gebruikerId, woningId)}
      && (forall f :: f in r.value <==> f in tabel && Paar(f) != (gebruikerId, woningId)))
  {
    PaarAanwezig(tabel, gebruikerId, woningId);
    match EerstePositie(tabel, HeeftPaar(gebruikerId, woningId))
    case None => Err(NotFound)
    case Some(q) =>
      ZonderRijGeldig(tabel, q);
      Ok(ZonderRij(tabel, q))
  }

  /** After adding, the property is among the caller's favourites; after removing it, it is not. */
  lemma ToevoegenEnVerwijderenBepalenLidmaatschap(tabel: Tabel, woningen: seq<Woningen.Woning>, gebruikerId: int,
                                                  woningId: int, notitie: Option<string>, nu: int)
    requires Geldig(tabel)
    requires WoningService.Positie(woningen, woningId).Some?
    ensures var r := VoegFavorietToe(tabel, woningen, gebruikerId, Some(woningId), notitie, nu);
      && r.Ok?
      && IsWoningInFavorieten(r.value.1, woningId, gebruikerId)
      && VerwijderWoningUitFavorieten(r.value.1, woningId, gebruikerId).Ok?
      && !IsWoningInFavorieten(VerwijderWoningUitFavorieten(r.value.1, woningId, gebruikerId).value, woningId, gebruikerId)
  {
  }

  /** Adding a new favourite and removing it again, by property or by id, gives back the table as it was. */
  lemma ToevoegenDanVerwijderen(tabel: Tabel, woningen: seq<Woningen.Woning>, gebruikerId: int,
                                woningId: int, notitie: Option<string>, nu: int)
    requires WoningService.Positie(woningen, woningId).Some?
    requires (gebruikerId, woningId) !in Paren(tabel)
    ensures var r := VoegFavorietToe(tabel, woningen, gebruikerId, Some(woningId), notitie, nu);
      && r.Ok?
      && VerwijderWoningUitFavorieten(r.value.1, woningId, gebruikerId) == Ok(tabel)
      && VerwijderFavoriet(r.value.1, r.value.0.id, gebruikerId) == Ok(tabel)
  {
    var r := VoegFavorietToe(tabel, woningen, gebruikerId, Some(woningId), notitie, nu);
    var (f, t) := r.value;
    assert t == tabel + [f];
    assert EerstePositie(t, HeeftPaar(gebruikerId, woningId)) == Some(|tabel|);
    assert EerstePositie(t, MetIdVan(f.id, gebruikerId)) == Some(|tabel|);
    assert ZonderRij(t, |tabel|) == tabel;
  }

  // ---------------------------------------------------------------------
  // Listing
  // ---------------------------------------------------------------------

  /**
    * `getFavorieten` as written: the query includes `Woning` under the alias
    * `woning`, but no association from `Favoriet` to `Woning` is declared
    * (the models only join users and properties many-to-many through
    * favourites), so the ORM rejects the include and every call ends in a 500.
    */
  function GetFavorieten(tabel: Tabel, gebruikerId: int, pagina: int, aantalPerPagina: int): (r: Result<Pagina<Favoriet>>)
    ensures r.Err? && r.code == ServerError
  {
    Err(ServerError)
  }

  /** Newest first: `order: [['aangemaaktOp', 'DESC']]`. */
  function AangemaaktSleutel(f: Favoriet): seq<Sleutel>
  {
    [Num(f.aangemaaktOp as real)]
  }

  /** All of the user's favourites, newest first, before paging. */
  function FavorietenVan(tabel: Tabel, gebruikerId: int): (r: seq<Favoriet>)
    ensures multiset(r) == multiset(Filter(tabel, VanGebruiker(gebruikerId)))
    ensures |r| == |Filter(tabel, VanGebruiker(gebruikerId))|
    ensures Gesorteerd(r, AangemaaktSleutel, Aflopend)
  {
    SorteerKlopt(Filter(tabel, VanGebruiker(gebruikerId)), AangemaaktSleutel, Aflopend);
    Sorteer(Filter(tabel, VanGebruiker(gebruikerId)), AangemaaktSleutel, Aflopend)
  }

  /**
    * The listing the query evidently means: the caller's favourites only,
    * newest first, one page of them, with the count of all of them.
    */
  function GetFavorietenBedoeld(tabel: Tabel, gebruikerId: int, pagina: int, aantalPerPagina: int): (r: Result<Pagina<Favoriet>>)
    ensures r.Ok?
    ensures forall f :: f in r.value.rijen ==> f in tabel && f.gebruikerId == gebruikerId
    ensures Gesorteerd(r.value.rijen, AangemaaktSleutel, Aflopend)
    ensures r.value.metadata.totaal == |Filter(tabel, VanGebruiker(gebruikerId))|
    ensures r.value.metadata.pagina == pagina && r.value.metadata.aantalPerPagina == aantalPerPagina
    ensures r.value.metadata.totaalPaginas == TotaalPaginas(r.value.metadata.totaal, aantalPerPagina)
    ensures aantalPerPagina >= 0 ==> |r.value.rijen| <= aantalPerPagina
  {
    FavorietenPagina(tabel, gebruikerId, pagina, aantalPerPagina);
    Ok(Pagineer(FavorietenVan(tabel, gebruikerId), pagina, aantalPerPagina))
  }

  /** A page of the user's sorted favourites holds only their favourites, still newest first. */
  lemma FavorietenPagina(tabel: Tabel, gebruikerId: int, pagina: int, aantalPerPagina: int)
    ensures var p := Pagineer(FavorietenVan(tabel, gebruikerId), pagina, aantalPerPagina);
      && (forall f :: f in p.rijen ==> f in tabel && f.gebruikerId == gebruikerId)
      && Gesorteerd(p.rijen, AangemaaktSleutel, Aflopend)
  {
    var alle := FavorietenVan(tabel, gebruikerId);
    var p := Pagineer(alle, pagina, aantalPerPagina);
    DeelVanGesorteerd(alle, AangemaaktSleutel, Aflopend, Offset(pagina, aantalPerPagina), aantalPerPagina);
    hide FavorietenVan, Pagineer;
    forall f | f in p.rijen ensures f in tabel && f.gebruikerId == gebruikerId {
      assert f in multiset(p.rijen);
      assert f in multiset(alle);
      assert f in Filter(tabel, VanGebruiker(gebruikerId));
    }
  }

  /** Walking every page of the intended listing returns each of the user's favourites, as often as it is stored. */
  lemma AllePaginasZijnAlleFavorieten(tabel: Tabel, gebruikerId: int, aantalPerPagina: int)
    requires aantalPerPagina > 0
    ensures var totaal := TotaalPaginas(|Filter(tabel, VanGebruiker(gebruikerId))|, aantalPerPagina);
      && totaal.Some?
      && multiset(EerstePaginas(FavorietenVan(tabel, gebruikerId), aantalPerPagina, totaal.value))
         == multiset(Filter(tabel, VanGebruiker(gebruikerId)))
  {
    AllePaginasSamenZijnAlleRijen(FavorietenVan(tabel, gebruikerId), aantalPerPagina);
  }

  /** The listing as written never answers; the intended one always does. */
  lemma FavorietenLijstAlleenBedoeld(tabel: Tabel, gebruikerId: int, pagina: int, aantalPerPagina: int)
    ensures GetFavorieten(tabel, gebruikerId, pagina, aantalPerPagina) == Err(ServerError)
    ensures GetFavorietenBedoeld(tabel, gebruikerId, pagina, aantalPerPagina).Ok?
  {
  }
}

=== FILE: gebruiker.dfy ===
/**
  * The `gebruiker` record and the user service: lookup, update and removal
  * by id, the filtered user listing and the listing of one seller's
  * properties. A user's password, reset token and its expiry never leave
  * the server: the record's JSON form drops them. Password hashing is a
  * parameter `hash`, and the model's e-mail validator a parameter `isEmail`.
  */
module Gebruikers {
  import opened Basis
  import opened Sorteren
  import opened Voorwaarden
  import opened Paginatie
  import opened Lijsten
  import Woningen

  /** The three access levels: user, seller, administrator. */
  const RolGebruiker: int := 1
  const RolVerkoper: int := 2
  const RolBeheerder: int := 3

  predicate GeldigeRol(rol: int)
  {
    rol == RolGebruiker || rol == RolVerkoper || rol == RolBeheerder
  }

  datatype Gebruiker = Gebruiker(
    id: int,
    email: string,
    wachtwoord: string,
    voornaam: string,
    achternaam: string,
    telefoon: Option<string>,
    rol: int,
    resetToken: Option<string>,
    resetTokenVerlooptOp: Option<int>,
    laatsteLogin: Option<int>,
    aangemaaktOp: int,
    bijgewerktOp: int)

  type Tabel = seq<Gebruiker>

  function Id(g: Gebruiker): int { g.id }

  /** The stored row. */
  const Kolommen: set<string> := {
    "id", "email", "wachtwoord", "voornaam", "achternaam", "telefoon", "rol",
    "resetToken", "resetTokenVerlooptOp", "laatsteLogin", "aangemaaktOp", "bijgewerktOp"}

  function OptTekst(x: Option<string>): Sleutel
  {
    if x.None? then Leeg else Txt(x.value)
  }

  function OptTijd(x: Option<int>): Sleutel
  {
    if x.None? then Leeg else Num(x.value as real)
  }

  function AlsRij(g: Gebruiker): (r: Rij)
    ensures r.Keys == Kolommen
  {
    map[
      "id" := Num(g.id as real),
      "email" := Txt(g.email),
      "wachtwoord" := Txt(g.wachtwoord),
      "voornaam" := Txt(g.voornaam),
      "achternaam" := Txt(g.achternaam),
      "telefoon" := OptTekst(g.telefoon),
      "rol" := Num(g.rol as real),
      "resetToken" := OptTekst(g.resetToken),
      "resetTokenVerlooptOp" := OptTijd(g.resetTokenVerlooptOp),
      "laatsteLogin" := OptTijd(g.laatsteLogin),
      "aangemaaktOp" := Num(g.aangemaaktOp as real),
      "bijgewerktOp" := Num(g.bijgewerktOp as real)]
  }

  /** The columns the listings filter on, as a row holds them. */
  predicate LeestAls(rij: Rij, g: Gebruiker)
  {
    && Voorwaarden.Waarde(rij, "email") == Txt(g.email)
    && Voorwaarden.Waarde(rij, "voornaam") == Txt(g.voornaam)
    && Voorwaarden.Waarde(rij, "achternaam") == Txt(g.achternaam)
    && Voorwaarden.Waarde(rij, "rol") == Num(g.rol as real)
    && Voorwaarden.Waarde(rij, "aangemaaktOp") == Num(g.aangemaaktOp as real)
  }

  lemma AlsRijLeestAls(g: Gebruiker)
    ensures LeestAls(AlsRij(g), g)
  {
  }

  // ---------------------------------------------------------------------
  // The JSON form
  // ---------------------------------------------------------------------

  /** What `toJSON` sends: every column but the password, the reset token and its expiry. */
  datatype PubliekeGebruiker = PubliekeGebruiker(
    id: int,
    email: string,
    voornaam: string,
    achternaam: string,
    telefoon: Option<string>,
    rol: int,
    laatsteLogin: Option<int>,
    aangemaaktOp: int,
    bijgewerktOp: int)

  function Publiek(g: Gebruiker): PubliekeGebruiker
  {
    PubliekeGebruiker(g.id, g.email, g.voornaam, g.achternaam, g.telefoon, g.rol, g.laatsteLogin, g.aangemaaktOp, g.bijgewerktOp)
  }

  /** Two users look the same from outside exactly when they differ at most in the three secret columns. */
  lemma PubliekVerbergtAlleenGeheimen(a: Gebruiker, b: Gebruiker)
    ensures Publiek(a) == Publiek(b) <==>
      a.(wachtwoord := b.wachtwoord, resetToken := b.resetToken, resetTokenVerlooptOp := b.resetTokenVerlooptOp) == b
  {
  }

  function PubliekePagina(p: Pagina<Gebruiker>): (r: Pagina<PubliekeGebruiker>)
    ensures r.metadata == p.metadata && |r.rijen| == |p.rijen|
    ensures forall i :: 0 <= i < |r.rijen| ==> r.rijen[i] == Publiek(p.rijen[i])
  {
    Pagina(seq(|p.rijen|, i requires 0 <= i < |p.rijen| => Publiek(p.rijen[i])), p.metadata)
  }

  // ---------------------------------------------------------------------
  // Update
  // ---------------------------------------------------------------------

  /** An update body: `None` for a key the body lacks. */
  datatype Wijziging = Wijziging(
    id: Option<int>,
    aangemaaktOp: Option<int>,
    bijgewerktOp: Option<int>,
    email: Option<string>,
    wachtwoord: Option<string>,
    voornaam: Option<string>,
    achternaam: Option<string>,
    telefoon: Option<Option<string>>,
    rol: Option<int>,
    resetToken: Option<Option<string>>,
    resetTokenVerlooptOp: Option<Option<int>>,
    laatsteLogin: Option<Option<int>>)

  /**
    * `gebruiker.update(z)`: every given value overwrites its column. Only
    * the columns that change are validated: a new e-mail must pass
    * `isEmail` and a new role must be 1, 2 or 3, else 400. A changed
    * password is stored hashed. The update time becomes `nu` when some
    * column changed; without a change nothing is written.
    */
  function PasToe(g: Gebruiker, z: Wijziging, nu: int, hash: string -> string, isEmail: string -> bool): (r: Result<Gebruiker>)
    ensures r.Err? ==> r.code == BadRequest
    ensures r.Ok? ==> r.value.id == Woningen.OfAnders(z.id, g.id) && r.value.aangemaaktOp == Woningen.OfAnders(z.aangemaaktOp, g.aangemaaktOp)
    ensures r.Ok? && z.bijgewerktOp.None? ==> r.value.bijgewerktOp in {g.bijgewerktOp, nu}
    ensures r.Ok? && r.value.rol != g.rol ==> GeldigeRol(r.value.rol) && z.rol == Some(r.value.rol)
    ensures r.Ok? && r.value.email != g.email ==> isEmail(r.value.email) && z.email == Some(r.value.email)
    ensures r.Ok? && r.value.wachtwoord != g.wachtwoord ==> z.wachtwoord.Some? && r.value.wachtwoord == hash(z.wachtwoord.value)
    ensures z.rol.Some? && z.rol.value != g.rol && !GeldigeRol(z.rol.value) ==> r == Err(BadRequest)
  {
    var wachtwoord := if z.wachtwoord.Some? && z.wachtwoord.value != g.wachtwoord then hash(z.wachtwoord.value) else g.wachtwoord;
    var v := Gebruiker(
      Woningen.OfAnders(z.id, g.id), Woningen.OfAnders(z.email, g.email), wachtwoord,
      Woningen.OfAnders(z.voornaam, g.voornaam), Woningen.OfAnders(z.achternaam, g.achternaam),
      Woningen.OfAnders(z.telefoon, g.telefoon), Woningen.OfAnders(z.rol, g.rol),
      Woningen.OfAnders(z.resetToken, g.resetToken), Woningen.OfAnders(z.resetTokenVerlooptOp, g.resetTokenVerlooptOp),
      Woningen.OfAnders(z.laatsteLogin, g.laatsteLogin), Woningen.OfAnders(z.aangemaaktOp, g.aangemaaktOp),
      Woningen.OfAnders(z.bijgewerktOp, g.bijgewerktOp));
    if v.email != g.email && !isEmail(v.email) then Err(BadRequest)
    else if v.rol != g.rol && !GeldigeRol(v.rol) then Err(BadRequest)
    else
      var gewijzigd := v.(bijgewerktOp := g.bijgewerktOp) != g;
      Ok(if gewijzigd && z.bijgewerktOp.None? then v.(bijgewerktOp := nu) else v)
  }

  /** The body with id, aangemaaktOp and bijgewerktOp deleted, as the service does. */
  function ZonderBeschermd(z: Wijziging): (r: Wijziging)
    ensures r.id.None? && r.aangemaaktOp.None? && r.bijgewerktOp.None?
    ensures r.(id := z.id, aangemaaktOp := z.aangemaaktOp, bijgewerktOp := z.bijgewerktOp) == z
  {
    z.(id := None, aangemaaktOp := None, bijgewerktOp := None)
  }

  /** The e-mail column is UNIQUE. */
  predicate UniekeEmails(tabel: Tabel)
  {
    forall i, j :: 0 <= i < j < |tabel| ==> tabel[i].email != tabel[j].email
  }

  /** Another row than the one at `p` already holds this address. */
  predicate EmailBezet(tabel: Tabel, p: nat, email: string)
  {
    exists i | 0 <= i < |tabel| :: i != p && tabel[i].email == email
  }

  // ---------------------------------------------------------------------
  // Service
  // ---------------------------------------------------------------------

  /** getGebruikerById: the row, or 404. */
  function GetGebruikerById(tabel: Tabel, id: int): (r: Result<Gebruiker>)
    ensures r.Ok? <==> exists i :: 0 <= i < |tabel| && tabel[i].id == id
    ensures r.Ok? ==> r.value in tabel && r.value.id == id
    ensures r.Err? ==> r.code == NotFound
  {
    match PositieVan(tabel, Id, id)
    case None => Err(NotFound)
    case Some(p) => Ok(tabel[p])
  }

  /**
    * updateGebruiker: 404 for an unknown id; otherwise the body without id,
    * aangemaaktOp and bijgewerktOp is applied in place. An address another
    * user holds violates the unique index, a 400.
    */
  function UpdateGebruiker(tabel: Tabel, id: int, z: Wijziging, nu: int, hash: string -> string, isEmail: string -> bool): (r: Result<(Gebruiker, Tabel)>)
    ensures PositieVan(tabel, Id, id).None? ==> r == Err(NotFound)
    ensures r.Err? ==> r.code in {NotFound, BadRequest}
    ensures r.Ok? ==> var (g, t) := r.value; var p := PositieVan(tabel, Id, id).value;
      && |t| == |tabel| && t[p] == g
      && (forall i :: 0 <= i < |tabel| && i != p ==> t[i] == tabel[i])
      && g.id == tabel[p].id && g.aangemaaktOp == tabel[p].aangemaaktOp
      && g.bijgewerktOp in {tabel[p].bijgewerktOp, nu}
      && (UniekOp(tabel, Id) ==> UniekOp(t, Id))
      && (UniekeEmails(tabel) ==> UniekeEmails(t))
  {
    match PositieVan(tabel, Id, id)
    case None => Err(NotFound)
    case Some(p) =>
      match PasToe(tabel[p], ZonderBeschermd(z), nu, hash, isEmail)
      case Err(c) => Err(c)
      case Ok(g) =>
        if g.email != tabel[p].email && EmailBezet(tabel, p, g.email) then Err(BadRequest)
        else
          var t := tabel[p := g];
          assert UniekeEmails(tabel) ==> UniekeEmails(t) by {
            if UniekeEmails(tabel) {
              forall i, j | 0 <= i < j < |t| ensures t[i].email != t[j].email {
                if i == p {
                  assert g.email == tabel[p].email || !EmailBezet(tabel, p, g.email);
                } else if j == p {
                  assert g.email == tabel[p].email || !EmailBezet(tabel, p, g.email);
                }
              }
            }
          }
          Ok((g, t))
  }

  /** A body that names none of the role, e-mail and password columns leaves them as they were. */
  lemma UpdateZonderRolHoudtRol(tabel: Tabel, id: int, z: Wijziging, nu: int, hash: string -> string, isEmail: string -> bool)
    requires z.rol.None? && z.email.None? && z.wachtwoord.None?
    ensures var r := UpdateGebruiker(tabel, id, z, nu, hash, isEmail);
      r.Ok? ==> var p := PositieVan(tabel, Id, id).value;
        r.value.0.rol == tabel[p].rol && r.value.0.email == tabel[p].email && r.value.0.wachtwoord == tabel[p].wachtwoord
  {
  }

  /** verwijderGebruiker: 404 for an unknown id, otherwise exactly that row is removed. */
  function VerwijderGebruiker(tabel: Tabel, id: int): (r: Result<Tabel>)
    ensures r.Err? <==> forall i :: 0 <= i < |tabel| ==> tabel[i].id != id
    ensures r.Err? ==> r.code == NotFound
    ensures r.Ok? ==> |r.value| == |tabel| - 1 && Deelrij(r.value, tabel)
    ensures r.Ok? && UniekOp(tabel, Id) ==> forall i :: 0 <= i < |r.value| ==> r.value[i].id != id
  {
    match PositieVan(tabel, Id, id)
    case None => Err(NotFound)
    case Some(p) =>
      ZonderRijKlopt(tabel, Id, p);
      Ok(ZonderRij(tabel, p))
  }

  // ---------------------------------------------------------------------
  // Listing
  // ---------------------------------------------------------------------

  /** `zoekterm` as a LIKE '%term%' on first name, last name or e-mail. */
  function ZoektermVoorwaarde(zoekterm: string): Voorwaarde
  {
    Of([Lijkt("voornaam", zoekterm), Lijkt("achternaam", zoekterm), Lijkt("email", zoekterm)])
  }

  predicate PastBijZoekterm(zoekterm: string, g: Gebruiker)
  {
    || LijktOp(g.voornaam, zoekterm)
    || LijktOp(g.achternaam, zoekterm)
    || LijktOp(g.email, zoekterm)
  }

  lemma ZoektermKlopt(rij: Rij, g: Gebruiker, zoekterm: string)
    requires LeestAls(rij, g)
    ensures Geldt(ZoektermVoorwaarde(zoekterm), rij) <==> PastBijZoekterm(zoekterm, g)
  {
    var os := [Lijkt("voornaam", zoekterm), Lijkt("achternaam", zoekterm), Lijkt("email", zoekterm)];
    assert ZoektermVoorwaarde(zoekterm) == Of(os);
    if PastBijZoekterm(zoekterm, g) {
      if LijktOp(g.voornaam, zoekterm) {
        assert Geldt(os[0], rij);
      } else if LijktOp(g.achternaam, zoekterm) {
        assert Geldt(os[1], rij);
      } else {
        assert Geldt(os[2], rij);
      }
    }
  }

  /** The where clause of the user listing: a truthy role and a truthy search term each add one condition. */
  function WhereGebruikers(rol: Option<int>, zoekterm: Option<string>): seq<Voorwaarde>
  {
    (if ActiefGeheel(rol) then [Gelijk("rol", Num(rol.value as real))] else [])
    + (if Gevuld(zoekterm) then [ZoektermVoorwaarde(zoekterm.value)] else [])
  }

  predicate PastBijGebruikersfilter(rol: Option<int>, zoekterm: Option<string>, g: Gebruiker)
  {
    && (ActiefGeheel(rol) ==> g.rol == rol.value)
    && (Gevuld(zoekterm) ==> PastBijZoekterm(zoekterm.value, g))
  }

  lemma WhereGebruikersKlopt(rij: Rij, g: Gebruiker, rol: Option<int>, zoekterm: Option<string>)
    requires LeestAls(rij, g)
    ensures GeldtAlle(WhereGebruikers(rol, zoekterm), rij) <==> PastBijGebruikersfilter(rol, zoekterm, g)
  {
    var a := if ActiefGeheel(rol) then [Gelijk("rol", Num(rol.value as real))] else [];
    var b := if Gevuld(zoekterm) then [ZoektermVoorwaarde(zoekterm.value)] else [];
    GeldtAlleSamen(a, b, rij);
    if Gevuld(zoekterm) {
      ZoektermKlopt(rij, g, zoekterm.value);
      assert GeldtAlle(b, rij) <==> Geldt(b[0], rij);
    }
    if ActiefGeheel(rol) {
      assert GeldtAlle(a, rij) <==> Geldt(a[0], rij);
    }
  }

  /** The listing only names columns the table has. */
  lemma WhereGebruikersBekend(rol: Option<int>, zoekterm: Option<string>)
    ensures AllesBekend(WhereGebruikers(rol, zoekterm), Kolommen)
  {
    var a := if ActiefGeheel(rol) then [Gelijk("rol", Num(rol.value as real))] else [];
    var b := if Gevuld(zoekterm) then [ZoektermVoorwaarde(zoekterm.value)] else [];
    var vs := a + b;
    forall i | 0 <= i < |vs| ensures Bekend(vs[i], Kolommen) {
      if i >= |a| {
        assert vs[i] == b[i - |a|];
        var os := [Lijkt("voornaam", zoekterm.value), Lijkt("achternaam", zoekterm.value), Lijkt("email", zoekterm.value)];
        assert vs[i] == Of(os);
      }
    }
  }

  function PastBijFilter(rol: Option<int>, zoekterm: Option<string>): Gebruiker -> bool
  {
    g => PastBijGebruikersfilter(rol, zoekterm, g)
  }

  /** The rows the user listing selects are exactly the users matching the filter, in table order. */
  lemma SelectieGebruikersKlopt(tabel: Tabel, rol: Option<int>, zoekterm: Option<string>)
    ensures Selectie(tabel, AlsRij, WhereGebruikers(rol, zoekterm)) == Filter(tabel, PastBijFilter(rol, zoekterm))
  {
    forall i | 0 <= i < |tabel|
      ensures PastBijFilter(rol, zoekterm)(tabel[i]) == GeldtAlle(WhereGebruikers(rol, zoekterm), AlsRij(tabel[i]))
    {
      AlsRijLeestAls(tabel[i]);
      WhereGebruikersKlopt(AlsRij(tabel[i]), tabel[i], rol, zoekterm);
    }
    WhereGebruikersBekend(rol, zoekterm);
    SelecteerIsFilter(tabel, AlsRij, Kolommen, WhereGebruikers(rol, zoekterm), PastBijFilter(rol, zoekterm));
  }

  /**
    * getGebruikers: the users matching the filter, newest first, one page,
    * in their JSON form. A NaN page number or size fails in the SQL text.
    */
  function GetGebruikers(tabel: Tabel, rol: Option<int>, zoekterm: Option<string>, pagina: Option<int>, aantal: Option<int>): (r: Result<Pagina<PubliekeGebruiker>>)
    ensures r.Ok? <==> pagina.Some? && aantal.Some?
    ensures r.Err? ==> r.code == ServerError
    ensures r.Ok? ==> r.value.metadata.totaal == |Filter(tabel, PastBijFilter(rol, zoekterm))|
    ensures r.Ok? ==> r.value.metadata.pagina == pagina.value && r.value.metadata.aantalPerPagina == aantal.value
    ensures r.Ok? && aantal.value >= 0 ==> |r.value.rijen| <= aantal.value
    ensures r.Ok? ==> forall i :: 0 <= i < |r.value.rijen| ==> PubliekVanGevonden(tabel, rol, zoekterm, r.value.rijen[i])
  {
    var l := Lijst(tabel, AlsRij, Kolommen, WhereGebruikers(rol, zoekterm), "aangemaaktOp", "DESC", pagina, aantal);
    GebruikersLijstKlopt(tabel, rol, zoekterm, pagina, aantal);
    if l.Err? then Err(l.code)
    else
      var r := PubliekePagina(l.value);
      PubliekUitSelectie(tabel, rol, zoekterm, l.value, r);
      Ok(r)
  }

  /** The user listing shows its page newest first. */
  lemma GetGebruikersNieuwsteEerst(tabel: Tabel, rol: Option<int>, zoekterm: Option<string>, pagina: Option<int>, aantal: Option<int>)
    ensures var r := GetGebruikers(tabel, rol, zoekterm, pagina, aantal);
      r.Ok? ==> exists p :: r.value == PubliekePagina(p) && NieuwsteEerst(p.rijen, AlsRij)
  {
    var l := Lijst(tabel, AlsRij, Kolommen, WhereGebruikers(rol, zoekterm), "aangemaaktOp", "DESC", pagina, aantal);
    assert "aangemaaktOp" in Kolommen;
    LijstNieuwsteEerst(tabel, AlsRij, Kolommen, WhereGebruikers(rol, zoekterm), pagina, aantal);
    if l.Ok? {
      assert GetGebruikers(tabel, rol, zoekterm, pagina, aantal).value == PubliekePagina(l.value);
    }
  }

  /** The user listing succeeds exactly when paging parsed, counts the matching users and lists only matching users of the table. */
  lemma GebruikersLijstKlopt(tabel: Tabel, rol: Option<int>, zoekterm: Option<string>, pagina: Option<int>, aantal: Option<int>)
    ensures var l := Lijst(tabel, AlsRij, Kolommen, WhereGebruikers(rol, zoekterm), "aangemaaktOp", "DESC", pagina, aantal);
      && (l.Ok? <==> pagina.Some? && aantal.Some?)
      && (l.Err? ==> l.code == ServerError)
      && (l.Ok? ==> l.value.metadata.totaal == |Filter(tabel, PastBijFilter(rol, zoekterm))|)
      && (l.Ok? ==> forall i :: 0 <= i < |l.value.rijen| ==>
            l.value.rijen[i] in tabel && PastBijGebruikersfilter(rol, zoekterm, l.value.rijen[i]))
  {
    var vs := WhereGebruikers(rol, zoekterm);
    WhereGebruikersBekend(rol, zoekterm);
    SelectieGebruikersKlopt(tabel, rol, zoekterm);
    assert "aangemaaktOp" in Kolommen;
    DescIsAflopend();
    EigenNaamBekend("aangemaaktOp", Kolommen);
    var l := Lijst(tabel, AlsRij, Kolommen, vs, "aangemaaktOp", "DESC", pagina, aantal);
    if l.Ok? {
      LijstRijenVoldoen(tabel, AlsRij, Kolommen, vs, "aangemaaktOp", "DESC", pagina, aantal);
      forall i | 0 <= i < |l.value.rijen| ensures PastBijGebruikersfilter(rol, zoekterm, l.value.rijen[i]) {
        var g := l.value.rijen[i];
        AlsRijLeestAls(g);
        WhereGebruikersKlopt(AlsRij(g), g, rol, zoekterm);
      }
    }
  }

  /** `x` is the public form of a user of the table who matches the filter. */
  ghost predicate PubliekVanGevonden(tabel: Tabel, rol: Option<int>, zoekterm: Option<string>, x: PubliekeGebruiker)
  {
    exists g :: g in tabel && PastBijGebruikersfilter(rol, zoekterm, g) && x == Publiek(g)
  }

  /** Each public row of a page of matching users is the public form of a matching user of the table. */
  lemma PubliekUitSelectie(tabel: Tabel, rol: Option<int>, zoekterm: Option<string>, p: Pagina<Gebruiker>, r: Pagina<PubliekeGebruiker>)
    requires forall i :: 0 <= i < |p.rijen| ==> p.rijen[i] in tabel && PastBijGebruikersfilter(rol, zoekterm, p.rijen[i])
    requires r == PubliekePagina(p)
    ensures forall i :: 0 <= i < |r.rijen| ==> PubliekVanGevonden(tabel, rol, zoekterm, r.rijen[i])
  {
    forall i | 0 <= i < |r.rijen| ensures PubliekVanGevonden(tabel, rol, zoekterm, r.rijen[i]) {
      var g := p.rijen[i];
      assert g in tabel && PastBijGebruikersfilter(rol, zoekterm, g) && r.rijen[i] == Publiek(g);
    }
  }

  function VanVerkoper(id: int): Woningen.Woning -> bool
  {
    (w: Woningen.Woning) => w.verkoperId == id
  }

  lemma VerkoperVoorwaardeKlopt(woningen: seq<Woningen.Woning>, id: int)
    ensures AllesBekend([Gelijk("verkoperId", Num(id as real))], Woningen.Kolommen)
    ensures Selectie(woningen, Woningen.AlsRij, [Gelijk("verkoperId", Num(id as real))]) == Filter(woningen, VanVerkoper(id))
  {
    var vs := [Gelijk("verkoperId", Num(id as real))];
    Woningen.GebruikteKolommen();
    assert Bekend(vs[0], Woningen.Kolommen);
    forall i | 0 <= i < |woningen| ensures VanVerkoper(id)(woningen[i]) == GeldtAlle(vs, Woningen.AlsRij(woningen[i])) {
      VerkoperRijKlopt(woningen[i], id);
    }
    SelecteerIsFilter(woningen, Woningen.AlsRij, Woningen.Kolommen, vs, VanVerkoper(id));
  }

  /** The condition `verkoperId = id` holds on the stored row of a property exactly when `id` is its seller. */
  lemma VerkoperRijKlopt(w: Woningen.Woning, id: int)
    ensures GeldtAlle([Gelijk("verkoperId", Num(id as real))], Woningen.AlsRij(w)) <==> w.verkoperId == id
  {
    var vs := [Gelijk("verkoperId", Num(id as real))];
    Woningen.AlsRijLeestBeheer(w);
    hide Woningen.AlsRij;
    assert GeldtAlle(vs, Woningen.AlsRij(w)) <==> Geldt(vs[0], Woningen.AlsRij(w));
  }

  /** The seller's listing: it runs exactly when the page options parse, counts the seller's properties, and shows only those. */
  lemma VerkoperLijstKlopt(woningen: seq<Woningen.Woning>, id: int, pagina: Option<int>, aantal: Option<int>)
    ensures var l := Lijst(woningen, Woningen.AlsRij, Woningen.Kolommen, [Gelijk("verkoperId", Num(id as real))], "aangemaaktOp", "DESC", pagina, aantal);
      && (l.Ok? <==> pagina.Some? && aantal.Some?)
      && (l.Err? ==> l.code == ServerError)
      && (l.Ok? ==> l.value.metadata.totaal == |Filter(woningen, VanVerkoper(id))|)
      && (l.Ok? ==> forall i :: 0 <= i < |l.value.rijen| ==> l.value.rijen[i] in woningen && l.value.rijen[i].verkoperId == id)
  {
    var vs := [Gelijk("verkoperId", Num(id as real))];
    VerkoperVoorwaardeKlopt(woningen, id);
    Woningen.GebruikteKolommen();
    DescIsAflopend();
    EigenNaamBekend("aangemaaktOp", Woningen.Kolommen);
    var l := Lijst(woningen, Woningen.AlsRij, Woningen.Kolommen, vs, "aangemaaktOp", "DESC", pagina, aantal);
    if l.Ok? {
      LijstRijenVoldoen(woningen, Woningen.AlsRij, Woningen.Kolommen, vs, "aangemaaktOp", "DESC", pagina, aantal);
      forall i | 0 <= i < |l.value.rijen| ensures l.value.rijen[i].verkoperId == id {
        VerkoperRijKlopt(l.value.rijen[i], id);
      }
    }
  }

  /** getGebruikerWoningen: 404 for an unknown user; otherwise one page of that seller's properties, newest first. */
  function GetGebruikerWoningen(tabel: Tabel, woningen: seq<Woningen.Woning>, id: int, pagina: Option<int>, aantal: Option<int>): (r: Result<Pagina<Woningen.Woning>>)
    ensures PositieVan(tabel, Id, id).None? ==> r == Err(NotFound)
    ensures PositieVan(tabel, Id, id).Some? ==> (r.Ok? <==> pagina.Some? && aantal.Some?)
    ensures r.Err? ==> r.code in {NotFound, ServerError}
    ensures r.Ok? ==> r.value.metadata.totaal == |Filter(woningen, VanVerkoper(id))|
    ensures r.Ok? ==> r.value.metadata.pagina == pagina.value && r.value.metadata.aantalPerPagina == aantal.value
    ensures r.Ok? && aantal.value >= 0 ==> |r.value.rijen| <= aantal.value
    ensures r.Ok? ==> forall i :: 0 <= i < |r.value.rijen| ==> r.value.rijen[i] in woningen && r.value.rijen[i].verkoperId == id
  {
    if PositieVan(tabel, Id, id).None? then Err(NotFound)
    else
      VerkoperLijstKlopt(woningen, id, pagina, aantal);
      Lijst(woningen, Woningen.AlsRij, Woningen.Kolommen, [Gelijk("verkoperId", Num(id as real))], "aangemaaktOp", "DESC", pagina, aantal)
  }

  /** The seller's properties are listed newest first. */
  lemma GetGebruikerWoningenNieuwsteEerst(tabel: Tabel, woningen: seq<Woningen.Woning>, id: int, pagina: Option<int>, aantal: Option<int>)
    ensures var r := GetGebruikerWoningen(tabel, woningen, id, pagina, aantal);
      r.Ok? ==> NieuwsteEerst(r.value.rijen, Woningen.AlsRij)
  {
    Woningen.GebruikteKolommen();
    LijstNieuwsteEerst(woningen, Woningen.AlsRij, Woningen.Kolommen, [Gelijk("verkoperId", Num(id as real))], pagina, aantal);
  }
}

=== FILE: geo.dfy ===
/**
  * The geographic helpers of the API: Belgian postcode and address formatting,
  * the centre of a set of points, greedy clustering, bounding boxes and the
  * point-in-box test, GeoJSON builders, route interpolation and the
  * placeholder lookup-table geocoder. Distances and trigonometry are passed in
  * as functions or values over `real`; the model proves nothing numeric about them.
  */
module Geo {
  import opened Basis

  datatype Coordinaat = Coordinaat(breedtegraad: real, lengtegraad: real)

  // ---------------------------------------------------------------------
  // Address formatting
  // ---------------------------------------------------------------------

  /**
    * formatteerPostcodeGemeente: empty when either part is falsy; the
    * municipality alone unless the postcode has a JavaScript `length` of four and
    * `parseInt` reads a number from it; otherwise "postcode municipality".
    */
  function FormatteerPostcodeGemeente(postcode: Option<string>, gemeente: Option<string>): (r: string)
    ensures !Gevuld(postcode) || !Gevuld(gemeente) <==> r == ""
    ensures Gevuld(postcode) && Gevuld(gemeente) ==>
      (if JsLengte(postcode.value) == 4 && ParseInt(postcode.value).Some?
       then r == postcode.value + " " + gemeente.value
       else r == gemeente.value)
  {
    if !Gevuld(postcode) || !Gevuld(gemeente) then ""
    else if JsLengte(postcode.value) != 4 || ParseInt(postcode.value).None? then gemeente.value
    else postcode.value + " " + gemeente.value
  }

  /** A four-digit postcode is always written in front of the municipality. */
  lemma VierCijfersVoorGemeente(postcode: string, gemeente: string)
    requires |postcode| == 4 && AlleCijfers(postcode) && |gemeente| > 0
    ensures FormatteerPostcodeGemeente(Some(postcode), Some(gemeente)) == postcode + " " + gemeente
  {
    ParseIntVanCijfers(postcode);
    CijfersJsLengte(postcode);
  }

  /**
    * The test is weaker than "four digits": `parseInt` only needs a leading
    * number, so "12ab" is written as a postcode while "ab12" is dropped.
    */
  lemma PostcodeMetLeidendGetal()
    ensures FormatteerPostcodeGemeente(Some("12ab"), Some("Gent")) == "12ab" + " " + "Gent"
    ensures FormatteerPostcodeGemeente(Some("ab12"), Some("Gent")) == "Gent"
  {
    LeidendGetal();
    GeenLeidendGetal();
    assert Gevuld(Some("12ab")) && Gevuld(Some("Gent"));
  }

  lemma LeidendGetal()
    ensures ParseInt("12ab") == Some(12)
  {
    var s := "12ab";
    ZonderVoorloopWitVanCijfers(s);
    assert ParseIntZonderTeken(s) == s;
    assert !HeeftHexPrefix(s);
    assert ParseIntRest(s) == s && ParseIntRadix(s) == 10;
    assert CijferPrefix("ab", 10) == [];
    assert CijferPrefix("2ab", 10) == "2";
    assert CijferPrefix(s, 10) == "12";
    assert CijfersWaarde("1", 10) == 1;
  }

  lemma GeenLeidendGetal()
    ensures ParseInt("ab12") == None
  {
    var s := "ab12";
    assert !IsWitruimte('a');
    assert ZonderVoorloopWit(s) == s;
    assert ParseIntZonderTeken(s) == s;
    assert ParseIntRest(s) == s && ParseIntRadix(s) == 10;
    assert CijferPrefix(s, 10) == [];
  }

  /**
    * formatteerAdres: without a street it is the postcode-municipality part;
    * otherwise the street, a space and the house number when there is one,
    * then ", " and the postcode-municipality part when that is not empty.
    */
  function FormatteerAdres(straat: Option<string>, huisnummer: Option<string>,
                           postcode: Option<string>, gemeente: Option<string>): (r: string)
    ensures !Gevuld(straat) ==> r == FormatteerPostcodeGemeente(postcode, gemeente)
    ensures Gevuld(straat) ==>
      var sh := if Gevuld(huisnummer) then straat.value + " " + huisnummer.value else straat.value;
      var pg := FormatteerPostcodeGemeente(postcode, gemeente);
      r == (if pg == "" then sh else sh + ", " + pg)
    ensures Gevuld(straat) ==> BegintMet(r, straat.value)
  {
    if !Gevuld(straat) then FormatteerPostcodeGemeente(postcode, gemeente)
    else
      var straatHuisnummer := if Gevuld(huisnummer) then straat.value + " " + huisnummer.value else straat.value;
      var postcodeGemeente := FormatteerPostcodeGemeente(postcode, gemeente);
      var r := if postcodeGemeente == "" then straatHuisnummer else straatHuisnummer + ", " + postcodeGemeente;
      assert r[..|straat.value|] == straat.value;
      r
  }

  /** A complete address reads "straat huisnummer, PPPP gemeente". */
  lemma VolledigAdresFormaat(straat: string, huisnummer: string, postcode: string, gemeente: string)
    requires |straat| > 0 && |huisnummer| > 0 && |gemeente| > 0
    requires |postcode| == 4 && AlleCijfers(postcode)
    ensures FormatteerAdres(Some(straat), Some(huisnummer), Some(postcode), Some(gemeente))
         == straat + " " + huisnummer + ", " + postcode + " " + gemeente
  {
    VierCijfersVoorGemeente(postcode, gemeente);
    var sh := straat + " " + huisnummer;
    var pc := postcode + " ";
    assert |pc + gemeente| > 0;
    assert FormatteerAdres(Some(straat), Some(huisnummer), Some(postcode), Some(gemeente)) == (sh + ", ") + (pc + gemeente);
    Samenvoegen(sh + ", ", pc, gemeente);
    Samenvoegen(sh + ", ", postcode, " ");
  }

  // ---------------------------------------------------------------------
  // Centre of a set of points
  // ---------------------------------------------------------------------

  /** One array entry: not an object (null, undefined, a number), or an object with two fields. */
  datatype CoordinaatInvoer = GeenObject | Object(breedtegraad: Waarde, lengtegraad: Waarde)

  /** An entry takes part in the average when both fields are not `undefined`; `null` fields count. */
  predicate TeltMee(c: CoordinaatInvoer)
  {
    c.Object? && c.breedtegraad != Undefined && c.lengtegraad != Undefined
  }

  /** The entries that take part, in input order. */
  function Geldige(cs: seq<CoordinaatInvoer>): (r: seq<CoordinaatInvoer>)
    ensures r == Filter(cs, TeltMee)
    ensures Deelrij(r, cs)
    ensures |r| <= |cs|
    ensures forall i :: 0 <= i < |r| ==> TeltMee(r[i])
    ensures forall i :: 0 <= i < |cs| && TeltMee(cs[i]) ==> cs[i] in r
    ensures r == [] <==> forall i :: 0 <= i < |cs| ==> !TeltMee(cs[i])
  {
    if cs == [] then []
    else if TeltMee(cs[0]) then [cs[0]] + Geldige(cs[1..])
    else
      var r := Geldige(cs[1..]);
      assert forall i :: 1 <= i < |cs| ==> cs[i] == cs[1..][i - 1];
      r
  }

  /**
    * berekenMiddelpunt: `None` (JavaScript `null`) for an absent or empty
    * array or when no entry takes part; otherwise the spherical average of
    * the entries that take part, which is the parameter `gemiddelde`.
    */
  function BerekenMiddelpunt(invoer: Option<seq<CoordinaatInvoer>>,
                             gemiddelde: seq<CoordinaatInvoer> -> Coordinaat): (r: Option<Coordinaat>)
    ensures r.None? <==> invoer.None? || forall i :: 0 <= i < |invoer.value| ==> !TeltMee(invoer.value[i])
    ensures r.Some? ==> r.value == gemiddelde(Geldige(invoer.value))
  {
    if invoer.None? || |invoer.value| == 0 then None
    else
      var geldig := Geldige(invoer.value);
      if geldig == [] then None else Some(gemiddelde(geldig))
  }

  /** Entries whose fields are `null` are averaged (as 0); only `undefined` fields are skipped. */
  lemma NullVeldenTellenMee(gemiddelde: seq<CoordinaatInvoer> -> Coordinaat)
    ensures BerekenMiddelpunt(Some([Object(Null, Null)]), gemiddelde).Some?
    ensures BerekenMiddelpunt(Some([Object(Undefined, Getal(4.0)), GeenObject]), gemiddelde).None?
  {
    var cs := [Object(Undefined, Getal(4.0)), GeenObject];
    assert !TeltMee(cs[0]) && !TeltMee(cs[1]);
  }

  datatype Zwaartepunt = Zwaartepunt(middelpunt: Option<Coordinaat>, aantalPunten: nat)

  /** berekenClusterZwaartepunten: one centre per cluster, with the cluster's size. */
  function BerekenClusterZwaartepunten(clusters: seq<seq<CoordinaatInvoer>>,
                                       gemiddelde: seq<CoordinaatInvoer> -> Coordinaat): (r: seq<Zwaartepunt>)
    ensures |r| == |clusters|
    ensures forall k :: 0 <= k < |r| ==> r[k].aantalPunten == |clusters[k]|
    ensures forall k :: 0 <= k < |r| ==>
      (r[k].middelpunt.None? <==> forall i :: 0 <= i < |clusters[k]| ==> !TeltMee(clusters[k][i]))
  {
    seq(|clusters|, k requires 0 <= k < |clusters| =>
      Zwaartepunt(BerekenMiddelpunt(Some(clusters[k]), gemiddelde), |clusters[k]|))
  }

  function SomAantallen(zs: seq<Zwaartepunt>): nat
  {
    if zs == [] then 0 else zs[0].aantalPunten + SomAantallen(zs[1..])
  }

  // ---------------------------------------------------------------------
  // Greedy clustering
  // ---------------------------------------------------------------------

  function Concat<T>(ss: seq<seq<T>>): seq<T>
  {
    if ss == [] then [] else ss[0] + Concat(ss[1..])
  }

  /** `cluster.some(c => afstand(c, p) <= drempel)`. */
  predicate Nabij<T(==)>(cluster: seq<T>, p: T, afstand: (T, T) -> real, drempel: real)
  {
    exists c :: c in cluster && afstand(c, p) <= drempel
  }

  /** Every member after the first was near one of the members before it. */
  ghost predicate Gekoppeld<T>(c: seq<T>, afstand: (T, T) -> real, drempel: real)
  {
    forall j :: 0 < j < |c| ==> Nabij(c[..j], c[j], afstand, drempel)
  }

  /**
    * One pass of the inner `for` loop of clusterPunten: each remaining point,
    * in order, joins the growing cluster when it is near one of its members,
    * and is otherwise kept for a later cluster. Points kept earlier are not
    * looked at again.
    */
  function Scan<T(==)>(cluster: seq<T>, resterend: seq<T>, afstand: (T, T) -> real, drempel: real): (r: (seq<T>, seq<T>))
    ensures multiset(r.0) + multiset(r.1) == multiset(cluster) + multiset(resterend)
    ensures |cluster| <= |r.0| && r.0[..|cluster|] == cluster
    ensures Deelrij(r.1, resterend)
    ensures Gekoppeld(cluster, afstand, drempel) ==> Gekoppeld(r.0, afstand, drempel)
    ensures forall i :: 0 <= i < |r.1| ==> !Nabij(cluster, r.1[i], afstand, drempel)
    decreases |resterend|
  {
    if resterend == [] then (cluster, [])
    else
      var p := resterend[0];
      assert resterend == [p] + resterend[1..];
      if Nabij(cluster, p, afstand, drempel) then
        var groter := cluster + [p];
        assert groter[..|cluster|] == cluster;
        assert Gekoppeld(cluster, afstand, drempel) ==> Gekoppeld(groter, afstand, drempel) by {
          if Gekoppeld(cluster, afstand, drempel) {
            forall j | 0 < j < |groter|
              ensures Nabij(groter[..j], groter[j], afstand, drempel)
            {
              if j < |cluster| {
                assert groter[..j] == cluster[..j];
              } else {
                assert groter[..j] == cluster;
              }
            }
          }
        }
        var r := Scan(groter, resterend[1..], afstand, drempel);
        assert r.0[..|cluster|] == r.0[..|groter|][..|cluster|];
        forall i | 0 <= i < |r.1|
          ensures !Nabij(cluster, r.1[i], afstand, drempel)
        {
          assert !Nabij(groter, r.1[i], afstand, drempel);
          forall c | c in cluster ensures c in groter { }
        }
        r
      else
        var r := Scan(cluster, resterend[1..], afstand, drempel);
        var u := [p] + r.1;
        assert multiset(u) == multiset{p} + multiset(r.1);
        assert multiset(resterend) == multiset{p} + multiset(resterend[1..]);
        assert multiset(r.0) + multiset(r.1) == multiset(cluster) + multiset(resterend[1..]);
        assert multiset(r.0) + multiset(u) == (multiset(r.0) + multiset(r.1)) + multiset{p};
        assert multiset(cluster) + multiset(resterend) == (multiset(cluster) + multiset(resterend[1..])) + multiset{p};
        assert u[0] == resterend[0] && u[1..] == r.1;
        assert forall i :: 1 <= i < |u| ==> u[i] == r.1[i - 1];
        (r.0, u)
  }

  /**
    * The outer `while` loop of clusterPunten: the first remaining point seeds
    * a cluster, one scan grows it, and clustering goes on with the points the
    * scan kept.
    */
  function Clusters<T(==)>(punten: seq<T>, afstand: (T, T) -> real, drempel: real): (r: seq<seq<T>>)
    ensures multiset(Concat(r)) == multiset(punten)
    ensures forall k :: 0 <= k < |r| ==> |r[k]| > 0
    ensures forall k :: 0 <= k < |r| ==> Gekoppeld(r[k], afstand, drempel)
    ensures punten == [] <==> r == []
    decreases |punten|
  {
    if punten == [] then []
    else
      assert punten == [punten[0]] + punten[1..];
      var s := Scan([punten[0]], punten[1..], afstand, drempel);
      assert |multiset(s.0) + multiset(s.1)| == |multiset([punten[0]]) + multiset(punten[1..])|;
      assert |s.1| < |punten|;
      var rest := Clusters(s.1, afstand, drempel);
      assert s.0[..1] == [punten[0]];
      [s.0] + rest
  }

  /**
    * clusterPunten with the default threshold of 1 (km) when none is given:
    * an absent or empty array gives no clusters. The input sequence is a
    * value, so it cannot change.
    */
  function ClusterPunten<T(==)>(punten: Option<seq<T>>, afstand: (T, T) -> real, drempel: Option<real>): (r: seq<seq<T>>)
    ensures punten.None? || punten.value == [] <==> r == []
    ensures punten.Some? ==> multiset(Concat(r)) == multiset(punten.value)
    ensures forall k :: 0 <= k < |r| ==> |r[k]| > 0
  {
    if punten.None? || |punten.value| == 0 then []
    else Clusters(punten.value, afstand, if drempel.None? then 1.0 else drempel.value)
  }

  /** The points not yet clustered after the first `k` clusters were formed, in input order. */
  function Overig<T(==)>(punten: seq<T>, afstand: (T, T) -> real, drempel: real, k: nat): seq<T>
    decreases k
  {
    if k == 0 || punten == [] then punten
    else Overig(Scan([punten[0]], punten[1..], afstand, drempel).1, afstand, drempel, k - 1)
  }

  lemma ClustersStap<T>(punten: seq<T>, afstand: (T, T) -> real, drempel: real, k: nat)
    requires punten != []
    ensures Clusters(punten, afstand, drempel)
         == [Scan([punten[0]], punten[1..], afstand, drempel).0]
            + Clusters(Scan([punten[0]], punten[1..], afstand, drempel).1, afstand, drempel)
    ensures k > 0 ==>
      Overig(punten, afstand, drempel, k) == Overig(Scan([punten[0]], punten[1..], afstand, drempel).1, afstand, drempel, k - 1)
  {
  }

  lemma ConcatNaKop<T>(x: seq<T>, rest: seq<seq<T>>, k: nat)
    requires 0 < k <= |rest| + 1
    ensures Concat(([x] + rest)[..k]) == x + Concat(rest[..k - 1])
  {
    assert ([x] + rest)[..k] == [x] + rest[..k - 1];
    assert ([x] + rest[..k - 1])[1..] == rest[..k - 1];
  }

  /**
    * Cluster k is seeded by the first point, in input order, that clusters
    * 0..k-1 did not take; those unclustered points are the input minus the
    * earlier clusters, order preserved.
    */
  lemma ClusterBegintBijEersteOvergeblevenPunt<T>(punten: seq<T>, afstand: (T, T) -> real, drempel: real, k: nat)
    requires k < |Clusters(punten, afstand, drempel)|
    ensures Overig(punten, afstand, drempel, k) != []
    ensures Clusters(punten, afstand, drempel)[k][0] == Overig(punten, afstand, drempel, k)[0]
    ensures multiset(Overig(punten, afstand, drempel, k)) + multiset(Concat(Clusters(punten, afstand, drempel)[..k]))
         == multiset(punten)
    ensures Deelrij(Overig(punten, afstand, drempel, k), punten)
  {
    ZaadIsEersteOvergeblevene(punten, afstand, drempel, k);
    OverigIsRestVanInvoer(punten, afstand, drempel, k);
    OverigIsDeelrij(punten, afstand, drempel, k);
  }

  lemma {:induction false} ZaadIsEersteOvergeblevene<T>(punten: seq<T>, afstand: (T, T) -> real, drempel: real, k: nat)
    requires k < |Clusters(punten, afstand, drempel)|
    ensures Overig(punten, afstand, drempel, k) != []
    ensures Clusters(punten, afstand, drempel)[k][0] == Overig(punten, afstand, drempel, k)[0]
    decreases k
  {
    hide Clusters, Scan;
    assert punten != [];
    var s := Scan([punten[0]], punten[1..], afstand, drempel);
    var rest := Clusters(s.1, afstand, drempel);
    ClustersStap(punten, afstand, drempel, k);
    assert Clusters(punten, afstand, drempel) == [s.0] + rest;
    if k == 0 {
      assert s.0[..1] == [punten[0]];
      assert Overig(punten, afstand, drempel, k) == punten;
    } else {
      assert Clusters(punten, afstand, drempel)[k] == rest[k - 1];
      ZaadIsEersteOvergeblevene(s.1, afstand, drempel, k - 1);
    }
  }

  lemma OptellenNaScan<T>(o: seq<T>, x: seq<T>, zaad: seq<T>, overgebleven: seq<T>, punten: seq<T>)
    requires multiset(o) + multiset(x) == multiset(overgebleven)
    requires multiset(zaad) + multiset(overgebleven) == multiset(punten)
    ensures multiset(o) + multiset(zaad + x) == multiset(punten)
  {
  }

  lemma OverigNaEenCluster<T>(punten: seq<T>, afstand: (T, T) -> real, drempel: real, k: nat)
    requires 0 < k < |Clusters(punten, afstand, drempel)|
    requires var s := Scan([punten[0]], punten[1..], afstand, drempel);
      k - 1 < |Clusters(s.1, afstand, drempel)|
      && multiset(Overig(s.1, afstand, drempel, k - 1)) + multiset(Concat(Clusters(s.1, afstand, drempel)[..k - 1]))
         == multiset(s.1)
    ensures multiset(Overig(punten, afstand, drempel, k)) + multiset(Concat(Clusters(punten, afstand, drempel)[..k]))
         == multiset(punten)
  {
    hide Clusters, Scan;
    var s := Scan([punten[0]], punten[1..], afstand, drempel);
    var rest := Clusters(s.1, afstand, drempel);
    ClustersStap(punten, afstand, drempel, k);
    ConcatNaKop(s.0, rest, k);
    assert punten == [punten[0]] + punten[1..];
    var o := Overig(s.1, afstand, drempel, k - 1);
    var x := Concat(rest[..k - 1]);
    assert Overig(punten, afstand, drempel, k) == o;
    assert Concat(Clusters(punten, afstand, drempel)[..k]) == s.0 + x;
    OptellenNaScan(o, x, s.0, s.1, punten);
  }

  lemma {:induction false} OverigIsRestVanInvoer<T>(punten: seq<T>, afstand: (T, T) -> real, drempel: real, k: nat)
    requires k < |Clusters(punten, afstand, drempel)|
    ensures multiset(Overig(punten, afstand, drempel, k)) + multiset(Concat(Clusters(punten, afstand, drempel)[..k]))
         == multiset(punten)
    decreases k
  {
    if k > 0 {
      var s := Scan([punten[0]], punten[1..], afstand, drempel);
      ClustersStap(punten, afstand, drempel, k);
      OverigIsRestVanInvoer(s.1, afstand, drempel, k - 1);
      OverigNaEenCluster(punten, afstand, drempel, k);
    }
  }

  lemma {:induction false} OverigIsDeelrij<T>(punten: seq<T>, afstand: (T, T) -> real, drempel: real, k: nat)
    ensures Deelrij(Overig(punten, afstand, drempel, k), punten)
    decreases k
  {
    if k == 0 || punten == [] {
      DeelrijReflexief(punten);
    } else {
      var s := Scan([punten[0]], punten[1..], afstand, drempel);
      OverigIsDeelrij(s.1, afstand, drempel, k - 1);
      assert Deelrij(s.1, punten[1..]);
      assert Deelrij(s.1, punten);
      DeelrijTransitief(Overig(s.1, afstand, drempel, k - 1), s.1, punten);
    }
  }

  /** A point within the threshold of a cluster's seed always ends up in that cluster's scan or an earlier one. */
  lemma NabijZaadNietLater<T>(punten: seq<T>, afstand: (T, T) -> real, drempel: real)
    requires punten != []
    ensures var s := Scan([punten[0]], punten[1..], afstand, drempel);
      forall i :: 0 <= i < |s.1| ==> afstand(punten[0], s.1[i]) > drempel
  {
    var s := Scan([punten[0]], punten[1..], afstand, drempel);
    forall i | 0 <= i < |s.1|
      ensures afstand(punten[0], s.1[i]) > drempel
    {
      assert !Nabij([punten[0]], s.1[i], afstand, drempel);
      assert punten[0] in [punten[0]];
    }
  }

  function AfstandOpLijn(a: real, b: real): real
  {
    if a >= b then a - b else b - a
  }

  /**
    * The scan never goes back: with points 0, 2, 1 on a line and threshold 1,
    * point 2 is rejected before 1 joins, and stays out although it lies within
    * the threshold of 1.
    */
  lemma GeenHerbeoordeling()
    ensures ClusterPunten(Some([0.0, 2.0, 1.0]), AfstandOpLijn, Some(1.0)) == [[0.0, 1.0], [2.0]]
    ensures AfstandOpLijn(1.0, 2.0) <= 1.0
  {
    hide Clusters, Scan, Overig;
    assert ClusterPunten(Some([0.0, 2.0, 1.0]), AfstandOpLijn, Some(1.0)) == Clusters([0.0, 2.0, 1.0], AfstandOpLijn, 1.0);
    VoorbeeldClusters();
  }

  lemma VoorbeeldClusters()
    ensures Clusters([0.0, 2.0, 1.0], AfstandOpLijn, 1.0) == [[0.0, 1.0], [2.0]]
  {
    hide Clusters, Scan, Overig, ClusterPunten;
    var p := [0.0, 2.0, 1.0];
    assert p[0] == 0.0 && p[1..] == [2.0, 1.0];
    EersteScanVoorbeeld();
    var s := Scan([p[0]], p[1..], AfstandOpLijn, 1.0);
    assert s == ([0.0, 1.0], [2.0]);
    EenPuntEenCluster(2.0, AfstandOpLijn, 1.0);
    ClustersStap(p, AfstandOpLijn, 1.0, 0);
  }

  lemma EenPuntEenCluster<T>(x: T, afstand: (T, T) -> real, drempel: real)
    ensures Clusters([x], afstand, drempel) == [[x]]
  {
    assert [x][1..] == [];
    assert Scan([x], [], afstand, drempel) == ([x], []);
    ClustersStap([x], afstand, drempel, 0);
  }

  lemma EersteScanVoorbeeld()
    ensures Scan([0.0], [2.0, 1.0], AfstandOpLijn, 1.0) == ([0.0, 1.0], [2.0])
  {
    var d := AfstandOpLijn;
    assert !Nabij([0.0], 2.0, d, 1.0);
    TweedeScanVoorbeeld();
    var r1 := Scan([0.0], [1.0], d, 1.0);
    assert [2.0, 1.0][1..] == [1.0];
    assert [2.0] + r1.1 == [2.0];
  }

  lemma TweedeScanVoorbeeld()
    ensures Scan([0.0], [1.0], AfstandOpLijn, 1.0) == ([0.0, 1.0], [])
  {
    var d := AfstandOpLijn;
    assert 0.0 in [0.0] && d(0.0, 1.0) == 1.0;
    assert Nabij([0.0], 1.0, d, 1.0);
    assert [1.0][1..] == [];
    assert [0.0] + [1.0] == [0.0, 1.0];
    assert Scan([0.0, 1.0], [], d, 1.0) == ([0.0, 1.0], []);
  }

  lemma {:induction false} SomAantallenIsLengteConcat(clusters: seq<seq<CoordinaatInvoer>>, gemiddelde: seq<CoordinaatInvoer> -> Coordinaat)
    ensures SomAantallen(BerekenClusterZwaartepunten(clusters, gemiddelde)) == |Concat(clusters)|
    decreases |clusters|
  {
    if clusters != [] {
      var z := BerekenClusterZwaartepunten(clusters, gemiddelde);
      SomAantallenIsLengteConcat(clusters[1..], gemiddelde);
      assert z[1..] == BerekenClusterZwaartepunten(clusters[1..], gemiddelde);
    }
  }

  /** The cluster centres of a clustering account for every input point exactly once. */
  lemma ZwaartepuntenTellenAllePunten(punten: seq<CoordinaatInvoer>, afstand: (CoordinaatInvoer, CoordinaatInvoer) -> real,
                                      drempel: Option<real>, gemiddelde: seq<CoordinaatInvoer> -> Coordinaat)
    ensures SomAantallen(BerekenClusterZwaartepunten(ClusterPunten(Some(punten), afstand, drempel), gemiddelde)) == |punten|
  {
    var c := ClusterPunten(Some(punten), afstand, drempel);
    SomAantallenIsLengteConcat(c, gemiddelde);
    assert |multiset(Concat(c))| == |multiset(punten)|;
  }

  // ---------------------------------------------------------------------
  // Bounding box
  // ---------------------------------------------------------------------

  const KmPerBreedtegraad: real := 111.32

  datatype Begrenzingsvak = Begrenzingsvak(minBreedtegraad: real, maxBreedtegraad: real,
                                           minLengtegraad: real, maxLengtegraad: real)

  function Abs(x: real): real
  {
    if x < 0.0 then -x else x
  }

  /** isPuntInBegrenzingsvak: all four bounds are inclusive. */
  predicate IsPuntInBegrenzingsvak(breedtegraad: real, lengtegraad: real, vak: Begrenzingsvak)
  {
    vak.minBreedtegraad <= breedtegraad <= vak.maxBreedtegraad
    && vak.minLengtegraad <= lengtegraad <= vak.maxLengtegraad
  }

  /**
    * berekenBegrenzingsvak: the box extends `straal` km on each side of the
    * centre, at 111.32 km per degree of latitude and `|cos(latitude)|` times
    * that per degree of longitude. `cosBreedte` is the cosine of the centre's
    * latitude, which a double latitude never makes exactly 0.
    */
  function BerekenBegrenzingsvak(breedtegraad: real, lengtegraad: real, straal: real, cosBreedte: real): (v: Begrenzingsvak)
    requires cosBreedte != 0.0
    ensures v.maxBreedtegraad - breedtegraad == breedtegraad - v.minBreedtegraad
    ensures v.maxLengtegraad - lengtegraad == lengtegraad - v.minLengtegraad
    ensures (v.maxBreedtegraad - v.minBreedtegraad) * KmPerBreedtegraad == 2.0 * straal
    ensures (v.maxLengtegraad - v.minLengtegraad) * (Abs(cosBreedte) * KmPerBreedtegraad) == 2.0 * straal
    ensures straal >= 0.0 <==> v.minBreedtegraad <= v.maxBreedtegraad && v.minLengtegraad <= v.maxLengtegraad
    ensures straal >= 0.0 <==> IsPuntInBegrenzingsvak(breedtegraad, lengtegraad, v)
  {
    var kmPerLengtegraad := Abs(cosBreedte) * KmPerBreedtegraad;
    var deltaBreedtegraad := straal / KmPerBreedtegraad;
    var deltaLengtegraad := straal / kmPerLengtegraad;
    Begrenzingsvak(breedtegraad - deltaBreedtegraad, breedtegraad + deltaBreedtegraad,
                   lengtegraad - deltaLengtegraad, lengtegraad + deltaLengtegraad)
  }

  /** A point is in the box iff it is within `straal` km of the centre along each axis. */
  lemma InVakAlsBinnenStraalPerAs(breedtegraad: real, lengtegraad: real, straal: real, cosBreedte: real, b: real, l: real)
    requires cosBreedte != 0.0
    ensures IsPuntInBegrenzingsvak(b, l, BerekenBegrenzingsvak(breedtegraad, lengtegraad, straal, cosBreedte))
        <==> Abs(b - breedtegraad) * KmPerBreedtegraad <= straal
             && Abs(l - lengtegraad) * (Abs(cosBreedte) * KmPerBreedtegraad) <= straal
  {
    var k := Abs(cosBreedte) * KmPerBreedtegraad;
    assert k > 0.0;
    assert Abs(b - breedtegraad) <= straal / KmPerBreedtegraad <==> Abs(b - breedtegraad) * KmPerBreedtegraad <= straal;
    assert Abs(l - lengtegraad) <= straal / k <==> Abs(l - lengtegraad) * k <= straal;
  }

  // ---------------------------------------------------------------------
  // GeoJSON
  // ---------------------------------------------------------------------

  /** The `geometry` object; the constructor stands for its `type` ("Point" or "Polygon"). */
  datatype Geometrie = Punt(punt: seq<real>) | Polygoon(ringen: seq<seq<seq<real>>>)

  /** A GeoJSON object of type "Feature". */
  datatype GeoFeature = GeoFeature(geometry: Geometrie, properties: map<string, Waarde>)

  /** A GeoJSON object of type "FeatureCollection". */
  datatype GeoFeatureCollection = GeoFeatureCollection(features: seq<GeoFeature>)

  /** An input point; `None` for properties that are missing or falsy. */
  datatype GeoPunt = GeoPunt(breedtegraad: real, lengtegraad: real, eigenschappen: Option<map<string, Waarde>>)

  /** maakGeoJSONPunt: a Point feature at `[lengtegraad, breedtegraad]`; properties default to `{}`. */
  function MaakGeoJSONPunt(breedtegraad: real, lengtegraad: real, eigenschappen: Option<map<string, Waarde>>): (f: GeoFeature)
    ensures f.geometry.Punt? && |f.geometry.punt| == 2
    ensures f.geometry.punt[0] == lengtegraad && f.geometry.punt[1] == breedtegraad
    ensures eigenschappen.None? ==> f.properties == map[]
    ensures eigenschappen.Some? ==> f.properties == eigenschappen.value
  {
    GeoFeature(Punt([lengtegraad, breedtegraad]), if eigenschappen.None? then map[] else eigenschappen.value)
  }

  /** maakGeoJSONFeatureCollection: one Point feature per input point, in input order. */
  function MaakGeoJSONFeatureCollection(punten: seq<GeoPunt>): (c: GeoFeatureCollection)
    ensures |c.features| == |punten|
    ensures forall i :: 0 <= i < |punten| ==>
      c.features[i].geometry == Punt([punten[i].lengtegraad, punten[i].breedtegraad])
      && c.features[i].properties == (if punten[i].eigenschappen.None? then map[] else punten[i].eigenschappen.value)
  {
    GeoFeatureCollection(seq(|punten|, i requires 0 <= i < |punten| =>
      MaakGeoJSONPunt(punten[i].breedtegraad, punten[i].lengtegraad, punten[i].eigenschappen)))
  }

  /** maakGeoJSONPolygon: one closed ring through the four corners, counter-clockwise from the south-west. */
  function MaakGeoJSONPolygon(vak: Begrenzingsvak, eigenschappen: Option<map<string, Waarde>>): (f: GeoFeature)
    ensures f.geometry.Polygoon? && |f.geometry.ringen| == 1
    ensures var ring := f.geometry.ringen[0];
      && |ring| == 5 && ring[0] == ring[4]
      && ring[0] == [vak.minLengtegraad, vak.minBreedtegraad]
      && ring[1] == [vak.maxLengtegraad, vak.minBreedtegraad]
      && ring[2] == [vak.maxLengtegraad, vak.maxBreedtegraad]
      && ring[3] == [vak.minLengtegraad, vak.maxBreedtegraad]
    ensures eigenschappen.None? ==> f.properties == map[]
    ensures eigenschappen.Some? ==> f.properties == eigenschappen.value
  {
    var ring := [
      [vak.minLengtegraad, vak.minBreedtegraad],
      [vak.maxLengtegraad, vak.minBreedtegraad],
      [vak.maxLengtegraad, vak.maxBreedtegraad],
      [vak.minLengtegraad, vak.maxBreedtegraad],
      [vak.minLengtegraad, vak.minBreedtegraad]
    ];
    GeoFeature(Polygoon([ring]), if eigenschappen.None? then map[] else eigenschappen.value)
  }

  /** Every vertex of the ring of a non-empty box lies in the box (positions are `[lengte, breedte]`). */
  lemma PolygoonHoekenInVak(vak: Begrenzingsvak)
    requires vak.minBreedtegraad <= vak.maxBreedtegraad && vak.minLengtegraad <= vak.maxLengtegraad
    ensures var ring := MaakGeoJSONPolygon(vak, None).geometry.ringen[0];
      forall i :: 0 <= i < |ring| ==> IsPuntInBegrenzingsvak(ring[i][1], ring[i][0], vak)
  {
  }

  /** Twice the signed area of a closed ring of `[x, y]` positions (the shoelace sum). */
  function DubbeleOppervlakte(ring: seq<seq<real>>): real
    requires forall i :: 0 <= i < |ring| ==> |ring[i]| == 2
  {
    if |ring| < 2 then 0.0
    else ring[0][0] * ring[1][1] - ring[1][0] * ring[0][1] + DubbeleOppervlakte(ring[1..])
  }

  /**
    * The ring runs counter-clockwise, as GeoJSON asks of an exterior ring:
    * its signed area is the area of the box, positive when the box has one.
    */
  lemma PolygoonTegenDeKlok(vak: Begrenzingsvak, eigenschappen: Option<map<string, Waarde>>)
    ensures var ring := MaakGeoJSONPolygon(vak, eigenschappen).geometry.ringen[0];
      DubbeleOppervlakte(ring) == 2.0 * (vak.maxLengtegraad - vak.minLengtegraad) * (vak.maxBreedtegraad - vak.minBreedtegraad)
  {
    var ring := MaakGeoJSONPolygon(vak, eigenschappen).geometry.ringen[0];
    var a, b, c, d := vak.minLengtegraad, vak.minBreedtegraad, vak.maxLengtegraad, vak.maxBreedtegraad;
    assert DubbeleOppervlakte(ring[4..]) == 0.0;
    assert DubbeleOppervlakte(ring[3..]) == a * b - a * d by { assert ring[3..][1..] == ring[4..]; }
    assert DubbeleOppervlakte(ring[2..]) == c * d - a * d + a * b - a * d by { assert ring[2..][1..] == ring[3..]; }
    assert DubbeleOppervlakte(ring[1..]) == c * d - c * b + c * d - a * d + a * b - a * d by { assert ring[1..][1..] == ring[2..]; }
    assert DubbeleOppervlakte(ring) == a * b - c * b + c * d - c * b + c * d - a * d + a * b - a * d;
  }

  // ---------------------------------------------------------------------
  // Route points
  // ---------------------------------------------------------------------

  function Interpoleer(start: Coordinaat, eind: Coordinaat, factor: real): Coordinaat
  {
    Coordinaat(start.breedtegraad + (eind.breedtegraad - start.breedtegraad) * factor,
               start.lengtegraad + (eind.lengtegraad - start.lengtegraad) * factor)
  }

  /**
    * genereerRoutePunten with the default of 10 steps: the points at factors
    * 0, 1/n, ..., 1. A negative count gives no points; a count of 0 divides
    * 0 by 0 and yields a point with `NaN` coordinates, written `None`.
    */
  function GenereerRoutePunten(start: Coordinaat, eind: Coordinaat, aantalPunten: Option<int>): (r: Option<seq<Coordinaat>>)
    ensures var n := if aantalPunten.None? then 10 else aantalPunten.value;
      && (r.None? <==> n == 0)
      && (n < 0 ==> r == Some([]))
      && (n > 0 ==> r.Some? && |r.value| == n + 1 && r.value[0] == start && r.value[n] == eind)
  {
    var n := if aantalPunten.None? then 10 else aantalPunten.value;
    if n == 0 then None
    else if n < 0 then Some([])
    else
      var punten := seq(n + 1, i => Interpoleer(start, eind, i as real / n as real));
      assert punten[n] == Interpoleer(start, eind, 1.0);
      Some(punten)
  }

  lemma StapVerschil(d: real, i: int, n: int)
    requires n > 0
    ensures d * ((i + 1) as real / n as real) - d * (i as real / n as real) == d / n as real
  {
    var nr := n as real;
    assert (i + 1) as real / nr - i as real / nr == 1.0 / nr;
    assert d * ((i + 1) as real / nr) - d * (i as real / nr) == d * ((i + 1) as real / nr - i as real / nr);
    assert d * (1.0 / nr) == d / nr;
  }

  /** Consecutive route points are the same step apart: the total difference divided by the count. */
  lemma RoutePuntenGelijkeStappen(start: Coordinaat, eind: Coordinaat, n: int, i: int)
    requires n > 0 && 0 <= i < n
    ensures var p := GenereerRoutePunten(start, eind, Some(n)).value;
      && p[i + 1].breedtegraad - p[i].breedtegraad == (eind.breedtegraad - start.breedtegraad) / n as real
      && p[i + 1].lengtegraad - p[i].lengtegraad == (eind.lengtegraad - start.lengtegraad) / n as real
  {
    StapVerschil(eind.breedtegraad - start.breedtegraad, i, n);
    StapVerschil(eind.lengtegraad - start.lengtegraad, i, n);
  }

  // ---------------------------------------------------------------------
  // Placeholder geocoder
  // ---------------------------------------------------------------------

  const Brussel: Coordinaat := Coordinaat(50.8503, 4.3517)

  /** The lookup table in its declaration order, which is the order `Object.entries` visits it. */
  const BekendePlaatsen: seq<(string, Coordinaat)> := [
    ("brussel", Brussel),
    ("antwerpen", Coordinaat(51.2194, 4.4025)),
    ("gent", Coordinaat(51.0543, 3.7174)),
    ("luik", Coordinaat(50.6326, 5.5797)),
    ("brugge", Coordinaat(51.2093, 3.2247)),
    ("1000 brussel", Brussel),
    ("2000 antwerpen", Coordinaat(51.2194, 4.4025)),
    ("9000 gent", Coordinaat(51.0543, 3.7174)),
    ("4000 luik", Coordinaat(50.6326, 5.5797)),
    ("8000 brugge", Coordinaat(51.2093, 3.2247))
  ]

  /** Index of the first table key from `i` on that occurs in `tekst`, or the table length. */
  function EersteTreffer(tekst: string, i: nat): (k: nat)
    requires i <= |BekendePlaatsen|
    ensures i <= k <= |BekendePlaatsen|
    ensures k < |BekendePlaatsen| ==> Bevat(tekst, BekendePlaatsen[k].0)
    ensures forall j :: i <= j < k ==> !Bevat(tekst, BekendePlaatsen[j].0)
    decreases |BekendePlaatsen| - i
  {
    if i == |BekendePlaatsen| then i
    else if Bevat(tekst, BekendePlaatsen[i].0) then i
    else EersteTreffer(tekst, i + 1)
  }

  /**
    * The placeholder geocodeAdres: the coordinates of the first table key
    * contained in the lower-cased address, or Brussels when none is.
    */
  function PlaceholderGeocode(adres: string): (c: Coordinaat)
    ensures forall k :: 0 <= k < |BekendePlaatsen| ==>
      (Bevat(Klein(adres), BekendePlaatsen[k].0) && (forall j :: 0 <= j < k ==> !Bevat(Klein(adres), BekendePlaatsen[j].0))
       ==> c == BekendePlaatsen[k].1)
    ensures (forall k :: 0 <= k < |BekendePlaatsen| ==> !Bevat(Klein(adres), BekendePlaatsen[k].0)) ==> c == Brussel
  {
    var k := EersteTreffer(Klein(adres), 0);
    if k < |BekendePlaatsen| then BekendePlaatsen[k].1 else Brussel
  }

  lemma BevatDeel(s: string, deel: string, kern: string)
    requires Bevat(s, deel) && Bevat(deel, kern)
    ensures Bevat(s, kern)
  {
    BevatOpPositie(s, deel);
    BevatOpPositie(deel, kern);
    var i :| KomtVoorOp(s, deel, i);
    var j :| KomtVoorOp(deel, kern, j);
    assert kern == deel[j..j + |kern|];
    forall m | 0 <= m < |kern|
      ensures s[i + j + m] == kern[m]
    {
      assert kern[m] == deel[j + m];
      assert deel[j + m] == s[i..i + |deel|][j + m];
    }
    assert s[i + j..i + j + |kern|] == kern;
    assert KomtVoorOp(s, kern, i + j);
    BevatOpPositie(s, kern);
  }

  /**
    * The postcode-prefixed keys never decide the result: each contains a
    * city key that comes earlier in the table.
    */
  lemma PostcodeSleutelsOverschaduwd(adres: string)
    ensures EersteTreffer(Klein(adres), 0) < 5 || EersteTreffer(Klein(adres), 0) == |BekendePlaatsen|
  {
    var t := Klein(adres);
    var k := EersteTreffer(t, 0);
    if 5 <= k < |BekendePlaatsen| {
      StadInPostcodeSleutel(k);
      BevatDeel(t, BekendePlaatsen[k].0, BekendePlaatsen[k - 5].0);
      assert false;
    }
  }

  /** Key `k` (from 5 on) is a postcode, a space and key `k - 5`. */
  lemma StadInPostcodeSleutel(k: nat)
    requires 5 <= k < |BekendePlaatsen|
    ensures Bevat(BekendePlaatsen[k].0, BekendePlaatsen[k - 5].0)
  {
    var sleutel := BekendePlaatsen[k].0;
    var stad := BekendePlaatsen[k - 5].0;
    assert sleutel == sleutel[..5] + stad by {
      if k == 5 { assert sleutel == "1000 brussel"; }
      else if k == 6 { assert sleutel == "2000 antwerpen"; }
      else if k == 7 { assert sleutel == "9000 gent"; }
      else if k == 8 { assert sleutel == "4000 luik"; }
      else { assert sleutel == "8000 brugge"; }
    }
    assert KomtVoorOp(sleutel, stad, 5);
    BevatOpPositie(sleutel, stad);
  }

  /** City names match in any letter case; an address with no known name falls back to Brussels. */
  lemma PlaceholderVoorbeelden()
    ensures PlaceholderGeocode("GENT") == Coordinaat(51.0543, 3.7174)
    ensures PlaceholderGeocode("Lier") == Brussel
  {
    PlaceholderGent();
    PlaceholderLier();
  }

  lemma PlaceholderGent()
    ensures PlaceholderGeocode("GENT") == Coordinaat(51.0543, 3.7174)
  {
    assert Klein("GENT") == "gent";
    TeKortBevatNiet("gent", "brussel");
    TeKortBevatNiet("gent", "antwerpen");
    assert BegintMet("gent", "gent");
  }

  lemma PlaceholderLier()
    ensures PlaceholderGeocode("Lier") == Brussel
  {
    var t := Klein("Lier");
    assert t == "lier";
    forall k | 0 <= k < |BekendePlaatsen| && k != 2 && k != 3
      ensures !Bevat(t, BekendePlaatsen[k].0)
    {
      TeKortBevatNiet(t, BekendePlaatsen[k].0);
    }
    TeKortBevatNiet(t[1..], "gent");
    TeKortBevatNiet(t[1..], "luik");
  }

  /** Number.MAX_VALUE, the largest finite double: (2 - 2^-52) * 2^1023. */
  const MaxValue: real := 179769313486231570814527423731704356798070567525844996598917476803157260780028538760589558632766878171540458953514382464234321326889464182768467546703537516986049910576551282076245490090389328944075868508455133942304583236903222948165808559332123348274797826204144723168738177180919299881250404026184124858368.0

  const BekendePunten: seq<(Coordinaat, string)> := [
    (Brussel, "Grote Markt, 1000 Brussel"),
    (Coordinaat(51.2194, 4.4025), "Grote Markt, 2000 Antwerpen"),
    (Coordinaat(51.0543, 3.7174), "Korenmarkt, 9000 Gent")
  ]

  const OnbekendAdres: string := "Onbekend adres in België"

  /**
    * The placeholder reverseGeocode: the address of the nearest of three
    * fixed points, the first one on a tie; when no distance is below
    * Number.MAX_VALUE the unknown-address text. `afstand` is the Haversine
    * distance from the query point.
    */
  method PlaceholderReverseGeocode(afstand: Coordinaat -> real) returns (adres: string)
    ensures adres == OnbekendAdres <==> forall j :: 0 <= j < |BekendePunten| ==> afstand(BekendePunten[j].0) >= MaxValue
    ensures adres != OnbekendAdres ==>
      exists k :: (0 <= k < |BekendePunten| && adres == BekendePunten[k].1
        && afstand(BekendePunten[k].0) < MaxValue
        && (forall j :: 0 <= j < k ==> afstand(BekendePunten[j].0) > afstand(BekendePunten[k].0))
        && (forall j :: k < j < |BekendePunten| ==> afstand(BekendePunten[j].0) >= afstand(BekendePunten[k].0)))
  {
    adres := OnbekendAdres;
    var minAfstand := MaxValue;
    var gekozen := -1;
    var i := 0;
    while i < |BekendePunten|
      invariant 0 <= i <= |BekendePunten|
      invariant -1 <= gekozen < i
      invariant gekozen == -1 ==>
        (adres == OnbekendAdres && minAfstand == MaxValue
         && forall j :: 0 <= j < i ==> afstand(BekendePunten[j].0) >= MaxValue)
      invariant gekozen >= 0 ==>
        (adres == BekendePunten[gekozen].1 && minAfstand == afstand(BekendePunten[gekozen].0)
         && minAfstand < MaxValue
         && (forall j :: 0 <= j < gekozen ==> afstand(BekendePunten[j].0) > minAfstand)
         && (forall j :: gekozen < j < i ==> afstand(BekendePunten[j].0) >= minAfstand))
    {
      var d := afstand(BekendePunten[i].0);
      if d < minAfstand {
        minAfstand := d;
        adres := BekendePunten[i].1;
        gekozen := i;
      }
      i := i + 1;
    }
  }
}

=== FILE: geocoding.dfy ===
/**
  * The geocoding gateway: forward and reverse lookups through one shared
  * cache, batch lookups, address suggestions, the enrichment of a property
  * with coordinates, and the cache statistics. The cache is a map from key
  * to stored result plus the hit and miss counters every read updates. The
  * external provider is a parameter: given a request it answers with an
  * error message or a list of features. Entries never expire here.
  */
module Geocoding {
  import opened Basis
  import Geo

  /** One entry of a feature's `context` list. */
  datatype ContextItem = ContextItem(id: string, tekst: string)

  /** The fields of a provider feature the gateway reads; `center` is (longitude, latitude). */
  datatype Feature = Feature(
    lengtegraad: real,
    breedtegraad: real,
    relevance: real,
    placeName: string,
    tekst: string,
    adres: Option<string>,
    context: seq<ContextItem>,
    placeType: seq<string>)

  /** A provider request; the suggestion limit is the text the request URL carries. */
  datatype Verzoek =
    | Vooruit(adres: string)
    | Omgekeerd(breedtegraad: real, lengtegraad: real)
    | Suggesties(tekst: string, limiet: string)

  /** The provider's answer: a failure with its message, or the features of the response. */
  datatype Antwoord = Fout(melding: string) | Features(features: seq<Feature>)

  type Provider = Verzoek -> Antwoord

  /** The objects the lookups return and the cache stores. */
  datatype Resultaat =
    | Locatie(breedtegraad: real, lengtegraad: real, betrouwbaarheid: real, geformatteerdAdres: string,
              postcode: Option<string>, plaats: Option<string>, straat: string, huisnummer: Option<string>)
    | Terugval(breedtegraad: real, lengtegraad: real, betrouwbaarheid: real, geformatteerdAdres: string, foutmelding: string)
    | Adres(breedtegraad: real, lengtegraad: real, straat: string, huisnummer: Option<string>, postcode: Option<string>,
            plaats: Option<string>, regio: Option<string>, geformatteerdAdres: string, land: string)
    | OnbekendeLocatie(breedtegraad: real, lengtegraad: real, geformatteerdAdres: string, foutmelding: string)

  /** The node-cache store: its entries, its get counters, and `ksize`, which grows by the JavaScript length of each key it adds. */
  datatype Cache = Cache(items: map<string, Resultaat>, hits: nat, misses: nat, sleutelGrootte: nat)

  /** The centre of Belgium (Brussels), returned when a forward lookup finds nothing. */
  const TerugvalBreedtegraad: real := 50.8503
  const TerugvalLengtegraad: real := 4.3517
  const TerugvalAdres: string := "België"
  const GeenResultaten: string := "Geen resultaten gevonden voor dit adres"
  const GeenAdres: string := "Geen adres gevonden voor deze coördinaten"
  const OnbekendeLocatieTekst: string := "Onbekende locatie in België"
  const MaxBatch: int := 50
  const MinSuggestieLengte: int := 3

  const LegeCache: Cache := Cache(map[], 0, 0, 0)

  function GeocodeSleutel(adres: string): string
  {
    "geocode:" + adres
  }

  /** The reverse key; `getalTekst` is JavaScript's number-to-string conversion. */
  function ReverseSleutel(breedtegraad: real, lengtegraad: real, getalTekst: real -> string): string
  {
    "reverse:" + getalTekst(breedtegraad) + "," + getalTekst(lengtegraad)
  }

  /** No forward key is ever a reverse key, so the two kinds of lookup never read each other's entries. */
  lemma SleutelsZijnDisjunct(adres: string, b: real, l: real, getalTekst: real -> string)
    ensures GeocodeSleutel(adres) != ReverseSleutel(b, l, getalTekst)
  {
    assert GeocodeSleutel(adres)[0] == 'g';
    assert ReverseSleutel(b, l, getalTekst)[0] == 'r';
  }

  /** The text of the first context item whose id starts with `soort`, like `context.find(...)?.text`. */
  function UitContext(context: seq<ContextItem>, soort: string): (r: Option<string>)
    ensures r.Some? <==> exists i :: 0 <= i < |context| && BegintMet(context[i].id, soort)
    ensures r.Some? ==> exists i :: 0 <= i < |context| && BegintMet(context[i].id, soort) && context[i].tekst == r.value
                                  && (forall j :: 0 <= j < i ==> !BegintMet(context[j].id, soort))
  {
    if context == [] then None
    else if BegintMet(context[0].id, soort) then Some(context[0].tekst)
    else
      var r := UitContext(context[1..], soort);
      if r.Some? then
        ghost var i :| 1 <= i + 1 < |context| && BegintMet(context[1..][i].id, soort) && context[1..][i].tekst == r.value
                       && (forall j :: 0 <= j < i ==> !BegintMet(context[1..][j].id, soort));
        assert BegintMet(context[i + 1].id, soort) && context[i + 1].tekst == r.value
               && (forall j :: 0 <= j < i + 1 ==> !BegintMet(context[j].id, soort));
        r
      else r
  }

  /** What one read of the cache decides: the value returned, whether it was a hit, and what to store. */
  datatype Uitkomst = Uitkomst(resultaat: Resultaat, treffer: bool, opslaan: bool)

  /** A forward lookup against the cache contents: the cached value on a hit, otherwise the provider's first feature or the fallback. */
  function RaadpleegVooruit(items: map<string, Resultaat>, adres: string, provider: Provider): (u: Uitkomst)
    ensures u.treffer <==> GeocodeSleutel(adres) in items
    ensures u.treffer ==> u.resultaat == items[GeocodeSleutel(adres)] && !u.opslaan
    ensures !u.treffer ==> (u.opslaan <==> u.resultaat.Locatie?)
    ensures !u.treffer && u.opslaan ==> provider(Vooruit(adres)).Features? && |provider(Vooruit(adres)).features| > 0
  {
    var sleutel := GeocodeSleutel(adres);
    if sleutel in items then Uitkomst(items[sleutel], true, false)
    else match provider(Vooruit(adres))
      case Fout(m) => Uitkomst(Terugval(TerugvalBreedtegraad, TerugvalLengtegraad, 0.0, TerugvalAdres, m), false, false)
      case Features(fs) =>
        if |fs| == 0 then Uitkomst(Terugval(TerugvalBreedtegraad, TerugvalLengtegraad, 0.0, TerugvalAdres, GeenResultaten), false, false)
        else
          var f := fs[0];
          Uitkomst(Locatie(f.breedtegraad, f.lengtegraad, f.relevance, f.placeName,
                           UitContext(f.context, "postcode"), UitContext(f.context, "place"), f.tekst, f.adres),
                   false, true)
  }

  /** The counters and contents after a read under `sleutel`. */
  function Verwerk(c: Cache, sleutel: string, u: Uitkomst): (r: Cache)
    ensures r.hits == c.hits + (if u.treffer then 1 else 0)
    ensures r.misses == c.misses + (if u.treffer then 0 else 1)
    ensures r.items == if u.opslaan then c.items[sleutel := u.resultaat] else c.items
    ensures r.sleutelGrootte == c.sleutelGrootte + (if u.opslaan && sleutel !in c.items then JsLengte(sleutel) else 0)
  {
    Cache(if u.opslaan then c.items[sleutel := u.resultaat] else c.items,
          c.hits + (if u.treffer then 1 else 0), c.misses + (if u.treffer then 0 else 1),
          c.sleutelGrootte + (if u.opslaan && sleutel !in c.items then JsLengte(sleutel) else 0))
  }

  /** geocodeAdres: never fails; a hit returns the stored value, a found address is stored, the fallback is not. */
  function GeocodeAdres(c: Cache, adres: string, provider: Provider): (r: (Resultaat, Cache))
    ensures GeocodeSleutel(adres) in c.items ==> r.0 == c.items[GeocodeSleutel(adres)] && r.1 == c.(hits := c.hits + 1)
    ensures GeocodeSleutel(adres) !in c.items ==> r.1.misses == c.misses + 1 && r.1.hits == c.hits
    ensures r.0.Terugval? && GeocodeSleutel(adres) !in c.items ==>
      r.1.items == c.items && r.0.breedtegraad == TerugvalBreedtegraad && r.0.lengtegraad == TerugvalLengtegraad
      && r.0.betrouwbaarheid == 0.0 && r.0.geformatteerdAdres == TerugvalAdres
    ensures r.0.Locatie? && GeocodeSleutel(adres) !in c.items ==> r.1.items == c.items[GeocodeSleutel(adres) := r.0]
  {
    var u := RaadpleegVooruit(c.items, adres, provider);
    (u.resultaat, Verwerk(c, GeocodeSleutel(adres), u))
  }

  /**
    * node-cache's `ksize` grows only when a new key is stored, by that key's
    * JavaScript length: the eight characters of `geocode:` plus the address.
    */
  lemma OpslaanGroeitSleutelGrootte(c: Cache, adres: string, provider: Provider)
    ensures var r := GeocodeAdres(c, adres, provider);
      r.1.sleutelGrootte == c.sleutelGrootte + (if r.0.Locatie? && GeocodeSleutel(adres) !in c.items then 8 + JsLengte(adres) else 0)
  {
    var u := RaadpleegVooruit(c.items, adres, provider);
    hide RaadpleegVooruit, UitContext;
    JsLengteSamen("geocode:", adres);
    assert JsLengte("geocode:") == 8;
  }

  /** A hit does not depend on the provider: no request is made. */
  lemma TrefferVraagtNietsAanProvider(c: Cache, adres: string, p: Provider, q: Provider)
    requires GeocodeSleutel(adres) in c.items
    ensures GeocodeAdres(c, adres, p) == GeocodeAdres(c, adres, q)
  {
  }

  /** A found address answers from the cache the second time: same result, one more hit, nothing new stored. */
  lemma TweedeOpvraagIsTreffer(c: Cache, adres: string, p: Provider, q: Provider)
    requires GeocodeAdres(c, adres, p).0.Locatie?
    ensures var (r1, c1) := GeocodeAdres(c, adres, p);
      var (r2, c2) := GeocodeAdres(c1, adres, q);
      r2 == r1 && c2.items == c1.items && c2.hits == c1.hits + 1
  {
  }

  /** The fallback's coordinates are used when the provider fails, and the same request asks again next time. */
  lemma TerugvalWordtNietBewaard(c: Cache, adres: string, p: Provider)
    requires GeocodeSleutel(adres) !in c.items
    requires p(Vooruit(adres)).Fout? || p(Vooruit(adres)) == Features([])
    ensures var (r, c1) := GeocodeAdres(c, adres, p);
      r.Terugval? && r.breedtegraad == TerugvalBreedtegraad && r.lengtegraad == TerugvalLengtegraad
      && GeocodeSleutel(adres) !in c1.items
  {
  }

  /** A found forward result carries the first feature's centre with latitude and longitude swapped into place. */
  lemma GevondenCoordinatenKomenUitEersteFeature(c: Cache, adres: string, p: Provider)
    requires GeocodeSleutel(adres) !in c.items
    requires p(Vooruit(adres)).Features? && |p(Vooruit(adres)).features| > 0
    ensures var f := p(Vooruit(adres)).features[0]; var r := GeocodeAdres(c, adres, p).0;
      r.Locatie? && r.breedtegraad == f.breedtegraad && r.lengtegraad == f.lengtegraad && r.betrouwbaarheid == f.relevance
  {
  }

  /** A reverse lookup against the cache contents; the fallback echoes the coordinates asked for. */
  function RaadpleegOmgekeerd(items: map<string, Resultaat>, b: real, l: real, getalTekst: real -> string, provider: Provider): (u: Uitkomst)
    ensures u.treffer <==> ReverseSleutel(b, l, getalTekst) in items
    ensures u.treffer ==> u.resultaat == items[ReverseSleutel(b, l, getalTekst)] && !u.opslaan
    ensures !u.treffer ==> (u.opslaan <==> u.resultaat.Adres?)
    ensures !u.treffer ==> u.resultaat.breedtegraad == b && u.resultaat.lengtegraad == l
  {
    var sleutel := ReverseSleutel(b, l, getalTekst);
    if sleutel in items then Uitkomst(items[sleutel], true, false)
    else match provider(Omgekeerd(b, l))
      case Fout(m) => Uitkomst(OnbekendeLocatie(b, l, OnbekendeLocatieTekst, m), false, false)
      case Features(fs) =>
        if |fs| == 0 then Uitkomst(OnbekendeLocatie(b, l, OnbekendeLocatieTekst, GeenAdres), false, false)
        else
          var f := fs[0];
          Uitkomst(Adres(b, l, f.tekst, f.adres, UitContext(f.context, "postcode"), UitContext(f.context, "place"),
                         UitContext(f.context, "region"), f.placeName, TerugvalAdres),
                   false, true)
  }

  /** reverseGeocode: the same hit, store and fallback pattern under the reverse key. */
  function ReverseGeocode(c: Cache, b: real, l: real, getalTekst: real -> string, provider: Provider): (r: (Resultaat, Cache))
    ensures ReverseSleutel(b, l, getalTekst) in c.items ==> r.0 == c.items[ReverseSleutel(b, l, getalTekst)] && r.1 == c.(hits := c.hits + 1)
    ensures ReverseSleutel(b, l, getalTekst) !in c.items ==>
      && r.0.breedtegraad == b && r.0.lengtegraad == l
      && r.1.misses == c.misses + 1
      && r.1.items == (if r.0.Adres? then c.items[ReverseSleutel(b, l, getalTekst) := r.0] else c.items)
  {
    var u := RaadpleegOmgekeerd(c.items, b, l, getalTekst, provider);
    (u.resultaat, Verwerk(c, ReverseSleutel(b, l, getalTekst), u))
  }

  /** Every forward key holds a forward result and every reverse key a reverse result. */
  predicate GoedGevuld(c: Cache)
  {
    forall k :: k in c.items ==>
      (BegintMet(k, "geocode:") ==> c.items[k].Locatie?) && (BegintMet(k, "reverse:") ==> c.items[k].Adres?)
  }

  lemma VooruitEnOmgekeerdBegin(adres: string, b: real, l: real, getalTekst: real -> string)
    ensures BegintMet(GeocodeSleutel(adres), "geocode:") && !BegintMet(GeocodeSleutel(adres), "reverse:")
    ensures BegintMet(ReverseSleutel(b, l, getalTekst), "reverse:") && !BegintMet(ReverseSleutel(b, l, getalTekst), "geocode:")
  {
    assert GeocodeSleutel(adres)[..8] == "geocode:";
    assert ReverseSleutel(b, l, getalTekst)[..8] == "reverse:";
  }

  lemma GeocodeHoudtCacheGoed(c: Cache, adres: string, p: Provider)
    requires GoedGevuld(c)
    ensures GoedGevuld(GeocodeAdres(c, adres, p).1)
    ensures GeocodeSleutel(adres) in c.items ==> GeocodeAdres(c, adres, p).0.Locatie?
  {
    VooruitEnOmgekeerdBegin(adres, 0.0, 0.0, x => "");
  }

  lemma ReverseHoudtCacheGoed(c: Cache, b: real, l: real, getalTekst: real -> string, p: Provider)
    requires GoedGevuld(c)
    ensures GoedGevuld(ReverseGeocode(c, b, l, getalTekst, p).1)
    ensures ReverseSleutel(b, l, getalTekst) in c.items ==> ReverseGeocode(c, b, l, getalTekst, p).0.Adres?
  {
    VooruitEnOmgekeerdBegin("", b, l, getalTekst);
  }

  /**
    * batchGeocodeAdressen: more than 50 addresses is an error before any
    * request. Otherwise the lookups run concurrently: every one reads the
    * cache as it was before the batch, and the found results are stored
    * afterwards.
    */
  function BatchGeocodeAdressen(c: Cache, adressen: seq<string>, provider: Provider): (r: Result<(seq<Resultaat>, Cache)>)
    ensures r.Err? <==> |adressen| > MaxBatch
    ensures r.Err? ==> r.code == ServerError
    ensures r.Ok? ==> |r.value.0| == |adressen|
    ensures r.Ok? ==> forall i :: 0 <= i < |adressen| ==> r.value.0[i] == GeocodeAdres(c, adressen[i], provider).0
    ensures r.Ok? ==> r.value.1.hits + r.value.1.misses == c.hits + c.misses + |adressen|
  {
    if |adressen| > MaxBatch then Err(ServerError)
    else
      var rs := seq(|adressen|, i requires 0 <= i < |adressen| => RaadpleegVooruit(c.items, adressen[i], provider).resultaat);
      Ok((rs, VerwerkAlle(c, c.items, adressen, provider)))
  }

  /** Applies the reads of a batch, all made against `items`, to the cache one after another. */
  function VerwerkAlle(c: Cache, items: map<string, Resultaat>, adressen: seq<string>, provider: Provider): (r: Cache)
    ensures r.hits + r.misses == c.hits + c.misses + |adressen|
    decreases |adressen|
  {
    if adressen == [] then c
    else VerwerkAlle(Verwerk(c, GeocodeSleutel(adressen[0]), RaadpleegVooruit(items, adressen[0], provider)),
                     items, adressen[1..], provider)
  }

  /** A batch of one address is a single lookup. */
  lemma BatchVanEenIsEnkeleOpvraag(c: Cache, adres: string, p: Provider)
    ensures BatchGeocodeAdressen(c, [adres], p) == Ok(([GeocodeAdres(c, adres, p).0], GeocodeAdres(c, adres, p).1))
  {
    var u := RaadpleegVooruit(c.items, adres, p);
    assert [adres][1..] == [];
    assert VerwerkAlle(c, c.items, [adres], p) == Verwerk(c, GeocodeSleutel(adres), u);
    assert seq(1, i requires 0 <= i < 1 => RaadpleegVooruit(c.items, [adres][i], p).resultaat) == [u.resultaat];
  }

  /** A batch that is too large does not depend on the provider: no request is made. */
  lemma TeGroteBatchVraagtNiets(c: Cache, adressen: seq<string>, p: Provider, q: Provider)
    requires |adressen| > MaxBatch
    ensures BatchGeocodeAdressen(c, adressen, p) == BatchGeocodeAdressen(c, adressen, q)
  {
  }

  datatype Suggestie = Suggestie(tekst: string, plaats: string, breedtegraad: real, lengtegraad: real, soort: Option<string>)

  function AlsSuggestie(f: Feature): Suggestie
  {
    Suggestie(f.placeName, f.tekst, f.breedtegraad, f.lengtegraad, if |f.placeType| > 0 then Some(f.placeType[0]) else None)
  }

  /** adresSuggesties: nothing for an absent text, one whose `length` is under 3, or a failed request; otherwise one suggestion per feature. */
  function AdresSuggesties(gedeeltelijkAdres: Option<string>, limiet: string, provider: Provider): (r: seq<Suggestie>)
    ensures !Gevuld(gedeeltelijkAdres) || JsLengte(gedeeltelijkAdres.value) < MinSuggestieLengte ==> r == []
    ensures Gevuld(gedeeltelijkAdres) && JsLengte(gedeeltelijkAdres.value) >= MinSuggestieLengte ==>
      match provider(Suggesties(gedeeltelijkAdres.value, limiet))
      case Fout(_) => r == []
      case Features(fs) => |r| == |fs| && forall i :: 0 <= i < |fs| ==>
        r[i].tekst == fs[i].placeName && r[i].breedtegraad == fs[i].breedtegraad && r[i].lengtegraad == fs[i].lengtegraad
  {
    if !Gevuld(gedeeltelijkAdres) || JsLengte(gedeeltelijkAdres.value) < MinSuggestieLengte then []
    else match provider(Suggesties(gedeeltelijkAdres.value, limiet))
      case Fout(_) => []
      case Features(fs) => seq(|fs|, i requires 0 <= i < |fs| => AlsSuggestie(fs[i]))
  }

  /** A text shorter than three UTF-16 code units is answered without asking the provider. */
  lemma KorteTekstVraagtNiets(t: string, limiet: string, p: Provider, q: Provider)
    requires JsLengte(t) < MinSuggestieLengte
    ensures AdresSuggesties(Some(t), limiet, p) == AdresSuggesties(Some(t), limiet, q) == []
  {
  }

  /** The address and coordinates of a property, as enrichment reads them; a coordinate is `None` when null or absent. */
  datatype WoningGegevens = WoningGegevens(
    straat: Option<string>, huisnummer: Option<string>, postcode: Option<string>, stad: Option<string>,
    breedtegraad: Option<real>, lengtegraad: Option<real>)

  datatype Verrijkt = Verrijkt(
    gegevens: WoningGegevens,
    geformatteerdAdres: string,
    betrouwbaarheid: Option<real>,
    heeftGeldigeCoordinaten: bool)

  function Betrouwbaarheid(r: Resultaat): Option<real>
  {
    if r.Locatie? || r.Terugval? then Some(r.betrouwbaarheid) else None
  }

  /**
    * verrijkWoningMetGeocode: a property with two truthy coordinates keeps
    * them; otherwise the formatted address is looked up and its result's
    * coordinates are taken. The lookup never fails, so the result always
    * claims valid coordinates, the Brussels fallback included.
    */
  function VerrijkWoningMetGeocode(c: Cache, g: WoningGegevens, provider: Provider): (r: (Verrijkt, Cache))
    ensures r.0.heeftGeldigeCoordinaten
    ensures var adres := Geo.FormatteerAdres(g.straat, g.huisnummer, g.postcode, g.stad);
      if Actief(g.breedtegraad) && Actief(g.lengtegraad) then
        r.0 == Verrijkt(g, adres, None, true) && r.1 == c
      else
        var (gr, c1) := GeocodeAdres(c, adres, provider);
        && r.1 == c1
        && r.0.gegevens == g.(breedtegraad := Some(gr.breedtegraad), lengtegraad := Some(gr.lengtegraad))
        && r.0.geformatteerdAdres == (if gr.geformatteerdAdres != "" then gr.geformatteerdAdres else adres)
  {
    var adres := Geo.FormatteerAdres(g.straat, g.huisnummer, g.postcode, g.stad);
    if Actief(g.breedtegraad) && Actief(g.lengtegraad) then (Verrijkt(g, adres, None, true), c)
    else
      var (gr, c1) := GeocodeAdres(c, adres, provider);
      (Verrijkt(g.(breedtegraad := Some(gr.breedtegraad), lengtegraad := Some(gr.lengtegraad)),
                if gr.geformatteerdAdres != "" then gr.geformatteerdAdres else adres,
                Betrouwbaarheid(gr), true),
       c1)
  }

  /** When the provider fails, enrichment still reports valid coordinates: those of Brussels, with confidence 0. */
  lemma VerrijkingMetTerugval(c: Cache, g: WoningGegevens, p: Provider)
    requires !Actief(g.breedtegraad)
    requires GeocodeSleutel(Geo.FormatteerAdres(g.straat, g.huisnummer, g.postcode, g.stad)) !in c.items
    requires p(Vooruit(Geo.FormatteerAdres(g.straat, g.huisnummer, g.postcode, g.stad))).Fout?
    ensures var v := VerrijkWoningMetGeocode(c, g, p).0;
      && v.heeftGeldigeCoordinaten
      && v.gegevens.breedtegraad == Some(TerugvalBreedtegraad) && v.gegevens.lengtegraad == Some(TerugvalLengtegraad)
      && v.betrouwbaarheid == Some(0.0) && v.geformatteerdAdres == TerugvalAdres
  {
  }

  /** leegGeocodingCache: the store and its counters start over. */
  function LeegGeocodingCache(c: Cache): (r: Cache)
    ensures r.items == map[] && r.hits == 0 && r.misses == 0 && r.sleutelGrootte == 0
  {
    LegeCache
  }

  datatype Statistieken = Statistieken(aantalItems: nat, grootte: nat, hits: nat, misses: nat, hitRate: real)

  /** getGeocodingCacheStats: the store's counters, and `hits / ((hits + misses) || 1)` as an exact ratio. */
  function GetGeocodingCacheStats(c: Cache): (s: Statistieken)
    ensures s.aantalItems == |c.items| && s.grootte == c.sleutelGrootte && s.hits == c.hits && s.misses == c.misses
    ensures c.hits + c.misses == 0 ==> s.hitRate == 0.0
    ensures c.hits + c.misses > 0 ==> s.hitRate * (c.hits + c.misses) as real == c.hits as real
    ensures 0.0 <= s.hitRate <= 1.0
  {
    var n := c.hits + c.misses;
    Statistieken(|c.items|, c.sleutelGrootte, c.hits, c.misses, c.hits as real / (if n == 0 then 1 else n) as real)
  }

  /** After emptying the cache the statistics are all zero. */
  lemma LegeCacheHeeftNulStatistieken(c: Cache)
    ensures GetGeocodingCacheStats(LeegGeocodingCache(c)) == Statistieken(0, 0, 0, 0, 0.0)
  {
  }
}

=== FILE: kalender.dfy ===
/**
  * The proleptic Gregorian calendar as JavaScript's `Date` constructor
  * reads its arguments: `new Date(jaar, maand, dag)` with a zero-based month
  * that rolls over into neighbouring years and a day that rolls over into
  * neighbouring months, at 00:00. Instants are milliseconds since
  * 1970-01-01 00:00; the server's time zone is taken to be UTC.
  */
module Kalender {
  import opened Basis

  const MsPerDag: int := 86_400_000

  predicate Schrikkeljaar(j: int)
  {
    j % 4 == 0 && (j % 100 != 0 || j % 400 == 0)
  }

  /** The length of month `m` (0 = January) of year `j`. */
  function DagenInMaand(j: int, m: int): (r: int)
    requires 0 <= m < 12
    ensures 28 <= r <= 31
    ensures r == 29 <==> m == 1 && Schrikkeljaar(j)
    ensures r == 31 <==> m in {0, 2, 4, 6, 7, 9, 11}
  {
    if m == 1 then (if Schrikkeljaar(j) then 29 else 28)
    else if m == 3 || m == 5 || m == 8 || m == 10 then 30
    else 31
  }

  function DagenInJaar(j: int): int
  {
    if Schrikkeljaar(j) then 366 else 365
  }

  /** The days of a common year before each month. */
  const VoorMaand: seq<int> := [0, 31, 59, 90, 120, 151, 181, 212, 243, 273, 304, 334, 365]

  /** The days of year `j` before month `m`; a leap day counts from March on. */
  function DagenVoorMaand(j: int, m: int): (r: int)
    requires 0 <= m <= 12
  {
    VoorMaand[m] + (if m >= 2 && Schrikkeljaar(j) then 1 else 0)
  }

  /** Each month starts where the one before it ends. */
  lemma DagenVoorVolgendeMaand(j: int, m: int)
    requires 0 <= m < 12
    ensures DagenVoorMaand(j, m + 1) == DagenVoorMaand(j, m) + DagenInMaand(j, m)
  {
  }

  /** The twelve months together make up the year. */
  lemma MaandenVormenJaar(j: int)
    ensures DagenVoorMaand(j, 12) == DagenInJaar(j)
  {
  }

  /** The leap years among the years before `j`, counted from a fixed origin. */
  function SchrikkeljarenVoor(j: int): int
  {
    (j - 1) / 4 - (j - 1) / 100 + (j - 1) / 400
  }

  /** Floor division by a positive constant steps up by one exactly at its multiples. */
  lemma DeelStap4(j: int)
    ensures j / 4 - (j - 1) / 4 == (if j % 4 == 0 then 1 else 0)
  {
  }

  lemma DeelStap100(j: int)
    ensures j / 100 - (j - 1) / 100 == (if j % 100 == 0 then 1 else 0)
  {
  }

  lemma DeelStap400(j: int)
    ensures j / 400 - (j - 1) / 400 == (if j % 400 == 0 then 1 else 0)
  {
  }

  lemma SchrikkeljarenStap(j: int)
    ensures SchrikkeljarenVoor(j + 1) == SchrikkeljarenVoor(j) + (if Schrikkeljaar(j) then 1 else 0)
  {
    DeelStap4(j);
    DeelStap100(j);
    DeelStap400(j);
    VeelvoudVan100(j);
    VeelvoudVan400(j);
    assert SchrikkeljarenVoor(j + 1) == j / 4 - j / 100 + j / 400;
  }

  lemma VeelvoudVan100(j: int)
    ensures j % 100 == 0 ==> j % 4 == 0
  {
    if j % 100 == 0 {
      var q := j / 100;
      assert j == 4 * (25 * q);
    }
  }

  lemma VeelvoudVan400(j: int)
    ensures j % 400 == 0 ==> j % 100 == 0
  {
    if j % 400 == 0 {
      var q := j / 400;
      assert j == 100 * (4 * q);
    }
  }

  /** The day number of 1 January of year `j`, 1 January 1970 being day 0. */
  function JaarBegin(j: int): int
  {
    365 * (j - 1970) + SchrikkeljarenVoor(j) - SchrikkeljarenVoor(1970)
  }

  lemma JaarSluitAan(j: int)
    ensures JaarBegin(j + 1) == JaarBegin(j) + DagenInJaar(j)
  {
    SchrikkeljarenStap(j);
  }

  /** A year and a zero-based month. */
  datatype Maand = Maand(jaar: int, maand: int)

  predicate Geldig(m: Maand)
  {
    0 <= m.maand < 12
  }

  /** The months counted from January of year 0. */
  function Index(m: Maand): int
  {
    m.jaar * 12 + m.maand
  }

  /** The month `new Date(jaar, maand, …)` lands in when `maand` lies outside 0..11. */
  function Normaliseer(jaar: int, maand: int): (r: Maand)
    ensures Geldig(r)
    ensures Index(r) == jaar * 12 + maand
  {
    var k := jaar * 12 + maand;
    Maand(k / 12, k % 12)
  }

  /** A valid month is its own normal form. */
  lemma NormaliseerGeldig(m: Maand)
    requires Geldig(m)
    ensures Normaliseer(m.jaar, m.maand) == m
  {
  }

  /** The month with this index. */
  function MaandMetIndex(k: int): (r: Maand)
    ensures Geldig(r) && Index(r) == k
  {
    Normaliseer(0, k)
  }

  lemma IndexBepaaltMaand(a: Maand, b: Maand)
    requires Geldig(a) && Geldig(b) && Index(a) == Index(b)
    ensures a == b
  {
  }

  /** The day number of the first of a valid month, 1 January 1970 being day 0. */
  function DagNummer(m: Maand): int
    requires Geldig(m)
  {
    JaarBegin(m.jaar) + DagenVoorMaand(m.jaar, m.maand)
  }

  /** The first day of the next month follows the last day of this one. */
  lemma MaandSluitAan(m: Maand)
    requires Geldig(m)
    ensures DagNummer(MaandMetIndex(Index(m) + 1)) == DagNummer(m) + DagenInMaand(m.jaar, m.maand)
  {
    var v := MaandMetIndex(Index(m) + 1);
    if m.maand < 11 {
      IndexBepaaltMaand(v, Maand(m.jaar, m.maand + 1));
      DagenVoorVolgendeMaand(m.jaar, m.maand);
    } else {
      IndexBepaaltMaand(v, Maand(m.jaar + 1, 0));
      JaarSluitAan(m.jaar);
      MaandenVormenJaar(m.jaar);
    }
  }

  /** The index of January 1970, the month the epoch begins. */
  const EpochMaand: int := 1970 * 12

  /**
    * 00:00 on the first of the month with index `k`, reached from the epoch
    * month by adding or taking off whole months.
    */
  function MaandBegin(k: int): int
    decreases if k < EpochMaand then EpochMaand - k else k - EpochMaand
  {
    if k == EpochMaand then 0
    else if k > EpochMaand then
      var v := MaandMetIndex(k - 1);
      MaandBegin(k - 1) + DagenInMaand(v.jaar, v.maand) * MsPerDag
    else
      var m := MaandMetIndex(k);
      MaandBegin(k + 1) - DagenInMaand(m.jaar, m.maand) * MsPerDag
  }

  /**
    * `new Date(jaar, maand, dag)`: 00:00 on that day, in milliseconds. As in
    * the MakeDay operation of the ECMAScript language specification, the
    * month rolls over into the year and the day is an offset from the
    * first of the month, so both may lie outside their usual range.
    */
  function Middernacht(jaar: int, maand: int, dag: int): int
  {
    MaandBegin(jaar * 12 + maand) + (dag - 1) * MsPerDag
  }

  /** A month lasts its number of days. */
  lemma MaandBeginStap(k: int)
    ensures var m := MaandMetIndex(k);
      MaandBegin(k + 1) == MaandBegin(k) + DagenInMaand(m.jaar, m.maand) * MsPerDag
  {
    assert MaandMetIndex(k + 1 - 1) == MaandMetIndex(k);
  }

  /** The stepwise month starts agree with the closed-form day count of the Gregorian calendar. */
  lemma {:induction false} MaandBeginGesloten(k: int)
    ensures MaandBegin(k) == DagNummer(MaandMetIndex(k)) * MsPerDag
    decreases if k < EpochMaand then EpochMaand - k else k - EpochMaand
  {
    hide *;
    if k == EpochMaand {
      EpochGesloten(k);
    } else if k > EpochMaand {
      MaandBeginGesloten(k - 1);
      GeslotenStap(k - 1);
    } else {
      MaandBeginGesloten(k + 1);
      GeslotenStap(k);
    }
  }

  /** One month's step keeps the stepwise and closed-form starts equal, in either direction. */
  lemma GeslotenStap(k: int)
    ensures MaandBegin(k) == DagNummer(MaandMetIndex(k)) * MsPerDag
        <==> MaandBegin(k + 1) == DagNummer(MaandMetIndex(k + 1)) * MsPerDag
  {
    var v := MaandMetIndex(k);
    var d := DagenInMaand(v.jaar, v.maand);
    MaandBeginStap(k);
    MaandSluitAan(v);
    assert DagNummer(MaandMetIndex(k + 1)) == DagNummer(v) + d;
    MaalDagen(DagNummer(v), d);
  }

  lemma EpochGesloten(k: int)
    requires k == EpochMaand
    ensures MaandBegin(k) == DagNummer(MaandMetIndex(k)) * MsPerDag
  {
    MaandBeginEpoch(k);
    hide *;
    EpochIsDagNul();
  }

  lemma MaandBeginEpoch(k: int)
    requires k == EpochMaand
    ensures MaandBegin(k) == 0
  {
  }

  lemma EpochIsDagNul()
    ensures DagNummer(MaandMetIndex(EpochMaand)) == 0
  {
    assert MaandMetIndex(EpochMaand) == Maand(1970, 0);
    assert SchrikkeljarenVoor(1970) == 477;
  }

  lemma MaalDagen(a: int, b: int)
    ensures (a + b) * MsPerDag == a * MsPerDag + b * MsPerDag
  {
  }

  /** Months begin in order, at least 28 days apart. */
  lemma {:induction false} MaandBeginStijgt(a: int, b: int)
    requires a < b
    ensures MaandBegin(a) + 28 * MsPerDag <= MaandBegin(b)
    decreases b - a
  {
    MaandBeginStap(a);
    if a + 1 < b {
      MaandBeginStijgt(a + 1, b);
    }
  }

  lemma MaandBeginMonotoon(a: int, b: int)
    requires a <= b
    ensures MaandBegin(a) <= MaandBegin(b)
  {
    if a < b {
      MaandBeginStijgt(a, b);
    }
  }

  /**
    * Of the consecutive periods `[begin(b + n), begin(b + n + 1))` for
    * `n < aantal`, one holds each instant from `begin(b)` up to
    * `begin(b + aantal)`; shown for any `begin`, so that it applies to
    * `MaandBegin` without unfolding it.
    */
  lemma {:induction false} PeriodeVan(begin: int -> int, b: int, aantal: nat, t: int) returns (n: int)
    requires begin(b) <= t < begin(b + aantal)
    ensures 0 <= n < aantal && begin(b + n) <= t < begin(b + n + 1)
    decreases aantal
  {
    if t < begin(b + 1) {
      n := 0;
    } else {
      var m := PeriodeVan(begin, b + 1, aantal - 1, t);
      n := m + 1;
    }
  }

  /** `new Date(jaar, maand + 1, 0)` is 00:00 on the last day of month `maand`. */
  lemma DagNulIsLaatsteDag(jaar: int, maand: int)
    ensures var m := Normaliseer(jaar, maand);
      Middernacht(jaar, maand + 1, 0) == Middernacht(jaar, maand, DagenInMaand(m.jaar, m.maand))
  {
    var k := jaar * 12 + maand;
    var m := Normaliseer(jaar, maand);
    IndexBepaaltMaand(m, MaandMetIndex(k));
    MaandBeginStap(k);
    var d := DagenInMaand(m.jaar, m.maand);
    assert Middernacht(jaar, maand + 1, 0) == MaandBegin(k + 1) - MsPerDag;
    assert Middernacht(jaar, maand, d) == MaandBegin(k) + (d - 1) * MsPerDag;
    assert (d - 1) * MsPerDag == d * MsPerDag - MsPerDag;
  }

  /** The calendar is anchored where the epoch is: 1 January 1970 is instant 0. */
  lemma Epoch()
    ensures Middernacht(1970, 0, 1) == 0
  {
  }

  /** 1 January of year `j` is day `JaarBegin(j)`. */
  lemma JaarBeginMiddernacht(j: int)
    ensures Middernacht(j, 0, 1) == JaarBegin(j) * MsPerDag
  {
    assert Middernacht(j, 0, 1) == MaandBegin(j * 12);
    assert DagNummer(Maand(j, 0)) == JaarBegin(j);
    hide *;
    MaandBeginGesloten(j * 12);
    Januari(j);
  }

  lemma Januari(j: int)
    ensures MaandMetIndex(j * 12) == Maand(j, 0)
  {
    var m := MaandMetIndex(j * 12);
    assert m.jaar * 12 + m.maand == j * 12 + 0;
  }

  /** 1 January 2000 is day 10957, instant 946 684 800 000 (with `JaarBeginMiddernacht`). */
  lemma Jaar2000()
    ensures JaarBegin(2000) == 10957
    ensures JaarBegin(2000) * MsPerDag == 946_684_800_000
  {
    assert SchrikkeljarenVoor(1970) == 477;
    assert SchrikkeljarenVoor(2000) == 484;
  }
}

=== FILE: kenmerk.dfy ===
/**
  * The `kenmerk` record (a feature such as "garden" or "solar panels"),
  * the `woningKenmerk` link between a property and a feature, and the
  * feature service: the catalogue with its categories, creation, update
  * and removal with unique names, and the links of a property. Service
  * errors carry the status code the service assigns; a clash with a unique
  * index or the primary key is a 400. The category column is an ENUM that
  * SQLite stores as plain text and the ORM does not check, so a feature
  * keeps whatever category text it is given.
  *
  * Two invariants are kept: feature names are unique, and every link
  * points at an existing feature.
  */
module Kenmerken {
  import opened Basis
  import opened Sorteren
  import opened Lijsten
  import Woningen
  import WoningService

  /** The seven values the category ENUM declares. */
  datatype Categorie = Binnen | Buiten | Beveiliging | Comfort | Energie | Water | Overig

  /** The text of a declared category. */
  function CategorieNaam(c: Categorie): string
  {
    match c
    case Binnen => "binnen"
    case Buiten => "buiten"
    case Beveiliging => "beveiliging"
    case Comfort => "comfort"
    case Energie => "energie"
    case Water => "water"
    case Overig => "overig"
  }

  /** The declared category a text names, if it is one of the seven ENUM values. */
  function CategorieUitNaam(t: string): (r: Option<Categorie>)
    ensures r.Some? ==> CategorieNaam(r.value) == t
    ensures forall c :: CategorieNaam(c) == t ==> r == Some(c)
  {
    if t == "binnen" then Some(Binnen)
    else if t == "buiten" then Some(Buiten)
    else if t == "beveiliging" then Some(Beveiliging)
    else if t == "comfort" then Some(Comfort)
    else if t == "energie" then Some(Energie)
    else if t == "water" then Some(Water)
    else if t == "overig" then Some(Overig)
    else
      assert forall c :: CategorieNaam(c) != t;
      None
  }

  datatype Kenmerk = Kenmerk(
    id: int,
    naam: string,
    categorie: string,
    icoon: Option<string>,
    aangemaaktOp: int,
    bijgewerktOp: int)

  type Tabel = seq<Kenmerk>

  function Id(k: Kenmerk): int { k.id }

  /** A property–feature link with an optional value ("3", "south-facing", …). */
  datatype Koppeling = Koppeling(id: int, woningId: int, kenmerkId: int, waarde: Option<string>, aangemaaktOp: int)

  type Koppelingen = seq<Koppeling>

  function KoppelingId(l: Koppeling): int { l.id }

  /** The unique index on `naam`. */
  predicate UniekeNamen(tabel: Tabel)
  {
    forall i, j :: 0 <= i < j < |tabel| ==> tabel[i].naam != tabel[j].naam
  }

  /** The unique index on (`woningId`, `kenmerkId`). */
  predicate UniekeParen(links: Koppelingen)
  {
    forall i, j :: 0 <= i < j < |links| ==>
      links[i].woningId != links[j].woningId || links[i].kenmerkId != links[j].kenmerkId
  }

  /** The ids of the features in the table. */
  function IdsVan(tabel: Tabel): (r: set<int>)
    ensures forall x :: x in r <==> exists i :: 0 <= i < |tabel| && tabel[i].id == x
  {
    set i | 0 <= i < |tabel| :: tabel[i].id
  }

  /** Every link points at a feature in the table. */
  predicate Referentieel(tabel: Tabel, links: Koppelingen)
  {
    forall i :: 0 <= i < |links| ==> links[i].kenmerkId in IdsVan(tabel)
  }

  /** A feature other than the one with id `behalve` has this name. */
  predicate NaamBijAnder(tabel: Tabel, naam: string, behalve: int)
  {
    exists i :: 0 <= i < |tabel| && tabel[i].naam == naam && tabel[i].id != behalve
  }

  // ---------------------------------------------------------------------
  // getKenmerken, getKenmerkCategorieen
  // ---------------------------------------------------------------------

  /** `order: [['categorie', 'ASC'], ['naam', 'ASC']]`; the category is ordered by its stored text. */
  function CatalogusSleutel(k: Kenmerk): seq<Sleutel>
  {
    [Txt(k.categorie), Txt(k.naam)]
  }

  function InCategorie(c: string): Kenmerk -> bool
  {
    (k: Kenmerk) => k.categorie == c
  }

  /**
    * getKenmerken: the features of one category when a non-empty category
    * is asked for, else all of them, ordered by category and then by name.
    */
  function GetKenmerken(tabel: Tabel, categorie: Option<string>): (r: seq<Kenmerk>)
    ensures Gevuld(categorie) ==> multiset(r) == multiset(Filter(tabel, InCategorie(categorie.value)))
    ensures !Gevuld(categorie) ==> multiset(r) == multiset(tabel)
    ensures forall i, j :: 0 <= i < j < |r| ==>
      var a := r[i].categorie; var b := r[j].categorie;
      TekstLe(a, b) && (a == b ==> TekstLe(r[i].naam, r[j].naam))
  {
    var gekozen := if Gevuld(categorie) then Filter(tabel, InCategorie(categorie.value)) else tabel;
    var r := Sorteer(gekozen, CatalogusSleutel, Oplopend);
    SorteerKlopt(gekozen, CatalogusSleutel, Oplopend);
    OpCategorieEnNaam(r);
    r
  }

  /** Sorted on the catalogue key means: by category text, and by name within a category. */
  lemma OpCategorieEnNaam(r: seq<Kenmerk>)
    requires Gesorteerd(r, CatalogusSleutel, Oplopend)
    ensures forall i, j :: 0 <= i < j < |r| ==>
      var a := r[i].categorie; var b := r[j].categorie;
      TekstLe(a, b) && (a == b ==> TekstLe(r[i].naam, r[j].naam))
  {
    forall i, j | 0 <= i < j < |r|
      ensures var a := r[i].categorie; var b := r[j].categorie;
        TekstLe(a, b) && (a == b ==> TekstLe(r[i].naam, r[j].naam))
    {
      var x := CatalogusSleutel(r[i]);
      var y := CatalogusSleutel(r[j]);
      assert RijLe(x, y);
      assert x[1..] == [Txt(r[i].naam)] && y[1..] == [Txt(r[j].naam)];
      TekstLeReflexief(x[0].s);
      TekstLeReflexief(r[i].naam);
      if x[0] == y[0] {
        assert RijLe(x[1..], y[1..]);
        assert x[1..][1..] == [] && y[1..][1..] == [];
      }
    }
  }

  /** No value occurs twice. */
  predicate Verschillend<T(==)>(s: seq<T>)
  {
    forall i, j :: 0 <= i < j < |s| ==> s[i] != s[j]
  }

  /** Distinct elements are those that occur at most once. */
  lemma {:induction false} VerschillendAlsMultiset<T>(s: seq<T>)
    ensures Verschillend(s) <==> forall x :: multiset(s)[x] <= 1
    decreases |s|
  {
    if s != [] {
      VerschillendAlsMultiset(s[1..]);
      assert s == [s[0]] + s[1..];
      assert multiset(s) == multiset{s[0]} + multiset(s[1..]);
      if Verschillend(s) {
        assert Verschillend(s[1..]) by {
          forall i, j | 0 <= i < j < |s[1..]| ensures s[1..][i] != s[1..][j] {
            assert s[1..][i] == s[i + 1] && s[1..][j] == s[j + 1];
          }
        }
        assert s[0] !in s[1..] by {
          forall k | 0 <= k < |s[1..]| ensures s[1..][k] != s[0] {
            assert s[1..][k] == s[k + 1];
          }
        }
      } else {
        var i, j :| 0 <= i < j < |s| && s[i] == s[j];
        if i == 0 {
          assert s[j] == s[1..][j - 1];
          assert multiset(s)[s[0]] >= 2;
        } else {
          assert s[1..][i - 1] == s[i] && s[1..][j - 1] == s[j];
          assert !Verschillend(s[1..]);
          var x :| multiset(s[1..])[x] > 1;
          assert multiset(s)[x] > 1;
        }
      }
    }
  }

  /** The values of `s`, each once, in the order of their last occurrence. */
  function ZonderDubbelen(s: seq<string>): (r: seq<string>)
    ensures forall x :: x in r <==> x in s
    ensures Verschillend(r)
  {
    if s == [] then []
    else
      var rest := ZonderDubbelen(s[1..]);
      if s[0] in rest then rest
      else
        assert forall j :: 0 <= j < |rest| ==> ([s[0]] + rest)[j + 1] == rest[j];
        [s[0]] + rest
  }

  function TekstSleutel(t: string): seq<Sleutel>
  {
    [Txt(t)]
  }

  /** The stored category texts of the table, in table order. */
  function CategorieNamen(tabel: Tabel): (r: seq<string>)
    ensures forall c :: c in r <==> exists i :: 0 <= i < |tabel| && tabel[i].categorie == c
  {
    var r := seq(|tabel|, i requires 0 <= i < |tabel| => tabel[i].categorie);
    assert forall i :: 0 <= i < |tabel| ==> r[i] == tabel[i].categorie;
    r
  }

  /**
    * getKenmerkCategorieen: `GROUP BY categorie ORDER BY categorie` — each
    * category in use exactly once, in ascending text order.
    */
  function GetKenmerkCategorieen(tabel: Tabel): (r: seq<string>)
    ensures forall c :: c in r <==> exists i :: 0 <= i < |tabel| && tabel[i].categorie == c
    ensures forall i, j :: 0 <= i < j < |r| ==> TekstLe(r[i], r[j]) && r[i] != r[j]
  {
    var namen := ZonderDubbelen(CategorieNamen(tabel));
    var r := Sorteer(namen, TekstSleutel, Oplopend);
    SorteerVerschillend(namen);
    CategorieenInGebruik(tabel, namen, r);
    r
  }

  lemma CategorieenInGebruik(tabel: Tabel, namen: seq<string>, r: seq<string>)
    requires forall c :: c in namen <==> c in CategorieNamen(tabel)
    requires forall c :: c in r <==> c in namen
    ensures forall c :: c in r <==> exists i :: 0 <= i < |tabel| && tabel[i].categorie == c
  {
    forall c ensures c in r <==> exists i :: 0 <= i < |tabel| && tabel[i].categorie == c {
      assert c in r <==> c in CategorieNamen(tabel);
    }
  }

  /** Sorting distinct texts gives the same texts in strictly ascending order. */
  lemma SorteerVerschillend(namen: seq<string>)
    requires Verschillend(namen)
    ensures var r := Sorteer(namen, TekstSleutel, Oplopend);
      && (forall c :: c in r <==> c in namen)
      && forall i, j :: 0 <= i < j < |r| ==> TekstLe(r[i], r[j]) && r[i] != r[j]
  {
    var r := Sorteer(namen, TekstSleutel, Oplopend);
    SorteerKlopt(namen, TekstSleutel, Oplopend);
    ZelfdeLeden(r, namen);
    VerschillendBlijft(namen, r);
    OplopendeTeksten(r);
  }

  /** Two sequences with the same multiset have the same elements. */
  lemma ZelfdeLeden<T>(a: seq<T>, b: seq<T>)
    requires multiset(a) == multiset(b)
    ensures forall c :: c in a <==> c in b
  {
    forall c ensures c in a <==> c in b {
      assert c in a <==> c in multiset(a);
      assert c in b <==> c in multiset(b);
    }
  }

  /** A permutation of a sequence without repeats has no repeats. */
  lemma VerschillendBlijft<T>(a: seq<T>, b: seq<T>)
    requires Verschillend(a) && multiset(a) == multiset(b)
    ensures Verschillend(b)
  {
    VerschillendAlsMultiset(a);
    VerschillendAlsMultiset(b);
  }

  /** Texts sorted ascending on their text key are in ascending text order. */
  lemma OplopendeTeksten(r: seq<string>)
    requires Gesorteerd(r, TekstSleutel, Oplopend)
    ensures forall i, j :: 0 <= i < j < |r| ==> TekstLe(r[i], r[j])
  {
    forall i, j | 0 <= i < j < |r| ensures TekstLe(r[i], r[j]) {
      assert Voor(Oplopend, TekstSleutel(r[i]), TekstSleutel(r[j]));
      TekstLeReflexief(r[i]);
    }
  }

  // ---------------------------------------------------------------------
  // maakKenmerk, updateKenmerk, verwijderKenmerk
  // ---------------------------------------------------------------------

  /**
    * The body of a create request; an absent category means the default.
    * The body is handed to the ORM whole, so an `id` or an `aangemaaktOp`
    * in it is stored too.
    */
  datatype KenmerkData = KenmerkData(id: Option<int>, naam: string, categorie: Option<string>, icoon: Option<string>, aangemaaktOp: Option<int>)

  /**
    * maakKenmerk: 400 when a feature already has the name, or when the
    * body names an id already in use; otherwise the feature is added with
    * the given category text, or `overig` when none is given, under the
    * body's id or the next free one, created at the body's time or `nu`.
    */
  function MaakKenmerk(tabel: Tabel, data: KenmerkData, nu: int): (r: Result<(Kenmerk, Tabel)>)
    ensures r.Err? <==> (exists i :: 0 <= i < |tabel| && tabel[i].naam == data.naam)
                         || (data.id.Some? && data.id.value in IdsVan(tabel))
    ensures r.Err? ==> r.code == BadRequest
    ensures r.Ok? ==> var (k, t) := r.value;
      && k.naam == data.naam && k.icoon == data.icoon
      && k.categorie == (if data.categorie.Some? then data.categorie.value else CategorieNaam(Overig))
      && (data.id.Some? ==> k.id == data.id.value)
      && k.aangemaaktOp == (if data.aangemaaktOp.Some? then data.aangemaaktOp.value else nu)
      && k.bijgewerktOp == nu
      && k.id !in IdsVan(tabel)
      && t == tabel + [k]
      && IdsVan(t) == IdsVan(tabel) + {k.id}
      && (UniekeNamen(tabel) ==> UniekeNamen(t))
      && (UniekOp(tabel, Id) ==> UniekOp(t, Id))
  {
    if exists i :: 0 <= i < |tabel| && tabel[i].naam == data.naam then Err(BadRequest)
    else if data.id.Some? && data.id.value in IdsVan(tabel) then Err(BadRequest)
    else
      var c := if data.categorie.Some? then data.categorie.value else CategorieNaam(Overig);
      var id := if data.id.Some? then data.id.value else VolgendId(tabel, Id);
      var k := Kenmerk(id, data.naam, c, data.icoon, if data.aangemaaktOp.Some? then data.aangemaaktOp.value else nu, nu);
      var t := tabel + [k];
      assert UniekOp(tabel, Id) ==> UniekOp(t, Id) by {
        if UniekOp(tabel, Id) { ToevoegenHoudtUniek(tabel, Id, k); }
      }
      assert forall i :: 0 <= i < |tabel| ==> t[i] == tabel[i];
      assert t[|tabel|] == k;
      Ok((k, t))
  }

  /**
    * A category text outside the seven declared values does not stop a
    * creation: the feature is stored with exactly that text.
    */
  lemma CategorieBuitenEnumOpgeslagen(tabel: Tabel, data: KenmerkData, nu: int)
    requires data.categorie.Some? && CategorieUitNaam(data.categorie.value).None?
    requires forall i :: 0 <= i < |tabel| ==> tabel[i].naam != data.naam
    requires data.id.None?
    ensures MaakKenmerk(tabel, data, nu).Ok?
    ensures MaakKenmerk(tabel, data, nu).value.0.categorie == data.categorie.value
    ensures forall c :: MaakKenmerk(tabel, data, nu).value.0.categorie != CategorieNaam(c)
  {
  }

  /** The fields of an update request that are present. */
  datatype KenmerkWijziging = KenmerkWijziging(naam: Option<string>, categorie: Option<string>, icoon: Option<Option<string>>)

  /**
    * updateKenmerk: 404 for an unknown id; 400 when the feature would take
    * a name another feature has (found by the service's own check for a
    * non-empty name, or by the unique index for the empty one). Keeping its
    * own name is allowed. A category is stored as the text given. Absent
    * fields are left as they are; the update time moves only when a value
    * changes.
    */
  function UpdateKenmerk(tabel: Tabel, id: int, w: KenmerkWijziging, nu: int): (r: Result<(Kenmerk, Tabel)>)
    ensures PositieVan(tabel, Id, id).None? <==> r == Err(NotFound)
    ensures PositieVan(tabel, Id, id).Some? ==> var oud := tabel[PositieVan(tabel, Id, id).value];
      (r.Err? <==> w.naam.Some? && w.naam.value != oud.naam && NaamBijAnder(tabel, w.naam.value, id))
    ensures r.Err? ==> r.code in {NotFound, BadRequest}
    ensures r.Ok? ==> var (k, t) := r.value; var p := PositieVan(tabel, Id, id).value; var oud := tabel[p];
      && k.id == id && k.aangemaaktOp == oud.aangemaaktOp
      && k.naam == (if w.naam.Some? then w.naam.value else oud.naam)
      && k.categorie == (if w.categorie.Some? then w.categorie.value else oud.categorie)
      && k.icoon == (if w.icoon.Some? then w.icoon.value else oud.icoon)
      && (k.bijgewerktOp == nu || k == oud)
      && t == tabel[p := k]
  {
    match PositieVan(tabel, Id, id)
    case None => Err(NotFound)
    case Some(p) =>
      var oud := tabel[p];
      if w.naam.Some? && w.naam.value != "" && w.naam.value != oud.naam && NaamBijAnder(tabel, w.naam.value, id) then Err(BadRequest)
      else
        var k := oud.(naam := if w.naam.Some? then w.naam.value else oud.naam,
                      categorie := if w.categorie.Some? then w.categorie.value else oud.categorie,
                      icoon := if w.icoon.Some? then w.icoon.value else oud.icoon);
        // the unique index on `naam`, reached only by the empty name the service's check skips
        if k.naam != oud.naam && NaamBijAnder(tabel, k.naam, id) then Err(BadRequest)
        else
          var k' := if k != oud then k.(bijgewerktOp := nu) else k;
          Ok((k', tabel[p := k']))
  }

  /** An update keeps the names unique (the ids being unique). */
  lemma UpdateHoudtNamenUniek(tabel: Tabel, id: int, w: KenmerkWijziging, nu: int)
    requires UniekeNamen(tabel) && UniekOp(tabel, Id)
    requires UpdateKenmerk(tabel, id, w, nu).Ok?
    ensures UniekeNamen(UpdateKenmerk(tabel, id, w, nu).value.1)
    ensures UniekOp(UpdateKenmerk(tabel, id, w, nu).value.1, Id)
    ensures IdsVan(UpdateKenmerk(tabel, id, w, nu).value.1) == IdsVan(tabel)
  {
    var (k, t) := UpdateKenmerk(tabel, id, w, nu).value;
    var p := PositieVan(tabel, Id, id).value;
    forall i, j | 0 <= i < j < |t| ensures t[i].naam != t[j].naam {
      if i == p {
        assert t[j] == tabel[j];
        assert tabel[j].id != id by { assert Id(tabel[p]) != Id(tabel[j]); }
      } else if j == p {
        assert t[i] == tabel[i];
        assert tabel[i].id != id by { assert Id(tabel[i]) != Id(tabel[p]); }
      } else {
        assert t[i] == tabel[i] && t[j] == tabel[j];
      }
    }
    forall i, j | 0 <= i < j < |t| ensures Id(t[i]) != Id(t[j]) {
      assert t[i].id == tabel[i].id && t[j].id == tabel[j].id;
    }
    forall x | x in IdsVan(tabel) ensures x in IdsVan(t) {
      var i :| 0 <= i < |tabel| && tabel[i].id == x;
      assert t[i].id == x;
    }
    forall x | x in IdsVan(t) ensures x in IdsVan(tabel) {
      var i :| 0 <= i < |t| && t[i].id == x;
      assert tabel[i].id == x;
    }
  }

  /** verwijderKenmerk: 404 for an unknown id, 400 while any property links the feature; otherwise it is removed. */
  function VerwijderKenmerk(tabel: Tabel, links: Koppelingen, id: int): (r: Result<Tabel>)
    ensures PositieVan(tabel, Id, id).None? <==> r == Err(NotFound)
    ensures PositieVan(tabel, Id, id).Some? ==> (r == Err(BadRequest) <==> exists i :: 0 <= i < |links| && links[i].kenmerkId == id)
    ensures r.Err? ==> r.code in {NotFound, BadRequest}
    ensures r.Ok? ==> |r.value| == |tabel| - 1 && Deelrij(r.value, tabel)
    ensures r.Ok? && Referentieel(tabel, links) ==> Referentieel(r.value, links)
    ensures r.Ok? && UniekOp(tabel, Id) ==> id !in IdsVan(r.value)
  {
    match PositieVan(tabel, Id, id)
    case None => Err(NotFound)
    case Some(p) =>
      if exists i :: 0 <= i < |links| && links[i].kenmerkId == id then Err(BadRequest)
      else
        ZonderRijKlopt(tabel, Id, p);
        ZonderRijIds(tabel, p);
        Ok(ZonderRij(tabel, p))
  }

  /** Removing the row at `p` removes at most its id from the set of ids. */
  lemma ZonderRijIds(tabel: Tabel, p: nat)
    requires p < |tabel|
    ensures IdsVan(tabel) - {tabel[p].id} <= IdsVan(ZonderRij(tabel, p))
    ensures IdsVan(ZonderRij(tabel, p)) <= IdsVan(tabel)
  {
    var r := ZonderRij(tabel, p);
    forall x | x in IdsVan(tabel) && x != tabel[p].id ensures x in IdsVan(r) {
      var i :| 0 <= i < |tabel| && tabel[i].id == x;
      if i < p {
        assert r[i] == tabel[i];
      } else {
        assert r[i - 1] == tabel[i];
      }
    }
    forall x | x in IdsVan(r) ensures x in IdsVan(tabel) {
      var i :| 0 <= i < |r| && r[i].id == x;
      if i < p {
        assert r[i] == tabel[i];
      } else {
        assert r[i] == tabel[i + 1];
      }
    }
  }

  // ---------------------------------------------------------------------
  // The links of a property
  // ---------------------------------------------------------------------

  /** One entry of a request to link features: the feature and an optional value. */
  datatype KenmerkInvoer = KenmerkInvoer(kenmerkId: int, waarde: Option<string>)

  function InvoerIds(invoer: seq<KenmerkInvoer>): (r: seq<int>)
    ensures |r| == |invoer| && forall i :: 0 <= i < |r| ==> r[i] == invoer[i].kenmerkId
  {
    seq(|invoer|, i requires 0 <= i < |invoer| => invoer[i].kenmerkId)
  }

  function IdIn(ids: seq<int>): Kenmerk -> bool
  {
    (k: Kenmerk) => k.id in ids
  }

  function ElementenVan(ids: seq<int>): (r: set<int>)
    ensures forall x :: x in r <==> x in ids
  {
    set x | x in ids
  }

  /** A table of unique ids has unique ids after its first row, none equal to the first. */
  lemma UniekStaart(tabel: Tabel)
    requires tabel != [] && UniekOp(tabel, Id)
    ensures UniekOp(tabel[1..], Id)
    ensures tabel[0].id !in IdsVan(tabel[1..])
  {
    var rest := tabel[1..];
    forall i, j | 0 <= i < j < |rest| ensures Id(rest[i]) != Id(rest[j]) {
      assert rest[i] == tabel[i + 1] && rest[j] == tabel[j + 1];
    }
  }

  lemma IdsVanStap(tabel: Tabel)
    requires tabel != []
    ensures IdsVan(tabel) == {tabel[0].id} + IdsVan(tabel[1..])
  {
    forall x | x in IdsVan(tabel) && x != tabel[0].id ensures x in IdsVan(tabel[1..]) {
      var i :| 0 <= i < |tabel| && tabel[i].id == x;
      assert tabel[1..][i - 1] == tabel[i];
    }
    forall x | x in IdsVan(tabel[1..]) ensures x in IdsVan(tabel) {
      var i :| 0 <= i < |tabel[1..]| && tabel[1..][i].id == x;
      assert tabel[i + 1] == tabel[1..][i];
    }
  }

  lemma FilterStap<T>(s: seq<T>, p: T -> bool)
    requires s != []
    ensures Filter(s, p) == (if p(s[0]) then [s[0]] else []) + Filter(s[1..], p)
  {
  }

  /** With unique ids, `findAll({ where: { id: ids } })` finds one row per listed id that exists. */
  lemma {:induction false} AantalGevonden(tabel: Tabel, ids: seq<int>)
    requires UniekOp(tabel, Id)
    ensures |Filter(tabel, IdIn(ids))| == |IdsVan(tabel) * ElementenVan(ids)|
    decreases |tabel|
  {
    if tabel == [] {
      assert IdsVan(tabel) == {};
    } else {
      var rest := tabel[1..];
      var x := tabel[0].id;
      var s := ElementenVan(ids);
      UniekStaart(tabel);
      AantalGevonden(rest, ids);
      IdsVanStap(tabel);
      FilterStap(tabel, IdIn(ids));
      DoorsnedeStap(x, IdsVan(rest), s);
      assert IdIn(ids)(tabel[0]) <==> x in s;
    }
  }

  /** Adding an element outside `r` adds one to the intersection with `s` exactly when it lies in `s`. */
  lemma DoorsnedeStap(x: int, r: set<int>, s: set<int>)
    requires x !in r
    ensures |({x} + r) * s| == |r * s| + (if x in s then 1 else 0)
  {
    if x in s {
      assert ({x} + r) * s == {x} + (r * s);
    } else {
      assert ({x} + r) * s == r * s;
    }
  }

  /** A sequence has no repeats exactly when its tail has none and its head does not recur. */
  lemma VerschillendStap<T>(s: seq<T>)
    requires s != []
    ensures Verschillend(s) <==> Verschillend(s[1..]) && s[0] !in s[1..]
  {
    var rest := s[1..];
    if Verschillend(s) {
      forall i, j | 0 <= i < j < |rest| ensures rest[i] != rest[j] {
        assert rest[i] == s[i + 1] && rest[j] == s[j + 1];
      }
      forall k | 0 <= k < |rest| ensures rest[k] != s[0] {
        assert rest[k] == s[k + 1];
      }
    }
    if Verschillend(rest) && s[0] !in rest {
      forall i, j | 0 <= i < j < |s| ensures s[i] != s[j] {
        assert s[j] == rest[j - 1];
        if i > 0 {
          assert s[i] == rest[i - 1];
        }
      }
    }
  }

  /** The distinct values of a sequence are as many as its elements exactly when none repeats. */
  lemma {:induction false} ElementenTellen(ids: seq<int>)
    ensures |ElementenVan(ids)| <= |ids|
    ensures |ElementenVan(ids)| == |ids| <==> Verschillend(ids)
    decreases |ids|
  {
    if ids == [] {
      assert ElementenVan(ids) == {};
    } else {
      var rest := ids[1..];
      ElementenTellen(rest);
      VerschillendStap(ids);
      assert ElementenVan(ids) == {ids[0]} + ElementenVan(rest) by {
        assert ids == [ids[0]] + rest;
      }
    }
  }

  /**
    * The service's check `bestaandeKenmerken.length === kenmerkIds.length`
    * holds exactly when every listed feature exists and none is listed
    * twice.
    */
  lemma AlleKenmerkenBestaan(tabel: Tabel, ids: seq<int>)
    requires UniekOp(tabel, Id)
    ensures |Filter(tabel, IdIn(ids))| == |ids| <==> Verschillend(ids) && forall i :: 0 <= i < |ids| ==> ids[i] in IdsVan(tabel)
  {
    AantalGevonden(tabel, ids);
    ElementenTellen(ids);
    var s := ElementenVan(ids);
    var a := IdsVan(tabel) * s;
    assert a <= s;
    DeelverzamelingTellen(a, s);
    if |Filter(tabel, IdIn(ids))| == |ids| {
      forall i | 0 <= i < |ids| ensures ids[i] in IdsVan(tabel) {
        assert ids[i] in s;
      }
    }
    if Verschillend(ids) && forall i :: 0 <= i < |ids| ==> ids[i] in IdsVan(tabel) {
      assert s <= IdsVan(tabel);
      assert a == s;
    }
  }

  /** A subset is as large as its superset only when they are equal. */
  lemma DeelverzamelingTellen(a: set<int>, s: set<int>)
    requires a <= s
    ensures |a| <= |s|
    ensures |a| == |s| ==> a == s
  {
    assert s == a + (s - a);
    assert a * (s - a) == {};
  }

  /** The seller of the property, or the status code the service throws. */
  function EigenWoning(woningen: seq<Woningen.Woning>, woningId: int, verkoperId: int): (r: Result<nat>)
    ensures WoningService.Positie(woningen, woningId).None? <==> r == Err(NotFound)
    ensures r == Err(Forbidden) <==> (WoningService.Positie(woningen, woningId).Some?
      && woningen[WoningService.Positie(woningen, woningId).value].verkoperId != verkoperId)
    ensures r.Ok? ==> r == Ok(WoningService.Positie(woningen, woningId).value)
  {
    match WoningService.Positie(woningen, woningId)
    case None => Err(NotFound)
    case Some(q) => if woningen[q].verkoperId != verkoperId then Err(Forbidden) else Ok(q)
  }

  /** The link is one of the property's links to one of the listed features. */
  function GekoppeldAan(woningId: int, ids: seq<int>): Koppeling -> bool
  {
    (l: Koppeling) => l.woningId == woningId && l.kenmerkId in ids
  }

  function Niet<T>(p: T -> bool): T -> bool
  {
    (x: T) => !p(x)
  }

  /**
    * voegWoningKenmerkenToe: 404 for an unknown property, 403 for a caller
    * who is not its seller, 400 unless every listed feature exists and
    * none is listed twice. Then the property's links to the listed features
    * are replaced by one new link per entry, with an empty value stored as
    * null; all other links stay as they were.
    */
  function VoegWoningKenmerkenToe(links: Koppelingen, tabel: Tabel, woningen: seq<Woningen.Woning>, woningId: int,
                                  invoer: seq<KenmerkInvoer>, verkoperId: int, nu: int): (r: Result<(seq<Koppeling>, Koppelingen)>)
    requires UniekOp(tabel, Id)
    ensures EigenWoning(woningen, woningId, verkoperId).Err? ==> r == Err(EigenWoning(woningen, woningId, verkoperId).code)
    ensures EigenWoning(woningen, woningId, verkoperId).Ok? ==>
      (r.Ok? <==> Verschillend(InvoerIds(invoer)) && forall i :: 0 <= i < |invoer| ==> invoer[i].kenmerkId in IdsVan(tabel))
    ensures r.Err? ==> r.code in {NotFound, Forbidden, BadRequest}
    ensures r.Ok? ==> var (nieuw, t) := r.value;
      && |nieuw| == |invoer|
      && (forall i :: 0 <= i < |nieuw| ==>
            && nieuw[i].woningId == woningId && nieuw[i].kenmerkId == invoer[i].kenmerkId
            && nieuw[i].waarde == (if Gevuld(invoer[i].waarde) then invoer[i].waarde else None)
            && nieuw[i].aangemaaktOp == nu)
      && t == Filter(links, Niet(GekoppeldAan(woningId, InvoerIds(invoer)))) + nieuw
      && (UniekeParen(links) ==> UniekeParen(t))
      && (Referentieel(tabel, links) ==> Referentieel(tabel, t))
  {
    match EigenWoning(woningen, woningId, verkoperId)
    case Err(c) => Err(c)
    case Ok(_) =>
      var ids := InvoerIds(invoer);
      AlleKenmerkenBestaan(tabel, ids);
      if |Filter(tabel, IdIn(ids))| != |ids| then Err(BadRequest)
      else
        var rest := Filter(links, Niet(GekoppeldAan(woningId, ids)));
        var nieuw := NieuweKoppelingen(VolgendId(links, KoppelingId), woningId, invoer, nu);
        KoppelenHoudtInvariant(links, tabel, woningId, ids, nieuw);
        Ok((nieuw, rest + nieuw))
  }

  /** One new link per entry, numbered from `eersteId`, with an empty value stored as null. */
  function NieuweKoppelingen(eersteId: int, woningId: int, invoer: seq<KenmerkInvoer>, nu: int): (nieuw: seq<Koppeling>)
    ensures |nieuw| == |invoer| == |InvoerIds(invoer)|
    ensures forall i :: 0 <= i < |nieuw| ==>
      && nieuw[i].id == eersteId + i
      && nieuw[i].woningId == woningId && nieuw[i].kenmerkId == invoer[i].kenmerkId == InvoerIds(invoer)[i]
      && nieuw[i].waarde == (if Gevuld(invoer[i].waarde) then invoer[i].waarde else None)
      && nieuw[i].aangemaaktOp == nu
  {
    seq(|invoer|, i requires 0 <= i < |invoer| =>
      Koppeling(eersteId + i, woningId, invoer[i].kenmerkId,
                if Gevuld(invoer[i].waarde) then invoer[i].waarde else None, nu))
  }

  /** A filtered table keeps the pairs unique. */
  lemma {:induction false} FilterHoudtParenUniek(links: Koppelingen, p: Koppeling -> bool)
    requires UniekeParen(links)
    ensures UniekeParen(Filter(links, p))
    decreases |links|
  {
    if links != [] {
      var rest := links[1..];
      assert UniekeParen(rest) by {
        forall i, j | 0 <= i < j < |rest|
          ensures rest[i].woningId != rest[j].woningId || rest[i].kenmerkId != rest[j].kenmerkId
        {
          assert rest[i] == links[i + 1] && rest[j] == links[j + 1];
        }
      }
      FilterHoudtParenUniek(rest, p);
      if p(links[0]) {
        var f := Filter(links, p);
        var fr := Filter(rest, p);
        assert f == [links[0]] + fr;
        forall i, j | 0 <= i < j < |f| ensures f[i].woningId != f[j].woningId || f[i].kenmerkId != f[j].kenmerkId {
          if i == 0 {
            assert f[j] == fr[j - 1] && f[j] in rest;
            var k :| 0 <= k < |rest| && rest[k] == f[j];
            assert links[k + 1] == f[j];
          } else {
            assert f[i] == fr[i - 1] && f[j] == fr[j - 1];
          }
        }
      }
    }
  }

  /** Replacing the listed links keeps the pairs unique and every link pointing at a feature. */
  lemma KoppelenHoudtInvariant(links: Koppelingen, tabel: Tabel, woningId: int, ids: seq<int>, nieuw: seq<Koppeling>)
    requires Verschillend(ids) && forall i :: 0 <= i < |ids| ==> ids[i] in IdsVan(tabel)
    requires |nieuw| == |ids| && forall i :: 0 <= i < |nieuw| ==> nieuw[i].woningId == woningId && nieuw[i].kenmerkId == ids[i]
    ensures var t := Filter(links, Niet(GekoppeldAan(woningId, ids))) + nieuw;
      (UniekeParen(links) ==> UniekeParen(t)) && (Referentieel(tabel, links) ==> Referentieel(tabel, t))
  {
    var p := Niet(GekoppeldAan(woningId, ids));
    var rest := Filter(links, p);
    var t := rest + nieuw;
    if UniekeParen(links) {
      FilterHoudtParenUniek(links, p);
      forall i, j | 0 <= i < j < |t| ensures t[i].woningId != t[j].woningId || t[i].kenmerkId != t[j].kenmerkId {
        if j < |rest| {
          assert t[i] == rest[i] && t[j] == rest[j];
        } else if i < |rest| {
          assert t[i] == rest[i] && p(rest[i]);
          assert t[j] == nieuw[j - |rest|];
          assert ids[j - |rest|] in ids;
        } else {
          assert t[i] == nieuw[i - |rest|] && t[j] == nieuw[j - |rest|];
        }
      }
    }
    if Referentieel(tabel, links) {
      forall i | 0 <= i < |t| ensures t[i].kenmerkId in IdsVan(tabel) {
        if i < |rest| {
          assert t[i] == rest[i] && rest[i] in links;
        } else {
          assert t[i] == nieuw[i - |rest|];
        }
      }
    }
  }

  /** `findOne({ where: { woningId, kenmerkId } })`: the first link of the pair, if any. */
  function PaarPositie(links: Koppelingen, woningId: int, kenmerkId: int): (r: Option<nat>)
    ensures r.Some? ==> r.value < |links| && links[r.value].woningId == woningId && links[r.value].kenmerkId == kenmerkId
    ensures r.None? <==> forall i :: 0 <= i < |links| ==> links[i].woningId != woningId || links[i].kenmerkId != kenmerkId
  {
    if links == [] then None
    else if links[0].woningId == woningId && links[0].kenmerkId == kenmerkId then Some(0)
    else match PaarPositie(links[1..], woningId, kenmerkId)
      case None => None
      case Some(p) => Some(p + 1)
  }

  /**
    * verwijderWoningKenmerk: 404 for an unknown property, 403 for a caller
    * who is not its seller, 404 when the feature is not linked to it;
    * otherwise exactly that link is removed.
    */
  function VerwijderWoningKenmerk(links: Koppelingen, woningen: seq<Woningen.Woning>, woningId: int, kenmerkId: int, verkoperId: int): (r: Result<Koppelingen>)
    ensures EigenWoning(woningen, woningId, verkoperId).Err? ==> r == Err(EigenWoning(woningen, woningId, verkoperId).code)
    ensures EigenWoning(woningen, woningId, verkoperId).Ok? ==> (r.Ok? <==> PaarPositie(links, woningId, kenmerkId).Some?)
    ensures r.Err? ==> r.code in {NotFound, Forbidden}
    ensures r.Ok? ==> (|r.value| == |links| - 1 && Deelrij(r.value, links)
      && r.value == ZonderRij(links, PaarPositie(links, woningId, kenmerkId).value))
    ensures r.Ok? && UniekeParen(links) ==> (UniekeParen(r.value)
      && forall i :: 0 <= i < |r.value| ==> r.value[i].woningId != woningId || r.value[i].kenmerkId != kenmerkId)
  {
    match EigenWoning(woningen, woningId, verkoperId)
    case Err(c) => Err(c)
    case Ok(_) =>
      match PaarPositie(links, woningId, kenmerkId)
      case None => Err(NotFound)
      case Some(p) =>
        VerwijderEenIsDeelrij(links, p);
        ZonderPaarKlopt(links, p);
        Ok(ZonderRij(links, p))
  }

  lemma ZonderPaarKlopt(links: Koppelingen, p: nat)
    requires p < |links|
    ensures UniekeParen(links) ==> (UniekeParen(ZonderRij(links, p))
      && forall i :: 0 <= i < |links| - 1 ==>
           ZonderRij(links, p)[i].woningId != links[p].woningId || ZonderRij(links, p)[i].kenmerkId != links[p].kenmerkId)
  {
    var r := ZonderRij(links, p);
    if UniekeParen(links) {
      forall i, j | 0 <= i < j < |r| ensures r[i].woningId != r[j].woningId || r[i].kenmerkId != r[j].kenmerkId {
        var i' := if i < p then i else i + 1;
        var j' := if j < p then j else j + 1;
        assert r[i] == links[i'] && r[j] == links[j'];
      }
      forall i | 0 <= i < |r| ensures r[i].woningId != links[p].woningId || r[i].kenmerkId != links[p].kenmerkId {
        var i' := if i < p then i else i + 1;
        assert r[i] == links[i'];
      }
    }
  }

  /** Removing a link keeps every remaining link pointing at a feature. */
  lemma VerwijderWoningKenmerkReferentieel(links: Koppelingen, tabel: Tabel, woningen: seq<Woningen.Woning>, woningId: int, kenmerkId: int, verkoperId: int)
    requires Referentieel(tabel, links)
    requires VerwijderWoningKenmerk(links, woningen, woningId, kenmerkId, verkoperId).Ok?
    ensures Referentieel(tabel, VerwijderWoningKenmerk(links, woningen, woningId, kenmerkId, verkoperId).value)
  {
    var r := VerwijderWoningKenmerk(links, woningen, woningId, kenmerkId, verkoperId).value;
    var p := PaarPositie(links, woningId, kenmerkId).value;
    forall i | 0 <= i < |r| ensures r[i].kenmerkId in IdsVan(tabel) {
      assert r[i] == links[if i < p then i else i + 1];
    }
  }

  // ---------------------------------------------------------------------
  // getWoningKenmerken
  // ---------------------------------------------------------------------

  /**
    * getWoningKenmerken as written: 404 for an unknown property. The
    * query then includes `WoningKenmerk` under the alias `woningKenmerken`,
    * but the models declare no such association of `Kenmerk` (only the
    * many-to-many with `Woning` through the link table), so the ORM throws
    * before querying and every known property ends in a 500.
    */
  function GetWoningKenmerken(woningen: seq<Woningen.Woning>, woningId: int): (r: Result<seq<(Kenmerk, seq<Option<string>>)>>)
    ensures r.Err?
    ensures r.code == (if WoningService.Positie(woningen, woningId).None? then NotFound else ServerError)
  {
    if WoningService.Positie(woningen, woningId).None? then Err(NotFound)
    else Err(ServerError)
  }

  /** The values of the property's links to one feature. */
  function WaardenVan(links: Koppelingen, woningId: int, kenmerkId: int): (r: seq<Option<string>>)
    ensures |r| == 0 <==> PaarPositie(links, woningId, kenmerkId).None?
    ensures UniekeParen(links) ==> |r| <= 1
    ensures UniekeParen(links) && |r| == 1 ==> r[0] == links[PaarPositie(links, woningId, kenmerkId).value].waarde
  {
    if links == [] then []
    else
      var rest := WaardenVan(links[1..], woningId, kenmerkId);
      if links[0].woningId == woningId && links[0].kenmerkId == kenmerkId then
        [links[0].waarde] + rest
      else
        assert UniekeParen(links) ==> UniekeParen(links[1..]) by {
          if UniekeParen(links) {
            forall i, j | 0 <= i < j < |links[1..]|
              ensures links[1..][i].woningId != links[1..][j].woningId || links[1..][i].kenmerkId != links[1..][j].kenmerkId
            {
              assert links[1..][i] == links[i + 1] && links[1..][j] == links[j + 1];
            }
          }
        }
        rest
  }

  function HeeftKoppeling(links: Koppelingen, woningId: int): Kenmerk -> bool
  {
    (k: Kenmerk) => PaarPositie(links, woningId, k.id).Some?
  }

  /**
    * getWoningKenmerken as intended: the features linked to the property,
    * in table order, each with the values of its links to that property.
    */
  function GetWoningKenmerkenBedoeld(tabel: Tabel, links: Koppelingen, woningen: seq<Woningen.Woning>, woningId: int): (r: Result<seq<(Kenmerk, seq<Option<string>>)>>)
    ensures WoningService.Positie(woningen, woningId).None? <==> r == Err(NotFound)
    ensures r.Ok? ==> (|r.value| <= |tabel|
      && (forall i :: 0 <= i < |r.value| ==>
            && r.value[i].0 in tabel
            && PaarPositie(links, woningId, r.value[i].0.id).Some?
            && r.value[i].1 == WaardenVan(links, woningId, r.value[i].0.id)
            && |r.value[i].1| > 0)
      && (forall k :: k in tabel && PaarPositie(links, woningId, k.id).Some? ==>
            exists i :: 0 <= i < |r.value| && r.value[i].0 == k))
  {
    if WoningService.Positie(woningen, woningId).None? then Err(NotFound)
    else Ok(GekoppeldeKenmerken(tabel, links, woningId))
  }

  /** The features of the table linked to the property, in table order, each with its link values. */
  function GekoppeldeKenmerken(tabel: Tabel, links: Koppelingen, woningId: int): (r: seq<(Kenmerk, seq<Option<string>>)>)
    ensures |r| <= |tabel|
    ensures forall i :: 0 <= i < |r| ==>
      && r[i].0 in tabel
      && PaarPositie(links, woningId, r[i].0.id).Some?
      && r[i].1 == WaardenVan(links, woningId, r[i].0.id)
      && |r[i].1| > 0
    ensures forall k :: k in tabel && PaarPositie(links, woningId, k.id).Some? ==>
      exists i :: 0 <= i < |r| && r[i].0 == k
  {
    var gekoppeld := Filter(tabel, HeeftKoppeling(links, woningId));
    var r := seq(|gekoppeld|, i requires 0 <= i < |gekoppeld| =>
      (gekoppeld[i], WaardenVan(links, woningId, gekoppeld[i].id)));
    forall k | k in tabel && PaarPositie(links, woningId, k.id).Some?
      ensures exists i :: 0 <= i < |r| && r[i].0 == k
    {
      InGekoppeld(tabel, links, woningId, k);
      var i :| 0 <= i < |gekoppeld| && gekoppeld[i] == k;
      assert r[i].0 == k;
    }
    r
  }

  lemma InGekoppeld(tabel: Tabel, links: Koppelingen, woningId: int, k: Kenmerk)
    requires k in tabel && PaarPositie(links, woningId, k.id).Some?
    ensures k in Filter(tabel, HeeftKoppeling(links, woningId))
  {
    assert HeeftKoppeling(links, woningId)(k);
    var j :| 0 <= j < |tabel| && tabel[j] == k;
  }

  /** Every known property lists its features with the intended query, and none with the query as written. */
  lemma WoningKenmerkenAlleenBedoeld(tabel: Tabel, links: Koppelingen, woningen: seq<Woningen.Woning>, woningId: int)
    requires WoningService.Positie(woningen, woningId).Some?
    ensures GetWoningKenmerken(woningen, woningId) == Err(ServerError)
    ensures GetWoningKenmerkenBedoeld(tabel, links, woningen, woningId).Ok?
  {
  }
}

=== FILE: lijsten.dfy ===
/**
  * The listing pattern the services share: `findAndCountAll` with a where
  * clause, one ORDER BY column and direction, a LIMIT and an OFFSET. The
  * count is taken over the whole selection, the rows over one page of it.
  * A page number or size that parsed to NaN reaches the SQL text as `NaN`,
  * which the database reads as an unknown column: the listing then fails
  * with a server error, as it does for an unknown sort column or direction.
  * Column names resolve as SQLite resolves them, without regard to letter
  * case.
  */
module Lijsten {
  import opened Basis
  import opened Sorteren
  import opened Voorwaarden
  import opened Paginatie

  /**
    * A sort direction as the ORM reads it: ascending or descending, and,
    * when the direction names it, whether NULLs come first (`Some(true)`)
    * or last (`Some(false)`). Without that, SQLite sorts NULL below every
    * other value.
    */
  datatype Orde = Orde(richting: Richting, nullenEerst: Option<bool>)

  /** The eight direction texts the ORM accepts, in lower case. */
  const RichtingVormen: set<string> := {
    "asc", "desc", "asc nulls last", "desc nulls last", "asc nulls first", "desc nulls first", "nulls first", "nulls last"}

  predicate EindigtMet(s: string, p: string)
  {
    |p| <= |s| && s[|s| - |p|..] == p
  }

  /**
    * The ORM's sort direction: one of its eight forms in any letter case,
    * a bare `NULLS FIRST` or `NULLS LAST` being ascending; any other value
    * is refused with an error.
    */
  function RichtingUit(t: string): Option<Orde>
  {
    RichtingVan(Klein(t))
  }

  /** The direction a lower-case text names. */
  function RichtingVan(k: string): Option<Orde>
  {
    if k == "asc" then Some(Orde(Oplopend, None))
    else if k == "desc" then Some(Orde(Aflopend, None))
    else if k == "asc nulls first" || k == "nulls first" then Some(Orde(Oplopend, Some(true)))
    else if k == "asc nulls last" || k == "nulls last" then Some(Orde(Oplopend, Some(false)))
    else if k == "desc nulls first" then Some(Orde(Aflopend, Some(true)))
    else if k == "desc nulls last" then Some(Orde(Aflopend, Some(false)))
    else None
  }

  /** A lower-case direction is accepted exactly for the eight forms. */
  lemma RichtingVanAanvaardt(k: string)
    ensures RichtingVan(k).Some? <==> k in RichtingVormen
  {
  }

  /** An accepted direction is descending exactly when its text starts with `desc`. */
  lemma RichtingVanAflopend(k: string)
    requires RichtingVan(k).Some?
    ensures RichtingVan(k).value.richting == Aflopend <==> BegintMet(k, "desc")
  {
    assert BegintMet(k, "desc") ==> k[0] == 'd';
    if k == "desc" || k == "desc nulls first" || k == "desc nulls last" {
      assert k[..4] == "desc";
    }
  }

  /** An accepted direction puts NULLs first exactly when its last word is `first`. */
  lemma RichtingVanNullenEerst(k: string)
    requires RichtingVan(k).Some?
    ensures RichtingVan(k).value.nullenEerst == Some(true) <==> EindigtMet(k, " first")
  {
    if k == "asc nulls first" || k == "nulls first" || k == "desc nulls first" {
      assert k[|k| - 6..] == " first";
    }
  }

  /** An accepted direction puts NULLs last exactly when its last word is `last`. */
  lemma RichtingVanNullenLaatst(k: string)
    requires RichtingVan(k).Some?
    ensures RichtingVan(k).value.nullenEerst == Some(false) <==> EindigtMet(k, " last")
  {
    if k == "asc nulls last" || k == "nulls last" || k == "desc nulls last" {
      assert k[|k| - 5..] == " last";
    }
  }

  /** SQLite resolves a column name without regard to letter case. */
  predicate KolomBekend(veld: string, kolommen: set<string>)
  {
    exists k :: k in kolommen && Klein(k) == Klein(veld)
  }

  /** A column named exactly resolves to itself. */
  lemma EigenNaamBekend(veld: string, kolommen: set<string>)
    requires veld in kolommen
    ensures KolomBekend(veld, kolommen) && ZoekKolom(veld, kolommen) == Some(veld)
  {
    assert Klein(veld) == Klein(veld);
  }

  /** The default direction of the listings, plain descending. */
  lemma DescIsAflopend()
    ensures RichtingUit("DESC") == Some(Orde(Aflopend, None))
  {
    assert Klein("DESC") == "desc";
  }

  /** `k` is in `namen` and comes first in text order. */
  predicate Kleinste(k: string, namen: set<string>)
  {
    k in namen && forall j :: j in namen ==> TekstLe(k, j)
  }

  /** Every non-empty set of names has a least one in text order. */
  lemma {:induction false} KleinsteNaam(namen: set<string>) returns (m: string)
    requires namen != {}
    ensures Kleinste(m, namen)
    decreases |namen|
  {
    var x :| x in namen;
    if namen == {x} {
      TekstLeReflexief(x);
      m := x;
    } else {
      var rest := namen - {x};
      var n := KleinsteNaam(rest);
      TekstLeTotaal(n, x);
      if TekstLe(n, x) {
        m := n;
      } else {
        forall j | j in namen ensures TekstLe(x, j) {
          if j == x {
            TekstLeReflexief(x);
          } else {
            assert j in rest;
            TekstLeTransitief(x, n, j);
          }
        }
        m := x;
      }
    }
  }

  lemma KleinsteBestaat(namen: set<string>)
    requires namen != {}
    ensures exists k :: Kleinste(k, namen)
  {
    var m := KleinsteNaam(namen);
  }

  /** Only one name can be the least. */
  lemma KleinsteUniek(namen: set<string>)
    ensures forall a, b :: Kleinste(a, namen) && Kleinste(b, namen) ==> a == b
  {
    forall a, b | Kleinste(a, namen) && Kleinste(b, namen) ensures a == b {
      TekstLeAntisymmetrisch(a, b);
    }
  }

  /**
    * The column `veld` resolves to: itself when it is a column, otherwise
    * the column equal to it up to letter case. A table has no two columns
    * that differ only in case, so the text-order tie-break never decides.
    */
  function ZoekKolom(veld: string, kolommen: set<string>): (r: Option<string>)
    ensures r.Some? <==> KolomBekend(veld, kolommen)
    ensures r.Some? ==> r.value in kolommen && Klein(r.value) == Klein(veld)
    ensures veld in kolommen ==> r == Some(veld)
  {
    if veld in kolommen then Some(veld)
    else if KolomBekend(veld, kolommen) then
      var kandidaten := set k | k in kolommen && Klein(k) == Klein(veld);
      var w :| w in kolommen && Klein(w) == Klein(veld);
      assert w in kandidaten;
      KleinsteBestaat(kandidaten);
      KleinsteUniek(kandidaten);
      var k :| Kleinste(k, kandidaten);
      Some(k)
    else None
  }

  /**
    * The ORDER BY key of a row for one column and direction. When the
    * direction places NULLs, a leading flag puts them before or after
    * every other value, whichever way the column itself is sorted.
    */
  function OrdeSleutel<T>(alsRij: T -> Rij, kolom: string, o: Orde): T -> seq<Sleutel>
  {
    x => var v := Voorwaarden.Waarde(alsRij(x), kolom);
         if o.nullenEerst.None? then [v]
         else [Num(if v.Leeg? == (o.nullenEerst.value == o.richting.Oplopend?) then 0.0 else 1.0), v]
  }

  /** Whether NULLs come before the other values: as the direction says, or, when it says nothing, lowest first. */
  predicate NullenVoorop(o: Orde)
  {
    if o.nullenEerst.Some? then o.nullenEerst.value else o.richting.Oplopend?
  }

  /** In rows sorted on `OrdeSleutel`, a NULL never follows a value when NULLs go first, nor precedes one when they go last. */
  lemma NullenOpHunPlaats<T>(s: seq<T>, alsRij: T -> Rij, kolom: string, o: Orde, i: int, j: int)
    requires Gesorteerd(s, OrdeSleutel(alsRij, kolom, o), o.richting)
    requires 0 <= i < j < |s|
    ensures var vi := Voorwaarden.Waarde(alsRij(s[i]), kolom);
            var vj := Voorwaarden.Waarde(alsRij(s[j]), kolom);
      && (NullenVoorop(o) ==> (vj.Leeg? ==> vi.Leeg?))
      && (!NullenVoorop(o) ==> (vi.Leeg? ==> vj.Leeg?))
  {
    var k := OrdeSleutel(alsRij, kolom, o);
    assert Voor(o.richting, k(s[i]), k(s[j]));
  }

  /** Rows whose values are both NULL or both not NULL (or any two, without a NULL placement) are in the column's own order. */
  lemma WaardenOpVolgorde<T>(s: seq<T>, alsRij: T -> Rij, kolom: string, o: Orde, i: int, j: int)
    requires Gesorteerd(s, OrdeSleutel(alsRij, kolom, o), o.richting)
    requires 0 <= i < j < |s|
    requires o.nullenEerst.None?
             || Voorwaarden.Waarde(alsRij(s[i]), kolom).Leeg? == Voorwaarden.Waarde(alsRij(s[j]), kolom).Leeg?
    ensures Voor(o.richting, [Voorwaarden.Waarde(alsRij(s[i]), kolom)], [Voorwaarden.Waarde(alsRij(s[j]), kolom)])
  {
    var k := OrdeSleutel(alsRij, kolom, o);
    assert Voor(o.richting, k(s[i]), k(s[j]));
    var vi := Voorwaarden.Waarde(alsRij(s[i]), kolom);
    var vj := Voorwaarden.Waarde(alsRij(s[j]), kolom);
    if o.nullenEerst.Some? {
      assert k(s[i])[0] == k(s[j])[0];
      assert k(s[i])[1..] == [vi] && k(s[j])[1..] == [vj];
    }
  }

  /** The rows of the table the where clause selects, in table order. */
  function Selectie<T>(tabel: seq<T>, alsRij: T -> Rij, vs: seq<Voorwaarde>): seq<T>
  {
    Filter(tabel, Voldoet(vs, alsRij))
  }

  /** `findAndCountAll({ where, order: [[veld, richting]], limit: aantal, offset })`. */
  function Lijst<T>(tabel: seq<T>, alsRij: T -> Rij, kolommen: set<string>, vs: seq<Voorwaarde>,
                    veld: string, richting: string, pagina: Option<int>, aantal: Option<int>): (r: Result<Pagina<T>>)
    ensures r.Ok? <==>
      AllesBekend(vs, kolommen) && KolomBekend(veld, kolommen) && RichtingUit(richting).Some? && pagina.Some? && aantal.Some?
    ensures r.Err? ==> r.code == ServerError
    ensures r.Ok? ==> var sel := Selectie(tabel, alsRij, vs);
      && r.value.metadata.totaal == |sel|
      && r.value.metadata.pagina == pagina.value
      && r.value.metadata.aantalPerPagina == aantal.value
      && r.value.metadata.totaalPaginas == TotaalPaginas(|sel|, aantal.value)
      && (aantal.value >= 0 ==> |r.value.rijen| <= aantal.value)
      && multiset(r.value.rijen) <= multiset(sel)
  {
    var kolom := ZoekKolom(veld, kolommen);
    var o := RichtingUit(richting);
    if !AllesBekend(vs, kolommen) || kolom.None? || o.None? || pagina.None? || aantal.None? then Err(ServerError)
    else
      var sel := Selectie(tabel, alsRij, vs);
      Ok(Pagineer(Sorteer(sel, OrdeSleutel(alsRij, kolom.value, o.value), o.value.richting), pagina.value, aantal.value))
  }

  /** Every listed row comes from the table and satisfies the whole where clause. */
  lemma LijstRijenVoldoen<T>(tabel: seq<T>, alsRij: T -> Rij, kolommen: set<string>, vs: seq<Voorwaarde>,
                             veld: string, richting: string, pagina: Option<int>, aantal: Option<int>)
    ensures var r := Lijst(tabel, alsRij, kolommen, vs, veld, richting, pagina, aantal);
      r.Ok? ==> forall i :: 0 <= i < |r.value.rijen| ==> r.value.rijen[i] in tabel && GeldtAlle(vs, alsRij(r.value.rijen[i]))
  {
    var r := Lijst(tabel, alsRij, kolommen, vs, veld, richting, pagina, aantal);
    if r.Ok? {
      var sel := Selectie(tabel, alsRij, vs);
      forall i | 0 <= i < |r.value.rijen| ensures r.value.rijen[i] in tabel && GeldtAlle(vs, alsRij(r.value.rijen[i])) {
        var x := r.value.rijen[i];
        assert x in multiset(r.value.rijen);
        assert x in multiset(sel);
        var j :| 0 <= j < |sel| && sel[j] == x;
        assert Voldoet(vs, alsRij)(x);
      }
    }
  }

  /** A page is a contiguous run of a sorted sequence, so it is itself sorted on the chosen column. */
  lemma LijstGesorteerd<T>(tabel: seq<T>, alsRij: T -> Rij, kolommen: set<string>, vs: seq<Voorwaarde>,
                           veld: string, richting: string, pagina: Option<int>, aantal: Option<int>)
    ensures var r := Lijst(tabel, alsRij, kolommen, vs, veld, richting, pagina, aantal);
      r.Ok? ==> var o := RichtingUit(richting).value;
        Gesorteerd(r.value.rijen, OrdeSleutel(alsRij, ZoekKolom(veld, kolommen).value, o), o.richting)
  {
    var r := Lijst(tabel, alsRij, kolommen, vs, veld, richting, pagina, aantal);
    if r.Ok? {
      var o := RichtingUit(richting).value;
      var k := OrdeSleutel(alsRij, ZoekKolom(veld, kolommen).value, o);
      var s := Sorteer(Selectie(tabel, alsRij, vs), k, o.richting);
      SorteerKlopt(Selectie(tabel, alsRij, vs), k, o.richting);
      DeelVanGesorteerd(s, k, o.richting, Offset(pagina.value, aantal.value), aantal.value);
    }
  }

  /** Newest first: descending on `aangemaaktOp`, the fixed order of the listings without a sort option. */
  ghost predicate NieuwsteEerst<T>(rijen: seq<T>, alsRij: T -> Rij)
  {
    Gesorteerd(rijen, OrdeSleutel(alsRij, "aangemaaktOp", Orde(Aflopend, None)), Aflopend)
  }

  /** A listing ordered by `aangemaaktOp DESC` shows its page newest first. */
  lemma LijstNieuwsteEerst<T>(tabel: seq<T>, alsRij: T -> Rij, kolommen: set<string>, vs: seq<Voorwaarde>,
                              pagina: Option<int>, aantal: Option<int>)
    requires "aangemaaktOp" in kolommen
    ensures var r := Lijst(tabel, alsRij, kolommen, vs, "aangemaaktOp", "DESC", pagina, aantal);
      r.Ok? ==> NieuwsteEerst(r.value.rijen, alsRij)
  {
    LijstGesorteerd(tabel, alsRij, kolommen, vs, "aangemaaktOp", "DESC", pagina, aantal);
    DescIsAflopend();
    EigenNaamBekend("aangemaaktOp", kolommen);
  }

  lemma DeelVanGesorteerd<T>(s: seq<T>, k: T -> seq<Sleutel>, ri: Richting, offset: int, limiet: int)
    requires Gesorteerd(s, k, ri)
    ensures Gesorteerd(Venster(s, offset, limiet), k, ri)
  {
    var o := if offset < 0 then 0 else if offset > |s| then |s| else offset;
    var e := if limiet < 0 || o + limiet > |s| then |s| else o + limiet;
    var v := Venster(s, offset, limiet);
    assert v == s[o..e];
    forall i, j | 0 <= i < j < |v| ensures Voor(ri, k(v[i]), k(v[j])) {
      assert v[i] == s[o + i] && v[j] == s[o + j];
    }
  }

  /**
    * The first `n` rows of a sorted sequence (all of them when `n` is
    * negative or large enough): sorted, drawn from the input, exactly `n`
    * of them when the input has that many, and every row left out may
    * follow every row taken.
    */
  lemma KopVanGesorteerd<T>(s: seq<T>, k: T -> seq<Sleutel>, ri: Richting, n: int)
    ensures var r := Venster(Sorteer(s, k, ri), 0, n);
      && Gesorteerd(r, k, ri)
      && multiset(r) <= multiset(s)
      && (n < 0 || |s| <= n ==> multiset(r) == multiset(s))
      && (0 <= n <= |s| ==> |r| == n)
      && (forall i, y :: 0 <= i < |r| && y in multiset(s) - multiset(r) ==> Voor(ri, k(r[i]), k(y)))
  {
    var g := Sorteer(s, k, ri);
    SorteerKlopt(s, k, ri);
    VensterVanafBegin(g, n);
    DeelVanGesorteerd(g, k, ri, 0, n);
    if n < 0 || |s| <= n {
      assert Venster(g, 0, n) == g;
    }
    hide Sorteer;
    KopGaatVoor(g, k, ri, |Venster(g, 0, n)|);
  }

  /** In a sorted sequence every row of the head may precede every row of the rest. */
  lemma KopGaatVoor<T>(g: seq<T>, k: T -> seq<Sleutel>, ri: Richting, m: nat)
    requires Gesorteerd(g, k, ri) && m <= |g|
    ensures forall i, y :: 0 <= i < m && y in multiset(g) - multiset(g[..m]) ==> Voor(ri, k(g[i]), k(y))
  {
    assert g == g[..m] + g[m..];
    assert multiset(g) - multiset(g[..m]) == multiset(g[m..]);
    forall i, y | 0 <= i < m && y in multiset(g) - multiset(g[..m]) ensures Voor(ri, k(g[i]), k(y)) {
      assert y in g[m..];
      var j :| m <= j < |g| && g[j] == y;
    }
  }

  /**
    * The range filter the admin listings build from two optional bounds:
    * BETWEEN when both are given, `>=` with only the lower one, `<=` with
    * only the upper one, and no condition without either.
    */
  function Bereik(kolom: string, van: Option<Sleutel>, tot: Option<Sleutel>): (r: seq<Voorwaarde>)
    ensures |r| <= 1
    ensures van.None? && tot.None? <==> r == []
    ensures forall i :: 0 <= i < |r| ==> Bekend(r[i], {kolom})
  {
    match (van, tot)
    case (Some(a), Some(b)) => [Tussen(kolom, a, b)]
    case (Some(a), None) => [Minstens(kolom, a)]
    case (None, Some(b)) => [Hoogstens(kolom, b)]
    case (None, None) => []
  }

  /** Each present bound holds of the column's value. */
  predicate GrenzenGelden(kolom: string, van: Option<Sleutel>, tot: Option<Sleutel>, rij: Rij)
  {
    && (van.Some? ==> Geldt(Minstens(kolom, van.value), rij))
    && (tot.Some? ==> Geldt(Hoogstens(kolom, tot.value), rij))
  }

  /** All three forms of the range filter say the same thing: every bound that is given holds. */
  lemma BereikIsGrenzen(kolom: string, van: Option<Sleutel>, tot: Option<Sleutel>, rij: Rij)
    ensures GeldtAlle(Bereik(kolom, van, tot), rij) <==> GrenzenGelden(kolom, van, tot, rij)
  {
    var r := Bereik(kolom, van, tot);
    if r != [] {
      assert GeldtAlle(r, rij) <==> Geldt(r[0], rij);
      if van.Some? && tot.Some? {
        TussenIsTweeGrenzen(rij, kolom, van.value, tot.value);
      }
    }
  }

  // ---------------------------------------------------------------------
  // Lookup and removal by key
  // ---------------------------------------------------------------------

  /** No two rows share a key. */
  predicate UniekOp<T>(tabel: seq<T>, sleutel: T -> int)
  {
    forall i, j :: 0 <= i < j < |tabel| ==> sleutel(tabel[i]) != sleutel(tabel[j])
  }

  /** `findByPk`: the position of the first row with this key, if any. */
  function PositieVan<T>(tabel: seq<T>, sleutel: T -> int, waarde: int): (r: Option<nat>)
    ensures r.Some? ==> r.value < |tabel| && sleutel(tabel[r.value]) == waarde
    ensures r.None? <==> forall i :: 0 <= i < |tabel| ==> sleutel(tabel[i]) != waarde
  {
    if tabel == [] then None
    else if sleutel(tabel[0]) == waarde then Some(0)
    else match PositieVan(tabel[1..], sleutel, waarde)
      case None => None
      case Some(p) => Some(p + 1)
  }

  /** Under unique keys the row found is the only one with that key. */
  lemma PositieIsEnige<T>(tabel: seq<T>, sleutel: T -> int, waarde: int, i: int)
    requires UniekOp(tabel, sleutel)
    requires 0 <= i < |tabel| && sleutel(tabel[i]) == waarde
    ensures PositieVan(tabel, sleutel, waarde) == Some(i)
  {
    var p := PositieVan(tabel, sleutel, waarde).value;
    assert sleutel(tabel[p]) == sleutel(tabel[i]);
  }

  /** The table without the row at position `p`: `destroy()`. */
  function ZonderRij<T>(tabel: seq<T>, p: nat): (r: seq<T>)
    requires p < |tabel|
    ensures |r| == |tabel| - 1
    ensures forall i :: 0 <= i < p ==> r[i] == tabel[i]
    ensures forall i :: p <= i < |r| ==> r[i] == tabel[i + 1]
  {
    tabel[..p] + tabel[p + 1..]
  }

  /** Removing a row keeps the others, in order, and keeps keys unique; the removed key is gone. */
  lemma ZonderRijKlopt<T>(tabel: seq<T>, sleutel: T -> int, p: nat)
    requires p < |tabel|
    ensures Deelrij(ZonderRij(tabel, p), tabel)
    ensures UniekOp(tabel, sleutel) ==> UniekOp(ZonderRij(tabel, p), sleutel)
    ensures UniekOp(tabel, sleutel) ==> forall i :: 0 <= i < |tabel| - 1 ==> sleutel(ZonderRij(tabel, p)[i]) != sleutel(tabel[p])
  {
    VerwijderEenIsDeelrij(tabel, p);
    var r := ZonderRij(tabel, p);
    if UniekOp(tabel, sleutel) {
      forall i, j | 0 <= i < j < |r| ensures sleutel(r[i]) != sleutel(r[j]) {
        var i' := if i < p then i else i + 1;
        var j' := if j < p then j else j + 1;
        assert r[i] == tabel[i'] && r[j] == tabel[j'];
      }
      forall i | 0 <= i < |tabel| - 1 ensures sleutel(r[i]) != sleutel(tabel[p]) {
        var i' := if i < p then i else i + 1;
        assert r[i] == tabel[i'];
      }
    }
  }

  lemma {:induction false} VerwijderEenIsDeelrij<T>(s: seq<T>, p: nat)
    requires p < |s|
    ensures Deelrij(s[..p] + s[p + 1..], s)
    decreases p
  {
    if p == 0 {
      assert s[..0] + s[1..] == s[1..];
      DeelrijReflexief(s[1..]);
    } else {
      VerwijderEenIsDeelrij(s[1..], p - 1);
      var a := s[..p] + s[p + 1..];
      assert a[0] == s[0];
      assert a[1..] == s[1..][..p - 1] + s[1..][p..];
    }
  }


  /** The id a new row receives: one above every id in the table. */
  function VolgendId<T>(tabel: seq<T>, sleutel: T -> int): (r: int)
    ensures r >= 1
    ensures forall i :: 0 <= i < |tabel| ==> sleutel(tabel[i]) < r
  {
    if tabel == [] then 1
    else
      var m := VolgendId(tabel[1..], sleutel);
      if sleutel(tabel[0]) >= m then sleutel(tabel[0]) + 1 else m
  }

  /** Appending a row with a fresh key keeps keys unique. */
  lemma ToevoegenHoudtUniek<T>(tabel: seq<T>, sleutel: T -> int, x: T)
    requires UniekOp(tabel, sleutel)
    requires forall i :: 0 <= i < |tabel| ==> sleutel(tabel[i]) != sleutel(x)
    ensures UniekOp(tabel + [x], sleutel)
  {
    var t := tabel + [x];
    forall i, j | 0 <= i < j < |t| ensures sleutel(t[i]) != sleutel(t[j]) {
      assert t[i] == tabel[i];
      if j < |tabel| {
        assert t[j] == tabel[j];
      }
    }
  }
}

=== FILE: paginatie.dfy ===
/**
  * The pagination pattern every listing service repeats: the page number and
  * page size become `offset = (pagina - 1) * aantalPerPagina` and a LIMIT, and
  * the metadata reports `totaalPaginas = Math.ceil(totaal / aantalPerPagina)`.
  * LIMIT and OFFSET follow SQLite: a negative offset counts as 0 and a negative
  * limit as "no limit".
  */
module Paginatie {
  import opened Basis

  const StandaardPagina: int := 1
  const StandaardAantalPerPagina: int := 10

  function Offset(pagina: int, aantalPerPagina: int): int
  {
    (pagina - 1) * aantalPerPagina
  }

  /** The rows SQLite returns for `LIMIT limiet OFFSET offset`. */
  function Venster<T>(rijen: seq<T>, offset: int, limiet: int): (r: seq<T>)
    ensures var o := if offset < 0 then 0 else offset;
      && (o >= |rijen| ==> r == [])
      && (o < |rijen| ==> r == rijen[o..][..if limiet < 0 || o + limiet > |rijen| then |rijen| - o else limiet])
    ensures limiet >= 0 ==> |r| <= limiet
  {
    var o := if offset < 0 then 0 else if offset > |rijen| then |rijen| else offset;
    var e := if limiet < 0 || o + limiet > |rijen| then |rijen| else o + limiet;
    rijen[o..e]
  }

  /** A window takes no row more often than the rows hold it. */
  lemma VensterDeelVan<T>(rijen: seq<T>, offset: int, limiet: int)
    ensures multiset(Venster(rijen, offset, limiet)) <= multiset(rijen)
  {
    var o := if offset < 0 then 0 else if offset > |rijen| then |rijen| else offset;
    var e := if limiet < 0 || o + limiet > |rijen| then |rijen| else o + limiet;
    assert rijen == rijen[..o] + rijen[o..e] + rijen[e..];
  }

  /** A window from the start is a prefix of the rows. */
  lemma VensterVanafBegin<T>(rijen: seq<T>, limiet: int)
    ensures var r := Venster(rijen, 0, limiet);
      r == rijen[..|r|] && multiset(r) <= multiset(rijen)
  {
    var r := Venster(rijen, 0, limiet);
    assert r == rijen[..|r|];
    assert rijen == r + rijen[|r|..];
  }

  /** `Math.ceil` on a real. */
  function Plafond(x: real): (r: int)
    ensures r as real - 1.0 < x <= r as real
  {
    -((-x).Floor)
  }

  /**
    * `Math.ceil(totaal / aantalPerPagina)`. A page size of 0 divides by zero;
    * the resulting `Infinity` or `NaN` is serialised as JSON `null`, written `None`.
    */
  function TotaalPaginas(totaal: nat, aantalPerPagina: int): Option<int>
  {
    if aantalPerPagina == 0 then None
    else Some(Plafond(totaal as real / aantalPerPagina as real))
  }

  datatype Metadata = Metadata(totaal: nat, pagina: int, aantalPerPagina: int, totaalPaginas: Option<int>)

  datatype Pagina<T> = Pagina(rijen: seq<T>, metadata: Metadata)

  /** One page of the matching rows plus the metadata the listings return. */
  function Pagineer<T>(rijen: seq<T>, pagina: int, aantalPerPagina: int): (p: Pagina<T>)
    ensures p.metadata.totaal == |rijen|
    ensures p.metadata.pagina == pagina && p.metadata.aantalPerPagina == aantalPerPagina
    ensures aantalPerPagina >= 0 ==> |p.rijen| <= aantalPerPagina
    ensures multiset(p.rijen) <= multiset(rijen)
  {
    var v := Venster(rijen, Offset(pagina, aantalPerPagina), aantalPerPagina);
    VensterDeelVan(rijen, Offset(pagina, aantalPerPagina), aantalPerPagina);
    Pagina(v, Metadata(|rijen|, pagina, aantalPerPagina, TotaalPaginas(|rijen|, aantalPerPagina)))
  }

  lemma ProductAlsReeel(a: int, b: int)
    ensures (a * b) as real == a as real * b as real
  {
  }

  lemma ReeelMaal(a: real, b: real, n: real)
    requires n > 0.0
    ensures a < b ==> a * n < b * n
    ensures a <= b ==> a * n <= b * n
  {
  }

  lemma QuotientMaalDeler(t: real, n: real)
    requires n > 0.0
    ensures (t / n) * n == t
    ensures t >= 0.0 ==> t / n >= 0.0
  {
  }

  lemma PlafondVanQuotient(totaal: nat, n: int)
    requires n > 0
    ensures var t := Plafond(totaal as real / n as real);
      t >= 0 && (t - 1) * n < totaal <= t * n
  {
    var q := totaal as real / n as real;
    var t := Plafond(q);
    QuotientMaalDeler(totaal as real, n as real);
    GrenzenMaalDeler(q, t, n, totaal);
  }

  /** Scaling `t - 1 < q <= t` by a positive `n` brackets `q * n` between whole multiples of `n`. */
  lemma GrenzenMaalDeler(q: real, t: int, n: int, totaal: int)
    requires n > 0
    requires (t - 1) as real < q <= t as real
    requires q * n as real == totaal as real
    ensures (t - 1) * n < totaal <= t * n
  {
    ReeelMaal((t - 1) as real, q, n as real);
    ReeelMaal(q, t as real, n as real);
    ProductAlsReeel(t - 1, n);
    ProductAlsReeel(t, n);
  }

  /** For a positive page size the page count is the least number of pages that holds every row. */
  lemma TotaalPaginasIsKleinsteAantal(totaal: nat, aantalPerPagina: int)
    requires aantalPerPagina > 0
    ensures TotaalPaginas(totaal, aantalPerPagina).Some?
    ensures var t := TotaalPaginas(totaal, aantalPerPagina).value;
      && t >= 0
      && totaal <= t * aantalPerPagina
      && (t - 1) * aantalPerPagina < totaal
  {
    PlafondVanQuotient(totaal, aantalPerPagina);
  }

  /** Pages 1..k laid end to end. */
  function EerstePaginas<T>(rijen: seq<T>, aantalPerPagina: int, k: nat): seq<T>
  {
    if k == 0 then [] else EerstePaginas(rijen, aantalPerPagina, k - 1) + Venster(rijen, Offset(k, aantalPerPagina), aantalPerPagina)
  }

  lemma {:induction false} EerstePaginasIsPrefix<T>(rijen: seq<T>, aantalPerPagina: int, k: nat)
    requires aantalPerPagina > 0
    ensures EerstePaginas(rijen, aantalPerPagina, k)
         == rijen[..if k * aantalPerPagina > |rijen| then |rijen| else k * aantalPerPagina]
  {
    if k > 0 {
      EerstePaginasIsPrefix(rijen, aantalPerPagina, k - 1);
      var m := (k - 1) * aantalPerPagina;
      MaalStap(k, aantalPerPagina);
      hide Venster;
      VensterAansluitend(rijen, m, aantalPerPagina);
      assert Offset(k, aantalPerPagina) == m;
    }
  }

  lemma MaalStap(k: nat, n: int)
    requires k > 0 && n > 0
    ensures (k - 1) * n >= 0 && (k - 1) * n + n == k * n
  {
  }

  /** The window after the first `m` rows extends the prefix of `m` rows. */
  lemma VensterAansluitend<T>(rijen: seq<T>, m: int, n: int)
    requires m >= 0 && n > 0
    ensures var a := if m > |rijen| then |rijen| else m;
      var b := if m + n > |rijen| then |rijen| else m + n;
      rijen[..a] + Venster(rijen, m, n) == rijen[..b]
  {
    var a := if m > |rijen| then |rijen| else m;
    var b := if m + n > |rijen| then |rijen| else m + n;
    assert Venster(rijen, m, n) == rijen[a..b];
    assert rijen[..a] + rijen[a..b] == rijen[..b];
  }

  /** Walking pages 1 to `totaalPaginas` returns every row exactly once, in order. */
  lemma AllePaginasSamenZijnAlleRijen<T>(rijen: seq<T>, aantalPerPagina: int)
    requires aantalPerPagina > 0
    ensures TotaalPaginas(|rijen|, aantalPerPagina).Some?
    ensures EerstePaginas(rijen, aantalPerPagina, TotaalPaginas(|rijen|, aantalPerPagina).value) == rijen
  {
    TotaalPaginasIsKleinsteAantal(|rijen|, aantalPerPagina);
    EerstePaginasIsPrefix(rijen, aantalPerPagina, TotaalPaginas(|rijen|, aantalPerPagina).value);
  }

  /** Fifteen rows, page 2 of 10: offset 10, the last five rows, two pages. */
  lemma VijftienRijenTweedePagina()
    ensures Offset(2, 10) == 10
    ensures var p := Pagineer(seq(15, i => i), 2, 10);
      p.rijen == [10, 11, 12, 13, 14] && p.metadata.totaalPaginas == Some(2)
  {
    var rijen := seq(15, i => i);
    assert Venster(rijen, 10, 10) == rijen[10..15];
    assert TotaalPaginas(15, 10) == Some(2) by {
      TotaalPaginasIsKleinsteAantal(15, 10);
    }
  }
}

=== FILE: sorteren.dfy ===
/**
  * ORDER BY as the database evaluates it on one or more columns: SQLite
  * ranks NULL before numbers and numbers before text, compares text with the
  * binary collation, and breaks ties column by column. Sorting is modelled as
  * insertion sort on sequences, with a sortedness and a permutation theorem.
  */
module Sorteren {

  /** One column value in an ORDER BY key. */
  datatype Sleutel = Leeg | Num(x: real) | Txt(s: string)

  /** Binary collation: code point by code point, a proper prefix first. */
  predicate TekstLe(a: string, b: string)
    decreases |a|
  {
    |a| == 0 || (|b| > 0 && (a[0] < b[0] || (a[0] == b[0] && TekstLe(a[1..], b[1..]))))
  }

  lemma {:induction false} TekstLeTotaal(a: string, b: string)
    ensures TekstLe(a, b) || TekstLe(b, a)
    decreases |a|
  {
    if |a| > 0 && |b| > 0 && a[0] == b[0] {
      TekstLeTotaal(a[1..], b[1..]);
    }
  }

  lemma {:induction false} TekstLeReflexief(a: string)
    ensures TekstLe(a, a)
    decreases |a|
  {
    if |a| > 0 {
      TekstLeReflexief(a[1..]);
    }
  }

  lemma {:induction false} TekstLeTransitief(a: string, b: string, c: string)
    requires TekstLe(a, b) && TekstLe(b, c)
    ensures TekstLe(a, c)
    decreases |a|
  {
    if |a| > 0 && a[0] == b[0] && b[0] == c[0] {
      TekstLeTransitief(a[1..], b[1..], c[1..]);
    }
  }

  lemma {:induction false} TekstLeAntisymmetrisch(a: string, b: string)
    requires TekstLe(a, b) && TekstLe(b, a)
    ensures a == b
    decreases |a|
  {
    if |a| > 0 {
      TekstLeAntisymmetrisch(a[1..], b[1..]);
      assert a == [a[0]] + a[1..] && b == [b[0]] + b[1..];
    }
  }

  /** SQLite's ordering of column values: NULL, then numbers, then text. */
  predicate SleutelLe(a: Sleutel, b: Sleutel)
  {
    match a
    case Leeg => true
    case Num(x) => (b.Num? && x <= b.x) || b.Txt?
    case Txt(s) => b.Txt? && TekstLe(s, b.s)
  }

  predicate SleutelLt(a: Sleutel, b: Sleutel)
  {
    SleutelLe(a, b) && a != b
  }

  lemma SleutelLeTotaal(a: Sleutel, b: Sleutel)
    ensures SleutelLe(a, b) || SleutelLe(b, a)
  {
    if a.Txt? && b.Txt? {
      TekstLeTotaal(a.s, b.s);
    }
  }

  lemma SleutelLeReflexief(a: Sleutel)
    ensures SleutelLe(a, a)
  {
    if a.Txt? {
      TekstLeReflexief(a.s);
    }
  }

  lemma SleutelLeTransitief(a: Sleutel, b: Sleutel, c: Sleutel)
    requires SleutelLe(a, b) && SleutelLe(b, c)
    ensures SleutelLe(a, c)
  {
    if a.Txt? {
      TekstLeTransitief(a.s, b.s, c.s);
    }
  }

  lemma SleutelLeAntisymmetrisch(a: Sleutel, b: Sleutel)
    requires SleutelLe(a, b) && SleutelLe(b, a)
    ensures a == b
  {
    if a.Txt? {
      TekstLeAntisymmetrisch(a.s, b.s);
    }
  }

  /** Lexicographic order on multi-column keys, as `ORDER BY k1, k2, ...` compares rows. */
  predicate RijLe(a: seq<Sleutel>, b: seq<Sleutel>)
    decreases |a|
  {
    |a| == 0 || (|b| > 0 && (SleutelLt(a[0], b[0]) || (a[0] == b[0] && RijLe(a[1..], b[1..]))))
  }

  lemma {:induction false} RijLeTotaal(a: seq<Sleutel>, b: seq<Sleutel>)
    ensures RijLe(a, b) || RijLe(b, a)
    decreases |a|
  {
    if |a| > 0 && |b| > 0 {
      SleutelLeTotaal(a[0], b[0]);
      if a[0] == b[0] {
        RijLeTotaal(a[1..], b[1..]);
      }
    }
  }

  lemma {:induction false} RijLeTransitief(a: seq<Sleutel>, b: seq<Sleutel>, c: seq<Sleutel>)
    requires RijLe(a, b) && RijLe(b, c)
    ensures RijLe(a, c)
    decreases |a|
  {
    if |a| > 0 {
      if a[0] == b[0] && b[0] == c[0] {
        RijLeTransitief(a[1..], b[1..], c[1..]);
      } else {
        SleutelLeReflexief(b[0]);
        SleutelLeTransitief(a[0], b[0], c[0]);
        if a[0] == c[0] {
          SleutelLeAntisymmetrisch(a[0], b[0]);
        }
      }
    }
  }

  datatype Richting = Oplopend | Aflopend

  /** Row key `a` may come before row key `b` in direction `r`. */
  predicate Voor(r: Richting, a: seq<Sleutel>, b: seq<Sleutel>)
  {
    if r.Oplopend? then RijLe(a, b) else RijLe(b, a)
  }

  lemma VoorTotaal(r: Richting, a: seq<Sleutel>, b: seq<Sleutel>)
    ensures Voor(r, a, b) || Voor(r, b, a)
  {
    RijLeTotaal(a, b);
  }

  lemma VoorTransitief(r: Richting, a: seq<Sleutel>, b: seq<Sleutel>, c: seq<Sleutel>)
    requires Voor(r, a, b) && Voor(r, b, c)
    ensures Voor(r, a, c)
  {
    if r.Oplopend? {
      RijLeTransitief(a, b, c);
    } else {
      RijLeTransitief(c, b, a);
    }
  }

  /** Every earlier row may come before every later row. */
  ghost predicate Gesorteerd<T>(s: seq<T>, sleutel: T -> seq<Sleutel>, r: Richting)
  {
    forall i, j :: 0 <= i < j < |s| ==> Voor(r, sleutel(s[i]), sleutel(s[j]))
  }

  function Invoegen<T>(x: T, s: seq<T>, sleutel: T -> seq<Sleutel>, r: Richting): (u: seq<T>)
    ensures multiset(u) == multiset(s) + multiset{x}
    ensures |u| == |s| + 1
  {
    if s == [] then [x]
    else if Voor(r, sleutel(x), sleutel(s[0])) then [x] + s
    else
      assert s == [s[0]] + s[1..];
      [s[0]] + Invoegen(x, s[1..], sleutel, r)
  }

  lemma {:induction false} InvoegenGesorteerd<T>(x: T, s: seq<T>, sleutel: T -> seq<Sleutel>, r: Richting)
    requires Gesorteerd(s, sleutel, r)
    ensures Gesorteerd(Invoegen(x, s, sleutel, r), sleutel, r)
    decreases |s|
  {
    if s == [] {
    } else if Voor(r, sleutel(x), sleutel(s[0])) {
      forall j | 0 <= j < |s| ensures Voor(r, sleutel(x), sleutel(s[j])) {
        if j > 0 {
          VoorTransitief(r, sleutel(x), sleutel(s[0]), sleutel(s[j]));
        }
      }
      KopErvoor(x, s, sleutel, r);
    } else {
      VoorTotaal(r, sleutel(x), sleutel(s[0]));
      var rest := Invoegen(x, s[1..], sleutel, r);
      InvoegenGesorteerd(x, s[1..], sleutel, r);
      forall j | 0 <= j < |rest|
        ensures Voor(r, sleutel(s[0]), sleutel(rest[j]))
      {
        assert rest[j] in multiset(rest);
        if rest[j] != x {
          assert rest[j] in multiset(s[1..]);
          var k :| 0 <= k < |s[1..]| && s[1..][k] == rest[j];
          assert s[k + 1] == rest[j];
        }
      }
      KopErvoor(s[0], rest, sleutel, r);
    }
  }

  /** A sorted sequence stays sorted with a head that comes before all of it. */
  lemma KopErvoor<T>(x: T, s: seq<T>, sleutel: T -> seq<Sleutel>, r: Richting)
    requires Gesorteerd(s, sleutel, r)
    requires forall j :: 0 <= j < |s| ==> Voor(r, sleutel(x), sleutel(s[j]))
    ensures Gesorteerd([x] + s, sleutel, r)
  {
    var u := [x] + s;
    forall i, j | 0 <= i < j < |u| ensures Voor(r, sleutel(u[i]), sleutel(u[j])) {
      assert u[j] == s[j - 1];
      if i > 0 {
        assert u[i] == s[i - 1];
      }
    }
  }

  /** Insertion sort: the rows in `s`, ordered by `sleutel` in direction `r`. */
  function Sorteer<T>(s: seq<T>, sleutel: T -> seq<Sleutel>, r: Richting): (u: seq<T>)
    ensures multiset(u) == multiset(s)
    ensures |u| == |s|
  {
    if s == [] then []
    else
      assert s == [s[0]] + s[1..];
      Invoegen(s[0], Sorteer(s[1..], sleutel, r), sleutel, r)
  }

  /** The sorted rows are a permutation of the input and every earlier row may precede every later one. */
  lemma {:induction false} SorteerKlopt<T>(s: seq<T>, sleutel: T -> seq<Sleutel>, r: Richting)
    ensures Gesorteerd(Sorteer(s, sleutel, r), sleutel, r)
    ensures multiset(Sorteer(s, sleutel, r)) == multiset(s)
    decreases |s|
  {
    if s != [] {
      SorteerKlopt(s[1..], sleutel, r);
      InvoegenGesorteerd(s[0], Sorteer(s[1..], sleutel, r), sleutel, r);
    }
  }
}

=== FILE: suggestie.dfy ===
/**
  * The suggestion endpoints: address autocomplete, forward and reverse
  * geocoding by query, the travel-time placeholder and the cache
  * statistics for administrators. Query values arrive as optional
  * strings; body values as JavaScript values.
  */
module SuggestieController {
  import opened Basis
  import Geocoding

  const MinZoektermLengte: int := 2
  const StandaardLimiet: int := 5
  const BeheerderRol: int := 3

  /** One suggestion as the endpoint formats it: the id is "latitude,longitude". */
  datatype SuggestieUit = SuggestieUit(id: string, tekst: string, soort: Option<string>, breedtegraad: real, lengtegraad: real)

  datatype Suggestieantwoord = Suggestieantwoord(data: seq<SuggestieUit>, zoekterm: Option<string>, aantal: nat)

  /** How `parseInt(limiet)` is written into the request URL: `NaN` when the text holds no integer. */
  function LimietTekst(limiet: Option<string>): string
  {
    if limiet.None? then IntNaarTekst(StandaardLimiet)
    else match ParseInt(limiet.value)
      case None => "NaN"
      case Some(n) => IntNaarTekst(n)
  }

  function Formatteer(s: Geocoding.Suggestie, getalTekst: real -> string): (u: SuggestieUit)
    ensures u.tekst == s.tekst && u.soort == s.soort && u.breedtegraad == s.breedtegraad && u.lengtegraad == s.lengtegraad
  {
    SuggestieUit(getalTekst(s.breedtegraad) + "," + getalTekst(s.lengtegraad), s.tekst, s.soort, s.breedtegraad, s.lengtegraad)
  }

  /**
    * getAdresSuggesties: an absent term or one whose `length` is under 2 gets an empty
    * answer at once; otherwise the service's suggestions, each with its
    * coordinate id, and `aantal` is their number.
    */
  function GetAdresSuggesties(zoekterm: Option<string>, limiet: Option<string>, getalTekst: real -> string,
                              provider: Geocoding.Provider): (r: Suggestieantwoord)
    ensures r.zoekterm == zoekterm && r.aantal == |r.data|
    ensures !Gevuld(zoekterm) || JsLengte(zoekterm.value) < MinZoektermLengte ==> r.data == []
    ensures Gevuld(zoekterm) && JsLengte(zoekterm.value) >= MinZoektermLengte ==>
      var s := Geocoding.AdresSuggesties(zoekterm, LimietTekst(limiet), provider);
      |r.data| == |s| && forall i :: 0 <= i < |s| ==>
        r.data[i].id == getalTekst(s[i].breedtegraad) + "," + getalTekst(s[i].lengtegraad)
        && r.data[i].tekst == s[i].tekst && r.data[i].breedtegraad == s[i].breedtegraad && r.data[i].lengtegraad == s[i].lengtegraad
  {
    if !Gevuld(zoekterm) || JsLengte(zoekterm.value) < MinZoektermLengte then Suggestieantwoord([], zoekterm, 0)
    else
      var s := Geocoding.AdresSuggesties(zoekterm, LimietTekst(limiet), provider);
      var data := seq(|s|, i requires 0 <= i < |s| => Formatteer(s[i], getalTekst));
      Suggestieantwoord(data, zoekterm, |data|)
  }

  /**
    * A two-character term passes the endpoint's guard but not the
    * service's, which wants three: the answer is empty and the provider is
    * not asked.
    */
  lemma TweeTekensGeenSuggesties(t: string, limiet: Option<string>, getalTekst: real -> string, p: Geocoding.Provider, q: Geocoding.Provider)
    requires JsLengte(t) == 2
    ensures GetAdresSuggesties(Some(t), limiet, getalTekst, p) == GetAdresSuggesties(Some(t), limiet, getalTekst, q)
    ensures GetAdresSuggesties(Some(t), limiet, getalTekst, p).data == []
  {
  }

  /** A limit written in decimal is sent as written; an absent one as 5. */
  lemma LimietAlsGeschreven(n: nat)
    ensures LimietTekst(Some(NatNaarTekst(n))) == NatNaarTekst(n)
    ensures LimietTekst(None) == NatNaarTekst(5)
  {
    ParseIntNaNatNaarTekst(n);
  }

  /** A limit that does not start with a digit is sent as NaN. */
  lemma LimietZonderCijferIsNaN(t: string)
    requires |t| > 0 && 'a' <= t[0] <= 'z' && t[0] != 'x'
    ensures LimietTekst(Some(t)) == "NaN"
  {
    assert !IsWitruimte(t[0]);
    assert ZonderVoorloopWit(t) == t;
    assert CijferPrefix(ParseIntRest(t), ParseIntRadix(t)) == [];
  }

  /** geocodeAdres: an absent or empty address is a 400; anything else is looked up and never fails. */
  function GeocodeAdres(c: Geocoding.Cache, adres: Option<string>, provider: Geocoding.Provider): (r: Result<(Geocoding.Resultaat, Geocoding.Cache)>)
    ensures r.Err? <==> !Gevuld(adres)
    ensures r.Err? ==> r.code == BadRequest
    ensures r.Ok? ==> r.value == Geocoding.GeocodeAdres(c, adres.value, provider)
  {
    if !Gevuld(adres) then Err(BadRequest) else Ok(Geocoding.GeocodeAdres(c, adres.value, provider))
  }

  /**
    * reverseGeocode: either coordinate absent or empty is a 400; otherwise
    * both are parsed (`parseFloat`) and looked up.
    */
  function ReverseGeocode(c: Geocoding.Cache, breedtegraad: Option<string>, lengtegraad: Option<string>,
                          parseFloat: string -> real, getalTekst: real -> string,
                          provider: Geocoding.Provider): (r: Result<(Geocoding.Resultaat, Geocoding.Cache)>)
    ensures r.Err? <==> !Gevuld(breedtegraad) || !Gevuld(lengtegraad)
    ensures r.Err? ==> r.code == BadRequest
    ensures r.Ok? ==> r.value == Geocoding.ReverseGeocode(c, parseFloat(breedtegraad.value), parseFloat(lengtegraad.value), getalTekst, provider)
  {
    if !Gevuld(breedtegraad) || !Gevuld(lengtegraad) then Err(BadRequest)
    else Ok(Geocoding.ReverseGeocode(c, parseFloat(breedtegraad.value), parseFloat(lengtegraad.value), getalTekst, provider))
  }

  /** A query coordinate "0" is a non-empty string and passes the guard. */
  lemma NulAlsTekstIsAanwezig(c: Geocoding.Cache, parseFloat: string -> real, getalTekst: real -> string, p: Geocoding.Provider)
    ensures ReverseGeocode(c, Some("0"), Some("0"), parseFloat, getalTekst, p).Ok?
  {
  }

  datatype Reistijd = Reistijd(reistijd: int, afstand: real, vervoerswijze: string)

  /** The placeholder travel times, in the order the object lists them. */
  const Reistijden: seq<(string, Reistijd)> := [
    ("station", Reistijd(15, 3.2, "lopen")),
    ("supermarkt", Reistijd(5, 0.8, "lopen")),
    ("school", Reistijd(8, 1.5, "lopen")),
    ("ziekenhuis", Reistijd(12, 4.5, "auto"))
  ]

  /** The `voorzieningen` field of the body: an array, or some other value. */
  datatype Voorzieningen = GeenLijst(waarde: Waarde) | Lijst(items: seq<Waarde>)

  /** The entries whose key the list holds (as a string), in table order. */
  function Gevraagd(entries: seq<(string, Reistijd)>, items: seq<Waarde>): (r: seq<(string, Reistijd)>)
    ensures forall e :: e in r <==> e in entries && Tekst(e.0) in items
    ensures Deelrij(r, entries)
  {
    if entries == [] then []
    else
      var rest := Gevraagd(entries[1..], items);
      if Tekst(entries[0].0) in items then [entries[0]] + rest else rest
  }

  /**
    * getReistijden: either coordinate falsy is a 400; a non-empty array of
    * facility names selects those entries, anything else returns all four.
    */
  function GetReistijden(breedtegraad: Waarde, lengtegraad: Waarde, voorzieningen: Voorzieningen): (r: Result<seq<(string, Reistijd)>>)
    ensures r.Err? <==> !Truthy(breedtegraad) || !Truthy(lengtegraad)
    ensures r.Err? ==> r.code == BadRequest
    ensures r.Ok? && !(voorzieningen.Lijst? && |voorzieningen.items| > 0) ==> r.value == Reistijden
    ensures r.Ok? && voorzieningen.Lijst? && |voorzieningen.items| > 0 ==>
      Deelrij(r.value, Reistijden) && forall e :: e in r.value <==> e in Reistijden && Tekst(e.0) in voorzieningen.items
  {
    if !Truthy(breedtegraad) || !Truthy(lengtegraad) then Err(BadRequest)
    else if voorzieningen.Lijst? && |voorzieningen.items| > 0 then Ok(Gevraagd(Reistijden, voorzieningen.items))
    else Ok(Reistijden)
  }

  /** Unknown names select nothing; the answer is then empty, not the full table. */
  lemma OnbekendeVoorzieningGeeftNiets()
    ensures GetReistijden(Getal(50.0), Getal(4.0), Lijst([Tekst("bakker")])) == Ok([])
  {
    var items := [Tekst("bakker")];
    forall i | 0 <= i < |Reistijden| ensures Tekst(Reistijden[i].0) !in items {
      assert Reistijden[i].0[0] != 'b';
    }
    NietsGevraagd(Reistijden, items);
  }

  lemma {:induction false} NietsGevraagd(entries: seq<(string, Reistijd)>, items: seq<Waarde>)
    requires forall i :: 0 <= i < |entries| ==> Tekst(entries[i].0) !in items
    ensures Gevraagd(entries, items) == []
    decreases |entries|
  {
    if entries != [] {
      NietsGevraagd(entries[1..], items);
    }
  }

  /** getCacheStats: only role 3 sees the statistics; anyone else gets 403. */
  function GetCacheStats(rol: int, c: Geocoding.Cache): (r: Result<Geocoding.Statistieken>)
    ensures r.Err? <==> rol != BeheerderRol
    ensures r.Err? ==> r.code == Forbidden
    ensures r.Ok? ==> r.value.hits == c.hits && r.value.misses == c.misses && r.value.aantalItems == |c.items|
    ensures r.Ok? ==> r.value.grootte == c.sleutelGrootte
  {
    if rol != BeheerderRol then Err(Forbidden) else Ok(Geocoding.GetGeocodingCacheStats(c))
  }
}

=== FILE: toegang.dfy ===
/**
  * Access control: the authentication middleware, the role checks, the
  * ownership check on a property, and the user controller's rule that a
  * user may only see, change or delete their own account unless they are
  * an administrator. Token verification (signature and expiry) is a
  * parameter `verifieer` from the token text to the user id it carries.
  * Route ids are taken as the integers they spell.
  */
module Toegang {
  import opened Basis
  import opened Paginatie
  import opened Gebruikers
  import opened Lijsten
  import Woningen
  import WoningService
  import WoningController

  // ---------------------------------------------------------------------
  // authenticeer
  // ---------------------------------------------------------------------

  const Bearer: string := "Bearer "

  /** The text up to the first space. */
  function TotSpatie(s: string): (r: string)
    ensures BegintMet(s, r)
    ensures forall i :: 0 <= i < |r| ==> r[i] != ' '
    ensures |r| < |s| ==> s[|r|] == ' '
  {
    if s == [] || s[0] == ' ' then []
    else [s[0]] + TotSpatie(s[1..])
  }

  /** `authHeader.split(' ')[1]` for a header that starts with "Bearer ". */
  function TokenUit(header: string): string
    requires BegintMet(header, Bearer)
  {
    TotSpatie(header[|Bearer|..])
  }

  /** The token is the word right after "Bearer ", whatever follows it. */
  lemma TokenIsTweedeWoord(token: string, rest: string)
    requires forall i :: 0 <= i < |token| ==> token[i] != ' '
    ensures BegintMet(Bearer + token + rest, Bearer)
    ensures rest == [] || rest[0] == ' ' ==> TokenUit(Bearer + token + rest) == token
  {
    var h := Bearer + token + rest;
    assert h[..|Bearer|] == Bearer;
    assert h[|Bearer|..] == token + rest;
    if rest == [] || rest[0] == ' ' {
      TotSpatieVanWoord(token, rest);
    }
  }

  lemma {:induction false} TotSpatieVanWoord(token: string, rest: string)
    requires forall i :: 0 <= i < |token| ==> token[i] != ' '
    requires rest == [] || rest[0] == ' '
    ensures TotSpatie(token + rest) == token
    decreases |token|
  {
    if token != [] {
      assert (token + rest)[1..] == token[1..] + rest;
      TotSpatieVanWoord(token[1..], rest);
    } else {
      assert token + rest == rest;
    }
  }

  /**
    * authenticeer: 401 without a header that starts with "Bearer ", for a
    * token that does not verify, and for a user that no longer exists;
    * otherwise the request carries that user.
    */
  function Authenticeer(header: Option<string>, verifieer: string -> Option<int>, tabel: Tabel): (r: Result<Gebruiker>)
    ensures r.Err? ==> r.code == Unauthorized
    ensures !Gevuld(header) || !BegintMet(header.value, Bearer) ==> r.Err?
    ensures r.Ok? <==>
      && Gevuld(header) && BegintMet(header.value, Bearer)
      && verifieer(TokenUit(header.value)).Some?
      && exists i :: 0 <= i < |tabel| && tabel[i].id == verifieer(TokenUit(header.value)).value
    ensures r.Ok? ==> r.value in tabel && r.value.id == verifieer(TokenUit(header.value)).value
  {
    if !Gevuld(header) || !BegintMet(header.value, Bearer) then Err(Unauthorized)
    else match verifieer(TokenUit(header.value))
      case None => Err(Unauthorized)
      case Some(id) =>
        match Gebruikers.GetGebruikerById(tabel, id)
        case Err(_) => Err(Unauthorized)
        case Ok(g) => Ok(g)
  }

  // ---------------------------------------------------------------------
  // Role checks
  // ---------------------------------------------------------------------

  /** isGebruiker: any authenticated caller passes. */
  function IsGebruiker(beller: Option<Gebruiker>): (r: Result<Gebruiker>)
    ensures r.Ok? <==> beller.Some?
    ensures r.Err? ==> r.code == Unauthorized
    ensures r.Ok? ==> r.value == beller.value
  {
    if beller.None? then Err(Unauthorized) else Ok(beller.value)
  }

  /** isVerkoper: 401 without a caller, 403 below role 2. */
  function IsVerkoper(beller: Option<Gebruiker>): (r: Result<Gebruiker>)
    ensures r.Ok? <==> beller.Some? && beller.value.rol >= RolVerkoper
    ensures beller.None? ==> r == Err(Unauthorized)
    ensures beller.Some? && r.Err? ==> r.code == Forbidden
  {
    if beller.None? then Err(Unauthorized)
    else if beller.value.rol < RolVerkoper then Err(Forbidden)
    else Ok(beller.value)
  }

  /** isBeheerder: 401 without a caller, 403 below role 3. */
  function IsBeheerder(beller: Option<Gebruiker>): (r: Result<Gebruiker>)
    ensures r.Ok? <==> beller.Some? && beller.value.rol >= RolBeheerder
    ensures beller.None? ==> r == Err(Unauthorized)
    ensures beller.Some? && r.Err? ==> r.code == Forbidden
  {
    if beller.None? then Err(Unauthorized)
    else if beller.value.rol < RolBeheerder then Err(Forbidden)
    else Ok(beller.value)
  }

  /** The checks are nested: an administrator passes the seller check, a seller the user check. */
  lemma RollenZijnGenest(beller: Option<Gebruiker>)
    ensures IsBeheerder(beller).Ok? ==> IsVerkoper(beller).Ok?
    ensures IsVerkoper(beller).Ok? ==> IsGebruiker(beller).Ok?
    ensures IsGebruiker(beller).Err? ==> IsVerkoper(beller) == Err(Unauthorized) && IsBeheerder(beller) == Err(Unauthorized)
  {
  }

  // ---------------------------------------------------------------------
  // isWoningEigenaar
  // ---------------------------------------------------------------------

  /** The integer a number stands for as a primary key; a fraction equals no integer id. */
  function GeheleSleutel(x: real): Option<int>
  {
    if x == x.Floor as real then Some(x.Floor) else None
  }

  /**
    * What `findByPk` makes of a request value. A number is looked up as it
    * is; a string is compared with the INTEGER key under SQLite's numeric
    * affinity, so `'5'`, `'5.0'` and `' 5'` find property 5. Anything else
    * (here a boolean) is neither a number nor a string: Sequelize throws,
    * which the middleware answers with a 500. `Ok(None)` matches no row.
    */
  function SleutelUit(v: Waarde): Result<Option<int>>
  {
    match v
    case Getal(x) => Ok(GeheleSleutel(x))
    case Tekst(t) => Ok(if SqlGetal(t).Some? then GeheleSleutel(SqlGetal(t).value) else None)
    case Bool(_) => Err(ServerError)
    case _ => Ok(None)
  }

  /** The key found is exactly the row whose id the SQL comparison `id = v` accepts. */
  lemma SleutelUitKlopt(v: Waarde, id: int)
    ensures v.Getal? ==> (SleutelUit(v) == Ok(Some(id)) <==> v.getal == id as real)
    ensures v.Tekst? ==> (SleutelUit(v) == Ok(Some(id)) <==> SqlGetal(v.tekst) == Some(id as real))
    ensures v.Bool? <==> SleutelUit(v).Err?
  {
  }

  /** `'5.0'` in the path or the body names property 5, as `5` does. */
  lemma SleutelMetNulFractie(n: nat)
    ensures SleutelUit(Tekst(NatNaarTekst(n) + ".0")) == Ok(Some(n))
    ensures SleutelUit(Tekst(NatNaarTekst(n))) == Ok(Some(n))
  {
    SqlGetalNulFractie(n);
    SqlGetalNaNatNaarTekst(n);
    SleutelUitKlopt(Tekst(NatNaarTekst(n) + ".0"), n);
    SleutelUitKlopt(Tekst(NatNaarTekst(n)), n);
  }

  function WoningId(w: Woningen.Woning): int { w.id }

  /** `req.params.id || req.body.woningId`. */
  function WoningIdUit(paramId: Option<string>, bodyWoningId: Waarde): Waarde
  {
    if Gevuld(paramId) then Tekst(paramId.value) else bodyWoningId
  }

  /**
    * isWoningEigenaar: 401 without a caller; an administrator always passes;
    * otherwise 400 without a property id, 404 for an unknown property and
    * 403 unless the caller is its seller. A passing non-administrator
    * carries the property along.
    */
  function IsWoningEigenaar(beller: Option<Gebruiker>, paramId: Option<string>, bodyWoningId: Waarde,
                            woningen: seq<Woningen.Woning>): (r: Result<Option<Woningen.Woning>>)
    ensures beller.None? ==> r == Err(Unauthorized)
    ensures beller.Some? && beller.value.rol == RolBeheerder ==> r == Ok(None)
    ensures beller.Some? && beller.value.rol != RolBeheerder && !Truthy(WoningIdUit(paramId, bodyWoningId)) ==> r == Err(BadRequest)
    ensures beller.Some? && beller.value.rol != RolBeheerder && Truthy(WoningIdUit(paramId, bodyWoningId)) ==>
      (r == Err(ServerError) <==> SleutelUit(WoningIdUit(paramId, bodyWoningId)).Err?)
    ensures r.Err? ==> r.code in {Unauthorized, BadRequest, NotFound, Forbidden, ServerError}
    ensures r.Ok? && r.value.Some? ==>
      && beller.value.rol != RolBeheerder
      && r.value.value in woningen && r.value.value.verkoperId == beller.value.id
      && SleutelUit(WoningIdUit(paramId, bodyWoningId)) == Ok(Some(r.value.value.id as int))
    ensures r.Ok? ==> beller.Some? && (beller.value.rol == RolBeheerder || r.value.Some?)
  {
    if beller.None? then Err(Unauthorized)
    else if beller.value.rol == RolBeheerder then Ok(None)
    else
      var v := WoningIdUit(paramId, bodyWoningId);
      if !Truthy(v) then Err(BadRequest)
      else match SleutelUit(v)
        case Err(c) => Err(c)
        case Ok(None) => Err(NotFound)
        case Ok(Some(id)) =>
          match PositieVan(woningen, WoningId, id)
          case None => Err(NotFound)
          case Some(p) =>
            if woningen[p].verkoperId != beller.value.id then
              Err(Forbidden)
            else Ok(Some(woningen[p]))
  }

  /** With unique ids, the seller of the property the request names always passes. */
  lemma EigenaarMagAltijd(beller: Gebruiker, paramId: Option<string>, bodyWoningId: Waarde, woningen: seq<Woningen.Woning>, i: int)
    requires WoningService.UniekeIds(woningen)
    requires Truthy(WoningIdUit(paramId, bodyWoningId))
    requires 0 <= i < |woningen| && SleutelUit(WoningIdUit(paramId, bodyWoningId)) == Ok(Some(woningen[i].id as int))
    requires woningen[i].verkoperId == beller.id
    ensures IsWoningEigenaar(Some(beller), paramId, bodyWoningId, woningen) == (if beller.rol == RolBeheerder then Ok(None) else Ok(Some(woningen[i])))
  {
    assert UniekOp(woningen, WoningId) by {
      forall a, b | 0 <= a < b < |woningen| ensures WoningId(woningen[a]) != WoningId(woningen[b]) {
      }
    }
    PositieIsEnige(woningen, WoningId, woningen[i].id, i);
  }

  /** A boolean `woningId` in the body makes `findByPk` throw: a 500 for every caller who is not an administrator. */
  lemma BooleanIdGeeftServerFout(beller: Gebruiker, woningen: seq<Woningen.Woning>)
    requires beller.rol != RolBeheerder
    ensures IsWoningEigenaar(Some(beller), None, Bool(true), woningen) == Err(ServerError)
  {
  }

  // ---------------------------------------------------------------------
  // The user controller
  // ---------------------------------------------------------------------

  /** `req.gebruiker.id == id || req.gebruiker.rol === 3`. */
  predicate ZelfOfBeheerder(beller: Gebruiker, id: int)
  {
    beller.id == id || beller.rol == RolBeheerder
  }

  /** GET /api/gebruikers/:id: 403 for someone else's profile unless administrator, then the profile or 404. */
  function GetGebruikerById(beller: Gebruiker, tabel: Tabel, id: int): (r: Result<PubliekeGebruiker>)
    ensures !ZelfOfBeheerder(beller, id) <==> r == Err(Forbidden)
    ensures r.Ok? ==> exists g :: g in tabel && g.id == id && r.value == Publiek(g)
    ensures ZelfOfBeheerder(beller, id) && r.Err? ==> r.code == NotFound
  {
    if !ZelfOfBeheerder(beller, id) then Err(Forbidden)
    else match Gebruikers.GetGebruikerById(tabel, id)
      case Err(c) => Err(c)
      case Ok(g) => Ok(Publiek(g))
  }

  /** The update body after the controller's rule: a user who is not an administrator cannot pass a truthy role for themselves. */
  function ZonderEigenRol(beller: Gebruiker, id: int, z: Wijziging): (r: Wijziging)
    ensures beller.id == id && beller.rol != RolBeheerder && ActiefGeheel(z.rol) ==> r == z.(rol := None)
    ensures !(beller.id == id && beller.rol != RolBeheerder && ActiefGeheel(z.rol)) ==> r == z
  {
    if beller.id == id && beller.rol != RolBeheerder && ActiefGeheel(z.rol) then z.(rol := None) else z
  }

  /** PUT /api/gebruikers/:id. */
  function UpdateGebruiker(beller: Gebruiker, tabel: Tabel, id: int, z: Wijziging, nu: int,
                           hash: string -> string, isEmail: string -> bool): (r: Result<(PubliekeGebruiker, Tabel)>)
    ensures !ZelfOfBeheerder(beller, id) <==> r == Err(Forbidden)
    ensures ZelfOfBeheerder(beller, id) && r.Err? ==> r.code in {NotFound, BadRequest}
    ensures r.Ok? ==> var p := PositieVan(tabel, Id, id);
      && p.Some? && r.value.0.id == id
      && |r.value.1| == |tabel| && r.value.0 == Publiek(r.value.1[p.value])
      && (forall i :: 0 <= i < |tabel| && i != p.value ==> r.value.1[i] == tabel[i])
    ensures r.Ok? && beller.rol != RolBeheerder ==> beller.id == id && r.value.0.rol == tabel[PositieVan(tabel, Id, id).value].rol
  {
    if !ZelfOfBeheerder(beller, id) then Err(Forbidden)
    else match Gebruikers.UpdateGebruiker(tabel, id, ZonderEigenRol(beller, id, z), nu, hash, isEmail)
      case Err(c) => Err(c)
      case Ok((g, t)) => Ok((Publiek(g), t))
  }

  /** DELETE /api/gebruikers/:id. */
  function VerwijderGebruiker(beller: Gebruiker, tabel: Tabel, id: int): (r: Result<Tabel>)
    ensures !ZelfOfBeheerder(beller, id) <==> r == Err(Forbidden)
    ensures ZelfOfBeheerder(beller, id) ==> r == Gebruikers.VerwijderGebruiker(tabel, id)
  {
    if !ZelfOfBeheerder(beller, id) then Err(Forbidden) else Gebruikers.VerwijderGebruiker(tabel, id)
  }

  /** GET /api/gebruikers: `rol` through parseInt, page 1 and 10 rows unless the query says otherwise. */
  function GetGebruikers(tabel: Tabel, q: WoningController.Query): (r: Result<Pagina<PubliekeGebruiker>>)
    ensures r.Err? <==>
      WoningController.GeheelOfStandaard(q, "pagina", StandaardPagina).None? || WoningController.GeheelOfStandaard(q, "aantalPerPagina", StandaardAantalPerPagina).None?
    ensures r.Ok? ==> forall i :: 0 <= i < |r.value.rijen| ==>
      Gebruikers.PubliekVanGevonden(tabel, WoningController.GeheelFilter(q, "rol"), WoningController.Param(q, "zoekterm"), r.value.rijen[i])
    ensures r.Ok? && !Gevuld(WoningController.Param(q, "pagina")) && !Gevuld(WoningController.Param(q, "aantalPerPagina")) ==>
      r.value.metadata.pagina == 1 && r.value.metadata.aantalPerPagina == 10 && |r.value.rijen| <= 10
  {
    Gebruikers.GetGebruikers(tabel, WoningController.GeheelFilter(q, "rol"), WoningController.Param(q, "zoekterm"),
      WoningController.GeheelOfStandaard(q, "pagina", StandaardPagina),
      WoningController.GeheelOfStandaard(q, "aantalPerPagina", StandaardAantalPerPagina))
  }
}

=== FILE: validatie.dfy ===
/**
  * The helper validators of the API: e-mail address, Belgian postcode and
  * phone number, password strength, price bounds, allowed and required
  * invoer keys, and the past/future date tests. Each regular expression is
  * given two readings: the matcher that walks the string, and the shape the
  * expression describes; a lemma shows that the two agree.
  */
module Validatie {
  import opened Basis

  // ---------------------------------------------------------------------
  // E-mail: /^[^\s@]+@[^\s@]+\.[^\s@]+$/
  // ---------------------------------------------------------------------

  /** A character of the class `[^\s@]`. */
  predicate VrijTeken(c: char)
  {
    !IsWitruimte(c) && c != '@'
  }

  predicate Vrij(s: string)
  {
    forall i :: 0 <= i < |s| ==> VrijTeken(s[i])
  }

  /** The index of the first occurrence of `c`, as `indexOf` returns it. */
  function EerstePositie(s: string, c: char): (r: Option<nat>)
    ensures r.Some? ==> r.value < |s| && s[r.value] == c && forall i :: 0 <= i < r.value ==> s[i] != c
    ensures r.None? ==> forall i :: 0 <= i < |s| ==> s[i] != c
  {
    if s == [] then None
    else if s[0] == c then Some(0)
    else match EerstePositie(s[1..], c)
      case None => None
      case Some(i) => Some(i + 1)
  }

  /** The domain part holds a dot with at least one character on either side. */
  predicate PuntBinnenin(r: string)
  {
    exists k :: 0 < k < |r| - 1 && r[k] == '.'
  }

  /** The matcher: split at the first `@`, then check both halves. */
  predicate IsGeldigEmail(email: Option<string>)
  {
    && Gevuld(email)
    && var s := email.value;
       var at := EerstePositie(s, '@');
       && at.Some? && at.value > 0
       && Vrij(s[..at.value]) && Vrij(s[at.value + 1..])
       && PuntBinnenin(s[at.value + 1..])
  }

  /** The shape the expression describes: `L@D.T`, each part non-empty and free of whitespace and `@`. */
  ghost predicate EmailDelen(s: string, l: string, d: string, t: string)
  {
    |l| > 0 && |d| > 0 && |t| > 0 && Vrij(l) && Vrij(d) && Vrij(t) && s == l + "@" + d + "." + t
  }

  ghost predicate EmailVorm(s: string)
  {
    exists l, d, t :: EmailDelen(s, l, d, t)
  }

  lemma EmailMatcherVolgtVorm(s: string)
    requires IsGeldigEmail(Some(s))
    ensures EmailVorm(s)
  {
    var a := EerstePositie(s, '@').value;
    var r := s[a + 1..];
    var k :| 0 < k < |r| - 1 && r[k] == '.';
    var l, d, t := s[..a], r[..k], r[k + 1..];
    VrijDeel(r, 0, k);
    VrijDeel(r, k + 1, |r|);
    assert r == d + "." + t by {
      assert r == r[..k] + [r[k]] + r[k + 1..];
    }
    assert s == l + "@" + r by {
      assert s == s[..a] + [s[a]] + s[a + 1..];
    }
    Samenvoegen(l + "@", d + ".", t);
    Samenvoegen(l + "@", d, ".");
    assert EmailDelen(s, l, d, t);
  }

  lemma VrijDeel(s: string, i: int, j: int)
    requires Vrij(s) && 0 <= i <= j <= |s|
    ensures Vrij(s[i..j])
  {
    forall x | 0 <= x < j - i ensures VrijTeken(s[i..j][x]) {
      assert s[i..j][x] == s[i + x];
    }
  }

  lemma EmailVormVolgtMatcher(s: string, l: string, d: string, t: string)
    requires EmailDelen(s, l, d, t)
    ensures IsGeldigEmail(Some(s))
  {
    var r := d + "." + t;
    assert s == l + "@" + r;
    assert s[|l|] == '@';
    forall i | 0 <= i < |l| ensures s[i] != '@' {
      assert s[i] == l[i];
    }
    var at := EerstePositie(s, '@');
    assert at == Some(|l|);
    assert s[..|l|] == l && s[|l| + 1..] == r;
    assert r[|d|] == '.';
    forall i | 0 <= i < |r| ensures VrijTeken(r[i]) {
      if i < |d| {
        assert r[i] == d[i];
      } else if i > |d| {
        assert r[i] == t[i - |d| - 1];
      }
    }
  }

  /** The e-mail matcher accepts exactly the strings of the form `L@D.T`. */
  lemma EmailKlopt(s: string)
    ensures IsGeldigEmail(Some(s)) <==> EmailVorm(s)
  {
    if IsGeldigEmail(Some(s)) {
      EmailMatcherVolgtVorm(s);
    }
    if EmailVorm(s) {
      var l, d, t :| EmailDelen(s, l, d, t);
      EmailVormVolgtMatcher(s, l, d, t);
    }
  }

  lemma EmailVoorbeelden()
    ensures IsGeldigEmail(Some("jan@bunda.be"))
    ensures !IsGeldigEmail(Some("jan@bunda"))
    ensures !IsGeldigEmail(None) && !IsGeldigEmail(Some(""))
  {
    EmailMetPunt();
    EmailZonderPunt();
  }

  /** A local part, an `@`, and a domain with a dot pass the matcher. */
  lemma EmailMetPunt()
    ensures IsGeldigEmail(Some("jan@bunda.be"))
  {
    assert "jan" + "@" + "bunda" + "." + "be" == "jan@bunda.be";
    assert EmailDelen("jan@bunda.be", "jan", "bunda", "be");
    EmailVormVolgtMatcher("jan@bunda.be", "jan", "bunda", "be");
  }

  /** A domain without a dot fails the matcher. */
  lemma EmailZonderPunt()
    ensures !IsGeldigEmail(Some("jan@bunda"))
  {
    var s := "jan@bunda";
    var r := "bunda";
    assert EerstePositie(s, '@') == Some(3) by {
      assert s[0] != '@' && s[1] != '@' && s[2] != '@' && s[3] == '@';
    }
    assert s[4..] == r;
    assert !PuntBinnenin(r) by {
      forall k | 0 < k < |r| - 1 ensures r[k] != '.' {
      }
    }
  }

  // ---------------------------------------------------------------------
  // Digit runs: [0-9]{lo,hi}$
  // ---------------------------------------------------------------------

  /** The matcher for `[0-9]{lo,hi}$`: consume digits one by one, between `lo` and `hi` of them. */
  predicate CijfersTussen(s: string, lo: nat, hi: nat)
    decreases |s|
  {
    if s == [] then lo == 0
    else hi > 0 && IsCijfer(s[0]) && CijfersTussen(s[1..], if lo == 0 then 0 else lo - 1, hi - 1)
  }

  lemma {:induction false} CijfersTussenKlopt(s: string, lo: nat, hi: nat)
    ensures CijfersTussen(s, lo, hi) <==> lo <= |s| <= hi && AlleCijfers(s)
    decreases |s|
  {
    if s != [] && hi > 0 {
      CijfersTussenKlopt(s[1..], if lo == 0 then 0 else lo - 1, hi - 1);
      if AlleCijfers(s) {
        assert AlleCijfers(s[1..]) by {
          forall i | 0 <= i < |s[1..]| ensures IsCijfer(s[1..][i]) {
            assert s[1..][i] == s[i + 1];
          }
        }
      }
      if IsCijfer(s[0]) && AlleCijfers(s[1..]) {
        forall i | 0 <= i < |s| ensures IsCijfer(s[i]) {
          if i > 0 {
            assert s[i] == s[1..][i - 1];
          }
        }
      }
    }
  }

  /** `/^[0-9]{4}$/` after the falsy check. */
  predicate IsGeldigeBelgischePostcode(postcode: Option<string>)
  {
    Gevuld(postcode) && CijfersTussen(postcode.value, 4, 4)
  }

  /** A Belgian postcode is exactly four ASCII digits; an absent or empty value is rejected. */
  lemma PostcodeIsVierCijfers(postcode: Option<string>)
    ensures IsGeldigeBelgischePostcode(postcode) <==> postcode.Some? && |postcode.value| == 4 && AlleCijfers(postcode.value)
  {
    if postcode.Some? {
      CijfersTussenKlopt(postcode.value, 4, 4);
    }
  }

  // ---------------------------------------------------------------------
  // Phone numbers
  // ---------------------------------------------------------------------

  /** The class `[\s()\-]` the phone validator strips. */
  predicate IsScheiding(c: char)
  {
    IsWitruimte(c) || c == '(' || c == ')' || c == '-'
  }

  /** `replace(/[\s()\-]/g, '')`. */
  function Schoon(s: string): (r: string)
    ensures forall i :: 0 <= i < |r| ==> !IsScheiding(r[i])
    ensures |r| <= |s|
  {
    if s == [] then []
    else if IsScheiding(s[0]) then Schoon(s[1..])
    else [s[0]] + Schoon(s[1..])
  }

  lemma {:induction false} SchoonVerdeelt(a: string, b: string)
    ensures Schoon(a + b) == Schoon(a) + Schoon(b)
    decreases |a|
  {
    if a != [] {
      assert (a + b)[1..] == a[1..] + b;
      SchoonVerdeelt(a[1..], b);
    } else {
      assert a + b == b;
    }
  }

  /** `^(?:\+32|0)[0-9]{8,9}$` on the cleaned number. */
  predicate IsGeldigBelgischTelefoonnummer(telefoon: Option<string>)
  {
    && Gevuld(telefoon)
    && var c := Schoon(telefoon.value);
       || (BegintMet(c, "+32") && CijfersTussen(c[3..], 8, 9))
       || (BegintMet(c, "0") && CijfersTussen(c[1..], 8, 9))
  }

  /** The cleaned number is `+32` or `0` followed by eight or nine digits. */
  lemma TelefoonVorm(s: string)
    ensures var c := Schoon(s);
      IsGeldigBelgischTelefoonnummer(Some(s))
      <==> (|s| > 0
            && ((BegintMet(c, "+32") && 11 <= |c| <= 12 && AlleCijfers(c[3..]))
                || (BegintMet(c, "0") && 9 <= |c| <= 10 && AlleCijfers(c[1..]))))
  {
    var c := Schoon(s);
    if |c| >= 3 {
      CijfersTussenKlopt(c[3..], 8, 9);
    }
    if |c| >= 1 {
      CijfersTussenKlopt(c[1..], 8, 9);
    }
  }

  /** Spaces, brackets and dashes anywhere in the number never change the verdict. */
  lemma ScheidingstekenMaaktNietUit(a: string, b: string, x: char)
    requires IsScheiding(x)
    ensures IsGeldigBelgischTelefoonnummer(Some(a + [x] + b)) == IsGeldigBelgischTelefoonnummer(Some(a + b))
  {
    SchoonVerdeelt(a + [x], b);
    SchoonVerdeelt(a, [x]);
    SchoonVerdeelt(a, b);
    assert Schoon([x]) == [];
    hide Schoon;
    assert Schoon(a + [x] + b) == Schoon(a + b);
    ZelfdeSchoon(a + [x] + b, a + b);
  }

  /** The verdict depends only on the cleaned number, when both numbers are present. */
  lemma ZelfdeSchoon(s: string, t: string)
    requires Schoon(s) == Schoon(t) && |s| > 0
    ensures IsGeldigBelgischTelefoonnummer(Some(s)) == IsGeldigBelgischTelefoonnummer(Some(t))
  {
    if t == [] {
      assert Schoon(t) == [];
    }
  }

  lemma {:induction false} SchoonZonderScheiding(s: string)
    requires forall i :: 0 <= i < |s| ==> !IsScheiding(s[i])
    ensures Schoon(s) == s
    decreases |s|
  {
    if s != [] {
      SchoonZonderScheiding(s[1..]);
      assert s == [s[0]] + s[1..];
    }
  }

  /** Nine digits after `0` or after `+32` make a valid number, also with a space after the zone prefix. */
  lemma MobielNummer(n: string)
    requires |n| == 9 && AlleCijfers(n)
    ensures IsGeldigBelgischTelefoonnummer(Some(['0'] + n))
    ensures IsGeldigBelgischTelefoonnummer(Some("+32" + n))
    ensures IsGeldigBelgischTelefoonnummer(Some(['0'] + n[..3] + [' '] + n[3..]))
  {
    var nationaal := ['0'] + n;
    var internationaal := "+32" + n;
    SchoonZonderScheiding(nationaal);
    SchoonZonderScheiding(internationaal);
    assert nationaal[1..] == n && internationaal[3..] == n;
    CijfersTussenKlopt(n, 8, 9);
    ScheidingstekenMaaktNietUit(['0'] + n[..3], n[3..], ' ');
    assert ['0'] + n[..3] + n[3..] == nationaal;
  }

  // ---------------------------------------------------------------------
  // Dates
  // ---------------------------------------------------------------------

  /**
    * `new Date(datum) < new Date()`. The parsed date is a millisecond
    * timestamp, `None` for an Invalid Date (every comparison with it is
    * false); the clock reading `nu` is a parameter.
    */
  predicate IsInVerleden(datum: Option<int>, nu: int)
  {
    datum.Some? && datum.value < nu
  }

  predicate IsInToekomst(datum: Option<int>, nu: int)
  {
    datum.Some? && datum.value > nu
  }

  /** A date is never both past and future, and the present moment is neither. */
  lemma VerledenEnToekomstSluitenElkaarUit(datum: Option<int>, nu: int)
    ensures !(IsInVerleden(datum, nu) && IsInToekomst(datum, nu))
    ensures datum == Some(nu) ==> !IsInVerleden(datum, nu) && !IsInToekomst(datum, nu)
    ensures datum.Some? && datum.value != nu ==> IsInVerleden(datum, nu) || IsInToekomst(datum, nu)
  {
  }

  // ---------------------------------------------------------------------
  // Password strength
  // ---------------------------------------------------------------------

  const FoutVerplicht: string := "Wachtwoord is verplicht"
  const FoutLengte: string := "Wachtwoord moet minimaal 8 tekens bevatten"
  const FoutHoofdletter: string := "Wachtwoord moet minimaal één hoofdletter bevatten"
  const FoutKleineLetter: string := "Wachtwoord moet minimaal één kleine letter bevatten"
  const FoutCijfer: string := "Wachtwoord moet minimaal één cijfer bevatten"
  const FoutSpeciaal: string := "Wachtwoord moet minimaal één speciaal teken bevatten"

  /** The five checks' messages in the order the validator runs them. */
  const Controles: seq<string> := [FoutLengte, FoutHoofdletter, FoutKleineLetter, FoutCijfer, FoutSpeciaal]

  predicate IsSpeciaal(c: char)
  {
    !IsHoofdletter(c) && !IsKleineLetter(c) && !IsCijfer(c)
  }

  predicate HeeftTeken(w: string, p: char -> bool)
  {
    exists i :: 0 <= i < |w| && p(w[i])
  }

  /** Whether check `i` (0 = `length` in UTF-16 units, 1 = upper, 2 = lower, 3 = digit, 4 = special) fails on `w`. */
  predicate Faalt(w: string, i: nat)
  {
    if i == 0 then JsLengte(w) < 8
    else if i == 1 then !HeeftTeken(w, IsHoofdletter)
    else if i == 2 then !HeeftTeken(w, IsKleineLetter)
    else if i == 3 then !HeeftTeken(w, IsCijfer)
    else !HeeftTeken(w, IsSpeciaal)
  }

  datatype Sterkte = Sterkte(geldig: bool, fouten: seq<string>)

  /** The messages of the failing checks from `i` on, each pushed in turn. */
  function Verzamel(w: string, i: nat): seq<string>
    requires i <= 5
    decreases 5 - i
  {
    if i == 5 then [] else (if Faalt(w, i) then [Controles[i]] else []) + Verzamel(w, i + 1)
  }

  lemma {:induction false} VerzamelIsDeelrij(w: string, i: nat)
    requires i <= 5
    ensures Deelrij(Verzamel(w, i), Controles[i..])
    decreases 5 - i
  {
    if i < 5 {
      VerzamelIsDeelrij(w, i + 1);
      var b := Controles[i..];
      assert b != [] && b[0] == Controles[i] && b[1..] == Controles[i + 1..];
      if Faalt(w, i) {
        var a := Verzamel(w, i);
        assert a == [Controles[i]] + Verzamel(w, i + 1);
        assert a != [] && a[0] == b[0] && a[1..] == Verzamel(w, i + 1);
      } else {
        assert Verzamel(w, i) == Verzamel(w, i + 1);
        assert Deelrij(Verzamel(w, i + 1), b[1..]);
      }
    }
  }

  lemma {:induction false} VerzamelBevat(w: string, i: nat, j: nat)
    requires i <= 5 && j < 5
    ensures Controles[j] in Verzamel(w, i) <==> i <= j && Faalt(w, j)
    decreases 5 - i
  {
    if i < 5 {
      VerzamelBevat(w, i + 1, j);
      assert Controles[i] == Controles[j] ==> i == j;
    }
  }

  function ValideerWachtwoordSterkte(wachtwoord: Option<string>): (r: Sterkte)
    ensures !Gevuld(wachtwoord) ==> r == Sterkte(false, [FoutVerplicht])
    ensures r.geldig <==> r.fouten == []
    ensures |r.fouten| <= 5
  {
    if !Gevuld(wachtwoord) then Sterkte(false, [FoutVerplicht])
    else
      var fouten := Verzamel(wachtwoord.value, 0);
      VerzamelLengte(wachtwoord.value, 0);
      Sterkte(|fouten| == 0, fouten)
  }

  lemma {:induction false} VerzamelLengte(w: string, i: nat)
    requires i <= 5
    ensures |Verzamel(w, i)| <= 5 - i
    decreases 5 - i
  {
    if i < 5 {
      VerzamelLengte(w, i + 1);
    }
  }

  /**
    * For a non-empty password the errors are the messages of exactly the
    * failing checks, in the fixed order length, upper, lower, digit, special.
    */
  lemma WachtwoordFoutenZijnDeFalendeControles(w: string)
    requires |w| > 0
    ensures var r := ValideerWachtwoordSterkte(Some(w));
      && Deelrij(r.fouten, Controles)
      && (forall j :: 0 <= j < 5 ==> (Controles[j] in r.fouten <==> Faalt(w, j)))
      && (r.geldig <==> forall j :: 0 <= j < 5 ==> !Faalt(w, j))
  {
    var r := ValideerWachtwoordSterkte(Some(w));
    assert r.fouten == Verzamel(w, 0);
    hide ValideerWachtwoordSterkte, Verzamel;
    VerzamelIsDeelrij(w, 0);
    forall j | 0 <= j < 5 ensures Controles[j] in Verzamel(w, 0) <==> Faalt(w, j) {
      VerzamelBevat(w, 0, j);
    }
    if !r.geldig {
      var f := Verzamel(w, 0);
      assert f[0] in f;
      assert f[0] in Controles by {
        DeelrijBevat(f, Controles, f[0]);
      }
      var j :| 0 <= j < 5 && Controles[j] == f[0];
      assert Faalt(w, j);
    }
  }

  lemma {:induction false} DeelrijBevat<T>(a: seq<T>, b: seq<T>, x: T)
    requires Deelrij(a, b) && x in a
    ensures x in b
    decreases |b|
  {
    if b != [] {
      if a != [] && a[0] == b[0] && Deelrij(a[1..], b[1..]) {
        if x != a[0] {
          assert x in a[1..];
          DeelrijBevat(a[1..], b[1..], x);
        }
      } else {
        DeelrijBevat(a, b[1..], x);
      }
    }
  }

  /** A short lower-case password fails every check but the lower-case one. */
  lemma WachtwoordVoorbeeld()
    ensures ValideerWachtwoordSterkte(Some("abc")).fouten == [FoutLengte, FoutHoofdletter, FoutCijfer, FoutSpeciaal]
  {
    var a := "abc";
    assert HeeftTeken(a, IsKleineLetter) by { assert IsKleineLetter(a[0]); }
    assert !HeeftTeken(a, IsHoofdletter) && !HeeftTeken(a, IsCijfer) && !HeeftTeken(a, IsSpeciaal) by {
      forall i | 0 <= i < |a| ensures IsKleineLetter(a[i]) { }
    }
  }

  // ---------------------------------------------------------------------
  // Prices
  // ---------------------------------------------------------------------

  const MaxSafeInteger: real := 9007199254740991.0

  /**
    * The number a price value stands for: a string goes through `parseFloat`
    * (an oracle, `None` for NaN); any other value through JavaScript's
    * number conversion, which makes `null` 0 and a boolean 0 or 1.
    */
  function AlsGetal(prijs: Waarde, parseFloat: string -> Option<real>): Option<real>
  {
    match prijs
    case Tekst(s) => parseFloat(s)
    case Getal(x) => Some(x)
    case Null => Some(0.0)
    case Bool(b) => Some(if b then 1.0 else 0.0)
    case _ => None
  }

  /** isGeldigePrijs with the defaults 0 and `Number.MAX_SAFE_INTEGER` for an absent bound. */
  function IsGeldigePrijs(prijs: Waarde, min: Option<real>, max: Option<real>, parseFloat: string -> Option<real>): (r: bool)
    ensures r ==> AlsGetal(prijs, parseFloat).Some?
    ensures r ==> (min.None? ==> AlsGetal(prijs, parseFloat).value >= 0.0)
  {
    var lo := if min.None? then 0.0 else min.value;
    var hi := if max.None? then MaxSafeInteger else max.value;
    match AlsGetal(prijs, parseFloat)
    case None => false
    case Some(p) => lo <= p <= hi
  }

  /** A numeric price is valid exactly inside the bounds; NaN and `undefined` never are, and `null` counts as 0. */
  lemma PrijsBinnenGrenzen(x: real, lo: real, hi: real, parseFloat: string -> Option<real>)
    ensures IsGeldigePrijs(Getal(x), Some(lo), Some(hi), parseFloat) <==> lo <= x <= hi
    ensures !IsGeldigePrijs(NaN, Some(lo), Some(hi), parseFloat)
    ensures !IsGeldigePrijs(Undefined, Some(lo), Some(hi), parseFloat)
    ensures IsGeldigePrijs(Null, None, None, parseFloat)
    ensures IsGeldigePrijs(Getal(x), None, None, parseFloat) <==> 0.0 <= x <= MaxSafeInteger
  {
  }

  // ---------------------------------------------------------------------
  // Object keys
  // ---------------------------------------------------------------------

  /** A request body or other argument: a plain invoer, or anything falsy or not an invoer. */
  datatype Invoer = Obj(velden: map<string, Waarde>) | GeenObject

  /** A key present with a value other than `undefined` and `null`. */
  predicate Aanwezig(velden: map<string, Waarde>, k: string)
  {
    k in velden && velden[k] != Undefined && velden[k] != Null
  }

  /** Walks the invoer's keys and rejects the first one that is not allowed. */
  method HeeftAlleenToegestaneVelden(invoer: Invoer, toegestaneVelden: seq<string>) returns (r: bool)
    ensures r <==> invoer.Obj? && forall k :: k in invoer.velden ==> k in toegestaneVelden
  {
    if invoer.GeenObject? {
      return false;
    }
    var rest := invoer.velden.Keys;
    while rest != {}
      invariant rest <= invoer.velden.Keys
      invariant forall k :: k in invoer.velden && k !in rest ==> k in toegestaneVelden
      decreases rest
    {
      var k :| k in rest;
      if k !in toegestaneVelden {
        return false;
      }
      rest := rest - {k};
    }
    return true;
  }

  /** Walks the required keys and rejects the first one that is missing, `undefined` or `null`. */
  method HeeftVereisteVelden(invoer: Invoer, vereisteVelden: seq<string>) returns (r: bool)
    ensures r <==> invoer.Obj? && forall i :: 0 <= i < |vereisteVelden| ==> Aanwezig(invoer.velden, vereisteVelden[i])
  {
    if invoer.GeenObject? {
      return false;
    }
    var i := 0;
    while i < |vereisteVelden|
      invariant 0 <= i <= |vereisteVelden|
      invariant forall j :: 0 <= j < i ==> Aanwezig(invoer.velden, vereisteVelden[j])
    {
      if !Aanwezig(invoer.velden, vereisteVelden[i]) {
        return false;
      }
      i := i + 1;
    }
    return true;
  }

  /** An invoer that passes both checks against the same list has exactly those keys. */
  lemma ToegestaanEnVereistIsPrecies(velden: map<string, Waarde>, lijst: seq<string>)
    requires forall k :: k in velden ==> k in lijst
    requires forall i :: 0 <= i < |lijst| ==> Aanwezig(velden, lijst[i])
    ensures velden.Keys == set k | k in lijst
  {
    forall k | k in lijst ensures k in velden {
      var i :| 0 <= i < |lijst| && lijst[i] == k;
      assert Aanwezig(velden, lijst[i]);
    }
  }
}

=== FILE: voorwaarden.dfy ===
/**
  * The fragment of SQL WHERE clauses the services build through the ORM,
  * evaluated the way SQLite evaluates them on one row. A row maps column
  * names to values, `Leeg` standing for NULL. A comparison with NULL is
  * unknown, and unknown rows are not selected; the clauses here use only
  * AND, OR, IS NULL and IS NOT NULL, so reading "unknown" as false is exact. A clause
  * that names a column the table lacks makes the statement fail to prepare,
  * whatever the rows are: the service then fails with a server error.
  */
module Voorwaarden {
  import opened Basis
  import opened Sorteren

  /** One row of a table: column name to SQL value. */
  type Rij = map<string, Sleutel>

  datatype Voorwaarde =
    | Gelijk(kolom: string, waarde: Sleutel)          // kolom = waarde
    | NietNull(kolom: string)                         // kolom IS NOT NULL
    | IsNull(kolom: string)                           // kolom IS NULL
    | Minstens(kolom: string, grens: Sleutel)         // kolom >= grens
    | Hoogstens(kolom: string, grens: Sleutel)        // kolom <= grens
    | Tussen(kolom: string, van: Sleutel, tot: Sleutel) // kolom BETWEEN van AND tot
    | Lijkt(kolom: string, deel: string)              // kolom LIKE '%deel%'
    | Of(opties: seq<Voorwaarde>)                     // ( ... OR ... )

  /** The value a row holds in a column; a column the row lacks reads as NULL. */
  function Waarde(rij: Rij, kolom: string): Sleutel
  {
    if kolom in rij then rij[kolom] else Leeg
  }

  predicate Geldt(v: Voorwaarde, rij: Rij)
    decreases v
  {
    match v
    case Gelijk(k, w) => w != Leeg && Waarde(rij, k) == w
    case NietNull(k) => Waarde(rij, k) != Leeg
    case IsNull(k) => Waarde(rij, k) == Leeg
    case Minstens(k, g) => Waarde(rij, k) != Leeg && g != Leeg && SleutelLe(g, Waarde(rij, k))
    case Hoogstens(k, g) => Waarde(rij, k) != Leeg && g != Leeg && SleutelLe(Waarde(rij, k), g)
    case Tussen(k, a, b) =>
      Waarde(rij, k) != Leeg && a != Leeg && b != Leeg && SleutelLe(a, Waarde(rij, k)) && SleutelLe(Waarde(rij, k), b)
    case Lijkt(k, d) => Waarde(rij, k).Txt? && LijktOp(Waarde(rij, k).s, d)
    case Of(os) => exists i :: 0 <= i < |os| && Geldt(os[i], rij)
  }

  /** The conjunction of a list of conditions, as the ORM joins the keys of a where object. */
  predicate GeldtAlle(vs: seq<Voorwaarde>, rij: Rij)
  {
    forall i :: 0 <= i < |vs| ==> Geldt(vs[i], rij)
  }

  lemma GeldtAlleSamen(a: seq<Voorwaarde>, b: seq<Voorwaarde>, rij: Rij)
    ensures GeldtAlle(a + b, rij) <==> GeldtAlle(a, rij) && GeldtAlle(b, rij)
  {
    if GeldtAlle(a, rij) && GeldtAlle(b, rij) {
      forall i | 0 <= i < |a + b| ensures Geldt((a + b)[i], rij) {
        if i >= |a| {
          assert (a + b)[i] == b[i - |a|];
        }
      }
    }
    if GeldtAlle(a + b, rij) {
      forall i | 0 <= i < |b| ensures Geldt(b[i], rij) {
        assert (a + b)[|a| + i] == b[i];
      }
      forall i | 0 <= i < |a| ensures Geldt(a[i], rij) {
        assert (a + b)[i] == a[i];
      }
    }
  }

  /** Every column the condition names belongs to the table. */
  predicate Bekend(v: Voorwaarde, kolommen: set<string>)
    decreases v
  {
    match v
    case Of(os) => forall i :: 0 <= i < |os| ==> Bekend(os[i], kolommen)
    case _ => v.kolom in kolommen
  }

  predicate AllesBekend(vs: seq<Voorwaarde>, kolommen: set<string>)
  {
    forall i :: 0 <= i < |vs| ==> Bekend(vs[i], kolommen)
  }

  /**
    * `SELECT ... WHERE vs` on a table whose rows are `tabel`, read through
    * `alsRij`: the matching rows in table order, or a server error when a
    * condition names an unknown column.
    */
  function Selecteer<T>(tabel: seq<T>, alsRij: T -> Rij, kolommen: set<string>, vs: seq<Voorwaarde>): (r: Result<seq<T>>)
    ensures r.Ok? <==> AllesBekend(vs, kolommen)
    ensures r.Err? ==> r.code == ServerError
    ensures r.Ok? ==> Deelrij(r.value, tabel)
    ensures r.Ok? ==> forall i :: 0 <= i < |r.value| ==> GeldtAlle(vs, alsRij(r.value[i]))
    ensures r.Ok? ==> forall i :: 0 <= i < |tabel| && GeldtAlle(vs, alsRij(tabel[i])) ==> tabel[i] in r.value
  {
    if !AllesBekend(vs, kolommen) then Err(ServerError)
    else Ok(Filter(tabel, Voldoet(vs, alsRij)))
  }

  /** The test the database applies to each row. */
  function Voldoet<T>(vs: seq<Voorwaarde>, alsRij: T -> Rij): T -> bool
  {
    x => GeldtAlle(vs, alsRij(x))
  }

  /** A selection is the table filtered by any predicate that agrees with the conditions on every row. */
  lemma SelecteerIsFilter<T>(tabel: seq<T>, alsRij: T -> Rij, kolommen: set<string>, vs: seq<Voorwaarde>, p: T -> bool)
    requires AllesBekend(vs, kolommen)
    requires forall i :: 0 <= i < |tabel| ==> p(tabel[i]) == GeldtAlle(vs, alsRij(tabel[i]))
    ensures Selecteer(tabel, alsRij, kolommen, vs) == Ok(Filter(tabel, p))
  {
    FilterZelfdeKeuze(tabel, Voldoet(vs, alsRij), p);
  }

  /** A NULL column satisfies no condition on it, IS NOT NULL included. */
  lemma NullVoldoetAanGeenVergelijking(rij: Rij, kolom: string, w: Sleutel)
    requires Waarde(rij, kolom) == Leeg
    ensures !Geldt(Gelijk(kolom, w), rij) && !Geldt(NietNull(kolom), rij)
    ensures !Geldt(Minstens(kolom, w), rij) && !Geldt(Hoogstens(kolom, w), rij)
    ensures !Geldt(Tussen(kolom, w, w), rij) && !Geldt(Lijkt(kolom, ""), rij)
  {
  }

  /** BETWEEN is the conjunction of its two bounds. */
  lemma TussenIsTweeGrenzen(rij: Rij, kolom: string, a: Sleutel, b: Sleutel)
    ensures Geldt(Tussen(kolom, a, b), rij) <==> Geldt(Minstens(kolom, a), rij) && Geldt(Hoogstens(kolom, b), rij)
  {
  }
}

=== FILE: woning.dfy ===
/**
  * The `woning` record: its columns, the validation rules the model
  * declares, the defaults a new row receives, how an update body is
  * applied, and `getVolledigAdres`. Timestamps are milliseconds since the
  * epoch; `maxBouwjaar` is the calendar year in which the model definition
  * was loaded, since the upper bound on `bouwjaar` is computed once then.
  */
module Woningen {
  import opened Basis
  import opened Sorteren
  import opened Voorwaarden
  import Geo

  datatype Status = Beschikbaar | Verkocht | InBehandeling

  /** The ENUM value stored for a status. */
  function StatusNaam(s: Status): string
  {
    match s
    case Beschikbaar => "beschikbaar"
    case Verkocht => "verkocht"
    case InBehandeling => "in behandeling"
  }

  /** The status a string names, if it is one of the three ENUM values. */
  function StatusUitNaam(t: string): (r: Option<Status>)
    ensures r.Some? ==> StatusNaam(r.value) == t
  {
    if t == "beschikbaar" then Some(Beschikbaar)
    else if t == "verkocht" then Some(Verkocht)
    else if t == "in behandeling" then Some(InBehandeling)
    else None
  }

  /** Every status has a name, and a name is parsed back to exactly that status. */
  lemma StatusNaamTerug(s: Status, t: string)
    ensures StatusUitNaam(StatusNaam(s)) == Some(s)
    ensures StatusUitNaam(t).Some? <==> exists s' :: StatusNaam(s') == t
  {
    if exists s' :: StatusNaam(s') == t {
      var s' :| StatusNaam(s') == t;
      assert StatusUitNaam(StatusNaam(s')) == Some(s');
    }
  }

  const Energielabels: seq<string> := ["A++", "A+", "A", "B", "C", "D", "E", "F", "G"]
  const MinBouwjaar: int := 1800

  datatype Woning = Woning(
    id: nat,
    titel: string,
    beschrijving: string,
    prijs: real,
    oppervlakte: real,
    slaapkamers: int,
    badkamers: int,
    bouwjaar: Option<int>,
    energielabel: Option<string>,
    straat: string,
    huisnummer: string,
    stad: string,
    postcode: string,
    breedtegraad: Option<real>,
    lengtegraad: Option<real>,
    verkoperId: int,
    status: Status,
    isUitgelicht: bool,
    aangemaaktOp: int,
    bijgewerktOp: int)

  /** The column validations: non-negative amounts, year, energy label and coordinate ranges. */
  predicate Geldig(w: Woning, maxBouwjaar: int)
  {
    && w.prijs >= 0.0 && w.oppervlakte >= 0.0
    && w.slaapkamers >= 0 && w.badkamers >= 0
    && (w.bouwjaar.Some? ==> MinBouwjaar <= w.bouwjaar.value <= maxBouwjaar)
    && (w.energielabel.Some? ==> w.energielabel.value in Energielabels)
    && (w.breedtegraad.Some? ==> -90.0 <= w.breedtegraad.value <= 90.0)
    && (w.lengtegraad.Some? ==> -180.0 <= w.lengtegraad.value <= 180.0)
  }

  // ---------------------------------------------------------------------
  // The row as the database sees it
  // ---------------------------------------------------------------------

  function OptGetal(x: Option<real>): Sleutel
  {
    if x.None? then Leeg else Num(x.value)
  }

  function OptTekst(x: Option<string>): Sleutel
  {
    if x.None? then Leeg else Txt(x.value)
  }

  const Kolommen: set<string> := {
    "id", "titel", "beschrijving", "prijs", "oppervlakte", "slaapkamers", "badkamers",
    "bouwjaar", "energielabel", "straat", "huisnummer", "stad", "postcode",
    "breedtegraad", "lengtegraad", "verkoperId", "status", "isUitgelicht",
    "aangemaaktOp", "bijgewerktOp"}

  /** The stored row: numbers as numbers, a boolean as 1 or 0, NULL for an absent optional value. */
  function AlsRij(w: Woning): Rij
  {
    map[
      "id" := Num(w.id as real),
      "titel" := Txt(w.titel),
      "beschrijving" := Txt(w.beschrijving),
      "prijs" := Num(w.prijs),
      "oppervlakte" := Num(w.oppervlakte),
      "slaapkamers" := Num(w.slaapkamers as real),
      "badkamers" := Num(w.badkamers as real),
      "bouwjaar" := if w.bouwjaar.None? then Leeg else Num(w.bouwjaar.value as real),
      "energielabel" := OptTekst(w.energielabel),
      "straat" := Txt(w.straat),
      "huisnummer" := Txt(w.huisnummer),
      "stad" := Txt(w.stad),
      "postcode" := Txt(w.postcode),
      "breedtegraad" := OptGetal(w.breedtegraad),
      "lengtegraad" := OptGetal(w.lengtegraad),
      "verkoperId" := Num(w.verkoperId as real),
      "status" := Txt(StatusNaam(w.status)),
      "isUitgelicht" := Num(if w.isUitgelicht then 1.0 else 0.0),
      "aangemaaktOp" := Num(w.aangemaaktOp as real),
      "bijgewerktOp" := Num(w.bijgewerktOp as real)
    ]
  }


  /** What a query reads from each column of the stored row. */
  predicate LeestAls(rij: Rij, w: Woning)
  {
    && Voorwaarden.Waarde(rij, "id") == Num(w.id as real)
    && Voorwaarden.Waarde(rij, "titel") == Txt(w.titel)
    && Voorwaarden.Waarde(rij, "beschrijving") == Txt(w.beschrijving)
    && Voorwaarden.Waarde(rij, "prijs") == Num(w.prijs)
    && Voorwaarden.Waarde(rij, "oppervlakte") == Num(w.oppervlakte)
    && Voorwaarden.Waarde(rij, "slaapkamers") == Num(w.slaapkamers as real)
    && Voorwaarden.Waarde(rij, "badkamers") == Num(w.badkamers as real)
    && Voorwaarden.Waarde(rij, "straat") == Txt(w.straat)
    && Voorwaarden.Waarde(rij, "stad") == Txt(w.stad)
    && Voorwaarden.Waarde(rij, "postcode") == Txt(w.postcode)
    && Voorwaarden.Waarde(rij, "breedtegraad") == OptGetal(w.breedtegraad)
    && Voorwaarden.Waarde(rij, "lengtegraad") == OptGetal(w.lengtegraad)
    && Voorwaarden.Waarde(rij, "verkoperId") == Num(w.verkoperId as real)
    && Voorwaarden.Waarde(rij, "status") == Txt(StatusNaam(w.status))
    && Voorwaarden.Waarde(rij, "aangemaaktOp") == Num(w.aangemaaktOp as real)
  }

  /** The stored row of a property has exactly the table's columns. */
  lemma AlsRijKolommen(w: Woning)
    ensures AlsRij(w).Keys == Kolommen
  {
  }

  lemma AlsRijLeestAls(w: Woning)
    ensures LeestAls(AlsRij(w), w)
  {
    AlsRijLeestTekst(w);
    AlsRijLeestKenmerken(w);
    AlsRijLeestAdres(w);
    AlsRijLeestBeheer(w);
  }

  lemma AlsRijLeestTekst(w: Woning)
    ensures var rij := AlsRij(w);
      && Voorwaarden.Waarde(rij, "id") == Num(w.id as real)
      && Voorwaarden.Waarde(rij, "titel") == Txt(w.titel)
  {
  }

  lemma AlsRijLeestKenmerken(w: Woning)
    ensures var rij := AlsRij(w);
      && Voorwaarden.Waarde(rij, "beschrijving") == Txt(w.beschrijving)
      && Voorwaarden.Waarde(rij, "prijs") == Num(w.prijs)
      && Voorwaarden.Waarde(rij, "oppervlakte") == Num(w.oppervlakte)
  {
  }

  lemma AlsRijLeestAdres(w: Woning)
    ensures var rij := AlsRij(w);
      && Voorwaarden.Waarde(rij, "slaapkamers") == Num(w.slaapkamers as real)
      && Voorwaarden.Waarde(rij, "badkamers") == Num(w.badkamers as real)
      && Voorwaarden.Waarde(rij, "straat") == Txt(w.straat)
      && Voorwaarden.Waarde(rij, "stad") == Txt(w.stad)
      && Voorwaarden.Waarde(rij, "postcode") == Txt(w.postcode)
  {
  }

  lemma AlsRijLeestBeheer(w: Woning)
    ensures var rij := AlsRij(w);
      && Voorwaarden.Waarde(rij, "breedtegraad") == OptGetal(w.breedtegraad)
      && Voorwaarden.Waarde(rij, "lengtegraad") == OptGetal(w.lengtegraad)
      && Voorwaarden.Waarde(rij, "verkoperId") == Num(w.verkoperId as real)
      && Voorwaarden.Waarde(rij, "status") == Txt(StatusNaam(w.status))
      && Voorwaarden.Waarde(rij, "aangemaaktOp") == Num(w.aangemaaktOp as real)
  {
  }

  /** The columns the services filter and sort on are columns of the table. */
  lemma GebruikteKolommen()
    ensures "status" in Kolommen && "prijs" in Kolommen && "oppervlakte" in Kolommen
    ensures "stad" in Kolommen && "postcode" in Kolommen && "straat" in Kolommen
    ensures "slaapkamers" in Kolommen && "badkamers" in Kolommen && "verkoperId" in Kolommen
    ensures "titel" in Kolommen && "beschrijving" in Kolommen && "aangemaaktOp" in Kolommen
    ensures "breedtegraad" in Kolommen && "lengtegraad" in Kolommen
  {
  }

  // ---------------------------------------------------------------------
  // Full address
  // ---------------------------------------------------------------------

  /** getVolledigAdres: "straat huisnummer, postcode stad", with no test on empty parts. */
  function GetVolledigAdres(w: Woning): string
  {
    w.straat + " " + w.huisnummer + ", " + w.postcode + " " + w.stad
  }

  /**
    * For a complete address with a four-digit postcode the record's own
    * formatting agrees with the address formatter of the geo utilities.
    */
  lemma VolledigAdresVolgtAdresOpmaak(w: Woning)
    requires |w.straat| > 0 && |w.huisnummer| > 0 && |w.stad| > 0
    requires |w.postcode| == 4 && AlleCijfers(w.postcode)
    ensures GetVolledigAdres(w) == Geo.FormatteerAdres(Some(w.straat), Some(w.huisnummer), Some(w.postcode), Some(w.stad))
  {
    Geo.VolledigAdresFormaat(w.straat, w.huisnummer, w.postcode, w.stad);
  }

  /** Without a house number the two disagree: the record keeps the space, the formatter drops it. */
  lemma VolledigAdresZonderHuisnummer(w: Woning)
    requires |w.straat| > 0 && w.huisnummer == "" && |w.stad| > 0
    requires |w.postcode| == 4 && AlleCijfers(w.postcode)
    ensures GetVolledigAdres(w) == w.straat + " , " + w.postcode + " " + w.stad
    ensures Geo.FormatteerAdres(Some(w.straat), Some(w.huisnummer), Some(w.postcode), Some(w.stad))
         == w.straat + ", " + w.postcode + " " + w.stad
  {
    AdresZonderHuisnummer(w.straat, w.huisnummer, w.postcode, w.stad);
    LeegHuisnummer(w.straat, w.postcode + " " + w.stad);
    hide Geo.FormatteerAdres;
    assert GetVolledigAdres(w) == w.straat + " " + "" + ", " + w.postcode + " " + w.stad;
    Samenvoegen(w.straat + " , ", w.postcode, " ");
    Samenvoegen(w.straat + " , ", w.postcode + " ", w.stad);
    Samenvoegen(w.straat + " " + "" + ", ", w.postcode, " ");
    Samenvoegen(w.straat + " " + "" + ", ", w.postcode + " ", w.stad);
  }

  lemma LeegHuisnummer(straat: string, rest: string)
    ensures straat + " " + "" + ", " + rest == straat + " , " + rest
  {
    assert straat + " " + "" + ", " == straat + " , ";
  }

  lemma AdresZonderHuisnummer(straat: string, huisnummer: string, postcode: string, stad: string)
    requires |straat| > 0 && huisnummer == "" && |stad| > 0
    requires |postcode| == 4 && AlleCijfers(postcode)
    ensures Geo.FormatteerAdres(Some(straat), Some(huisnummer), Some(postcode), Some(stad))
         == straat + ", " + postcode + " " + stad
  {
    Geo.VierCijfersVoorGemeente(postcode, stad);
  }

  // ---------------------------------------------------------------------
  // Creating a row
  // ---------------------------------------------------------------------

  /**
    * A creation body; `None` is an absent (or, for nullable columns, null)
    * value. The body is handed to the ORM whole, so an `id` or an
    * `aangemaaktOp` in it is stored too.
    */
  datatype NieuweWoning = NieuweWoning(
    id: Option<nat>,
    aangemaaktOp: Option<int>,
    titel: Option<string>,
    beschrijving: Option<string>,
    prijs: Option<real>,
    oppervlakte: Option<real>,
    slaapkamers: Option<int>,
    badkamers: Option<int>,
    bouwjaar: Option<int>,
    energielabel: Option<string>,
    straat: Option<string>,
    huisnummer: Option<string>,
    stad: Option<string>,
    postcode: Option<string>,
    breedtegraad: Option<real>,
    lengtegraad: Option<real>,
    status: Option<string>,
    isUitgelicht: Option<bool>)

  /** The NOT NULL columns without a default are all given. */
  predicate VerplichtAanwezig(n: NieuweWoning)
  {
    && n.titel.Some? && n.beschrijving.Some? && n.prijs.Some? && n.oppervlakte.Some?
    && n.straat.Some? && n.huisnummer.Some? && n.stad.Some? && n.postcode.Some?
  }

  /** Every value the body gives passes its column's validation. */
  predicate GeldigeInvoer(n: NieuweWoning, maxBouwjaar: int)
  {
    && (n.prijs.Some? ==> n.prijs.value >= 0.0)
    && (n.oppervlakte.Some? ==> n.oppervlakte.value >= 0.0)
    && (n.slaapkamers.Some? ==> n.slaapkamers.value >= 0)
    && (n.badkamers.Some? ==> n.badkamers.value >= 0)
    && (n.bouwjaar.Some? ==> MinBouwjaar <= n.bouwjaar.value <= maxBouwjaar)
    && (n.energielabel.Some? ==> n.energielabel.value in Energielabels)
    && (n.breedtegraad.Some? ==> -90.0 <= n.breedtegraad.value <= 90.0)
    && (n.lengtegraad.Some? ==> -180.0 <= n.lengtegraad.value <= 180.0)
    && (n.status.Some? ==> StatusUitNaam(n.status.value).Some?)
  }

  function OfAnders<T>(x: Option<T>, standaard: T): T
  {
    if x.Some? then x.value else standaard
  }

  /**
    * `Woning.create`: the defaults (0 rooms, status beschikbaar, not
    * featured) fill absent values, the row gets the id it is given, the
    * creation time is the body's when it has one and `nu` otherwise, the
    * update time is `nu`, and a failed NOT NULL or validation rule is a 400.
    */
  function MaakRecord(n: NieuweWoning, id: nat, verkoperId: int, nu: int, maxBouwjaar: int): (r: Result<Woning>)
    ensures r.Ok? <==> VerplichtAanwezig(n) && GeldigeInvoer(n, maxBouwjaar)
    ensures r.Err? ==> r.code == BadRequest
    ensures r.Ok? ==> Geldig(r.value, maxBouwjaar)
    ensures r.Ok? ==> var w := r.value;
      && w.id == id && w.verkoperId == verkoperId && w.bijgewerktOp == nu
      && w.aangemaaktOp == (if n.aangemaaktOp.Some? then n.aangemaaktOp.value else nu)
      && Some(w.titel) == n.titel && Some(w.prijs) == n.prijs && Some(w.straat) == n.straat
      && Some(w.postcode) == n.postcode && Some(w.stad) == n.stad
      && w.breedtegraad == n.breedtegraad && w.lengtegraad == n.lengtegraad
      && w.slaapkamers == (if n.slaapkamers.None? then 0 else n.slaapkamers.value)
      && w.badkamers == (if n.badkamers.None? then 0 else n.badkamers.value)
      && (n.status.None? ==> w.status == Beschikbaar)
      && (n.status.Some? ==> StatusNaam(w.status) == n.status.value)
      && w.isUitgelicht == (n.isUitgelicht == Some(true))
  {
    if !VerplichtAanwezig(n) then Err(BadRequest)
    else
      var status := if n.status.None? then Some(Beschikbaar) else StatusUitNaam(n.status.value);
      if status.None? then Err(BadRequest)
      else
        var w := Woning(id, n.titel.value, n.beschrijving.value, n.prijs.value, n.oppervlakte.value,
          OfAnders(n.slaapkamers, 0), OfAnders(n.badkamers, 0), n.bouwjaar, n.energielabel,
          n.straat.value, n.huisnummer.value, n.stad.value, n.postcode.value,
          n.breedtegraad, n.lengtegraad, verkoperId, status.value, OfAnders(n.isUitgelicht, false), OfAnders(n.aangemaaktOp, nu), nu);
        if Geldig(w, maxBouwjaar) then Ok(w) else Err(BadRequest)
  }

  // ---------------------------------------------------------------------
  // Updating a row
  // ---------------------------------------------------------------------

  /**
    * An update body. `None` leaves a column alone; for a nullable column
    * `Some(None)` writes NULL. The first four fields are the ones the
    * service deletes before the update.
    */
  datatype Wijziging = Wijziging(
    id: Option<nat>,
    aangemaaktOp: Option<int>,
    bijgewerktOp: Option<int>,
    verkoperId: Option<int>,
    titel: Option<string>,
    beschrijving: Option<string>,
    prijs: Option<real>,
    oppervlakte: Option<real>,
    slaapkamers: Option<int>,
    badkamers: Option<int>,
    bouwjaar: Option<Option<int>>,
    energielabel: Option<Option<string>>,
    straat: Option<string>,
    huisnummer: Option<string>,
    stad: Option<string>,
    postcode: Option<string>,
    breedtegraad: Option<Option<real>>,
    lengtegraad: Option<Option<real>>,
    status: Option<string>,
    isUitgelicht: Option<bool>)

  /** The body with only the given fields of the record's data columns. */
  function Alleen(titel: Option<string>, status: Option<string>, isUitgelicht: Option<bool>): Wijziging
  {
    Wijziging(None, None, None, None, titel, None, None, None, None, None, None, None,
      None, None, None, None, None, None, status, isUitgelicht)
  }

  /**
    * `woning.update(z)`: every given value overwrites its column, an
    * unknown status or a failed validation is a 400, and the update time
    * becomes `nu` when some column changed. Values for the id, owner and
    * timestamp columns are written like any other; the service removes
    * them first.
    */
  function PasToe(w: Woning, z: Wijziging, nu: int, maxBouwjaar: int): (r: Result<Woning>)
    ensures r.Err? ==> r.code == BadRequest
    ensures r.Ok? ==> Geldig(r.value, maxBouwjaar)
    ensures r.Ok? ==> r.value.id == OfAnders(z.id, w.id) && r.value.verkoperId == OfAnders(z.verkoperId, w.verkoperId)
    ensures r.Ok? ==> r.value.aangemaaktOp == OfAnders(z.aangemaaktOp, w.aangemaaktOp)
    ensures r.Ok? && z.bijgewerktOp.None? ==> r.value.bijgewerktOp in {w.bijgewerktOp, nu}
  {
    var status := if z.status.None? then Some(w.status) else StatusUitNaam(z.status.value);
    if status.None? then Err(BadRequest)
    else
      var v := Woning(
        OfAnders(z.id, w.id), OfAnders(z.titel, w.titel), OfAnders(z.beschrijving, w.beschrijving),
        OfAnders(z.prijs, w.prijs), OfAnders(z.oppervlakte, w.oppervlakte),
        OfAnders(z.slaapkamers, w.slaapkamers), OfAnders(z.badkamers, w.badkamers),
        OfAnders(z.bouwjaar, w.bouwjaar), OfAnders(z.energielabel, w.energielabel),
        OfAnders(z.straat, w.straat), OfAnders(z.huisnummer, w.huisnummer),
        OfAnders(z.stad, w.stad), OfAnders(z.postcode, w.postcode),
        OfAnders(z.breedtegraad, w.breedtegraad), OfAnders(z.lengtegraad, w.lengtegraad),
        OfAnders(z.verkoperId, w.verkoperId), status.value, OfAnders(z.isUitgelicht, w.isUitgelicht),
        OfAnders(z.aangemaaktOp, w.aangemaaktOp), OfAnders(z.bijgewerktOp, w.bijgewerktOp));
      var gewijzigd := v.(bijgewerktOp := w.bijgewerktOp) != w;
      var v' := if gewijzigd && z.bijgewerktOp.None? then v.(bijgewerktOp := nu) else v;
      if Geldig(v', maxBouwjaar) then Ok(v') else Err(BadRequest)
  }

  /** The update body with the four protected fields deleted, as the service does. */
  function ZonderBeschermd(z: Wijziging): (r: Wijziging)
    ensures r.id.None? && r.aangemaaktOp.None? && r.bijgewerktOp.None? && r.verkoperId.None?
  {
    z.(id := None, aangemaaktOp := None, bijgewerktOp := None, verkoperId := None)
  }

  /**
    * After the protected fields are removed, an update keeps the id, the
    * owner and the creation time, writes every given value, keeps every
    * column it was not given, and moves the update time only to `nu`.
    */
  lemma BeschermdeUpdate(w: Woning, z: Wijziging, nu: int, maxBouwjaar: int)
    requires Geldig(w, maxBouwjaar)
    ensures var r := PasToe(w, ZonderBeschermd(z), nu, maxBouwjaar);
      r.Ok? ==>
        && r.value.id == w.id && r.value.verkoperId == w.verkoperId && r.value.aangemaaktOp == w.aangemaaktOp
        && r.value.bijgewerktOp in {w.bijgewerktOp, nu}
        && r.value.titel == OfAnders(z.titel, w.titel) && r.value.prijs == OfAnders(z.prijs, w.prijs)
        && r.value.isUitgelicht == OfAnders(z.isUitgelicht, w.isUitgelicht)
        && (z.status.None? ==> r.value.status == w.status)
        && (z.status.Some? ==> StatusNaam(r.value.status) == z.status.value)
    ensures z.status.Some? && StatusUitNaam(z.status.value).None? ==> PasToe(w, ZonderBeschermd(z), nu, maxBouwjaar).Err?
  {
  }

  /** An empty update leaves the row exactly as it was, update time included. */
  lemma LegeUpdateVerandertNiets(w: Woning, nu: int, maxBouwjaar: int)
    requires Geldig(w, maxBouwjaar)
    ensures PasToe(w, Alleen(None, None, None), nu, maxBouwjaar) == Ok(w)
  {
  }
}

=== FILE: woning_controller.dfy ===
/**
  * The property controller: how the query string becomes the filter,
  * sorting and pagination objects of the listing, the radius search and the
  * featured listing. A query string maps parameter names to their text; a
  * parameter that is absent or empty is falsy and takes its default.
  * `parseFloat` is a parameter, `None` standing for NaN; `parseInt` is
  * modelled in full. A NaN that reaches a LIMIT, an OFFSET or the text of a
  * raw SQL expression is written as the word `NaN`, which the database reads
  * as an unknown column, so the request fails with a server error.
  */
module WoningController {
  import opened Basis
  import opened Paginatie
  import opened Woningen
  import opened WoningService
  import opened Sorteren

  type Query = map<string, string>

  const StandaardSorteerVeld: string := "aangemaaktOp"
  const StandaardSorteerRichting: string := "DESC"
  /** The radius when the request gives none, in kilometres. */
  const StandaardStraal: real := 10.0
  const StandaardAantalUitgelicht: int := 6

  function Param(q: Query, k: string): Option<string>
  {
    if k in q then Some(q[k]) else None
  }

  /** `x ? parseFloat(x) : undefined` followed by the service's truthiness test: absent, NaN or empty all give `None`. */
  function GetalFilter(q: Query, k: string, parseFloat: string -> Option<real>): (r: Option<real>)
    ensures !Gevuld(Param(q, k)) ==> r.None?
    ensures Gevuld(Param(q, k)) ==> r == parseFloat(q[k])
  {
    if Gevuld(Param(q, k)) then parseFloat(q[k]) else None
  }

  /** `x ? parseInt(x) : undefined`. */
  function GeheelFilter(q: Query, k: string): (r: Option<int>)
    ensures !Gevuld(Param(q, k)) ==> r.None?
    ensures Gevuld(Param(q, k)) ==> r == ParseInt(q[k])
  {
    if Gevuld(Param(q, k)) then ParseInt(q[k]) else None
  }

  /** The filter object getWoningen builds from the query. */
  function FiltersUitQuery(q: Query, parseFloat: string -> Option<real>): Filters
  {
    Filters(
      Param(q, "status"),
      GetalFilter(q, "minPrijs", parseFloat),
      GetalFilter(q, "maxPrijs", parseFloat),
      GetalFilter(q, "minOppervlakte", parseFloat),
      Param(q, "stad"),
      Param(q, "postcode"),
      GeheelFilter(q, "minSlaapkamers"),
      GeheelFilter(q, "minBadkamers"),
      Param(q, "verkoperId"),
      Param(q, "zoekterm"))
  }

  /** `x || standaard` on a query parameter. */
  function OfStandaard(q: Query, k: string, standaard: string): (r: string)
    ensures Gevuld(Param(q, k)) ==> r == q[k]
    ensures !Gevuld(Param(q, k)) ==> r == standaard
  {
    if Gevuld(Param(q, k)) then q[k] else standaard
  }

  /** `x ? parseInt(x) : standaard`; `None` when the text parses to NaN. */
  function GeheelOfStandaard(q: Query, k: string, standaard: int): (r: Option<int>)
    ensures !Gevuld(Param(q, k)) ==> r == Some(standaard)
    ensures Gevuld(Param(q, k)) ==> r == ParseInt(q[k])
  {
    if Gevuld(Param(q, k)) then ParseInt(q[k]) else Some(standaard)
  }

  /**
    * GET /api/woningen: the listing with the query's filters, sorted on
    * `sorteerOp` (default aangemaaktOp) in `sorteerRichting` (default DESC),
    * page `pagina` (default 1) of `aantalPerPagina` (default 10) rows.
    */
  function GetWoningen(tabel: Tabel, q: Query, parseFloat: string -> Option<real>): (r: Result<Pagina<Woning>>)
    ensures r.Err? ==> r.code == ServerError
    ensures GeheelOfStandaard(q, "pagina", StandaardPagina).None? || GeheelOfStandaard(q, "aantalPerPagina", StandaardAantalPerPagina).None? ==> r.Err?
    ensures r.Ok? ==> Some(r.value.metadata.pagina) == GeheelOfStandaard(q, "pagina", StandaardPagina)
    ensures r.Ok? ==> Some(r.value.metadata.aantalPerPagina) == GeheelOfStandaard(q, "aantalPerPagina", StandaardAantalPerPagina)
    ensures r.Ok? ==> r.value.metadata.totaal == |Passend(tabel, FiltersUitQuery(q, parseFloat))|
    ensures r.Ok? ==> multiset(r.value.rijen) <= multiset(Passend(tabel, FiltersUitQuery(q, parseFloat)))
  {
    var pagina := GeheelOfStandaard(q, "pagina", StandaardPagina);
    var aantal := GeheelOfStandaard(q, "aantalPerPagina", StandaardAantalPerPagina);
    if pagina.None? || aantal.None? then Err(ServerError)
    else
      WoningService.GetWoningen(tabel, FiltersUitQuery(q, parseFloat),
        OfStandaard(q, "sorteerOp", StandaardSorteerVeld), OfStandaard(q, "sorteerRichting", StandaardSorteerRichting),
        pagina.value, aantal.value)
  }

  /** Without sorting or pagination parameters the listing runs on the defaults, which name a column and a direction. */
  lemma StandaardenGekozen(q: Query)
    requires !Gevuld(Param(q, "sorteerOp")) && !Gevuld(Param(q, "sorteerRichting"))
    requires !Gevuld(Param(q, "pagina")) && !Gevuld(Param(q, "aantalPerPagina"))
    ensures OfStandaard(q, "sorteerOp", StandaardSorteerVeld) == StandaardSorteerVeld
    ensures OfStandaard(q, "sorteerRichting", StandaardSorteerRichting) == StandaardSorteerRichting
    ensures GeheelOfStandaard(q, "pagina", StandaardPagina) == Some(1)
    ensures GeheelOfStandaard(q, "aantalPerPagina", StandaardAantalPerPagina) == Some(10)
    ensures Lijsten.KolomBekend(StandaardSorteerVeld, Kolommen) && Lijsten.RichtingUit(StandaardSorteerRichting).Some?
  {
    GebruikteKolommen();
    Lijsten.EigenNaamBekend(StandaardSorteerVeld, Kolommen);
    Lijsten.DescIsAflopend();
  }

  /** A request without sorting or pagination parameters gets the first ten rows, newest first, and never fails. */
  lemma GetWoningenStandaard(tabel: Tabel, q: Query, parseFloat: string -> Option<real>)
    requires !Gevuld(Param(q, "sorteerOp")) && !Gevuld(Param(q, "sorteerRichting"))
    requires !Gevuld(Param(q, "pagina")) && !Gevuld(Param(q, "aantalPerPagina"))
    ensures var r := GetWoningen(tabel, q, parseFloat);
      && r.Ok?
      && r.value.metadata.pagina == 1 && r.value.metadata.aantalPerPagina == 10
      && |r.value.rijen| <= 10
      && (forall x :: x in r.value.rijen ==> PastBijFilters(FiltersUitQuery(q, parseFloat), x))
  {
    hide PastBijFilters, Passend, WoningService.GetWoningen;
    StandaardenGekozen(q);
    var f := FiltersUitQuery(q, parseFloat);
    var r := GetWoningen(tabel, q, parseFloat);
    assert r == WoningService.GetWoningen(tabel, f, StandaardSorteerVeld, StandaardSorteerRichting, 1, 10);
    GetWoningenRijenPassen(tabel, f, StandaardSorteerVeld, StandaardSorteerRichting, 1, 10);
  }

  /** A zero or unparsable numeric filter in the query is no filter at all. */
  lemma NulFilterTeltNiet(q: Query, parseFloat: string -> Option<real>, w: Woning)
    requires "minPrijs" in q && (parseFloat(q["minPrijs"]) == Some(0.0) || parseFloat(q["minPrijs"]).None?)
    ensures PastBijFilters(FiltersUitQuery(q, parseFloat), w) <==> PastBijFilters(FiltersUitQuery(q - {"minPrijs"}, parseFloat), w)
  {
    var f := FiltersUitQuery(q, parseFloat);
    var g := FiltersUitQuery(q - {"minPrijs"}, parseFloat);
    assert !Actief(f.minPrijs) && !Actief(g.minPrijs);
    assert f.(minPrijs := None) == g.(minPrijs := None);
  }

  /** The numeric filters of the radius search, as the controller builds them: absent keys stay `undefined`. */
  function StraalFiltersUitQuery(q: Query, parseFloat: string -> Option<real>): StraalFilters
  {
    StraalFilters(
      Param(q, "status"),
      if Gevuld(Param(q, "minPrijs")) then Some(parseFloat(q["minPrijs"])) else None,
      if Gevuld(Param(q, "maxPrijs")) then Some(parseFloat(q["maxPrijs"])) else None,
      if Gevuld(Param(q, "minOppervlakte")) then Some(parseFloat(q["minOppervlakte"])) else None,
      if Gevuld(Param(q, "minSlaapkamers")) then Some(ParseInt(q["minSlaapkamers"])) else None,
      if Gevuld(Param(q, "minBadkamers")) then Some(ParseInt(q["minBadkamers"])) else None)
  }

  /** `straal ? parseFloat(straal) : 10`; `None` is NaN. */
  function StraalUitQuery(q: Query, parseFloat: string -> Option<real>): (r: Option<real>)
    ensures !Gevuld(Param(q, "straal")) ==> r == Some(StandaardStraal)
  {
    if Gevuld(Param(q, "straal")) then parseFloat(q["straal"]) else Some(StandaardStraal)
  }

  /** The coordinates, radius and paging of a radius search all parse. */
  predicate ZoekParametersGeldig(q: Query, parseFloat: string -> Option<real>)
  {
    && Gevuld(Param(q, "breedtegraad")) && Gevuld(Param(q, "lengtegraad"))
    && parseFloat(q["breedtegraad"]).Some? && parseFloat(q["lengtegraad"]).Some?
    && StraalUitQuery(q, parseFloat).Some?
    && GeheelOfStandaard(q, "pagina", StandaardPagina).Some? && GeheelOfStandaard(q, "aantalPerPagina", StandaardAantalPerPagina).Some?
  }

  /**
    * GET /api/woningen/zoeken: 400 without a truthy breedtegraad and
    * lengtegraad; otherwise the radius search around the parsed point, as
    * the service writes it: a numeric filter in the query becomes a where
    * key that is no column, and the request fails with 500.
    */
  function ZoekWoningen(tabel: Tabel, q: Query, parseFloat: string -> Option<real>,
                        afstand: (real, real, real, real) -> real): (r: Result<StraalPagina>)
    ensures !Gevuld(Param(q, "breedtegraad")) || !Gevuld(Param(q, "lengtegraad")) ==> r == Err(BadRequest)
    ensures r.Err? ==> r.code in {BadRequest, ServerError}
    ensures r.Ok? <==> ZoekParametersGeldig(q, parseFloat) && ExtraSleutels(StraalFiltersUitQuery(q, parseFloat)) == {}
    ensures (Gevuld(Param(q, "breedtegraad")) && Gevuld(Param(q, "lengtegraad"))
             && ExtraSleutels(StraalFiltersUitQuery(q, parseFloat)) != {}) ==> r == Err(ServerError)
    ensures r.Ok? ==> var b := parseFloat(q["breedtegraad"]).value; var l := parseFloat(q["lengtegraad"]).value;
      && r.value.metadata.breedtegraad == b && r.value.metadata.lengtegraad == l
      && r.value.metadata.straal == BeperkStraal(StraalUitQuery(q, parseFloat).value)
      && r.value.metadata.straal <= MaxStraal
      && (forall x :: x in r.value.rijen ==>
            x in tabel && BinnenStraal(StraalStatus(StraalFiltersUitQuery(q, parseFloat)), b, l, r.value.metadata.straal, afstand, x))
      && DichtsteEerst(r.value, b, l, afstand)
  {
    if !Gevuld(Param(q, "breedtegraad")) || !Gevuld(Param(q, "lengtegraad")) then Err(BadRequest)
    else
      var b := parseFloat(q["breedtegraad"]);
      var l := parseFloat(q["lengtegraad"]);
      var s := StraalUitQuery(q, parseFloat);
      var pagina := GeheelOfStandaard(q, "pagina", StandaardPagina);
      var aantal := GeheelOfStandaard(q, "aantalPerPagina", StandaardAantalPerPagina);
      if b.None? || l.None? || s.None? || pagina.None? || aantal.None? then Err(ServerError)
      else WoningService.ZoekWoningenInStraal(tabel, b.value, l.value, s.value, StraalFiltersUitQuery(q, parseFloat),
                                              pagina.value, aantal.value, afstand)
  }

  /**
    * The radius search the route evidently means: the same guards, and the
    * search whose numeric filters are range conditions on the record.
    */
  function ZoekWoningenBedoeld(tabel: Tabel, q: Query, parseFloat: string -> Option<real>,
                               afstand: (real, real, real, real) -> real): (r: Result<StraalPagina>)
    ensures !Gevuld(Param(q, "breedtegraad")) || !Gevuld(Param(q, "lengtegraad")) ==> r == Err(BadRequest)
    ensures r.Err? ==> r.code in {BadRequest, ServerError}
    ensures r.Ok? <==> ZoekParametersGeldig(q, parseFloat)
    ensures r.Ok? ==> var b := parseFloat(q["breedtegraad"]).value; var l := parseFloat(q["lengtegraad"]).value;
      && r.value.metadata.breedtegraad == b && r.value.metadata.lengtegraad == l
      && r.value.metadata.straal == BeperkStraal(StraalUitQuery(q, parseFloat).value)
      && r.value.metadata.straal <= MaxStraal
      && (forall x :: x in r.value.rijen ==>
            && x in tabel
            && BinnenStraal(StraalStatus(StraalFiltersUitQuery(q, parseFloat)), b, l, r.value.metadata.straal, afstand, x)
            && BinnenGrenzen(StraalFiltersUitQuery(q, parseFloat), x))
      && DichtsteEerst(r.value, b, l, afstand)
  {
    if !Gevuld(Param(q, "breedtegraad")) || !Gevuld(Param(q, "lengtegraad")) then Err(BadRequest)
    else
      var b := parseFloat(q["breedtegraad"]);
      var l := parseFloat(q["lengtegraad"]);
      var s := StraalUitQuery(q, parseFloat);
      var pagina := GeheelOfStandaard(q, "pagina", StandaardPagina);
      var aantal := GeheelOfStandaard(q, "aantalPerPagina", StandaardAantalPerPagina);
      if b.None? || l.None? || s.None? || pagina.None? || aantal.None? then Err(ServerError)
      else Ok(ZoekWoningenInStraalMetGrenzen(tabel, b.value, l.value, s.value, StraalFiltersUitQuery(q, parseFloat),
                                             pagina.value, aantal.value, afstand))
  }

  /** A query without numeric filters gets the same answer from the written and the intended search. */
  lemma ZonderGetalFiltersZelfdeAntwoord(tabel: Tabel, q: Query, parseFloat: string -> Option<real>,
                                         afstand: (real, real, real, real) -> real)
    requires !Gevuld(Param(q, "minPrijs")) && !Gevuld(Param(q, "maxPrijs")) && !Gevuld(Param(q, "minOppervlakte"))
    requires !Gevuld(Param(q, "minSlaapkamers")) && !Gevuld(Param(q, "minBadkamers"))
    ensures ZoekWoningen(tabel, q, parseFloat, afstand) == ZoekWoningenBedoeld(tabel, q, parseFloat, afstand)
  {
    if Gevuld(Param(q, "breedtegraad")) && Gevuld(Param(q, "lengtegraad")) {
      var b := parseFloat(q["breedtegraad"]);
      var l := parseFloat(q["lengtegraad"]);
      var s := StraalUitQuery(q, parseFloat);
      var pagina := GeheelOfStandaard(q, "pagina", StandaardPagina);
      var aantal := GeheelOfStandaard(q, "aantalPerPagina", StandaardAantalPerPagina);
      if b.Some? && l.Some? && s.Some? && pagina.Some? && aantal.Some? {
        MetGrenzenZonderGetallenIsOrigineel(tabel, b.value, l.value, s.value, Param(q, "status"), pagina.value, aantal.value, afstand);
      }
    }
  }

  /** Without a radius in the query the search looks 10 km around the point. */
  lemma ZoekStandaardStraal(tabel: Tabel, q: Query, parseFloat: string -> Option<real>, afstand: (real, real, real, real) -> real)
    requires !Gevuld(Param(q, "straal"))
    ensures var r := ZoekWoningen(tabel, q, parseFloat, afstand); r.Ok? ==> r.value.metadata.straal == StandaardStraal
  {
  }

  /** GET /api/woningen/uitgelicht: `aantal` rows (default 6); an unparsable count fails in the LIMIT. */
  function GetUitgelichteWoningen(tabel: Tabel, q: Query): (r: Result<seq<Woning>>)
    ensures r.Err? <==> GeheelOfStandaard(q, "aantal", StandaardAantalUitgelicht).None?
    ensures r.Err? ==> r.code == ServerError
    ensures r.Ok? ==> forall i :: 0 <= i < |r.value| ==> IsUitgelichtBeschikbaar(r.value[i])
    ensures r.Ok? && !Gevuld(Param(q, "aantal")) ==> |r.value| <= StandaardAantalUitgelicht
    ensures r.Ok? ==> Gesorteerd(r.value, KolomSleutel("aangemaaktOp"), Aflopend)
  {
    match GeheelOfStandaard(q, "aantal", StandaardAantalUitgelicht)
    case None => Err(ServerError)
    case Some(n) => Ok(WoningService.GetUitgelichteWoningen(tabel, n))
  }
}

=== FILE: woning_geocoding.dfy ===
/**
  * The geocoding-aware property operations: creating a property and
  * looking up its coordinates, routing a search term to a radius search
  * when it looks like an address, searching inside the box around a
  * geocoded region, and backfilling missing coordinates. The file these
  * come from calls listing and radius-search functions it never defines;
  * they are taken to be the property service's own.
  */
module WoningGeocoding {
  import opened Basis
  import opened Sorteren
  import opened Voorwaarden
  import opened Woningen
  import Geo
  import Geocoding
  import WoningService

  // ---------------------------------------------------------------------
  // Does a search term look like an address?
  // ---------------------------------------------------------------------

  /** A character `\w` matches. */
  predicate IsWoordteken(c: char)
  {
    'a' <= c <= 'z' || 'A' <= c <= 'Z' || IsCijfer(c) || c == '_'
  }

  /** A character `.` does not match. */
  predicate IsRegeleinde(c: char)
  {
    c == '\n' || c == '\r' || c == '\U{2028}' || c == '\U{2029}'
  }

  /** `\b` at position `i`: exactly one of the neighbouring characters is a word character. */
  predicate Grens(t: string, i: int)
  {
    0 <= i <= |t| && (i > 0 && IsWoordteken(t[i - 1])) != (i < |t| && IsWoordteken(t[i]))
  }

  /** `\b\d+\b` matches `t[i..j]`: a run of digits between two word boundaries. */
  predicate LosGetal(t: string, i: int, j: int)
  {
    0 <= i < j <= |t| && Grens(t, i) && Grens(t, j) && forall k :: i <= k < j ==> IsCijfer(t[k])
  }

  predicate ZonderRegeleinde(t: string, i: int, j: int)
  {
    0 <= i <= j <= |t| && forall k :: i <= k < j ==> !IsRegeleinde(t[k])
  }

  /** `/\b\d+\b.*\b\d{4}\b/`: a standalone number, later on the same line a standalone four-digit number. */
  predicate HuisnummerEnPostcode(t: string)
  {
    exists i, j, k | 0 <= i < j <= k <= |t| :: LosGetal(t, i, j) && ZonderRegeleinde(t, j, k) && LosGetal(t, k, k + 4)
  }

  /** `\bw\b` matches at `i` ignoring the case of ASCII letters, as a non-Unicode `/i` pattern does. */
  predicate LosWoord(t: string, i: int, w: string)
  {
    0 <= i && i + |w| <= |t| && Grens(t, i) && Grens(t, i + |w|) && Klein(t[i..i + |w|]) == w
  }

  /** `/\b(straat|laan|weg|plein)\b/i`. */
  predicate StraatWoord(t: string)
  {
    exists i | 0 <= i <= |t| :: LosWoord(t, i, "straat") || LosWoord(t, i, "laan") || LosWoord(t, i, "weg") || LosWoord(t, i, "plein")
  }

  predicate LijktOpAdres(t: string)
  {
    HuisnummerEnPostcode(t) || StraatWoord(t)
  }

  /**
    * A full address as the model formats it ("straat nr, postcode stad")
    * looks like an address when the house number is all digits and the
    * postcode is four digits, whatever the street and the town.
    */
  lemma VolledigAdresLijktOpAdres(straat: string, nr: string, postcode: string, stad: string)
    requires |nr| > 0 && AlleCijfers(nr)
    requires |postcode| == 4 && AlleCijfers(postcode)
    ensures LijktOpAdres(straat + " " + nr + ", " + postcode + " " + stad)
  {
    var t := straat + " " + nr + ", " + postcode + " " + stad;
    var i := |straat| + 1;
    var j := i + |nr|;
    var k := j + 2;
    assert t[i - 1] == ' ' && t[j] == ',' && t[j + 1] == ' ' && t[k - 1] == ' ' && t[k + 4] == ' ';
    assert forall m :: i <= m < j ==> t[m] == nr[m - i];
    assert forall m :: k <= m < k + 4 ==> t[m] == postcode[m - k];
    assert LosGetal(t, i, j) && ZonderRegeleinde(t, j, k) && LosGetal(t, k, k + 4);
  }

  /** Dutch street names are compound words: a keyword glued to a letter in front of it is no match there. */
  lemma SamengesteldeNaamTeltNiet(voor: string, w: string, na: string)
    requires |voor| > 0 && IsWoordteken(voor[|voor| - 1])
    requires |w| > 0 && IsWoordteken(w[0])
    ensures !LosWoord(voor + w + na, |voor|, w)
  {
    var t := voor + w + na;
    assert t[|voor| - 1] == voor[|voor| - 1] && t[|voor|] == w[0];
  }

  /** A standalone keyword counts, in any letter case. */
  lemma LosStraatwoordTelt(voor: string, na: string)
    requires |voor| > 0 && !IsWoordteken(voor[|voor| - 1])
    requires |na| > 0 && !IsWoordteken(na[0])
    ensures LijktOpAdres(voor + "Laan" + na)
  {
    var t := voor + "Laan" + na;
    var i := |voor|;
    assert t[i - 1] == voor[|voor| - 1] && t[i + 4] == na[0];
    assert t[i..i + 4] == "Laan";
    assert LosWoord(t, i, "laan");
  }

  /** A term with no digit has no standalone number. */
  lemma ZonderCijfersGeenHuisnummer(t: string)
    requires forall k :: 0 <= k < |t| ==> !IsCijfer(t[k])
    ensures !HuisnummerEnPostcode(t)
  {
  }

  /** A number and postcode on different lines are not read together. */
  lemma RegeleindeScheidt(t: string, i: int, j: int, k: int)
    requires LosGetal(t, i, j) && j <= k && LosGetal(t, k, k + 4)
    requires exists m :: j <= m < k && IsRegeleinde(t[m])
    ensures !ZonderRegeleinde(t, j, k)
  {
  }

  // ---------------------------------------------------------------------
  // Address or text search
  // ---------------------------------------------------------------------

  const AdresDrempel: real := 0.7
  const RegioDrempel: real := 0.5
  const RegioStraal: real := 3.0
  const StandaardStraal: real := 10.0

  /** The search context a radius search by address reports. */
  datatype Zoekcontext = Zoekcontext(zoekterm: string, gevondenAdres: string, breedtegraad: real, lengtegraad: real, straal: real)

  /** Which search a term is answered with. */
  datatype Route = OpAdres(context: Zoekcontext) | OpTekst(zoekterm: string)

  /** The confidence a lookup reports exceeds `drempel` (a missing confidence compares false). */
  predicate ZekerderDan(r: Geocoding.Resultaat, drempel: real)
  {
    var b := Geocoding.Betrouwbaarheid(r);
    b.Some? && b.value > drempel
  }

  /**
    * zoekWoningenMetAdres, the decision: a term that looks like an address
    * is geocoded, and only a confident result (above 0.7) turns the search
    * into a radius search around it; every other term is searched as text.
    */
  function KiesRoute(c: Geocoding.Cache, zoekterm: string, straal: real, provider: Geocoding.Provider): (r: (Route, Geocoding.Cache))
    ensures !LijktOpAdres(zoekterm) ==> r == (OpTekst(zoekterm), c)
    ensures LijktOpAdres(zoekterm) ==> r.1 == Geocoding.GeocodeAdres(c, zoekterm, provider).1
    ensures r.0.OpAdres? <==> LijktOpAdres(zoekterm) && ZekerderDan(Geocoding.GeocodeAdres(c, zoekterm, provider).0, AdresDrempel)
    ensures r.0.OpTekst? ==> r.0.zoekterm == zoekterm
    ensures r.0.OpAdres? ==> var g := Geocoding.GeocodeAdres(c, zoekterm, provider).0;
      r.0.context == Zoekcontext(zoekterm, g.geformatteerdAdres, g.breedtegraad, g.lengtegraad, straal)
  {
    if !LijktOpAdres(zoekterm) then (OpTekst(zoekterm), c)
    else
      var (g, c1) := Geocoding.GeocodeAdres(c, zoekterm, provider);
      if ZekerderDan(g, AdresDrempel) then
        (OpAdres(Zoekcontext(zoekterm, g.geformatteerdAdres, g.breedtegraad, g.lengtegraad, straal)), c1)
      else (OpTekst(zoekterm), c1)
  }

  /** When the provider cannot place the term, the search is by text: the fallback's confidence is 0. */
  lemma OnbekendAdresZoektOpTekst(c: Geocoding.Cache, zoekterm: string, straal: real, p: Geocoding.Provider)
    requires Geocoding.GeocodeSleutel(zoekterm) !in c.items
    requires p(Geocoding.Vooruit(zoekterm)).Fout? || p(Geocoding.Vooruit(zoekterm)) == Geocoding.Features([])
    ensures KiesRoute(c, zoekterm, straal, p).0 == OpTekst(zoekterm)
  {
  }

  /** A confident first feature for an address-like term leads to a radius search around that feature. */
  lemma ZekerAdresZoektInStraal(c: Geocoding.Cache, zoekterm: string, straal: real, p: Geocoding.Provider)
    requires LijktOpAdres(zoekterm)
    requires Geocoding.GeocodeSleutel(zoekterm) !in c.items
    requires p(Geocoding.Vooruit(zoekterm)).Features? && |p(Geocoding.Vooruit(zoekterm)).features| > 0
    requires p(Geocoding.Vooruit(zoekterm)).features[0].relevance > AdresDrempel
    ensures var f := p(Geocoding.Vooruit(zoekterm)).features[0];
      KiesRoute(c, zoekterm, straal, p).0 == OpAdres(Zoekcontext(zoekterm, f.placeName, f.breedtegraad, f.lengtegraad, straal))
  {
  }

  // ---------------------------------------------------------------------
  // Search inside a region
  // ---------------------------------------------------------------------

  /**
    * A filter object copied into a where clause: every key becomes an
    * equality on the column of that name, a null value `IS NULL`.
    */
  function RuweVoorwaarde(e: (string, Sleutel)): Voorwaarde
  {
    if e.1 == Leeg then IsNull(e.0) else Gelijk(e.0, e.1)
  }

  /** The filter keys that survive next to the two coordinate ranges, which replace keys of the same name. */
  function RuweVoorwaarden(filters: seq<(string, Sleutel)>): (r: seq<Voorwaarde>)
    ensures |r| <= |filters|
    ensures forall v :: v in r ==> exists e :: e in filters && e.0 != "breedtegraad" && e.0 != "lengtegraad" && v == RuweVoorwaarde(e)
    ensures forall e :: e in filters && e.0 != "breedtegraad" && e.0 != "lengtegraad" ==> RuweVoorwaarde(e) in r
  {
    if filters == [] then []
    else
      var rest := RuweVoorwaarden(filters[1..]);
      if filters[0].0 == "breedtegraad" || filters[0].0 == "lengtegraad" then rest
      else [RuweVoorwaarde(filters[0])] + rest
  }

  /** A property row matches every copied filter key. */
  predicate PastBijRuweFilters(filters: seq<(string, Sleutel)>, w: Woning)
  {
    forall e :: e in filters && e.0 != "breedtegraad" && e.0 != "lengtegraad" ==> Geldt(RuweVoorwaarde(e), AlsRij(w))
  }

  function VakVoorwaarden(vak: Geo.Begrenzingsvak): seq<Voorwaarde>
  {
    [Tussen("breedtegraad", Num(vak.minBreedtegraad), Num(vak.maxBreedtegraad)),
     Tussen("lengtegraad", Num(vak.minLengtegraad), Num(vak.maxLengtegraad))]
  }

  /** A stored property lies in the box iff it has both coordinates and they are within the bounds. */
  predicate InVak(w: Woning, vak: Geo.Begrenzingsvak)
  {
    w.breedtegraad.Some? && w.lengtegraad.Some? && Geo.IsPuntInBegrenzingsvak(w.breedtegraad.value, w.lengtegraad.value, vak)
  }

  lemma VakVoorwaardenKloppen(vak: Geo.Begrenzingsvak, w: Woning)
    ensures GeldtAlle(VakVoorwaarden(vak), AlsRij(w)) <==> InVak(w, vak)
  {
    AlsRijLeestBeheer(w);
    hide AlsRij;
    var rij := AlsRij(w);
    var vs := VakVoorwaarden(vak);
    assert Voorwaarden.Waarde(rij, "breedtegraad") == OptGetal(w.breedtegraad);
    assert Voorwaarden.Waarde(rij, "lengtegraad") == OptGetal(w.lengtegraad);
    assert GeldtAlle(vs, rij) <==> Geldt(vs[0], rij) && Geldt(vs[1], rij);
    assert Geldt(vs[0], rij) <==> w.breedtegraad.Some? && vak.minBreedtegraad <= w.breedtegraad.value <= vak.maxBreedtegraad;
    assert Geldt(vs[1], rij) <==> w.lengtegraad.Some? && vak.minLengtegraad <= w.lengtegraad.value <= vak.maxLengtegraad;
  }

  lemma RegioVoorwaardenKloppen(filters: seq<(string, Sleutel)>, vak: Geo.Begrenzingsvak, w: Woning)
    ensures GeldtAlle(RuweVoorwaarden(filters) + VakVoorwaarden(vak), AlsRij(w)) <==> PastBijRuweFilters(filters, w) && InVak(w, vak)
  {
    GeldtAlleSamen(RuweVoorwaarden(filters), VakVoorwaarden(vak), AlsRij(w));
    VakVoorwaardenKloppen(vak, w);
    var r := RuweVoorwaarden(filters);
    if GeldtAlle(r, AlsRij(w)) {
      forall e | e in filters && e.0 != "breedtegraad" && e.0 != "lengtegraad" ensures Geldt(RuweVoorwaarde(e), AlsRij(w)) {
        var i :| 0 <= i < |r| && r[i] == RuweVoorwaarde(e);
      }
    }
    if PastBijRuweFilters(filters, w) {
      forall i | 0 <= i < |r| ensures Geldt(r[i], AlsRij(w)) {
        assert r[i] in r;
      }
    }
  }

  /** The columns the copied filter keys name all exist. */
  predicate RuweFiltersBekend(filters: seq<(string, Sleutel)>)
  {
    forall e :: e in filters && e.0 != "breedtegraad" && e.0 != "lengtegraad" ==> e.0 in Kolommen
  }

  lemma RegioVoorwaardenBekend(filters: seq<(string, Sleutel)>, vak: Geo.Begrenzingsvak)
    ensures AllesBekend(RuweVoorwaarden(filters) + VakVoorwaarden(vak), Kolommen) <==> RuweFiltersBekend(filters)
  {
    GebruikteKolommen();
    var r := RuweVoorwaarden(filters);
    var a := r + VakVoorwaarden(vak);
    if AllesBekend(a, Kolommen) {
      forall e | e in filters && e.0 != "breedtegraad" && e.0 != "lengtegraad" ensures e.0 in Kolommen {
        var i :| 0 <= i < |r| && r[i] == RuweVoorwaarde(e);
        assert a[i] == r[i];
      }
    }
    if RuweFiltersBekend(filters) {
      forall i | 0 <= i < |a| ensures Bekend(a[i], Kolommen) {
        if i < |r| {
          assert a[i] == r[i] && r[i] in r;
        }
      }
    }
  }

  datatype Regioresultaat =
    | RegioOpTekst(zoekterm: string)
    | RegioInVak(woningen: seq<Woning>, totaal: nat, regioNaam: string, vak: Geo.Begrenzingsvak)

  /**
    * zoekWoningenInRegio: the region is geocoded; a confidence below 0.5
    * sends it to the text search. Otherwise the properties are those in a
    * 3 km box around the point that also match the copied filter keys, in
    * table order; a key that is no column makes the query fail, and the
    * failure too ends in the text search. `cosinus` is the cosine of a
    * latitude in degrees, never exactly 0 on a double.
    */
  function ZoekWoningenInRegio(tabel: seq<Woning>, c: Geocoding.Cache, regioNaam: string, filters: seq<(string, Sleutel)>,
                               provider: Geocoding.Provider, cosinus: real -> real): (r: (Regioresultaat, Geocoding.Cache))
    requires forall x :: cosinus(x) != 0.0
    ensures r.1 == Geocoding.GeocodeAdres(c, regioNaam, provider).1
    ensures var g := Geocoding.GeocodeAdres(c, regioNaam, provider).0;
      var b := Geocoding.Betrouwbaarheid(g);
      r.0.RegioInVak? <==> !(b.Some? && b.value < RegioDrempel) && RuweFiltersBekend(filters)
    ensures r.0.RegioOpTekst? ==> r.0.zoekterm == regioNaam
    ensures r.0.RegioInVak? ==> var g := Geocoding.GeocodeAdres(c, regioNaam, provider).0;
      && r.0.vak == Geo.BerekenBegrenzingsvak(g.breedtegraad, g.lengtegraad, RegioStraal, cosinus(g.breedtegraad))
      && r.0.totaal == |r.0.woningen|
      && r.0.regioNaam == (if g.geformatteerdAdres != "" then g.geformatteerdAdres else regioNaam)
      && Deelrij(r.0.woningen, tabel)
      && (forall i :: 0 <= i < |r.0.woningen| ==> PastBijRuweFilters(filters, r.0.woningen[i]) && InVak(r.0.woningen[i], r.0.vak))
      && (forall i :: 0 <= i < |tabel| && PastBijRuweFilters(filters, tabel[i]) && InVak(tabel[i], r.0.vak) ==> tabel[i] in r.0.woningen)
  {
    var (g, c1) := Geocoding.GeocodeAdres(c, regioNaam, provider);
    var b := Geocoding.Betrouwbaarheid(g);
    if b.Some? && b.value < RegioDrempel then (RegioOpTekst(regioNaam), c1)
    else
      var vak := Geo.BerekenBegrenzingsvak(g.breedtegraad, g.lengtegraad, RegioStraal, cosinus(g.breedtegraad));
      var vs := RuweVoorwaarden(filters) + VakVoorwaarden(vak);
      RegioVoorwaardenBekend(filters, vak);
      match Selecteer(tabel, AlsRij, Kolommen, vs)
      case Err(_) => (RegioOpTekst(regioNaam), c1)
      case Ok(rijen) =>
        RegioZoekenKlopt(tabel, rijen, filters, vak);
        (RegioInVak(rijen, |rijen|, if g.geformatteerdAdres != "" then g.geformatteerdAdres else regioNaam, vak), c1)
  }

  lemma RegioZoekenKlopt(tabel: seq<Woning>, rijen: seq<Woning>, filters: seq<(string, Sleutel)>, vak: Geo.Begrenzingsvak)
    requires forall i :: 0 <= i < |rijen| ==> GeldtAlle(RuweVoorwaarden(filters) + VakVoorwaarden(vak), AlsRij(rijen[i]))
    requires forall i :: 0 <= i < |tabel| && GeldtAlle(RuweVoorwaarden(filters) + VakVoorwaarden(vak), AlsRij(tabel[i])) ==> tabel[i] in rijen
    ensures forall i :: 0 <= i < |rijen| ==> PastBijRuweFilters(filters, rijen[i]) && InVak(rijen[i], vak)
    ensures forall i :: 0 <= i < |tabel| && PastBijRuweFilters(filters, tabel[i]) && InVak(tabel[i], vak) ==> tabel[i] in rijen
  {
    forall i | 0 <= i < |rijen| ensures PastBijRuweFilters(filters, rijen[i]) && InVak(rijen[i], vak) {
      RegioVoorwaardenKloppen(filters, vak, rijen[i]);
    }
    forall i | 0 <= i < |tabel| && PastBijRuweFilters(filters, tabel[i]) && InVak(tabel[i], vak) ensures tabel[i] in rijen {
      RegioVoorwaardenKloppen(filters, vak, tabel[i]);
    }
  }

  /** A filter key such as `minPrijs` is no column: the region search then always ends in the text search. */
  lemma OnbekendeFilterSleutelGeeftTekstZoeken(tabel: seq<Woning>, c: Geocoding.Cache, regioNaam: string, x: real,
                                               provider: Geocoding.Provider, cosinus: real -> real)
    requires forall x :: cosinus(x) != 0.0
    ensures ZoekWoningenInRegio(tabel, c, regioNaam, [("minPrijs", Num(x))], provider, cosinus).0 == RegioOpTekst(regioNaam)
  {
    assert "minPrijs" !in Kolommen;
    assert !RuweFiltersBekend([("minPrijs", Num(x))]) by {
      assert ("minPrijs", Num(x)) in [("minPrijs", Num(x))];
    }
  }

  // ---------------------------------------------------------------------
  // Backfilling missing coordinates
  // ---------------------------------------------------------------------

  const MaxBijwerken: int := 100

  /** The values `Woning.update` accepts for the two coordinates. */
  predicate GeldigeCoordinaten(breedtegraad: real, lengtegraad: real)
  {
    -90.0 <= breedtegraad <= 90.0 && -180.0 <= lengtegraad <= 180.0
  }

  /** The where clause of the backfill: a coordinate that is NULL or 0. */
  const OntbrekendVoorwaarde: Voorwaarde := Of([IsNull("breedtegraad"), IsNull("lengtegraad"),
                                                 Gelijk("breedtegraad", Num(0.0)), Gelijk("lengtegraad", Num(0.0))])

  predicate MistCoordinaten(w: Woning)
  {
    w.breedtegraad == None || w.lengtegraad == None || w.breedtegraad == Some(0.0) || w.lengtegraad == Some(0.0)
  }

  function MistCoordinatenTest(): Woning -> bool
  {
    w => MistCoordinaten(w)
  }

  lemma OntbrekendVoorwaardeKlopt(w: Woning)
    ensures GeldtAlle([OntbrekendVoorwaarde], AlsRij(w)) <==> MistCoordinaten(w)
  {
    AlsRijLeestAls(w);
    OntbrekendOpRij(AlsRij(w), w);
  }

  lemma OntbrekendOpRij(rij: Rij, w: Woning)
    requires LeestAls(rij, w)
    ensures GeldtAlle([OntbrekendVoorwaarde], rij) <==> MistCoordinaten(w)
  {
    var os := [IsNull("breedtegraad"), IsNull("lengtegraad"), Gelijk("breedtegraad", Num(0.0)), Gelijk("lengtegraad", Num(0.0))];
    var vs := [OntbrekendVoorwaarde];
    assert vs[0] == Of(os);
    assert GeldtAlle(vs, rij) <==> Geldt(vs[0], rij);
    assert Geldt(os[0], rij) <==> w.breedtegraad == None;
    assert Geldt(os[1], rij) <==> w.lengtegraad == None;
    assert Geldt(os[2], rij) <==> w.breedtegraad == Some(0.0);
    assert Geldt(os[3], rij) <==> w.lengtegraad == Some(0.0);
    assert Geldt(Of(os), rij) <==> Geldt(os[0], rij) || Geldt(os[1], rij) || Geldt(os[2], rij) || Geldt(os[3], rij);
  }

  /** The rows the backfill reads: those missing a coordinate, the first 100 in table order. */
  function Kandidaten(tabel: seq<Woning>): (r: seq<Woning>)
    ensures |r| <= MaxBijwerken
    ensures forall i :: 0 <= i < |r| ==> MistCoordinaten(r[i]) && r[i] in tabel
    ensures |Filter(tabel, MistCoordinatenTest())| <= MaxBijwerken ==> forall w :: w in tabel && MistCoordinaten(w) ==> w in r
  {
    var alle := Filter(tabel, MistCoordinatenTest());
    if |alle| <= MaxBijwerken then alle else alle[..MaxBijwerken]
  }

  /** The query `WHERE (lat IS NULL OR lon IS NULL OR lat = 0 OR lon = 0)` selects exactly the rows missing a coordinate. */
  lemma KandidatenZijnDeSelectie(tabel: seq<Woning>)
    ensures Selecteer(tabel, AlsRij, Kolommen, [OntbrekendVoorwaarde]) == Ok(Filter(tabel, MistCoordinatenTest()))
  {
    GebruikteKolommen();
    assert Bekend(OntbrekendVoorwaarde, Kolommen);
    forall i | 0 <= i < |tabel| ensures MistCoordinatenTest()(tabel[i]) == GeldtAlle([OntbrekendVoorwaarde], AlsRij(tabel[i])) {
      OntbrekendVoorwaardeKlopt(tabel[i]);
    }
    SelecteerIsFilter(tabel, AlsRij, Kolommen, [OntbrekendVoorwaarde], MistCoordinatenTest());
  }

  /** The address fields enrichment reads from a stored property. */
  function Gegevens(w: Woning): Geocoding.WoningGegevens
  {
    Geocoding.WoningGegevens(Some(w.straat), Some(w.huisnummer), Some(w.postcode), Some(w.stad), w.breedtegraad, w.lengtegraad)
  }

  /** The row with `w`'s id replaced by `w`. */
  function Vervang(tabel: seq<Woning>, w: Woning): (r: seq<Woning>)
    ensures |r| == |tabel|
    ensures forall i :: 0 <= i < |tabel| ==> r[i] == if tabel[i].id == w.id then w else tabel[i]
  {
    seq(|tabel|, i requires 0 <= i < |tabel| => if tabel[i].id == w.id then w else tabel[i])
  }

  /** Enrichment of the address fields of a stored property. */
  function Opvraag(c: Geocoding.Cache, w: Woning, provider: Geocoding.Provider): (Geocoding.Verrijkt, Geocoding.Cache)
  {
    Geocoding.VerrijkWoningMetGeocode(c, Gegevens(w), provider)
  }

  /**
    * Whether enriching `w` from cache `c` leads to a write: enrichment
    * claims valid coordinates and the model's range validation accepts them.
    */
  predicate Gelukt(c: Geocoding.Cache, w: Woning, provider: Geocoding.Provider)
  {
    var v := Opvraag(c, w, provider).0;
    VerrijktHeeftCoordinaten(c, Gegevens(w), provider);
    v.heeftGeldigeCoordinaten && GeldigeCoordinaten(v.gegevens.breedtegraad.value, v.gegevens.lengtegraad.value)
  }

  /** `w` as the update leaves it: the enriched coordinates and a fresh `bijgewerktOp`. */
  function Verrijkt(c: Geocoding.Cache, w: Woning, nu: int, provider: Geocoding.Provider): (r: Woning)
    ensures r.id == w.id
  {
    var v := Opvraag(c, w, provider).0;
    w.(breedtegraad := v.gegevens.breedtegraad, lengtegraad := v.gegevens.lengtegraad, bijgewerktOp := nu)
  }

  /**
    * One enrichment followed by the update it leads to: the new
    * coordinates are written when enrichment claims valid ones and the
    * model's range validation accepts them; a rejected update is caught.
    * The second component says whether the row was written.
    */
  function Verrijk(tabel: seq<Woning>, c: Geocoding.Cache, w: Woning, nu: int, provider: Geocoding.Provider): (r: (seq<Woning>, Geocoding.Cache, bool))
    ensures r.1 == Geocoding.VerrijkWoningMetGeocode(c, Gegevens(w), provider).1 == Opvraag(c, w, provider).1
    ensures var v := Geocoding.VerrijkWoningMetGeocode(c, Gegevens(w), provider).0;
      r.2 <==> v.heeftGeldigeCoordinaten && GeldigeCoordinaten(v.gegevens.breedtegraad.value, v.gegevens.lengtegraad.value)
    ensures r.2 == Gelukt(c, w, provider)
    ensures !r.2 ==> r.0 == tabel
    ensures r.2 ==> var v := Geocoding.VerrijkWoningMetGeocode(c, Gegevens(w), provider).0;
      r.0 == Vervang(tabel, w.(breedtegraad := v.gegevens.breedtegraad, lengtegraad := v.gegevens.lengtegraad, bijgewerktOp := nu))
    ensures r.2 ==> r.0 == Vervang(tabel, Verrijkt(c, w, nu, provider))
  {
    var (v, c1) := Geocoding.VerrijkWoningMetGeocode(c, Gegevens(w), provider);
    VerrijktHeeftCoordinaten(c, Gegevens(w), provider);
    if v.heeftGeldigeCoordinaten && GeldigeCoordinaten(v.gegevens.breedtegraad.value, v.gegevens.lengtegraad.value) then
      (Vervang(tabel, w.(breedtegraad := v.gegevens.breedtegraad, lengtegraad := v.gegevens.lengtegraad, bijgewerktOp := nu)), c1, true)
    else (tabel, c1, false)
  }

  lemma VerrijktHeeftCoordinaten(c: Geocoding.Cache, g: Geocoding.WoningGegevens, provider: Geocoding.Provider)
    ensures var v := Geocoding.VerrijkWoningMetGeocode(c, g, provider).0;
      v.gegevens.breedtegraad.Some? && v.gegevens.lengtegraad.Some?
  {
  }

  /**
    * The caches the loop passes through: entry `k` is the cache the
    * enrichment of the `k`-th candidate starts from, the last entry the
    * cache the loop ends with.
    */
  function Caches(c: Geocoding.Cache, kandidaten: seq<Woning>, provider: Geocoding.Provider): (r: seq<Geocoding.Cache>)
    ensures |r| == |kandidaten| + 1 && r[0] == c
    ensures forall k :: 0 <= k < |kandidaten| ==> r[k + 1] == Opvraag(r[k], kandidaten[k], provider).1
    decreases |kandidaten|
  {
    if kandidaten == [] then [c]
    else
      var rest := Caches(Opvraag(c, kandidaten[0], provider).1, kandidaten[1..], provider);
      assert forall k :: 1 <= k < |kandidaten| ==> kandidaten[1..][k - 1] == kandidaten[k];
      [c] + rest
  }

  /** Flag `k` says whether the `k`-th candidate's enrichment, from the cache the loop has by then, led to a write. */
  function Geslaagd(c: Geocoding.Cache, kandidaten: seq<Woning>, provider: Geocoding.Provider): (r: seq<bool>)
    ensures |r| == |kandidaten|
    ensures forall k :: 0 <= k < |kandidaten| ==> r[k] == Gelukt(Caches(c, kandidaten, provider)[k], kandidaten[k], provider)
  {
    var cs := Caches(c, kandidaten, provider);
    seq(|kandidaten|, k requires 0 <= k < |kandidaten| => Gelukt(cs[k], kandidaten[k], provider))
  }

  /** The loop over the candidates: each is enriched in turn, the cache and the table carried along. */
  function BijwerkenVanaf(tabel: seq<Woning>, c: Geocoding.Cache, kandidaten: seq<Woning>, nu: int, provider: Geocoding.Provider): (r: (seq<Woning>, Geocoding.Cache, nat))
    ensures r.2 <= |kandidaten|
    ensures |r.0| == |tabel|
    ensures forall i :: 0 <= i < |tabel| && (forall k :: 0 <= k < |kandidaten| ==> kandidaten[k].id != tabel[i].id) ==> r.0[i] == tabel[i]
    ensures forall i :: 0 <= i < |tabel| ==> r.0[i].id == tabel[i].id
    decreases |kandidaten|
  {
    if kandidaten == [] then (tabel, c, 0)
    else
      var (t1, c1, gelukt) := Verrijk(tabel, c, kandidaten[0], nu, provider);
      var (t2, c2, n) := BijwerkenVanaf(t1, c1, kandidaten[1..], nu, provider);
      assert forall k :: 1 <= k < |kandidaten| ==> kandidaten[1..][k - 1] == kandidaten[k];
      (t2, c2, n + (if gelukt then 1 else 0))
  }

  /** One turn of the loop: enrich the first candidate, then carry on with the rest from the table and cache it leaves. */
  lemma BijwerkenStap(tabel: seq<Woning>, c: Geocoding.Cache, kandidaten: seq<Woning>, nu: int, provider: Geocoding.Provider)
    requires kandidaten != []
    ensures var s := Verrijk(tabel, c, kandidaten[0], nu, provider);
      var r := BijwerkenVanaf(tabel, c, kandidaten, nu, provider);
      var rest := BijwerkenVanaf(s.0, s.1, kandidaten[1..], nu, provider);
      && r.0 == rest.0 && r.1 == rest.1 && r.2 == rest.2 + (if s.2 then 1 else 0)
      && Caches(c, kandidaten, provider) == [c] + Caches(s.1, kandidaten[1..], provider)
      && Geslaagd(c, kandidaten, provider) == [s.2] + Geslaagd(s.1, kandidaten[1..], provider)
  {
    hide Caches, Geslaagd, Opvraag, Gelukt;
    GeslaagdStap(tabel, c, kandidaten, nu, provider);
  }

  /** The flags and caches of the loop, peeled by one candidate. */
  lemma GeslaagdStap(tabel: seq<Woning>, c: Geocoding.Cache, kandidaten: seq<Woning>, nu: int, provider: Geocoding.Provider)
    requires kandidaten != []
    ensures var s := Verrijk(tabel, c, kandidaten[0], nu, provider);
      && Caches(c, kandidaten, provider) == [c] + Caches(s.1, kandidaten[1..], provider)
      && Geslaagd(c, kandidaten, provider) == [s.2] + Geslaagd(s.1, kandidaten[1..], provider)
  {
    hide BijwerkenVanaf;
    var s := Verrijk(tabel, c, kandidaten[0], nu, provider);
    var cs := Caches(s.1, kandidaten[1..], provider);
    assert Caches(c, kandidaten, provider) == [c] + cs;
    var gs := Geslaagd(s.1, kandidaten[1..], provider);
    hide Opvraag, Gelukt, Verrijk, Caches;
    assert forall k :: 1 <= k < |kandidaten| ==> kandidaten[1..][k - 1] == kandidaten[k];
    assert Geslaagd(c, kandidaten, provider) == [s.2] + gs;
  }

  /**
    * The loop's count is the number of candidates whose enrichment led to
    * a write, and it ends with the cache the enrichments leave behind.
    */
  lemma {:induction false} BijwerkenTelt(tabel: seq<Woning>, c: Geocoding.Cache, kandidaten: seq<Woning>, nu: int, provider: Geocoding.Provider)
    ensures var r := BijwerkenVanaf(tabel, c, kandidaten, nu, provider);
      && r.2 == multiset(Geslaagd(c, kandidaten, provider))[true]
      && r.1 == Caches(c, kandidaten, provider)[|kandidaten|]
    decreases |kandidaten|
  {
    if kandidaten != [] {
      hide Opvraag, Gelukt, Verrijk, Caches, Geslaagd, BijwerkenVanaf, Vervang, Gegevens, Geocoding.VerrijkWoningMetGeocode;
      var s := Verrijk(tabel, c, kandidaten[0], nu, provider);
      BijwerkenStap(tabel, c, kandidaten, nu, provider);
      BijwerkenTelt(s.0, s.1, kandidaten[1..], nu, provider);
      var gs := Geslaagd(s.1, kandidaten[1..], provider);
      assert multiset([s.2] + gs) == multiset([s.2]) + multiset(gs);
    }
  }

  /**
    * With distinct candidate ids, each candidate's row ends up enriched
    * exactly when its enrichment led to a write, and untouched otherwise.
    */
  lemma {:induction false} BijwerkenSchrijftGeslaagden(tabel: seq<Woning>, c: Geocoding.Cache, kandidaten: seq<Woning>, nu: int, provider: Geocoding.Provider)
    requires UniekeIdsIn(kandidaten)
    ensures var r := BijwerkenVanaf(tabel, c, kandidaten, nu, provider);
      forall k, i :: 0 <= k < |kandidaten| && 0 <= i < |tabel| && tabel[i].id == kandidaten[k].id ==>
        r.0[i] == if Geslaagd(c, kandidaten, provider)[k] then Verrijkt(Caches(c, kandidaten, provider)[k], kandidaten[k], nu, provider) else tabel[i]
    decreases |kandidaten|
  {
    hide Opvraag, Gelukt, Verrijk, Verrijkt, Caches, Geslaagd, BijwerkenVanaf, Vervang, Gegevens, Geocoding.VerrijkWoningMetGeocode;
    if kandidaten != [] {
      var s := Verrijk(tabel, c, kandidaten[0], nu, provider);
      var rest := kandidaten[1..];
      BijwerkenStap(tabel, c, kandidaten, nu, provider);
      assert forall k :: 1 <= k < |kandidaten| ==> rest[k - 1] == kandidaten[k];
      assert UniekeIdsIn(rest);
      BijwerkenSchrijftGeslaagden(s.0, s.1, rest, nu, provider);
      var r := BijwerkenVanaf(tabel, c, kandidaten, nu, provider);
      forall k, i | 0 <= k < |kandidaten| && 0 <= i < |tabel| && tabel[i].id == kandidaten[k].id
        ensures r.0[i] == if Geslaagd(c, kandidaten, provider)[k] then Verrijkt(Caches(c, kandidaten, provider)[k], kandidaten[k], nu, provider) else tabel[i]
      {
        if k == 0 {
          assert forall j :: 0 <= j < |rest| ==> rest[j].id != s.0[i].id;
        } else {
          assert s.0[i] == tabel[i];
        }
      }
    }
  }

  /** Keeping some rows of a table with distinct ids keeps the ids distinct. */
  lemma {:induction false} FilterHoudtIdsUniek(tabel: seq<Woning>, p: Woning -> bool)
    requires UniekeIdsIn(tabel)
    ensures UniekeIdsIn(Filter(tabel, p))
    decreases |tabel|
  {
    if tabel != [] {
      assert UniekeIdsIn(tabel[1..]);
      FilterHoudtIdsUniek(tabel[1..], p);
      if p(tabel[0]) {
        var r := [tabel[0]] + Filter(tabel[1..], p);
        forall j | 0 < j < |r| ensures r[j].id != tabel[0].id {
          assert r[j] in Filter(tabel[1..], p);
          var m :| 0 <= m < |tabel[1..]| && tabel[1..][m] == r[j];
          assert tabel[m + 1] == r[j];
        }
      }
    }
  }

  datatype Bijwerkresultaat = Bijwerkresultaat(succes: bool, totaal: Option<nat>, bijgewerkt: nat)

  /**
    * updateOntbrekendeCoordinaten: up to 100 properties missing a
    * coordinate are enriched one by one; `bijgewerkt` counts the rows
    * written, never more than were read, and rows that were not read stay
    * as they were.
    */
  function UpdateOntbrekendeCoordinaten(tabel: seq<Woning>, c: Geocoding.Cache, nu: int, provider: Geocoding.Provider): (r: (Bijwerkresultaat, seq<Woning>, Geocoding.Cache))
    ensures r.0.succes
    ensures Kandidaten(tabel) == [] ==> r == (Bijwerkresultaat(true, None, 0), tabel, c)
    ensures Kandidaten(tabel) != [] ==> r.0.totaal == Some(|Kandidaten(tabel)|)
    ensures r.0.bijgewerkt <= |Kandidaten(tabel)| <= MaxBijwerken
    ensures |r.1| == |tabel|
    ensures forall i :: 0 <= i < |tabel| && !MistCoordinaten(tabel[i]) && UniekeIdsIn(tabel) ==> r.1[i] == tabel[i]
  {
    var ks := Kandidaten(tabel);
    if ks == [] then (Bijwerkresultaat(true, None, 0), tabel, c)
    else
      var (t, c1, n) := BijwerkenVanaf(tabel, c, ks, nu, provider);
      forall i | 0 <= i < |tabel| && !MistCoordinaten(tabel[i]) && UniekeIdsIn(tabel) ensures t[i] == tabel[i] {
        forall k | 0 <= k < |ks| ensures ks[k].id != tabel[i].id {
          var j :| 0 <= j < |tabel| && tabel[j] == ks[k];
        }
      }
      (Bijwerkresultaat(true, Some(|ks|), n), t, c1)
  }

  /**
    * `bijgewerkt` is exactly the number of candidates whose enrichment led
    * to a write, and the cache returned is the one the last enrichment left.
    */
  lemma BijwerkenTeltGeslaagden(tabel: seq<Woning>, c: Geocoding.Cache, nu: int, provider: Geocoding.Provider)
    ensures var ks := Kandidaten(tabel); var r := UpdateOntbrekendeCoordinaten(tabel, c, nu, provider);
      r.0.bijgewerkt == multiset(Geslaagd(c, ks, provider))[true] && r.2 == Caches(c, ks, provider)[|ks|]
  {
    var ks := Kandidaten(tabel);
    UpdateIsBijwerken(tabel, c, nu, provider);
    hide Kandidaten, UpdateOntbrekendeCoordinaten, BijwerkenVanaf, Gelukt, Opvraag;
    BijwerkenTelt(tabel, c, ks, nu, provider);
    if ks == [] {
      assert Geslaagd(c, ks, provider) == [];
    }
  }

  /** With candidates, the backfill's table, cache and count are those of the loop over them. */
  lemma UpdateIsBijwerken(tabel: seq<Woning>, c: Geocoding.Cache, nu: int, provider: Geocoding.Provider)
    ensures var ks := Kandidaten(tabel); var r := UpdateOntbrekendeCoordinaten(tabel, c, nu, provider);
      ks != [] ==> var l := BijwerkenVanaf(tabel, c, ks, nu, provider);
        r.1 == l.0 && r.2 == l.1 && r.0.bijgewerkt == l.2
  {
  }

  /**
    * With distinct ids in the table, each candidate's row carries the
    * enriched coordinates exactly when its enrichment led to a write, and
    * is left as it was otherwise.
    */
  lemma KandidatenSchrijvenGeslaagden(tabel: seq<Woning>, c: Geocoding.Cache, nu: int, provider: Geocoding.Provider)
    requires UniekeIdsIn(tabel)
    ensures var ks := Kandidaten(tabel); var r := UpdateOntbrekendeCoordinaten(tabel, c, nu, provider);
      forall k, i :: 0 <= k < |ks| && 0 <= i < |tabel| && tabel[i].id == ks[k].id ==>
        r.1[i] == if Geslaagd(c, ks, provider)[k] then Verrijkt(Caches(c, ks, provider)[k], ks[k], nu, provider) else tabel[i]
  {
    hide *;
    KandidatenIdsUniek(tabel);
    UpdateIsBijwerken(tabel, c, nu, provider);
    SchrijftGeslaagdenIn(tabel, c, Kandidaten(tabel), nu, provider, UpdateOntbrekendeCoordinaten(tabel, c, nu, provider).1);
  }

  lemma SchrijftGeslaagdenIn(tabel: seq<Woning>, c: Geocoding.Cache, ks: seq<Woning>, nu: int, provider: Geocoding.Provider, t: seq<Woning>)
    requires UniekeIdsIn(ks)
    requires ks != [] ==> t == BijwerkenVanaf(tabel, c, ks, nu, provider).0
    ensures forall k, i :: 0 <= k < |ks| && 0 <= i < |tabel| && tabel[i].id == ks[k].id ==>
      t[i] == if Geslaagd(c, ks, provider)[k] then Verrijkt(Caches(c, ks, provider)[k], ks[k], nu, provider) else tabel[i]
  {
    hide BijwerkenVanaf, Geslaagd, Caches, Verrijkt, Gelukt, Opvraag;
    if ks != [] {
      BijwerkenSchrijftGeslaagden(tabel, c, ks, nu, provider);
    }
  }

  lemma KandidatenIdsUniek(tabel: seq<Woning>)
    requires UniekeIdsIn(tabel)
    ensures UniekeIdsIn(Kandidaten(tabel))
  {
    var alle := Filter(tabel, MistCoordinatenTest());
    FilterHoudtIdsUniek(tabel, MistCoordinatenTest());
    if |alle| > MaxBijwerken {
      assert forall i :: 0 <= i < MaxBijwerken ==> alle[..MaxBijwerken][i] == alle[i];
    }
  }

  predicate UniekeIdsIn(tabel: seq<Woning>)
  {
    forall i, j :: 0 <= i < |tabel| && 0 <= j < |tabel| && tabel[i].id == tabel[j].id ==> i == j
  }

  // ---------------------------------------------------------------------
  // Creating a property with geocoding
  // ---------------------------------------------------------------------

  /**
    * maakWoningMetGeocode: the property is created as given; when a
    * coordinate in the body is falsy it is enriched and, if the new
    * coordinates pass validation, updated. A failed creation is the
    * creation's error.
    */
  function MaakWoningMetGeocode(tabel: seq<Woning>, c: Geocoding.Cache, n: NieuweWoning, verkoperId: int, nu: int, maxBouwjaar: int,
                                provider: Geocoding.Provider): (r: Result<(Woning, seq<Woning>, Geocoding.Cache)>)
    ensures r.Ok? <==> WoningService.MaakWoning(tabel, n, verkoperId, nu, maxBouwjaar).Ok?
    ensures r.Err? ==> r.code == BadRequest
    ensures r.Ok? ==> var (w0, t0) := WoningService.MaakWoning(tabel, n, verkoperId, nu, maxBouwjaar).value;
      var (w, t, c1) := r.value;
      && w.id == w0.id && w.verkoperId == verkoperId && |t| == |t0|
      && (Actief(n.breedtegraad) && Actief(n.lengtegraad) ==> w == w0 && t == t0 && c1 == c)
      && (!(Actief(n.breedtegraad) && Actief(n.lengtegraad)) ==>
            && c1 == Geocoding.VerrijkWoningMetGeocode(c, Gegevens(w0), provider).1
            && (Gelukt(c, w0, provider) ==> w == Verrijkt(c, w0, nu, provider) && t == Vervang(t0, w))
            && (!Gelukt(c, w0, provider) ==> w == w0 && t == t0))
  {
    match WoningService.MaakWoning(tabel, n, verkoperId, nu, maxBouwjaar)
    case Err(e) => Err(e)
    case Ok((w0, t0)) =>
      if Actief(n.breedtegraad) && Actief(n.lengtegraad) then Ok((w0, t0, c))
      else
        var (t1, c1, gelukt) := Verrijk(t0, c, w0, nu, provider);
        var v := Geocoding.VerrijkWoningMetGeocode(c, Gegevens(w0), provider).0;
        var w := if gelukt then w0.(breedtegraad := v.gegevens.breedtegraad, lengtegraad := v.gegevens.lengtegraad, bijgewerktOp := nu) else w0;
        Ok((w, t1, c1))
  }

  /** A body with both coordinates truthy makes no lookup: the provider does not matter. */
  lemma MetCoordinatenGeenOpvraag(tabel: seq<Woning>, c: Geocoding.Cache, n: NieuweWoning, verkoperId: int, nu: int, maxBouwjaar: int,
                                  p: Geocoding.Provider, q: Geocoding.Provider)
    requires Actief(n.breedtegraad) && Actief(n.lengtegraad)
    ensures MaakWoningMetGeocode(tabel, c, n, verkoperId, nu, maxBouwjaar, p) == MaakWoningMetGeocode(tabel, c, n, verkoperId, nu, maxBouwjaar, q)
  {
  }
}

=== FILE: woning_service.dfy ===
/**
  * The property service: the filtered, sorted and paginated listing, the
  * radius search, creation, lookup, update and removal by id, and the
  * featured listing. The table is the sequence of rows in id order. The
  * distance of the radius search is the spherical law of cosines evaluated
  * by the database; here it is a parameter `afstand(lat0, lon0, lat, lon)`.
  */
module WoningService {
  import opened Basis
  import opened Sorteren
  import opened Voorwaarden
  import opened Paginatie
  import opened Woningen
  import opened Lijsten

  /** The radius search never looks further than this many kilometres. */
  const MaxStraal: real := 50.0

  type Tabel = seq<Woning>

  predicate UniekeIds(tabel: Tabel)
  {
    forall i, j :: 0 <= i < j < |tabel| ==> tabel[i].id != tabel[j].id
  }

  // ---------------------------------------------------------------------
  // Listing with filters
  // ---------------------------------------------------------------------

  /**
    * The filter object the listing receives. Numbers are the controller's
    * parse results, `None` standing for both `undefined` and NaN; strings
    * are raw query values.
    */
  datatype Filters = Filters(
    status: Option<string>,
    minPrijs: Option<real>,
    maxPrijs: Option<real>,
    minOppervlakte: Option<real>,
    stad: Option<string>,
    postcode: Option<string>,
    minSlaapkamers: Option<int>,
    minBadkamers: Option<int>,
    verkoperId: Option<string>,
    zoekterm: Option<string>)

  /**
    * The value a query string stands for when compared with an INTEGER
    * column: SQLite applies NUMERIC affinity, so a text that reads as a
    * number (`'5'`, `'5.0'`, `'5e0'`, `' 5'`) is compared as that number;
    * anything else stays text and equals no number.
    */
  function MetNumeriekeAffiniteit(s: string): Sleutel
  {
    match SqlGetal(s)
    case Some(x) => Num(x)
    case None => Txt(s)
  }

  function Als<T>(c: bool, x: T): seq<T>
  {
    if c then [x] else []
  }

  /** The listing's conditions on status and the numeric columns. */
  function WhereGetallen(f: Filters): seq<Voorwaarde>
  {
    [Gelijk("status", Txt(if Gevuld(f.status) then f.status.value else StatusNaam(Beschikbaar)))]
    + Als(Actief(f.minPrijs), Minstens("prijs", Num(if f.minPrijs.Some? then f.minPrijs.value else 0.0)))
    + Als(Actief(f.maxPrijs), Hoogstens("prijs", Num(if f.maxPrijs.Some? then f.maxPrijs.value else 0.0)))
    + Als(Actief(f.minOppervlakte), Minstens("oppervlakte", Num(if f.minOppervlakte.Some? then f.minOppervlakte.value else 0.0)))
  }

  /** The listing's conditions on city and postcode. */
  function WhereLigging(f: Filters): seq<Voorwaarde>
  {
    Als(Gevuld(f.stad), Lijkt("stad", if f.stad.Some? then f.stad.value else ""))
    + Als(Gevuld(f.postcode), Lijkt("postcode", if f.postcode.Some? then f.postcode.value else ""))
  }

  /** The listing's conditions on bedrooms and bathrooms. */
  function WhereKamers(f: Filters): seq<Voorwaarde>
  {
    Als(ActiefGeheel(f.minSlaapkamers), Minstens("slaapkamers", Num(if f.minSlaapkamers.Some? then f.minSlaapkamers.value as real else 0.0)))
    + Als(ActiefGeheel(f.minBadkamers), Minstens("badkamers", Num(if f.minBadkamers.Some? then f.minBadkamers.value as real else 0.0)))
  }

  /** The listing's conditions on the seller and the search term. */
  function WhereVerkoperEnZoekterm(f: Filters): seq<Voorwaarde>
  {
    Als(Gevuld(f.verkoperId), Gelijk("verkoperId", MetNumeriekeAffiniteit(if f.verkoperId.Some? then f.verkoperId.value else "")))
    + Als(Gevuld(f.zoekterm), ZoektermVoorwaarde(if f.zoekterm.Some? then f.zoekterm.value else ""))
  }

  function ZoektermVoorwaarde(z: string): Voorwaarde
  {
    Of([Lijkt("titel", z), Lijkt("beschrijving", z), Lijkt("stad", z), Lijkt("straat", z)])
  }

  /** The where object getWoningen builds: status, then one condition per truthy filter. */
  function WhereGetWoningen(f: Filters): seq<Voorwaarde>
  {
    WhereGetallen(f) + WhereLigging(f) + WhereKamers(f) + WhereVerkoperEnZoekterm(f)
  }

  /** The filters' meaning stated on the record: each truthy filter holds, and the status defaults to beschikbaar. */
  predicate PastBijFilters(f: Filters, w: Woning)
  {
    && (if Gevuld(f.status) then StatusNaam(w.status) == f.status.value else w.status == Beschikbaar)
    && (Actief(f.minPrijs) ==> w.prijs >= f.minPrijs.value)
    && (Actief(f.maxPrijs) ==> w.prijs <= f.maxPrijs.value)
    && (Actief(f.minOppervlakte) ==> w.oppervlakte >= f.minOppervlakte.value)
    && (Gevuld(f.stad) ==> LijktOp(w.stad, f.stad.value))
    && (Gevuld(f.postcode) ==> LijktOp(w.postcode, f.postcode.value))
    && (ActiefGeheel(f.minSlaapkamers) ==> w.slaapkamers >= f.minSlaapkamers.value)
    && (ActiefGeheel(f.minBadkamers) ==> w.badkamers >= f.minBadkamers.value)
    && (Gevuld(f.verkoperId) ==> SqlGetal(f.verkoperId.value) == Some(w.verkoperId as real))
    && (Gevuld(f.zoekterm) ==> ZoektermPast(f.zoekterm.value, w))
  }

  predicate ZoektermPast(z: string, w: Woning)
  {
    || LijktOp(w.titel, z) || LijktOp(w.beschrijving, z)
    || LijktOp(w.stad, z) || LijktOp(w.straat, z)
  }

  lemma AlsGeldt(c: bool, v: Voorwaarde, rij: Rij)
    ensures GeldtAlle(Als(c, v), rij) <==> (c ==> Geldt(v, rij))
  {
    if c {
      assert Als(c, v)[0] == v;
    }
  }

  lemma LijktKlopt(rij: Rij, kolom: string, tekst: string, z: string)
    requires Voorwaarden.Waarde(rij, kolom) == Txt(tekst)
    ensures Geldt(Lijkt(kolom, z), rij) <==> LijktOp(tekst, z)
  {
  }

  lemma ZoektermKlopt(z: string, w: Woning, rij: Rij)
    requires LeestAls(rij, w)
    ensures Geldt(ZoektermVoorwaarde(z), rij) <==> ZoektermPast(z, w)
  {
    assert && Voorwaarden.Waarde(rij, "titel") == Txt(w.titel)
           && Voorwaarden.Waarde(rij, "beschrijving") == Txt(w.beschrijving)
           && Voorwaarden.Waarde(rij, "stad") == Txt(w.stad)
           && Voorwaarden.Waarde(rij, "straat") == Txt(w.straat);
    hide LeestAls;
    var os := ZoektermVoorwaarde(z).opties;
    LijktKlopt(rij, "titel", w.titel, z);
    LijktKlopt(rij, "beschrijving", w.beschrijving, z);
    LijktKlopt(rij, "stad", w.stad, z);
    LijktKlopt(rij, "straat", w.straat, z);
    if ZoektermPast(z, w) {
      if LijktOp(w.titel, z) {
        assert Geldt(os[0], rij);
      } else if LijktOp(w.beschrijving, z) {
        assert Geldt(os[1], rij);
      } else if LijktOp(w.stad, z) {
        assert Geldt(os[2], rij);
      } else {
        assert Geldt(os[3], rij);
      }
    }
  }

  lemma WhereGetallenKlopt(f: Filters, w: Woning, rij: Rij)
    requires LeestAls(rij, w)
    ensures GeldtAlle(WhereGetallen(f), rij) <==>
      && (if Gevuld(f.status) then StatusNaam(w.status) == f.status.value else w.status == Beschikbaar)
      && (Actief(f.minPrijs) ==> w.prijs >= f.minPrijs.value)
      && (Actief(f.maxPrijs) ==> w.prijs <= f.maxPrijs.value)
      && (Actief(f.minOppervlakte) ==> w.oppervlakte >= f.minOppervlakte.value)
  {
    var vs := Gelijk("status", Txt(if Gevuld(f.status) then f.status.value else StatusNaam(Beschikbaar)));
    var va := Minstens("prijs", Num(if f.minPrijs.Some? then f.minPrijs.value else 0.0));
    var vb := Hoogstens("prijs", Num(if f.maxPrijs.Some? then f.maxPrijs.value else 0.0));
    var vc := Minstens("oppervlakte", Num(if f.minOppervlakte.Some? then f.minOppervlakte.value else 0.0));
    var s := [vs];
    var a := Als(Actief(f.minPrijs), va);
    var b := Als(Actief(f.maxPrijs), vb);
    var c := Als(Actief(f.minOppervlakte), vc);
    assert WhereGetallen(f) == s + a + b + c;
    hide Geldt, GeldtAlle, LeestAls, WhereGetallen;
    StatusVoorwaardeKlopt(f, w, rij);
    GetalGrenzen(rij, "prijs", w.prijs, if f.minPrijs.Some? then f.minPrijs.value else 0.0);
    GetalGrenzen(rij, "prijs", w.prijs, if f.maxPrijs.Some? then f.maxPrijs.value else 0.0);
    GetalGrenzen(rij, "oppervlakte", w.oppervlakte, if f.minOppervlakte.Some? then f.minOppervlakte.value else 0.0);
    AlsGeldt(true, vs, rij);
    assert Als(true, vs) == s;
    AlsGeldt(Actief(f.minPrijs), va, rij);
    AlsGeldt(Actief(f.maxPrijs), vb, rij);
    AlsGeldt(Actief(f.minOppervlakte), vc, rij);
    GeldtAlleSamen(s + a + b, c, rij);
    GeldtAlleSamen(s + a, b, rij);
    GeldtAlleSamen(s, a, rij);
  }

  lemma StatusVoorwaardeKlopt(f: Filters, w: Woning, rij: Rij)
    requires LeestAls(rij, w)
    ensures Geldt(Gelijk("status", Txt(if Gevuld(f.status) then f.status.value else StatusNaam(Beschikbaar))), rij)
        <==> if Gevuld(f.status) then StatusNaam(w.status) == f.status.value else w.status == Beschikbaar
  {
    if !Gevuld(f.status) {
      StatusNaamTerug(w.status, "");
      StatusNaamTerug(Beschikbaar, "");
    }
  }

  /** A numeric column compared with a numeric bound compares the numbers. */
  lemma GetalGrenzen(rij: Rij, kolom: string, x: real, grens: real)
    requires Voorwaarden.Waarde(rij, kolom) == Num(x)
    ensures Geldt(Minstens(kolom, Num(grens)), rij) <==> x >= grens
    ensures Geldt(Hoogstens(kolom, Num(grens)), rij) <==> x <= grens
  {
  }

  lemma VerkoperKlopt(s: string, w: Woning, rij: Rij)
    requires LeestAls(rij, w)
    ensures Geldt(Gelijk("verkoperId", MetNumeriekeAffiniteit(s)), rij)
        <==> SqlGetal(s) == Some(w.verkoperId as real)
  {
    hide Basis.SqlGetal;
  }

  /** `?verkoperId=5.0` selects the properties of seller 5, as `?verkoperId=5` does. */
  lemma VerkoperMetNulFractie(n: nat, w: Woning, rij: Rij)
    requires LeestAls(rij, w)
    ensures Geldt(Gelijk("verkoperId", MetNumeriekeAffiniteit(NatNaarTekst(n) + ".0")), rij) <==> w.verkoperId == n
    ensures Geldt(Gelijk("verkoperId", MetNumeriekeAffiniteit(NatNaarTekst(n))), rij) <==> w.verkoperId == n
  {
    SqlGetalNulFractie(n);
    SqlGetalNaNatNaarTekst(n);
    VerkoperKlopt(NatNaarTekst(n) + ".0", w, rij);
    VerkoperKlopt(NatNaarTekst(n), w, rij);
  }

  lemma WhereLiggingKlopt(f: Filters, w: Woning, rij: Rij)
    requires LeestAls(rij, w)
    ensures GeldtAlle(WhereLigging(f), rij) <==>
      && (Gevuld(f.stad) ==> LijktOp(w.stad, f.stad.value))
      && (Gevuld(f.postcode) ==> LijktOp(w.postcode, f.postcode.value))
  {
    var vStad := Lijkt("stad", if f.stad.Some? then f.stad.value else "");
    var vPost := Lijkt("postcode", if f.postcode.Some? then f.postcode.value else "");
    GeldtAlleSamen(Als(Gevuld(f.stad), vStad), Als(Gevuld(f.postcode), vPost), rij);
    AlsGeldt(Gevuld(f.stad), vStad, rij);
    AlsGeldt(Gevuld(f.postcode), vPost, rij);
  }

  lemma WhereKamersKlopt(f: Filters, w: Woning, rij: Rij)
    requires LeestAls(rij, w)
    ensures GeldtAlle(WhereKamers(f), rij) <==>
      && (ActiefGeheel(f.minSlaapkamers) ==> w.slaapkamers >= f.minSlaapkamers.value)
      && (ActiefGeheel(f.minBadkamers) ==> w.badkamers >= f.minBadkamers.value)
  {
    var vSlaap := Minstens("slaapkamers", Num(if f.minSlaapkamers.Some? then f.minSlaapkamers.value as real else 0.0));
    var vBad := Minstens("badkamers", Num(if f.minBadkamers.Some? then f.minBadkamers.value as real else 0.0));
    GeldtAlleSamen(Als(ActiefGeheel(f.minSlaapkamers), vSlaap), Als(ActiefGeheel(f.minBadkamers), vBad), rij);
    AlsGeldt(ActiefGeheel(f.minSlaapkamers), vSlaap, rij);
    AlsGeldt(ActiefGeheel(f.minBadkamers), vBad, rij);
  }

  lemma WhereVerkoperEnZoektermKlopt(f: Filters, w: Woning, rij: Rij)
    requires LeestAls(rij, w)
    ensures GeldtAlle(WhereVerkoperEnZoekterm(f), rij) <==>
      && (Gevuld(f.verkoperId) ==> SqlGetal(f.verkoperId.value) == Some(w.verkoperId as real))
      && (Gevuld(f.zoekterm) ==> ZoektermPast(f.zoekterm.value, w))
  {
    hide Basis.SqlGetal;
    var vVerk := Gelijk("verkoperId", MetNumeriekeAffiniteit(if f.verkoperId.Some? then f.verkoperId.value else ""));
    var vZoek := ZoektermVoorwaarde(if f.zoekterm.Some? then f.zoekterm.value else "");
    GeldtAlleSamen(Als(Gevuld(f.verkoperId), vVerk), Als(Gevuld(f.zoekterm), vZoek), rij);
    AlsGeldt(Gevuld(f.verkoperId), vVerk, rij);
    AlsGeldt(Gevuld(f.zoekterm), vZoek, rij);
    VerkoperKlopt(if f.verkoperId.Some? then f.verkoperId.value else "", w, rij);
    ZoektermKlopt(if f.zoekterm.Some? then f.zoekterm.value else "", w, rij);
  }

  /**
    * The SQL conditions getWoningen builds select exactly the rows that
    * satisfy every truthy filter, the status defaulting to beschikbaar.
    */
  lemma WhereGetWoningenKlopt(f: Filters, w: Woning)
    ensures GeldtAlle(WhereGetWoningen(f), AlsRij(w)) <==> PastBijFilters(f, w)
  {
    var rij := AlsRij(w);
    AlsRijLeestAls(w);
    GeldtAlleSamen(WhereGetallen(f) + WhereLigging(f) + WhereKamers(f), WhereVerkoperEnZoekterm(f), rij);
    GeldtAlleSamen(WhereGetallen(f) + WhereLigging(f), WhereKamers(f), rij);
    GeldtAlleSamen(WhereGetallen(f), WhereLigging(f), rij);
    WhereGetallenKlopt(f, w, rij);
    WhereLiggingKlopt(f, w, rij);
    WhereKamersKlopt(f, w, rij);
    WhereVerkoperEnZoektermKlopt(f, w, rij);
  }

  /** The conditions of the listing name only columns of the table, so the listing's query never fails on them. */
  lemma WhereGetWoningenBekend(f: Filters)
    ensures AllesBekend(WhereGetWoningen(f), Kolommen)
  {
    WhereGetallenBekend(f);
    WhereLiggingBekend(f);
    WhereKamersBekend(f);
    WhereVerkoperEnZoektermBekend(f);
    BekendSamen(WhereGetallen(f), WhereLigging(f));
    BekendSamen(WhereGetallen(f) + WhereLigging(f), WhereKamers(f));
    BekendSamen(WhereGetallen(f) + WhereLigging(f) + WhereKamers(f), WhereVerkoperEnZoekterm(f));
  }

  lemma AlsBekend(c: bool, v: Voorwaarde)
    requires Bekend(v, Kolommen)
    ensures AllesBekend(Als(c, v), Kolommen)
  {
  }

  lemma WhereGetallenBekend(f: Filters)
    ensures AllesBekend(WhereGetallen(f), Kolommen)
  {
    GebruikteKolommen();
    var vs := Gelijk("status", Txt(if Gevuld(f.status) then f.status.value else StatusNaam(Beschikbaar)));
    var va := Minstens("prijs", Num(if f.minPrijs.Some? then f.minPrijs.value else 0.0));
    var vb := Hoogstens("prijs", Num(if f.maxPrijs.Some? then f.maxPrijs.value else 0.0));
    var vc := Minstens("oppervlakte", Num(if f.minOppervlakte.Some? then f.minOppervlakte.value else 0.0));
    AlsBekend(true, vs);
    AlsBekend(Actief(f.minPrijs), va);
    AlsBekend(Actief(f.maxPrijs), vb);
    AlsBekend(Actief(f.minOppervlakte), vc);
    BekendSamen([vs], Als(Actief(f.minPrijs), va));
    BekendSamen([vs] + Als(Actief(f.minPrijs), va), Als(Actief(f.maxPrijs), vb));
    BekendSamen([vs] + Als(Actief(f.minPrijs), va) + Als(Actief(f.maxPrijs), vb), Als(Actief(f.minOppervlakte), vc));
  }

  lemma WhereLiggingBekend(f: Filters)
    ensures AllesBekend(WhereLigging(f), Kolommen)
  {
    GebruikteKolommen();
    var vStad := Lijkt("stad", if f.stad.Some? then f.stad.value else "");
    var vPost := Lijkt("postcode", if f.postcode.Some? then f.postcode.value else "");
    AlsBekend(Gevuld(f.stad), vStad);
    AlsBekend(Gevuld(f.postcode), vPost);
    BekendSamen(Als(Gevuld(f.stad), vStad), Als(Gevuld(f.postcode), vPost));
  }

  lemma WhereKamersBekend(f: Filters)
    ensures AllesBekend(WhereKamers(f), Kolommen)
  {
    GebruikteKolommen();
    var vSlaap := Minstens("slaapkamers", Num(if f.minSlaapkamers.Some? then f.minSlaapkamers.value as real else 0.0));
    var vBad := Minstens("badkamers", Num(if f.minBadkamers.Some? then f.minBadkamers.value as real else 0.0));
    AlsBekend(ActiefGeheel(f.minSlaapkamers), vSlaap);
    AlsBekend(ActiefGeheel(f.minBadkamers), vBad);
    BekendSamen(Als(ActiefGeheel(f.minSlaapkamers), vSlaap), Als(ActiefGeheel(f.minBadkamers), vBad));
  }

  lemma ZoektermBekend(z: string)
    ensures Bekend(ZoektermVoorwaarde(z), Kolommen)
  {
    GebruikteKolommen();
    var os := ZoektermVoorwaarde(z).opties;
    assert os[0].kolom == "titel" && os[1].kolom == "beschrijving" && os[2].kolom == "stad" && os[3].kolom == "straat";
    assert forall j :: 0 <= j < |os| ==> Bekend(os[j], Kolommen);
  }

  lemma WhereVerkoperEnZoektermBekend(f: Filters)
    ensures AllesBekend(WhereVerkoperEnZoekterm(f), Kolommen)
  {
    hide Basis.SqlGetal;
    GebruikteKolommen();
    var vVerk := Gelijk("verkoperId", MetNumeriekeAffiniteit(if f.verkoperId.Some? then f.verkoperId.value else ""));
    var vZoek := ZoektermVoorwaarde(if f.zoekterm.Some? then f.zoekterm.value else "");
    ZoektermBekend(if f.zoekterm.Some? then f.zoekterm.value else "");
    AlsBekend(Gevuld(f.verkoperId), vVerk);
    AlsBekend(Gevuld(f.zoekterm), vZoek);
    BekendSamen(Als(Gevuld(f.verkoperId), vVerk), Als(Gevuld(f.zoekterm), vZoek));
  }

  lemma BekendSamen(a: seq<Voorwaarde>, b: seq<Voorwaarde>)
    requires AllesBekend(a, Kolommen) && AllesBekend(b, Kolommen)
    ensures AllesBekend(a + b, Kolommen)
  {
    forall i | 0 <= i < |a + b| ensures Bekend((a + b)[i], Kolommen) {
      if i >= |a| {
        assert (a + b)[i] == b[i - |a|];
      }
    }
  }

  /** A zero, NaN or absent bound filters nothing: `0` is as good as no minimum price. */
  lemma NulIsGeenFilter(f: Filters, w: Woning)
    requires f.minPrijs == Some(0.0) || f.minPrijs.None?
    ensures PastBijFilters(f, w) <==> PastBijFilters(f.(minPrijs := Some(0.0)), w)
    ensures PastBijFilters(f, w) <==> PastBijFilters(f.(minPrijs := None), w)
  {
  }

  function PastBij(f: Filters): Woning -> bool
  {
    w => PastBijFilters(f, w)
  }

  /** The rows of the table that satisfy the filters, in table order. */
  function Passend(tabel: Tabel, f: Filters): (r: Tabel)
    ensures forall x :: x in r ==> x in tabel && PastBijFilters(f, x)
    ensures forall i :: 0 <= i < |tabel| && PastBijFilters(f, tabel[i]) ==> tabel[i] in r
  {
    Filter(tabel, PastBij(f))
  }

  /** The database's selection for the listing is the table filtered by the reference predicate. */
  lemma SelectieIsPassend(tabel: Tabel, f: Filters)
    ensures Selecteer(tabel, AlsRij, Kolommen, WhereGetWoningen(f)) == Ok(Passend(tabel, f))
  {
    forall i | 0 <= i < |tabel| ensures PastBij(f)(tabel[i]) == GeldtAlle(WhereGetWoningen(f), AlsRij(tabel[i])) {
      WhereGetWoningenKlopt(f, tabel[i]);
    }
    WhereGetWoningenBekend(f);
    SelecteerIsFilter(tabel, AlsRij, Kolommen, WhereGetWoningen(f), PastBij(f));
  }

  /** The ORDER BY key of a row for one column. */
  function KolomSleutel(veld: string): Woning -> seq<Sleutel>
  {
    w => [Voorwaarden.Waarde(AlsRij(w), veld)]
  }

  /**
    * getWoningen: select with the filter conditions, order by the chosen
    * column and direction, and return one page with its metadata. A sort
    * column that matches no column even up to letter case, or an unknown
    * direction, makes the query fail.
    */
  function GetWoningen(tabel: Tabel, f: Filters, veld: string, richting: string, pagina: int, aantalPerPagina: int): (r: Result<Pagina<Woning>>)
    ensures r.Ok? <==> KolomBekend(veld, Kolommen) && RichtingUit(richting).Some?
    ensures r.Err? ==> r.code == ServerError
    ensures r.Ok? ==> r.value.metadata.totaal == |Passend(tabel, f)|
    ensures r.Ok? ==> r.value.metadata.pagina == pagina && r.value.metadata.aantalPerPagina == aantalPerPagina
    ensures r.Ok? ==> r.value.metadata.totaalPaginas == TotaalPaginas(|Passend(tabel, f)|, aantalPerPagina)
    ensures r.Ok? && aantalPerPagina >= 0 ==> |r.value.rijen| <= aantalPerPagina
    ensures r.Ok? ==> multiset(r.value.rijen) <= multiset(Passend(tabel, f))
  {
    SelectieIsPassend(tabel, f);
    WhereGetWoningenBekend(f);
    Lijst(tabel, AlsRij, Kolommen, WhereGetWoningen(f), veld, richting, Some(pagina), Some(aantalPerPagina))
  }

  /** Every row on a page of the listing satisfies the filters, and the rows are those of the sorted selection. */
  lemma GetWoningenRijenPassen(tabel: Tabel, f: Filters, veld: string, richting: string, pagina: int, aantalPerPagina: int)
    requires KolomBekend(veld, Kolommen) && RichtingUit(richting).Some?
    ensures var r := GetWoningen(tabel, f, veld, richting, pagina, aantalPerPagina);
      forall x :: x in r.value.rijen ==> PastBijFilters(f, x)
  {
    var r := GetWoningen(tabel, f, veld, richting, pagina, aantalPerPagina);
    var p := Passend(tabel, f);
    forall x | x in r.value.rijen ensures PastBijFilters(f, x) {
      assert x in multiset(r.value.rijen);
      assert x in multiset(p);
      var j :| 0 <= j < |p| && p[j] == x;
    }
  }

  /** A page of the listing is sorted on the column the sort field resolves to, in the chosen direction. */
  lemma GetWoningenGesorteerd(tabel: Tabel, f: Filters, veld: string, richting: string, pagina: int, aantalPerPagina: int)
    ensures var r := GetWoningen(tabel, f, veld, richting, pagina, aantalPerPagina);
      r.Ok? ==> var o := RichtingUit(richting).value;
        Gesorteerd(r.value.rijen, OrdeSleutel(AlsRij, ZoekKolom(veld, Kolommen).value, o), o.richting)
  {
    LijstGesorteerd(tabel, AlsRij, Kolommen, WhereGetWoningen(f), veld, richting, Some(pagina), Some(aantalPerPagina));
  }

  // ---------------------------------------------------------------------
  // Radius search
  // ---------------------------------------------------------------------

  /**
    * The filter object the controller hands to the radius search. An outer
    * `None` is a key whose value is `undefined` (the ORM drops it); an inner
    * `None` is NaN.
    */
  datatype StraalFilters = StraalFilters(
    status: Option<string>,
    minPrijs: Option<Option<real>>,
    maxPrijs: Option<Option<real>>,
    minOppervlakte: Option<Option<real>>,
    minSlaapkamers: Option<Option<int>>,
    minBadkamers: Option<Option<int>>)

  /** The names of the keys that reach the where object, other than `status`. */
  function ExtraSleutels(f: StraalFilters): (r: set<string>)
    ensures r == {} <==> f.minPrijs.None? && f.maxPrijs.None? && f.minOppervlakte.None? && f.minSlaapkamers.None? && f.minBadkamers.None?
  {
    (if f.minPrijs.Some? then {"minPrijs"} else {})
    + (if f.maxPrijs.Some? then {"maxPrijs"} else {})
    + (if f.minOppervlakte.Some? then {"minOppervlakte"} else {})
    + (if f.minSlaapkamers.Some? then {"minSlaapkamers"} else {})
    + (if f.minBadkamers.Some? then {"minBadkamers"} else {})
  }

  /** `straal`, lowered to the maximum of 50 when larger. */
  function BeperkStraal(straal: real): (r: real)
    ensures r <= MaxStraal && r <= straal
    ensures straal <= MaxStraal ==> r == straal
  {
    if straal > MaxStraal then MaxStraal else straal
  }

  datatype StraalMetadata = StraalMetadata(basis: Metadata, breedtegraad: real, lengtegraad: real, straal: real)
  datatype StraalPagina = StraalPagina(rijen: seq<Woning>, afstanden: seq<real>, metadata: StraalMetadata)

  /** The distance of a row with coordinates from the search centre. */
  function AfstandTot(breedtegraad: real, lengtegraad: real, afstand: (real, real, real, real) -> real, w: Woning): real
  {
    if w.breedtegraad.Some? && w.lengtegraad.Some? then afstand(breedtegraad, lengtegraad, w.breedtegraad.value, w.lengtegraad.value)
    else 0.0
  }

  /** The rows of the radius search: the status, both coordinates present, within the radius. */
  predicate BinnenStraal(status: string, breedtegraad: real, lengtegraad: real, straal: real,
                         afstand: (real, real, real, real) -> real, w: Woning)
  {
    && StatusNaam(w.status) == status
    && w.breedtegraad.Some? && w.lengtegraad.Some?
    && AfstandTot(breedtegraad, lengtegraad, afstand, w) <= straal
  }

  function AfstandSleutel(breedtegraad: real, lengtegraad: real, afstand: (real, real, real, real) -> real): Woning -> seq<Sleutel>
  {
    w => [Num(AfstandTot(breedtegraad, lengtegraad, afstand, w))]
  }

  function BinnenStraalVan(status: string, breedtegraad: real, lengtegraad: real, straal: real,
                           afstand: (real, real, real, real) -> real): Woning -> bool
  {
    w => BinnenStraal(status, breedtegraad, lengtegraad, straal, afstand, w)
  }

  /** One page of the rows a status and a radius select, nearest first, with each row's distance. */
  function StraalZoeken(tabel: Tabel, status: string, breedtegraad: real, lengtegraad: real, straal: real,
                        pagina: int, aantalPerPagina: int, afstand: (real, real, real, real) -> real): (r: StraalPagina)
    ensures forall x :: x in r.rijen ==> x in tabel && BinnenStraal(status, breedtegraad, lengtegraad, straal, afstand, x)
    ensures |r.afstanden| == |r.rijen|
    ensures forall i :: 0 <= i < |r.rijen| ==> r.afstanden[i] == AfstandTot(breedtegraad, lengtegraad, afstand, r.rijen[i])
    ensures r.metadata.straal == straal && r.metadata.breedtegraad == breedtegraad && r.metadata.lengtegraad == lengtegraad
    ensures r.metadata.basis.totaal == |Filter(tabel, BinnenStraalVan(status, breedtegraad, lengtegraad, straal, afstand))|
    ensures aantalPerPagina >= 0 ==> |r.rijen| <= aantalPerPagina
    ensures forall i, j :: 0 <= i < j < |r.rijen| ==> r.afstanden[i] <= r.afstanden[j]
  {
    var binnen := Filter(tabel, BinnenStraalVan(status, breedtegraad, lengtegraad, straal, afstand));
    var sleutel := AfstandSleutel(breedtegraad, lengtegraad, afstand);
    var gesorteerd := Sorteer(binnen, sleutel, Oplopend);
    var p := Pagineer(gesorteerd, pagina, aantalPerPagina);
    PaginaUitInvoer(binnen, sleutel, Oplopend, pagina, aantalPerPagina);
    StraalPaginaGesorteerd(binnen, sleutel, pagina, aantalPerPagina);
    AfstandenOplopend(p.rijen, breedtegraad, lengtegraad, afstand);
    StraalPagina(p.rijen, Afstanden(p.rijen, breedtegraad, lengtegraad, afstand),
      StraalMetadata(p.metadata, breedtegraad, lengtegraad, straal))
  }

  /** A page of rows sorted ascending stays sorted ascending. */
  lemma StraalPaginaGesorteerd<T>(s: seq<T>, sleutel: T -> seq<Sleutel>, pagina: int, aantalPerPagina: int)
    ensures Gesorteerd(Pagineer(Sorteer(s, sleutel, Oplopend), pagina, aantalPerPagina).rijen, sleutel, Oplopend)
  {
    var g := Sorteer(s, sleutel, Oplopend);
    SorteerKlopt(s, sleutel, Oplopend);
    assert Pagineer(g, pagina, aantalPerPagina).rijen == Venster(g, Offset(pagina, aantalPerPagina), aantalPerPagina);
    DeelVanGesorteerd(g, sleutel, Oplopend, Offset(pagina, aantalPerPagina), aantalPerPagina);
  }

  /** Rows sorted on their distance key have ascending distances. */
  lemma AfstandenOplopend(rijen: seq<Woning>, breedtegraad: real, lengtegraad: real, afstand: (real, real, real, real) -> real)
    requires Gesorteerd(rijen, AfstandSleutel(breedtegraad, lengtegraad, afstand), Oplopend)
    ensures forall i, j :: 0 <= i < j < |rijen| ==>
      AfstandTot(breedtegraad, lengtegraad, afstand, rijen[i]) <= AfstandTot(breedtegraad, lengtegraad, afstand, rijen[j])
  {
    var sleutel := AfstandSleutel(breedtegraad, lengtegraad, afstand);
    forall i, j | 0 <= i < j < |rijen|
      ensures AfstandTot(breedtegraad, lengtegraad, afstand, rijen[i]) <= AfstandTot(breedtegraad, lengtegraad, afstand, rijen[j])
    {
      assert Voor(Oplopend, sleutel(rijen[i]), sleutel(rijen[j]));
      assert RijLe(sleutel(rijen[i]), sleutel(rijen[j]));
    }
  }

  /** Each row's distance sits beside it, and the rows come nearest first. */
  predicate DichtsteEerst(p: StraalPagina, breedtegraad: real, lengtegraad: real, afstand: (real, real, real, real) -> real)
  {
    && |p.afstanden| == |p.rijen|
    && (forall i :: 0 <= i < |p.rijen| ==> p.afstanden[i] == AfstandTot(breedtegraad, lengtegraad, afstand, p.rijen[i]))
    && (forall i, j :: 0 <= i < j < |p.rijen| ==> p.afstanden[i] <= p.afstanden[j])
  }

  /** The distance of each row from the search centre, the extra column the radius query selects. */
  function Afstanden(rijen: seq<Woning>, breedtegraad: real, lengtegraad: real, afstand: (real, real, real, real) -> real): (r: seq<real>)
    ensures |r| == |rijen|
    ensures forall i :: 0 <= i < |rijen| ==> r[i] == AfstandTot(breedtegraad, lengtegraad, afstand, rijen[i])
  {
    seq(|rijen|, i requires 0 <= i < |rijen| => AfstandTot(breedtegraad, lengtegraad, afstand, rijen[i]))
  }

  /** A page of a sorted sequence holds only elements of that sequence. */
  lemma PaginaUitInvoer<T>(s: seq<T>, sleutel: T -> seq<Sleutel>, richting: Richting, pagina: int, aantalPerPagina: int)
    ensures forall x :: x in Pagineer(Sorteer(s, sleutel, richting), pagina, aantalPerPagina).rijen ==> x in s
  {
    var p := Pagineer(Sorteer(s, sleutel, richting), pagina, aantalPerPagina);
    forall x | x in p.rijen ensures x in s {
      assert x in multiset(p.rijen);
      assert x in multiset(Sorteer(s, sleutel, richting));
    }
  }

  /** The status the radius search filters on: the given one when truthy, else beschikbaar. */
  function StraalStatus(f: StraalFilters): string
  {
    if Gevuld(f.status) then f.status.value else StatusNaam(Beschikbaar)
  }

  /**
    * zoekWoningenInStraal as written: the radius is capped at 50 and the
    * filter object is copied into the where clause key by key, so every
    * numeric filter the controller sets names a column (`minPrijs`, ...)
    * the table does not have, and the query fails.
    */
  function ZoekWoningenInStraal(tabel: Tabel, breedtegraad: real, lengtegraad: real, straal: real, f: StraalFilters,
                                pagina: int, aantalPerPagina: int, afstand: (real, real, real, real) -> real): (r: Result<StraalPagina>)
    ensures r.Ok? <==> ExtraSleutels(f) == {}
    ensures r.Err? ==> r.code == ServerError
    ensures r.Ok? ==> r.value.metadata.straal == BeperkStraal(straal) && r.value.metadata.straal <= MaxStraal
    ensures r.Ok? ==> forall x :: x in r.value.rijen ==>
      x in tabel && BinnenStraal(StraalStatus(f), breedtegraad, lengtegraad, BeperkStraal(straal), afstand, x)
    ensures r.Ok? ==> DichtsteEerst(r.value, breedtegraad, lengtegraad, afstand)
  {
    ExtraSleutelsZijnGeenKolommen(f);
    var s := BeperkStraal(straal);
    if !(ExtraSleutels(f) <= Kolommen) then Err(ServerError)
    else Ok(StraalZoeken(tabel, StraalStatus(f), breedtegraad, lengtegraad, s, pagina, aantalPerPagina, afstand))
  }

  /** A radius search with a minimum price fails instead of filtering on price. */
  lemma MinPrijsBrengtStraalZoekenTotFout(tabel: Tabel, b: real, l: real, straal: real, x: real,
                                          pagina: int, n: int, afstand: (real, real, real, real) -> real)
    ensures ZoekWoningenInStraal(tabel, b, l, straal, StraalFilters(None, Some(Some(x)), None, None, None, None), pagina, n, afstand)
         == Err(ServerError)
  {
  }

  /** None of the numeric filter names is a column of the table. */
  lemma ExtraSleutelsZijnGeenKolommen(f: StraalFilters)
    ensures ExtraSleutels(f) <= Kolommen <==> ExtraSleutels(f) == {}
  {
    assert "minPrijs" !in Kolommen && "maxPrijs" !in Kolommen && "minOppervlakte" !in Kolommen;
    assert "minSlaapkamers" !in Kolommen && "minBadkamers" !in Kolommen;
  }

  /** The bounds the numeric filters evidently mean, stated on the record. */
  predicate BinnenGrenzen(f: StraalFilters, w: Woning)
  {
    && (f.minPrijs.Some? && Actief(f.minPrijs.value) ==> w.prijs >= f.minPrijs.value.value)
    && (f.maxPrijs.Some? && Actief(f.maxPrijs.value) ==> w.prijs <= f.maxPrijs.value.value)
    && (f.minOppervlakte.Some? && Actief(f.minOppervlakte.value) ==> w.oppervlakte >= f.minOppervlakte.value.value)
    && (f.minSlaapkamers.Some? && ActiefGeheel(f.minSlaapkamers.value) ==> w.slaapkamers >= f.minSlaapkamers.value.value)
    && (f.minBadkamers.Some? && ActiefGeheel(f.minBadkamers.value) ==> w.badkamers >= f.minBadkamers.value.value)
  }

  function BinnenGrenzenVan(f: StraalFilters): Woning -> bool
  {
    w => BinnenGrenzen(f, w)
  }

  /**
    * The radius search as it is evidently meant: the numeric filters become
    * the same range conditions the listing uses, so the search never fails.
    */
  function ZoekWoningenInStraalMetGrenzen(tabel: Tabel, breedtegraad: real, lengtegraad: real, straal: real, f: StraalFilters,
                                          pagina: int, aantalPerPagina: int, afstand: (real, real, real, real) -> real): (r: StraalPagina)
    ensures r.metadata.straal == BeperkStraal(straal) && r.metadata.straal <= MaxStraal
    ensures forall x :: x in r.rijen ==>
      && x in tabel
      && BinnenStraal(StraalStatus(f), breedtegraad, lengtegraad, BeperkStraal(straal), afstand, x)
      && BinnenGrenzen(f, x)
    ensures aantalPerPagina >= 0 ==> |r.rijen| <= aantalPerPagina
    ensures DichtsteEerst(r, breedtegraad, lengtegraad, afstand)
  {
    StraalZoeken(Filter(tabel, BinnenGrenzenVan(f)), StraalStatus(f), breedtegraad, lengtegraad, BeperkStraal(straal), pagina, aantalPerPagina, afstand)
  }

  /** Without numeric filters the corrected search returns what the written one returns. */
  lemma MetGrenzenZonderGetallenIsOrigineel(tabel: Tabel, b: real, l: real, straal: real, status: Option<string>,
                                            pagina: int, n: int, afstand: (real, real, real, real) -> real)
    ensures var f := StraalFilters(status, None, None, None, None, None);
      ZoekWoningenInStraal(tabel, b, l, straal, f, pagina, n, afstand) == Ok(ZoekWoningenInStraalMetGrenzen(tabel, b, l, straal, f, pagina, n, afstand))
  {
    var f := StraalFilters(status, None, None, None, None, None);
    FilterAlles(tabel, BinnenGrenzenVan(f));
    ExtraSleutelsZijnGeenKolommen(f);
  }

  /**
    * Paging walks outward: every row on an earlier page lies no farther
    * from the centre than any row on a later page.
    */
  lemma StraalZoekenOplopend(tabel: Tabel, status: string, breedtegraad: real, lengtegraad: real, straal: real,
                             p: int, q: int, aantalPerPagina: int, afstand: (real, real, real, real) -> real)
    requires 1 <= p < q && aantalPerPagina >= 1
    ensures var a := StraalZoeken(tabel, status, breedtegraad, lengtegraad, straal, p, aantalPerPagina, afstand);
      var b := StraalZoeken(tabel, status, breedtegraad, lengtegraad, straal, q, aantalPerPagina, afstand);
      forall i, j :: 0 <= i < |a.rijen| && 0 <= j < |b.rijen| ==> a.afstanden[i] <= b.afstanden[j]
  {
    var binnen := Filter(tabel, BinnenStraalVan(status, breedtegraad, lengtegraad, straal, afstand));
    var sleutel := AfstandSleutel(breedtegraad, lengtegraad, afstand);
    var a := StraalZoeken(tabel, status, breedtegraad, lengtegraad, straal, p, aantalPerPagina, afstand);
    var b := StraalZoeken(tabel, status, breedtegraad, lengtegraad, straal, q, aantalPerPagina, afstand);
    assert a.rijen == Pagineer(Sorteer(binnen, sleutel, Oplopend), p, aantalPerPagina).rijen;
    assert b.rijen == Pagineer(Sorteer(binnen, sleutel, Oplopend), q, aantalPerPagina).rijen;
    LaterePaginaVolgt(binnen, sleutel, p, q, aantalPerPagina);
    AfstandenVoor(a.rijen, b.rijen, breedtegraad, lengtegraad, afstand);
  }

  /** Every row of `a` may precede every row of `b`. */
  ghost predicate AllesVoor<T>(a: seq<T>, b: seq<T>, sleutel: T -> seq<Sleutel>, ri: Richting)
  {
    forall i, j :: 0 <= i < |a| && 0 <= j < |b| ==> Voor(ri, sleutel(a[i]), sleutel(b[j]))
  }

  /** Of rows sorted ascending, every row of an earlier page may precede every row of a later one. */
  lemma LaterePaginaVolgt<T>(s: seq<T>, sleutel: T -> seq<Sleutel>, p: int, q: int, n: int)
    requires 1 <= p < q && n >= 1
    ensures AllesVoor(Pagineer(Sorteer(s, sleutel, Oplopend), p, n).rijen, Pagineer(Sorteer(s, sleutel, Oplopend), q, n).rijen,
                      sleutel, Oplopend)
  {
    var g := Sorteer(s, sleutel, Oplopend);
    SorteerKlopt(s, sleutel, Oplopend);
    assert Pagineer(g, p, n).rijen == Venster(g, Offset(p, n), n);
    assert Pagineer(g, q, n).rijen == Venster(g, Offset(q, n), n);
    LatereBladzijde(p, q, n);
    hide Sorteer;
    VensterVoorVenster(g, sleutel, Oplopend, Offset(p, n), Offset(q, n), n);
  }

  /** Rows that may all precede others on the distance key are no farther away than those. */
  lemma AfstandenVoor(a: seq<Woning>, b: seq<Woning>, breedtegraad: real, lengtegraad: real, afstand: (real, real, real, real) -> real)
    requires AllesVoor(a, b, AfstandSleutel(breedtegraad, lengtegraad, afstand), Oplopend)
    ensures forall i, j :: 0 <= i < |a| && 0 <= j < |b| ==>
      AfstandTot(breedtegraad, lengtegraad, afstand, a[i]) <= AfstandTot(breedtegraad, lengtegraad, afstand, b[j])
  {
    var sleutel := AfstandSleutel(breedtegraad, lengtegraad, afstand);
    forall i, j | 0 <= i < |a| && 0 <= j < |b|
      ensures AfstandTot(breedtegraad, lengtegraad, afstand, a[i]) <= AfstandTot(breedtegraad, lengtegraad, afstand, b[j])
    {
      assert Voor(Oplopend, sleutel(a[i]), sleutel(b[j]));
      assert RijLe(sleutel(a[i]), sleutel(b[j]));
    }
  }

  /** A later page starts where an earlier one has ended. */
  lemma LatereBladzijde(p: int, q: int, aantalPerPagina: int)
    requires 1 <= p < q && aantalPerPagina >= 1
    ensures 0 <= Offset(p, aantalPerPagina) && Offset(p, aantalPerPagina) + aantalPerPagina <= Offset(q, aantalPerPagina)
  {
    var n := aantalPerPagina;
    ProductNietNegatief(p - 1, n);
    ProductNietNegatief(q - p - 1, n);
    assert (q - 1) * n == (p - 1) * n + (q - p - 1) * n + n;
  }

  lemma ProductNietNegatief(a: int, b: int)
    requires a >= 0 && b >= 0
    ensures a * b >= 0
  {
  }

  /** In a sorted sequence, a window that ends before another starts comes before all of it. */
  lemma VensterVoorVenster<T>(g: seq<T>, sleutel: T -> seq<Sleutel>, ri: Richting, op: int, oq: int, n: int)
    requires Gesorteerd(g, sleutel, ri)
    requires 0 <= op && op + n <= oq && n >= 0
    ensures forall i, j :: 0 <= i < |Venster(g, op, n)| && 0 <= j < |Venster(g, oq, n)| ==>
      Voor(ri, sleutel(Venster(g, op, n)[i]), sleutel(Venster(g, oq, n)[j]))
  {
    var a := Venster(g, op, n);
    var b := Venster(g, oq, n);
    forall i, j | 0 <= i < |a| && 0 <= j < |b| ensures Voor(ri, sleutel(a[i]), sleutel(b[j])) {
      assert a[i] == g[op + i] && b[j] == g[oq + j];
    }
  }

  // ---------------------------------------------------------------------
  // Create, read, update, delete
  // ---------------------------------------------------------------------

  function MaxId(tabel: Tabel): (m: nat)
    ensures forall i :: 0 <= i < |tabel| ==> tabel[i].id <= m
  {
    if tabel == [] then 0
    else var m := MaxId(tabel[1..]); if tabel[0].id > m then tabel[0].id else m
  }

  /** The position of the row with this id, if any. */
  function Positie(tabel: Tabel, id: int): (r: Option<nat>)
    ensures r.Some? ==> r.value < |tabel| && tabel[r.value].id == id
    ensures r.None? ==> forall i :: 0 <= i < |tabel| ==> tabel[i].id != id
  {
    if tabel == [] then None
    else if tabel[0].id == id then Some(0)
    else match Positie(tabel[1..], id)
      case None => None
      case Some(p) => Some(p + 1)
  }

  /** getWoningById: the row, or 404. */
  function GetWoningById(tabel: Tabel, id: int): (r: Result<Woning>)
    ensures r.Ok? <==> exists i :: 0 <= i < |tabel| && tabel[i].id == id
    ensures r.Ok? ==> r.value in tabel && r.value.id == id
    ensures r.Err? ==> r.code == NotFound
  {
    match Positie(tabel, id)
    case None => Err(NotFound)
    case Some(p) => Ok(tabel[p])
  }

  /** Some row already has this id. */
  predicate IdBezet(tabel: Tabel, id: int)
  {
    exists i :: 0 <= i < |tabel| && tabel[i].id == id
  }

  /**
    * maakWoning: the caller becomes the seller and the row is appended,
    * under the body's id when it gives one and the next free id otherwise;
    * a body id already in use breaks the primary key (400).
    */
  function MaakWoning(tabel: Tabel, n: NieuweWoning, verkoperId: int, nu: int, maxBouwjaar: int): (r: Result<(Woning, Tabel)>)
    ensures r.Ok? <==> VerplichtAanwezig(n) && GeldigeInvoer(n, maxBouwjaar) && !(n.id.Some? && IdBezet(tabel, n.id.value))
    ensures r.Err? ==> r.code == BadRequest
    ensures r.Ok? ==> var (w, t) := r.value;
      && w.verkoperId == verkoperId
      && (n.id.Some? ==> w.id == n.id.value)
      && (forall i :: 0 <= i < |tabel| ==> tabel[i].id != w.id)
      && w.aangemaaktOp == (if n.aangemaaktOp.Some? then n.aangemaaktOp.value else nu) && w.bijgewerktOp == nu
      && t == tabel + [w]
      && (UniekeIds(tabel) ==> UniekeIds(t))
  {
    var id := if n.id.Some? then n.id.value else MaxId(tabel) + 1;
    match MaakRecord(n, id, verkoperId, nu, maxBouwjaar)
    case Err(c) => Err(c)
    case Ok(w) => if IdBezet(tabel, id) then Err(BadRequest) else Ok((w, tabel + [w]))
  }

  /**
    * updateWoning: 404 when the id is unknown; otherwise the body without
    * id, aangemaaktOp, bijgewerktOp and verkoperId is applied to the row in
    * place.
    */
  function UpdateWoning(tabel: Tabel, id: int, z: Wijziging, nu: int, maxBouwjaar: int): (r: Result<(Woning, Tabel)>)
    ensures Positie(tabel, id).None? ==> r == Err(NotFound)
    ensures r.Err? ==> r.code in {NotFound, BadRequest}
    ensures r.Ok? ==> var (w, t) := r.value; var p := Positie(tabel, id).value;
      && |t| == |tabel| && t[p] == w
      && (forall i :: 0 <= i < |tabel| && i != p ==> t[i] == tabel[i])
      && w.id == tabel[p].id && w.verkoperId == tabel[p].verkoperId && w.aangemaaktOp == tabel[p].aangemaaktOp
      && w.bijgewerktOp in {tabel[p].bijgewerktOp, nu}
      && (UniekeIds(tabel) ==> UniekeIds(t))
  {
    match Positie(tabel, id)
    case None => Err(NotFound)
    case Some(p) =>
      match PasToe(tabel[p], ZonderBeschermd(z), nu, maxBouwjaar)
      case Err(c) => Err(c)
      case Ok(w) => Ok((w, tabel[p := w]))
  }

  /** verwijderWoning: 404 when the id is unknown, otherwise the row is removed and nothing else. */
  function VerwijderWoning(tabel: Tabel, id: int): (r: Result<Tabel>)
    ensures r.Err? <==> forall i :: 0 <= i < |tabel| ==> tabel[i].id != id
    ensures r.Err? ==> r.code == NotFound
    ensures r.Ok? ==> |r.value| == |tabel| - 1 && Deelrij(r.value, tabel)
    ensures r.Ok? && UniekeIds(tabel) ==> forall x :: x in r.value ==> x.id != id
  {
    match Positie(tabel, id)
    case None => Err(NotFound)
    case Some(p) =>
      var t := tabel[..p] + tabel[p + 1..];
      VerwijderEenIsDeelrij(tabel, p);
      VerwijderdeIdIsWeg(tabel, p);
      Ok(t)
  }

  lemma VerwijderdeIdIsWeg(tabel: Tabel, p: nat)
    requires p < |tabel|
    ensures UniekeIds(tabel) ==> forall x :: x in tabel[..p] + tabel[p + 1..] ==> x.id != tabel[p].id
  {
    var t := tabel[..p] + tabel[p + 1..];
    if UniekeIds(tabel) {
      forall x | x in t ensures x.id != tabel[p].id {
        var i :| 0 <= i < |t| && t[i] == x;
        if i < p {
          assert t[i] == tabel[i];
        } else {
          assert t[i] == tabel[i + 1];
        }
      }
    }
  }

  // ---------------------------------------------------------------------
  // Featured listing
  // ---------------------------------------------------------------------

  predicate IsUitgelichtBeschikbaar(w: Woning)
  {
    w.status == Beschikbaar && w.isUitgelicht
  }

  /** getUitgelichteWoningen: available featured rows, newest first, at most `aantal` (a negative limit is none). */
  function GetUitgelichteWoningen(tabel: Tabel, aantal: int): (r: seq<Woning>)
    ensures forall i :: 0 <= i < |r| ==> IsUitgelichtBeschikbaar(r[i])
    ensures aantal >= 0 ==> |r| <= aantal
    ensures multiset(r) <= multiset(Filter(tabel, IsUitgelichtBeschikbaar))
    ensures aantal < 0 || |Filter(tabel, IsUitgelichtBeschikbaar)| <= aantal ==> multiset(r) == multiset(Filter(tabel, IsUitgelichtBeschikbaar))
    ensures 0 <= aantal <= |Filter(tabel, IsUitgelichtBeschikbaar)| ==> |r| == aantal
    ensures Gesorteerd(r, KolomSleutel("aangemaaktOp"), Aflopend)
    ensures forall i, y :: 0 <= i < |r| && y in multiset(Filter(tabel, IsUitgelichtBeschikbaar)) - multiset(r) ==>
      Voor(Aflopend, KolomSleutel("aangemaaktOp")(r[i]), KolomSleutel("aangemaaktOp")(y))
  {
    var kandidaten := Filter(tabel, IsUitgelichtBeschikbaar);
    var gesorteerd := Sorteer(kandidaten, KolomSleutel("aangemaaktOp"), Aflopend);
    var r := Venster(gesorteerd, 0, aantal);
    KopVanGesorteerd(kandidaten, KolomSleutel("aangemaaktOp"), Aflopend, aantal);
    UitMultisetVoldoet(r, kandidaten, IsUitgelichtBeschikbaar);
    r
  }

  /** Every entry of a sub-multiset of a filtered list passes the filter. */
  lemma UitMultisetVoldoet<T>(r: seq<T>, s: seq<T>, p: T -> bool)
    requires forall i :: 0 <= i < |s| ==> p(s[i])
    requires multiset(r) <= multiset(s)
    ensures forall i :: 0 <= i < |r| ==> p(r[i])
  {
    forall i | 0 <= i < |r| ensures p(r[i]) {
      assert r[i] in multiset(s);
      var j :| 0 <= j < |s| && s[j] == r[i];
    }
  }
}
